=== FILE: README.md ===
# A verified model of the segmentation painter's core

The repository is a collaborative segmentation painter. Players paint segments onto a labelled image. Every pixel carries a segment id (-1 for none). A stroke stamps a round brush along a path. After a stroke, the segments it touched are recomputed: a segment that the stroke cut into several pieces is split, and each piece gets a fresh id. This project models that core as pure Dafny functions and methods, and proves what the code promises about it.

What is modelled, by file:

- `rle.dfy` models the run-length encoder of a label sequence, and proves that decoding its runs gives the labels back.
- `jscollections.dfy` models insertion-ordered JavaScript `Map`s and `Set`s. Iteration order matters to the code (`values().next()`, first-match searches, scoring tie-breaks).
- `grid.dfy` models row-major pixel indexing.
- `wrappers.dfy` holds `Option` and `Result`.
- `linkedlists.dfy` models the FIFO linked list and the server's doubly linked list.
- `pointcontainer.dfy` models both point containers (the painter's class and the old painter's record): nested insertion-ordered maps from `x` to `y` to the stored data, with a separate size counter.
- `traversal.dfy` is one breadth-first traversal with a stateful test. Its three modes cover the differences between the four `bft.ts` variants.
- `bft.dfy` states each of the four variants through the traversal.
- `doublecount.dfy` exhibits the counting decision of the shared recomputation on a small canvas.
- `brushes.dfy` and `stamping.dfy` model brush generation (discs, edged discs, squares, the brush caches) and brush stamping into segment buffers and RGBA textures.
- `segments.dfy` models the segment buffers of the painter tools and the controller's press handling.
- `shared.dfy` and `recompute.dfy` model the shared drawing of `common/drawing.ts`: the smooth stroke, the effected-point bookkeeping and the segment recomputation.
- `client.dfy` and `server.dfy` model the client's and the server's callbacks around that shared drawing. The server's callbacks include the log of draw and fill nodes.
- `canvas.dfy` models the drawing package's canvas: boundary tracking, strokes, rectangle fills, and split detection with fresh segment ids.
- `layer.dfy` and `layer_recompute.dfy` model the painter's drawing layer: its boundary containers, segment bookkeeping and the recomputation of split segments.
- `scoring.dfy` models the server's greedy scoring of painted segments against ground-truth segments.
- `colours.dfy` models both colour caches.
- `histories.dfy` models the action histories: the node list, the history reducer and the sentinel-linked action history.
- `tiling.dfy` models the 256-pixel sections of the shader uniforms and of the old renderer state.
- `reducers.dfy` models the controls reducer, the statistics reducer and the texture painter's state reducers.

Callbacks in the source become function values and explicit state threaded through the model. Side effects are returned as logs of effects.

## Model

| member | source | states |
|---|---|---|
| RunLength.Encode | rle.py:14-24 | the printed runs always end with the open run, so an empty list gives `[None,0]`; every run but the last has a non-null label; the last run carries the last label |
| RunLength.RoundTripFrom | rle.py:14-23 | the loop invariant: expanding what the loop will print equals the runs already printed, then the open run, then the labels still to read |
| RunLength.RoundTrip | rle.py:14-24 | expanding the printed runs of a null-free label list, in order, gives back that list |
| RunLength.CountsPositiveAndSum | rle.py:20-24 | for a non-empty null-free list every printed count is at least 1 and the counts add up to the list's length |
| RunLength.RunsAdjacentDistinct | rle.py:17-21 | neighbouring printed runs never carry the same label when no label is null |
| RunLength.NullIsSwallowed | rle.py:14-21 | a null between two equal labels is swallowed by the `None` sentinel: two neighbouring runs then share a label and the round trip fails |
| RunLength.ChangeCount | rle.py:17-21 | the number of label changes is at most the list's length, and equals it exactly when no two neighbours are equal |
| RunLength.RunCount | rle.py:16-24 | a non-empty null-free list gives at most one run per label, and exactly one per label iff no two neighbouring labels are equal |
| RunLength.EncodeGuarded | rle.py:14-24 | the variant that prints no sentinel run gives nothing exactly for the empty list, and for every null-free list runs of positive count that expand back to it |
| RunLength.PrintLoopJoins | rle.py:16-24 | the comma-terminated prints of the loop followed by the final run are the runs joined by commas, with no trailing comma |
| RunLength.OutputIsBracketedJoin | rle.py:4-25 | with one file argument the output is `[`, the runs rendered `[l,c]` and comma-joined, then `]`; any other argument count prints only the usage message |
| RunLength.EmptyInputOutput | rle.py:10-25 | an empty `segments` list prints `[[None,0]]` |
| Scoring.TallyEntry | apps/next-app/src/server/scoring.ts:59-72 | one popped cell adds one to `counts[input][reference]` when the reference label is not null, and changes no other entry |
| Scoring.TallyTotal | apps/next-app/src/server/scoring.ts:59-72 | a tally raises the total of all counts by one exactly when the reference label is not null |
| Scoring.TallyStep | apps/next-app/src/server/scoring.ts:55-72 | tallying one more cell keeps the counts equal to the number of tallied cells per (input, reference) pair |
| Scoring.TryPush | apps/next-app/src/server/scoring.ts:74-82 | one direction pushes and marks the neighbour exactly when it is in bounds, not yet found and carries the popped cell's input label |
| Scoring.PushNeighbours | apps/next-app/src/server/scoring.ts:73-84 | the neighbours pushed are distinct, were unfound, carry the label and are exactly the cells newly marked found; the offsets are taken from the search's start `(x, y)`, not from the popped cell |
| Scoring.SearchStep | apps/next-app/src/server/scoring.ts:54-84 | one pop keeps the stack distinct and every found cell tallied or on the stack, and the measure (unfound cells, then stack length) falls |
| Scoring.Search | apps/next-app/src/server/scoring.ts:49-85 | the search from cell `i` tallies `i` and every cell it pushes, each exactly once, and the found cells are exactly the tallied ones |
| Scoring.ScanCell | apps/next-app/src/server/scoring.ts:31-85 | one cell of the outer loop counts it towards the denominator when it should and searches from it unless its input is undefined or it was found |
| Scoring.Scan | apps/next-app/src/server/scoring.ts:24-86 | the denominator counts every non-null-reference cell plus every null-reference cell whose input is defined, and every cell with a defined input is tallied exactly once |
| Scoring.BestSpec | apps/next-app/src/server/scoring.ts:106-113 | the inner loop ends with the largest unused count seen, and changes its choice only to an unused key with a strictly larger count |
| Scoring.BestFirst | apps/next-app/src/server/scoring.ts:107-112 | among unused keys with the winning count, the first one met wins |
| Scoring.BestChoice | apps/next-app/src/server/scoring.ts:105-118 | an input label gets the first unused reference label with the largest positive tally, and none exactly when every unused tally is 0 |
| Scoring.AssignSpec | apps/next-app/src/server/scoring.ts:103-119 | the outer loop keeps the assignment injective, with each assigned reference marked used and carrying a positive tally of its input label |
| Scoring.Greedy | apps/next-app/src/server/scoring.ts:103-119 | the greedy matching is injective, and every assigned pair has a positive tally |
| Scoring.CorrectBound | apps/next-app/src/server/scoring.ts:124-131 | the sum of matched tallies never exceeds the total of all tallies |
| Scoring.TalliedAreScored | apps/next-app/src/server/scoring.ts:30-72 | every tallied cell (defined input over a non-null reference) also counts towards the denominator |
| Scoring.ScoringFunction | apps/next-app/src/server/scoring.ts:6-140 | a length mismatch throws with the source's message; otherwise the score is the matched tally over the denominator, in [0, 1], and NaN exactly when no cell counts |
| Scoring.FilledBound | apps/next-app/src/server/scoring.ts:144-149 | the count of cells holding a number is at most the length, equal to it iff every cell holds one, and 0 iff none does |
| Scoring.PercentScore | apps/next-app/src/server/scoring.ts:142-151 | NaN exactly for an empty array; otherwise a ratio in [0, 1], 1 iff every cell holds a number and 0 iff none does |
| FifoList.Push | apps/next-app/src/common/linked-list.ts:22-30 | a push adds one to the length and links a fresh node with no successor, which becomes the tail |
| FifoList.Pop | apps/next-app/src/common/linked-list.ts:35-46 | an empty list yields `null` and is unchanged; otherwise the front value is returned and the length drops by one |
| FifoList.EmptyListChain | apps/next-app/src/common/linked-list.ts:13-17 | the sentinel-only list is the well-linked list of no nodes |
| FifoList.ChainUnique | apps/next-app/src/common/linked-list.ts:13-17 | the node links determine the list's contents: two chains of the same list are equal |
| FifoList.PushAppends | apps/next-app/src/common/linked-list.ts:19-30 | pushing keeps the list well linked and appends the value at the back (FIFO order) |
| FifoList.PopRemovesFront | apps/next-app/src/common/linked-list.ts:32-46 | popping a non-empty list returns its first value and leaves the rest, well linked and in order |
| FifoList.PopEmpty | apps/next-app/src/common/linked-list.ts:36-38 | popping an empty list returns `null` and changes nothing |
| DoublyLinkedList.Push | apps/next-app/src/server/doubly-linked-list.ts:25-32 | a push adds one to the length, makes the node the tail and leaves the node's `prev` as the caller set it |
| DoublyLinkedList.Remove | apps/next-app/src/server/doubly-linked-list.ts:37-49 | a removal returns the node's value, drops the length by one, and moves the tail back to the predecessor when the node was last |
| DoublyLinkedList.PushLinked | apps/next-app/src/server/doubly-linked-list.ts:25-32 | pushing a node whose `prev` is the old tail extends the list, forwards and backwards, by that node's value |
| DoublyLinkedList.PushWithoutPrevBreaksChain | apps/next-app/src/server/doubly-linked-list.ts:25-32 | `push` does not set `prev` itself: without the caller's help the back links are broken |
| DoublyLinkedList.RemoveUnlinks | apps/next-app/src/server/doubly-linked-list.ts:37-49 | removing any linked node keeps every other node linked both ways, in the original order, with that value cut out |
| PointContainer.HasPoint | apps/next-app/src/components/painter/point-container.ts:77-82 | `hasPoint` is true exactly when `getPoint` finds data |
| PointContainer.Points | apps/next-app/src/components/painter/point-container.ts:8 | the set of stored positions is exactly those `getPoint` finds |
| PointContainer.EmptySizeOk | apps/next-app/src/components/painter/point-container.ts:11-14 | a fresh container stores nothing and its size counter, 0, is exact |
| PointContainer.SetPoint | apps/next-app/src/components/painter/point-container.ts:59-68 | after `setPoint` the position holds the new data, every other position is unchanged, and the size grows by one exactly when the position was new |
| PointContainer.DeletePoint | apps/next-app/src/components/painter/point-container.ts:84-93 | after `deletePoint` the position is absent, every other position is unchanged, the size drops by one exactly when it was stored, and deleting an absent point is a no-op |
| PointContainer.SetPointSize | apps/next-app/src/components/old_painter/point-container.ts:60-74 | setting adds exactly that position and keeps the size counter equal to the number of stored positions |
| PointContainer.DeletePointSize | apps/next-app/src/components/old_painter/point-container.ts:98-111 | deleting removes exactly that position and keeps the size counter equal to the number of stored positions |
| PointContainer.EntriesSpec | apps/next-app/src/components/painter/point-container.ts:95-101 | `forEach` visits every stored point exactly once, each with its stored data |
| PointContainer.EntriesCount | apps/next-app/src/components/painter/point-container.ts:95-101 | `forEach` makes as many visits as there are stored positions |
| PointContainer.SetAllSpec | apps/next-app/src/components/painter/point-container.ts:24-28 | storing a sequence of entries leaves each mentioned position with its entry's data and every unmentioned position as it was |
| PointContainer.Map | apps/next-app/src/components/painter/point-container.ts:20-30 | `map` stores the same positions, each with the callback's value for its position and data, and its size counts them |
| PointContainer.Filter | apps/next-app/src/components/painter/point-container.ts:32-44 | `filter` stores exactly the points the callback accepts, with their original data, and its size counter is exact |
| PointContainer.FirstWhere | apps/next-app/src/components/painter/point-container.ts:46-57 | `firstWhere` returns the first entry in `forEach` order (`Entries`) that the callback accepts, with its stored data, and `undefined` exactly when the callback accepts no stored point |
| Traversal.ThreadsAppend | apps/next-app/src/common/bft.ts:23-62 | the callback's state is threaded through consecutive runs of calls: a trace followed by another is one trace, ending where the second one ends |
| Traversal.Expand | apps/next-app/src/common/bft.ts:31-59 | the neighbour loop asks only about neighbours of the current point, enqueues only neighbours that passed, and breaks exactly when an `exitLoop` call happened (or had already happened) |
| Traversal.ExpandHalts | apps/next-app/src/common/bft.ts:49-52 | after `exitLoop` has been called, the next passing neighbour ends the neighbour loop without being enqueued |
| Traversal.ExpandCovered | apps/next-app/src/common/bft.ts:45-58 | every neighbour of the current point from the given offset on is asked about, and enqueued when it passed, unless the loop broke |
| Traversal.ExpandPushes | apps/next-app/src/common/bft.ts:45-58 | unless the neighbour loop breaks, every neighbour that passed is enqueued |
| Traversal.SteadyTrace | apps/next-app/src/common/bft.ts:13 | a test that never calls `exitLoop` and whose answers do not depend on the state it keeps answers along any trace as it does at the start |
| Traversal.KeepsAlong | apps/next-app/src/common/bft.ts:13 | a property of the callback's state that every call keeps holds after every call of a traversal |
| Traversal.RunHalts | apps/next-app/src/common/bft.ts:23 | once the queue is exhausted or `breakLoop` is set the outer loop takes no further turn |
| Traversal.OutcomeDeterministic | apps/next-app/src/common/bft.ts:11-64 | a traversal's results (visiting order, calls, final state) are determined by its inputs |
| Traversal.Traverse | apps/next-app/src/common/bft.ts:11-64 | the points recorded are distinct and connected from `start` through the offsets, every recorded point except an untested start passed a test, every call asks about the start or a neighbour of a recorded point, `exitLoop` stops the traversal at the next passing test, and for a state-independent test the recorded set is closed under passing neighbours |
| Traversal.PathRecorded | apps/next-app/src/common/bft.ts:6-10 | for a closed result, every point reachable from a recorded point through passing neighbours is recorded: the traversal finds the whole component |
| Traversal.SteadyPassed | apps/next-app/src/common/bft.ts:49 | under a state-independent test, a point that passed at some call passes from the initial state |
| Traversal.CalmOutcome | apps/next-app/src/common/bft.ts:23-62 | whatever the test, a traversal none of whose calls exits asks about every neighbour of every recorded point, and records every point that passed a call, unless, testing on dequeue, it failed another |
| Traversal.StepSweep | apps/next-app/src/common/bft.ts:23-62 | one turn of the outer loop keeps, while no call has exited, that recorded points' neighbours were asked about, passing points were queued and dequeued points recorded or failed |
| Bft.Neighbourhood | packages/drawing/src/bft.ts:3-53 | the four orthogonal offsets come first, in `kAdjacency` order, followed by the four diagonals exactly when diagonals are allowed |
| Bft.PackageBft | packages/drawing/src/bft.ts:14-70 | `start` is tested first; when it fails nothing is visited and there was one call; otherwise `start` is visited and the visited points form a connected set of points that passed, closed for a state-independent test |
| Bft.CommonBft | apps/next-app/src/common/bft.ts:11-64 | `start` is visited first without a test, every later visited point passed a test, and the visited points are connected, closed under passing neighbours for a state-independent test |
| Bft.RecordedContainer | apps/next-app/src/components/old_painter/drawing-layer/bft.ts:21-38 | recording distinct points with `setPoint` gives a container with an exact size holding exactly those points |
| Bft.PainterBft | apps/next-app/src/components/painter/drawing-layer/bft.ts:9-50 | every visited point passed its dequeue test, the container holds exactly the visited points with an exact size, `start` is in it exactly when it passes, and a failing `start` leaves the container empty |
| Brushes.ScanSpec | packages/drawing/src/brush.ts:19-20 | the nested loops visit every lattice point of `[-r, r)²` exactly once |
| Brushes.StencilSpec | packages/drawing/src/brush.ts:19-23 | the stencil holds exactly the scanned points within the disc, each once |
| Brushes.HalfUp | packages/drawing/src/brush.ts:18 | `Math.ceil(n / 2)` for an integer is the least `r` with `2r >= n` |
| Brushes.DiscSpec | packages/drawing/src/brush.ts:13-40 | the brush holds every lattice point strictly inside the disc of radius `ceil(size / 2)`, each once, flagged as boundary exactly when one step outward along an axis leaves the disc |
| Brushes.CentreIsInterior | packages/drawing/src/brush.ts:24-33 | for any size of at least 1 the centre is in the brush and is not a boundary point |
| Brushes.GetBrush | packages/drawing/src/brush.ts:13-40 | `getBrush` stores the brush under `size - 5` when absent, keeps every other cached entry, and, from a correct cache, returns the brush of that size |
| Brushes.CacheGrows | packages/drawing/src/brush.ts:37 | storing a freshly generated brush keeps every cached entry equal to the brush of its size |
| Brushes.GetBrushRepeats | packages/drawing/src/brush.ts:14-39 | asking again for the same size returns the same list and leaves the cache alone |
| Brushes.EdgesSpec | apps/next-app/src/common/brush.ts:42-60 | a point has at most two boundary edges, and an edge is recorded exactly when it points outward on its axis and the neighbour that way is outside the disc |
| Brushes.EdgesMatchRim | apps/next-app/src/common/brush.ts:42-60 | a point has some boundary edge exactly when it is a rim point in the flagged-brush sense |
| Brushes.EdgedDiscSpec | apps/next-app/src/util/drawing.ts:115-155 | the edged brush holds every lattice point strictly inside the disc of radius `ceil(diameter / 2)`, each once, with its boundary edges |
| Brushes.EdgedDiscMatchesDisc | apps/next-app/src/components/painter.tsx:164-200 | the edged brush and the flagged brush list the same offsets in the same order, with edges exactly at the flagged points |
| Brushes.RoundDown | apps/next-app/src/common/brush.ts:78 | the table index `floor((size - 5) / 5)` picks the size rounded down to a multiple of 5, and is in range exactly for sizes 5 to 104 |
| Brushes.EntryFor | apps/next-app/src/common/brush.ts:27-78 | the table entry picked for a size exists exactly for sizes 5 to 104 and is the edged brush of that size rounded down to a multiple of 5 |
| Brushes.CommonGetBrush | apps/next-app/src/common/brush.ts:77-79 | `getBrush` is `undefined` outside sizes 5 to 104 and otherwise the edged brush of the size rounded down to a multiple of 5 |
| Brushes.ToolCircleSpec | apps/next-app/src/components/painter/tools/utils.ts:31-42 | the tools' circle holds exactly the offsets of `[-r, r)²` with `x² + y² <= r²`, radius `floor((d + 1) / 2)`, each once |
| Brushes.ToolCircleKeepsLeftmost | apps/next-app/src/components/painter/tools/utils.ts:36 | unlike the flagged brush, the tools' circle includes the rim offset `(-r, 0)` |
| SegmentBuffers.SetSegment | apps/next-app/src/util/drawing.ts:177 | a typed-array store keeps the buffer's length |
| SegmentBuffers.ReadAfterWrite | apps/next-app/src/util/drawing.ts:104-110 | on a w × h buffer every pixel reads back a value, a store reads back at its pixel, and every other pixel reads as before |
| SegmentBuffers.RowWrap | apps/next-app/src/util/drawing.ts:109 | the raw index `y*w + x` is not bounds-checked per axis: the pixel left of a row's first one reads the previous row's last pixel |
| SegmentBuffers.Blank | apps/next-app/src/components/controller.tsx:23-29 | a fresh buffer has `w * h` entries, all -1 |
| SegmentBuffers.ReplayAppend | apps/next-app/src/util/drawing.ts:169-226 | replaying a log of callbacks in two parts is replaying it in one |
| SegmentBuffers.EdgeTests | apps/next-app/src/util/drawing.ts:179-209 | the edge filter reports a boundary exactly when some edge leaves the canvas or meets another segment, and marks as boundary exactly the pixels its edges meet that carry another painted segment |
| SegmentBuffers.StampPointSpec | apps/next-app/src/util/drawing.ts:169-224 | one brush point stores the active segment at its in-bounds pixel, fills the pixels its edges mark, then fills itself, boundary exactly when an edge cuts or the pixel is on the canvas edge |
| SegmentBuffers.StampWrites | apps/next-app/src/util/drawing.ts:161-226 | one stamp writes the active segment to the in-bounds pixels under the brush and to nothing else |
| SegmentBuffers.StampLog | apps/next-app/src/util/drawing.ts:161-226 | one stamp only appends callbacks, each on the canvas, each store writing the active segment |
| SegmentBuffers.StampReads | apps/next-app/src/util/drawing.ts:161-226 | a stamp extends the log, which rebuilds the buffer; painting a segment with data over pixels that all name one, it makes no colour lookup that misses; with a texture, a stamp of a segment without data that lands on the canvas makes such a lookup |
| SegmentBuffers.StrokeWrites | apps/next-app/src/util/drawing.ts:69-98 | a stroke writes the active segment to the in-bounds pixels under the brush at any of its centres, and to nothing else |
| SegmentBuffers.StrokeLog | apps/next-app/src/util/drawing.ts:69-98 | a stroke only appends callbacks, each on the canvas, each store writing the active segment |
| SegmentBuffers.StrokeReads | apps/next-app/src/util/drawing.ts:69-98 | the same for a whole stroke: no missed colour lookup when the segment and every pixel have data, and a missed one when a textured stroke of a segment without data lands on the canvas |
| SegmentBuffers.StrokeKeeps | apps/next-app/src/util/drawing.ts:69-98 | after a stroke every entry is the active segment or what it was before |
| SegmentBuffers.StrokeKeepsLabelled | apps/next-app/src/util/drawing.ts:177 | writing a segment that has data keeps every pixel unpainted or naming a segment with data |
| SegmentBuffers.UtilSmoothPaint | apps/next-app/src/util/drawing.ts:43-99 | a stroke from an empty pixel throws for want of a colour exactly when it has none; any other throw is a colour lookup in `draw` finding no segment data, which only happens with a texture; a stroke starting on a segment keeps it and the data; from an empty pixel it appends the colour and paints the new last segment; from a start off the buffer it paints 0, and throws exactly when there is a texture and some brush pixel lands on the canvas |
| SegmentBuffers.UtilOffCanvas | apps/next-app/src/util/drawing.ts:53-99 | a stroke from off the buffer whose brush never lands on the canvas succeeds and leaves every pixel as it was |
| SegmentBuffers.UtilSmoothPaintWrites | apps/next-app/src/util/drawing.ts:43-99 | a util stroke writes its segment to exactly the in-bounds pixels under the brush at the start or a path point |
| SegmentBuffers.UtilSmoothPaintLabelled | apps/next-app/src/util/drawing.ts:53-69 | when every pixel names a segment with data, the segment a stroke paints has an entry, so the colour lookups in `draw` find it and a stroke starting on the buffer throws only for want of a colour; every pixel keeps naming a segment with data; from a start off the buffer this holds when segment 0 has data |
| SegmentBuffers.UtilUnknownSegment | apps/next-app/src/util/drawing.ts:215-222 | a textured stroke that starts on a pixel naming a segment with no data and lands on the canvas throws at the colour lookup |
| SegmentBuffers.PixelCoord | apps/next-app/src/components/controller.tsx:38-50 | the cursor coordinate becomes a pixel coordinate in `[0, res)`, the floor of the coordinate when it is already in range |
| SegmentBuffers.Frame | apps/next-app/src/components/controller.tsx:36-146 | with the cursor up the press ends; with it down the press ends at the cursor's pixel and an ongoing press keeps its segment and the data |
| SegmentBuffers.FrameSpec | apps/next-app/src/components/controller.tsx:67-89 | a new press takes the segment under the cursor, or a new segment numbered by the old data length when the pixel is empty, and every frame keeps each pixel naming a segment with data |
| SharedDrawing.ViewAt | apps/next-app/src/common/drawing.ts:181 | on the canvas `getSegment` reads the buffer entry of the pixel |
| SharedDrawing.TrackAppend | apps/next-app/src/common/drawing.ts:190-211 | tracking a log in two parts is tracking it in one |
| SharedDrawing.NoteSet | apps/next-app/src/common/drawing.ts:190-197 | the wrapped `setSegment` removes the pixel from the boundary set of the segment it held, so it is in no set afterwards |
| SharedDrawing.NoteMark | apps/next-app/src/common/drawing.ts:198-211 | a boundary fill at a pixel of another segment records the pixel under that segment |
| SharedDrawing.TrackStampPoint | apps/next-app/src/common/drawing.ts:41-92 | the wrapped callbacks of one brush point keep every recorded pixel on the canvas and holding the segment it is recorded for, with no entry for the active segment or -1 |
| SharedDrawing.TrackStroke | apps/next-app/src/common/drawing.ts:188-215 | over a whole stroke the boundary sets stay in step with the buffer in the same sense |
| SharedDrawing.SmoothPaint | apps/next-app/src/common/drawing.ts:168-218 | a stroke keeps the segment under its start, or from an empty pixel takes `nextSegmentIndex`, which goes up by one; it paints exactly when the brush table has an entry for the size |
| SharedDrawing.SmoothPaintSpec | apps/next-app/src/common/drawing.ts:103-218 | a painted stroke writes its segment to exactly the in-bounds pixels under the brush at the start or a path point, every callback is on the canvas, and the boundary sets record only pixels still held by their segment |
| SharedDrawing.CountTest | apps/next-app/src/common/drawing.ts:260-279 | the counting test passes exactly at boundary pixels of the segment, counts down once for each passing pending point and calls `exitLoop` when the count reaches zero |
| SharedDrawing.PieceUnique | apps/next-app/src/common/drawing.ts:260-279 | the boundary piece reachable from a start pixel is one set of pixels, whatever order it is listed in |
| SharedDrawing.CountSplit | apps/next-app/src/common/drawing.ts:236-280 | as written, a round relabels exactly when the first traversal leaves some pending point unclaimed and the count of unclaimed points has not reached zero when the counting traversal ends |
| SharedDrawing.CountSplitsWhen | apps/next-app/src/common/drawing.ts:258-280 | after the first traversal leaves points unclaimed, the round relabels exactly when the count is not zero |
| SharedDrawing.ClaimLeft | apps/next-app/src/common/drawing.ts:243-257 | the first traversal only takes points off the pending set, which has lost its start point first |
| SharedDrawing.MeetTest | apps/next-app/src/common/drawing.ts:260-279 | the intended walk passes exactly at boundary pixels of the segment, never exits, and takes each pixel it passes off the unmet set |
| SharedDrawing.MeetSplit | apps/next-app/src/common/drawing.ts:236-300 | as intended, a round relabels exactly when some unclaimed pending point lies outside the start's boundary piece, and the pending set shrinks every round |
| SharedDrawing.MeetPiece | apps/next-app/src/common/drawing.ts:260-279 | the intended walk reaches exactly the start's boundary piece, and the unmet points left are the unclaimed points outside it |
| SharedDrawing.MeetPassed | apps/next-app/src/common/drawing.ts:266-275 | an unclaimed pending point is met by a passing call exactly when it lies in the walked piece |
| Recompute.RelabelPass | apps/next-app/src/common/drawing.ts:282-296 | one passing pixel held the segment and now holds the new id, with one store and one `retain` fill for it |
| Recompute.RelabelAlong | apps/next-app/src/common/drawing.ts:282-296 | along the relabelling traversal, exactly the passed pixels changed, from the segment to the new id, with a store and a fill each and nothing else logged |
| Recompute.RelabelPiece | apps/next-app/src/common/drawing.ts:282-296 | the relabelling flood gives the new id, with a store and a `retain` fill each, to exactly the pixels it records after the start; they reach the start through 8-neighbours, and every pixel of the segment next to one of them is relabelled too; the buffer is the log replayed, and pixels of other segments keep their ids |
| Recompute.RelabelSweeps | apps/next-app/src/common/drawing.ts:282-296 | since the relabelling never exits, the pixels it passes are the ones it records, and every pixel of the segment 8-adjacent to a recorded one was asked about and relabelled |
| Recompute.RelabelAsked | apps/next-app/src/common/drawing.ts:284-292 | a pixel of the segment that the relabelling asks about ends relabelled: it passes then or had passed before |
| Recompute.Finish | apps/next-app/src/common/drawing.ts:280-300 | with a split, the relabelled pixels are the piece swept from the start: connected through 8-neighbours and leaving no adjacent pixel of the segment behind; the next id moves on by one exactly when some pixel was set; without a split nothing changes and nothing is logged |
| Recompute.Round | apps/next-app/src/common/drawing.ts:236-301 | as written, a round takes the oldest pending point, and at least that one, off the pending set; it relabels exactly when the first traversal leaves points unclaimed and the count of them has not reached zero at the end of the counting walk, and then relabels the piece swept from the oldest pending point; without that nothing changes, and the id moves on exactly when some pixel was set |
| Recompute.IntendedRound | apps/next-app/src/common/drawing.ts:236-301 | as intended, a round relabels exactly when some unclaimed pending point lies outside the boundary piece of the oldest one, and then relabels the piece swept from that point; otherwise as `Round` |
| Recompute.RoundKeeps | apps/next-app/src/common/drawing.ts:236-301 | a round changes pixels only from an effected segment to a fresh id below the next free one, logs only such stores and `retain` fills on the canvas, and stores every id it hands out |
| Recompute.RecomputeSegments | apps/next-app/src/common/drawing.ts:224-304 | the recomputation ends, changes pixels only from effected segments to fresh ids, logs only stores of fresh ids and `retain` fills, stores every fresh id it hands out, and changes nothing when it hands out none |
| Recompute.Recompute | apps/next-app/src/common/drawing.ts:233-303 | the nested loops end; whichever split decision the rounds use, pixels change only from effected segments to fresh ids, the log holds only stores of fresh ids and `retain` fills, every fresh id handed out is stored, and nothing changes when none is handed out |
| Recompute.IntendedRecomputeSegments | apps/next-app/src/common/drawing.ts:224-304 | the recomputation with the intended rounds keeps the same guarantees as the one written |
| DoubleCount.MissedSplit | apps/next-app/src/common/drawing.ts:258-280 | as written, the round on the five-by-two canvas does not relabel: the count of two unclaimed points reaches zero by meeting (2,0) twice |
| DoubleCount.StartPiece | apps/next-app/src/common/drawing.ts:260-279 | the boundary piece of (0,0) on that canvas is {(0,0), (1,0), (2,0), (1,1)}, which leaves (4,0) out |
| DoubleCount.IntendedSplit | apps/next-app/src/common/drawing.ts:236-300 | the corrected decision must report a split on that canvas, because (4,0) stays unclaimed outside the piece of (0,0) |
| ClientDrawing.ClientMatchesShared | apps/next-app/src/client/drawing.ts:131-153 | on the canvas the client's segment choice and counter agree with the shared `smoothPaint`'s |
| ClientDrawing.MarkBoundary | apps/next-app/src/client/drawing.ts:71-81 | the boundary loop keeps the buffer's length |
| ClientDrawing.MarkBoundarySpec | apps/next-app/src/client/drawing.ts:71-81 | after the boundary loop a cell holds the next id exactly when a listed point indexes it and its old value otherwise, with one border fill per point |
| ClientDrawing.FloodSteady | apps/next-app/src/client/drawing.ts:85-117 | the flood's test passes exactly at floodable pixels and relabelling keeps every pixel's floodability, so its answers do not depend on the traversal's progress |
| ClientDrawing.FloodPass | apps/next-app/src/client/drawing.ts:94-113 | one passing pixel was floodable and now holds the next id, with a plain fill when it changed |
| ClientDrawing.FloodAlong | apps/next-app/src/client/drawing.ts:83-119 | along the flood, exactly the passed pixels were floodable and now hold the next id, and every other pixel is unchanged |
| ClientDrawing.FillUpdatedSegment | apps/next-app/src/client/drawing.ts:58-122 | the counter goes up by one; the listed boundary points take the next id first; with a `fillStart` the flood relabels floodable pixels only, every pixel it changes lies in the region it recorded, which reaches `fillStart` through 8-neighbours and whose pixels after the start all hold the next id, and it reaches every pixel a floodable 8-connected path from `fillStart` leads to |
| ClientDrawing.FloodConfined | apps/next-app/src/client/drawing.ts:83-119 | the flood changes no pixel outside the points it records, which reach its start through 8-neighbours and after the start all hold the next id |
| ClientDrawing.FloodReaches | apps/next-app/src/client/drawing.ts:83-119 | the flood relabels every pixel that a floodable path from its start leads to |
| ServerDrawing.WriteThenFills | apps/next-app/src/server/drawing.ts:30-77 | a store at a pixel, fills of painted pixels and a fill of that pixel rebuild the written buffer, and none of the fills meets an empty cell |
| ServerDrawing.StrokeReplays | apps/next-app/src/server/drawing.ts:110-117 | the stores of a stroke's log rebuild the buffer the stroke leaves, and every non-`retain` fill lands on a painted cell |
| ServerDrawing.GetSegmentServer | apps/next-app/src/server/drawing.ts:18-24 | `getSegment` reads the segment of the cell's node, -1 for an empty cell or off the buffer, and a non-negative answer comes from a filled cell |
| ServerDrawing.SetSegmentServer | apps/next-app/src/server/drawing.ts:30-51 | `setSegment` makes the cell read the node's segment, keeps every other cell, every boundary flag and every other node, and keeps the short log's links valid |
| ServerDrawing.FillServer | apps/next-app/src/server/drawing.ts:58-77 | `retain` changes nothing; any other fill throws exactly on an empty or off-buffer cell, and otherwise sets the cell's boundary flag to whether the fill is a boundary fill |
| ServerDrawing.ApplyStroke | apps/next-app/src/server/drawing.ts:110-117 | callbacks that do not throw keep the log links valid, the buffer's length and the nodes up to fill nodes' point maps |
| ServerDrawing.StrokeOnServer | apps/next-app/src/server/drawing.ts:110-117 | a stroke log on the canvas whose stores carry the node's segment and whose fills land never throws, and the server's buffer reads as the plain buffer the log rebuilds |
| ServerDrawing.SmoothPaintServerSpec | apps/next-app/src/server/drawing.ts:79-118 | the server's stroke throws exactly when the size has no brush, and then only after appending the draw node and the event and moving the counter, with the buffer as it was; otherwise it appends one draw node for the stroke's segment and the event, advances the counter exactly from an empty pixel, makes exactly the covered canvas pixels read the stroke's segment, and tracks only pixels still held by their segment |
| ServerDrawing.RecomputeStepKeeps | apps/next-app/src/server/drawing.ts:127-145 | one store or fill of the recomputation updates the server's buffer as on a plain buffer, keeps the flags and the earlier nodes, and records a fill node for each stored id |
| ServerDrawing.RecomputeServer | apps/next-app/src/server/drawing.ts:120-154 | the server's recomputation changes the buffer as the shared recomputation describes, keeps the flags and earlier nodes, and returns exactly one new fill node for each id the counter moved past |
| Canvas.Inc | packages/drawing/src/drawing.ts:45-58 | the increment saturates: one more below 4, and 4 stays 4 |
| Canvas.Dec | packages/drawing/src/drawing.ts:63-76 | the decrement saturates: one less above 0, and 0 stays 0 |
| Canvas.IncDecInverse | packages/drawing/src/drawing.ts:45-76 | away from the saturation points the increment and decrement undo each other |
| Canvas.SetSegment | packages/drawing/src/drawing.ts:81-122 | `setSegment` stores the segment and count at the pixel's index, adds that index at most, and changes no other entry |
| Canvas.SurveyCount | packages/drawing/src/drawing.ts:153-164 | the neighbour loop counts the in-bounds neighbours already painted with the new segment |
| Canvas.SurveyPixels | packages/drawing/src/drawing.ts:165-185 | when the pixel changes segment, each painted neighbour of the new segment gains one, each neighbour of the old segment loses one, and every other pixel is untouched |
| Canvas.SurveyLog | packages/drawing/src/drawing.ts:182-184 | every neighbour update reported is at an in-bounds orthogonal neighbour |
| Canvas.TallyUnrolled | packages/drawing/src/drawing.ts:156-164 | the loop's count is the number of the four orthogonal neighbours painted with the segment |
| Canvas.SetBoundarySegmentSpec | packages/drawing/src/drawing.ts:143-190 | painting a boundary pixel relabels exactly that pixel, stores the number of its neighbours already in the segment, and reports updates only at the pixel and its in-bounds neighbours |
| Canvas.SetNonBoundarySegmentSpec | packages/drawing/src/drawing.ts:127-138 | painting an interior pixel relabels exactly that pixel, with count 4, and reports at most its own update |
| Canvas.BoundaryKeepsExact | packages/drawing/src/drawing.ts:143-190 | if every stored count equals the true number of same-segment neighbours before a boundary pixel is painted, the same holds afterwards for every pixel |
| Canvas.PaintPixelSpec | packages/drawing/src/drawing.ts:333-348 | painting one in-bounds pixel relabels only it, moves every entry either nowhere or into the segment, and reports only in-bounds updates |
| Canvas.StampSpec | packages/drawing/src/drawing.ts:333-348 | a stamp paints every in-bounds pixel under the brush with the segment, changes nothing else, and reports only in-bounds updates |
| Canvas.RectTest | packages/drawing/src/drawing.ts:307-325 | the rectangle fill's test only passes on the canvas |
| Canvas.ApplyDrawEvent | packages/drawing/src/drawing.ts:197-354 | a draw event changes pixels only to the stroke's segment, paints every in-bounds brush pixel at both ends, touches only the two brush footprints when the outline is empty, and keeps the brush cache correct |
| Canvas.ChooseSegmentSpec | packages/drawing/src/drawing.ts:379-385 | the eraser paints with -1; the brush continues the segment under `from`, or takes the next id, unused on the canvas, when `from` is unpainted or erased |
| Canvas.TrackSpec | packages/drawing/src/drawing.ts:392-410 | one update adds the segment it cut into as a key and changes only that segment's pending points |
| Canvas.EffectedSpec | packages/drawing/src/drawing.ts:389-413 | the segments recorded are exactly those some update cut into, and a point is pending for a segment exactly when the last update that hit it there left it as a boundary pixel |
| Canvas.ClaimTest | packages/drawing/src/drawing.ts:432-438 | the first traversal passes exactly at in-bounds pending points and takes each off the pending set |
| Canvas.ClaimShrinks | packages/drawing/src/drawing.ts:432-438 | the first traversal claims its start on its first call and only removes points, so the pending set ends strictly smaller |
| Canvas.SplitOnce | packages/drawing/src/drawing.ts:419-500 | one round takes the fill and the remaining pending points from the claiming traversal and, when points were left unclaimed, from the boundary walk; the fill is drawn from the pending points and apart from those still pending; it takes the next id, moving the counter on, exactly when pending points remain, and keeps the cut segment otherwise |
| Canvas.SplitSegment | packages/drawing/src/drawing.ts:419-501 | the rounds for one cut segment yield a fill exactly when points were pending; every fill but the last takes the fresh ids `next0`, `next0+1`, … in order, the last keeps the segment, the counter ends one below the number of fills past `next0`; the fills lie on the canvas, come from the pending points and are pairwise disjoint |
| Canvas.FindSplits | packages/drawing/src/drawing.ts:416-502 | every fill is on the canvas, drawn from one cut segment's pending points, and keeps a cut segment or takes a fresh id; the fresh ids increase along the fills, the counter never goes down, and every id it hands out is used by some fill |
| Canvas.DrawAndFindSplits | packages/drawing/src/drawing.ts:365-507 | the chosen segment is `ChooseSegment`'s, every in-bounds brush pixel at both ends gets it, pixels change only to it, the ids stay fresh; every fill is on the canvas, made of points the stroke left on the boundary of one segment it cut into, and names that segment or a new id; every new id is used |
| Canvas.FillTestSpec | packages/drawing/src/drawing.ts:549-567 | the fill passes exactly at in-bounds pixels of the old or new segment, relabels each to the new segment, and never exits |
| Canvas.ApplyFill | packages/drawing/src/drawing.ts:543-570 | nothing changes unless the start is painted with another segment; otherwise the region holds the start, is 8-connected to it and closed under 8-connected fillable neighbours (so it is the start's fillable component), every region pixel gets the new segment, and a pixel changes only inside the region and only from the old segment |
| Canvas.FillConfined | packages/drawing/src/drawing.ts:547-566 | the fill changes no pixel outside the region it visits: each changed pixel passed a call, and every call is about the start or a neighbour of a visited pixel |
| Canvas.FloodFill | packages/drawing/src/drawing.ts:512-572 | the fills apply in order; the source throws exactly when some fill has no points; each applied fill has a region 8-connected to its start, and every changed pixel lies in the region of a fill whose segment it now has |
| Canvas.SweepTest | packages/drawing/src/drawing.ts:449-479 | the boundary walk passes only on the canvas |
| Canvas.SweepKeeps | packages/drawing/src/drawing.ts:447-481 | the boundary walk only moves points from pending into the fill, so the two stay apart, the fill keeps its first point, and everything in the fill or reported to `removeFill` is on the canvas |
| Canvas.ClaimWithin | packages/drawing/src/drawing.ts:432-438 | along the claiming traversal the pending set only shrinks |
| Canvas.ClaimTaken | packages/drawing/src/drawing.ts:432-438 | a point the claiming traversal passed was pending, and is no longer pending when it ends |
| Canvas.ClaimsTaken | packages/drawing/src/drawing.ts:432-438 | the claimed points were pending and are apart from those left pending |
| Canvas.SweepWalk | packages/drawing/src/drawing.ts:447-481 | the boundary walk's result is the traversal's outcome, keeps the walk's invariant, and leaves no more pending points than it started with |
| Canvas.Sweeping | packages/drawing/src/drawing.ts:443-494 | with unclaimed points left, the fill gets the claimed points plus the pending points the walk meets; it takes the next id exactly when some pending point is still unreached |
| Canvas.NumberedStep | packages/drawing/src/drawing.ts:483-499 | a round that leaves points pending takes the next fresh id; one that leaves none keeps the segment and ends the loop |
| Canvas.Appended | packages/drawing/src/drawing.ts:416-500 | adding a round's fill, taken from the pending points, keeps the fills pairwise disjoint and apart from what is still pending |
| Canvas.NamedAll | packages/drawing/src/drawing.ts:483-488 | one segment's fills use every fresh id the rounds took |
| Canvas.NamedJoin | packages/drawing/src/drawing.ts:416-502 | appending fills keeps the ids already used and adds those of the new ones |
| Canvas.Joined | packages/drawing/src/drawing.ts:416-502 | one cut segment's fills, appended to the earlier ones, keep the fresh ids increasing, on the canvas and drawn from one cut segment each |
| SeededColours.GetColor | packages/drawing/src/client/colors.ts:14-25 | a cached segment is answered from the cache without drawing; otherwise the cache grows to `segment + 1` entries, keeping the old ones, each new entry taking the next three draws; a cache filled from the start of the stream stays so, and then segment `s` always gets draws `3s .. 3s + 2` |
| AppColours.GetColor | apps/next-app/src/common/colors.ts:5-20 | a cached segment is answered from the cache; otherwise the cache grows to `segment + 1` entries, keeping the old ones, and every entry one call appends has the colour of `length + 1` |
| AppColours.GetColorIndexed | apps/next-app/src/common/colors.ts:5-20 | the evidently intended cache: the same growth, keeping the old entries and answering from the last one appended |
| AppColours.IndexedStable | apps/next-app/src/common/colors.ts:9-17 | with one index per appended entry, a cache indexed from the start stays so, and segment `s` gets colour `hue(s + 1)` whatever was asked before |
| AppColours.HistoryDependent | apps/next-app/src/common/colors.ts:9-17 | as written, segment 2 gets `hue(1)` when asked first and `hue(3)` when asked after segments 0 and 1 |
| HistoryNodes.UndoWrites | apps/next-app/src/components/painter/action-history/history.ts:84-90 | undoing an action writes, entry by entry in the painted points' order, each pixel's old segment |
| HistoryNodes.RedoWrites | apps/next-app/src/components/painter/action-history/history.ts:68-74 | redoing an action writes, entry by entry in the painted points' order, each pixel's new segment |
| HistoryNodes.ApplyUntouched | apps/next-app/src/components/painter/action-history/history.ts:68-90 | a pixel that no `setSegment` call names keeps its segment on the drawing layer |
| HistoryNodes.ApplyLast | apps/next-app/src/components/painter/action-history/history.ts:68-90 | of the `setSegment` calls, the last one naming a pixel decides its segment |
| HistoryNodes.UndoRedoRestore | apps/next-app/src/components/painter/action-history/history.ts:65-97 | for an action over distinct pixels, undo leaves every painted pixel at its old segment and redo at its new one |
| HistoryNodes.OnChainFrame | apps/next-app/src/components/painter/action-history/history.ts:52-58 | relinking only nodes allocated after `x`, or appending nodes, does not change whether `x` is on the live chain |
| HistoryReducer.Initial | apps/next-app/src/components/painter/action-history/history.ts:41-45 | a history of one data-less head, which is current, has the reducer's shape |
| HistoryReducer.ReduceValid | apps/next-app/src/components/painter/action-history/history.ts:47-99 | every event keeps the shape: links allocated and agreeing, every node with a `prev` carrying an action (so `data!` never fails), and the current node on the live chain |
| HistoryReducer.PushClearQuiet | apps/next-app/src/components/painter/action-history/history.ts:52-64 | push and clear call `setSegment` nowhere; after a push the new node is current, holds the action, points back to the old current node, and leaves nothing to redo |
| HistoryReducer.ClearedIsEmpty | apps/next-app/src/components/painter/action-history/history.ts:59-97 | after a clear, undo and redo leave the history as it is and write nothing |
| HistoryReducer.PushUndo | apps/next-app/src/components/painter/action-history/history.ts:52-97 | undo right after a push returns to the node that was current and writes the action's old segments |
| HistoryReducer.UndoRedo | apps/next-app/src/components/painter/action-history/history.ts:65-97 | redo right after an undo restores the very history undone from and writes the action's new segments |
| HistoryReducer.EndsAreNoOps | apps/next-app/src/components/painter/action-history/history.ts:79-97 | undo with no `prev` and redo with no `next` return the state unchanged and write nothing |
| ActionHistoryClass.Create | apps/next-app/src/components/painter/action-history.tsx:37-40 | a new history has a data-less head, which is current |
| ActionHistoryClass.OperationsValid | apps/next-app/src/components/painter/action-history.tsx:42-88 | clear, undo, redo and push all keep the links allocated and the head without a `prev` |
| ActionHistoryClass.ClearValid | apps/next-app/src/components/painter/action-history.tsx:42-45 | clear keeps the links allocated and the head without a `prev` |
| ActionHistoryClass.StepValid | apps/next-app/src/components/painter/action-history.tsx:47-81 | undo and redo keep the links allocated and the head without a `prev` |
| ActionHistoryClass.PushValid | apps/next-app/src/components/painter/action-history.tsx:83-88 | push keeps the links allocated and the head without a `prev` |
| ActionHistoryClass.UndoAtHead | apps/next-app/src/components/painter/action-history.tsx:47-63 | at the head, undo neither moves, writes nor throws |
| ActionHistoryClass.ClearEmpties | apps/next-app/src/components/painter/action-history.tsx:42-81 | after clear the head is current and neither undo nor redo moves, writes or throws |
| ActionHistoryClass.PushUndo | apps/next-app/src/components/painter/action-history.tsx:47-88 | after a push, undo returns to the node that was current writing the action's old values, and redo does nothing |
| ActionHistoryClass.UndoRedo | apps/next-app/src/components/painter/action-history.tsx:47-81 | when the current node's `prev` links forward to it, undo writes its old values without throwing, and redo then comes back to it writing the new values |
| ActionHistoryClass.UndoNoData | apps/next-app/src/components/painter/action-history.tsx:47-62 | undo on a data-less node that has a `prev` throws "No data" and neither moves nor writes |
| SentinelHistory.Create | apps/next-app/src/components/painter/action.ts:40-45 | a new history has the two sentinels holding the empty action, head linked to tail, all links allocated |
| SentinelHistory.Push | apps/next-app/src/components/painter/action.ts:65-72 | push keeps both sentinels and all links allocated |
| SentinelHistory.FreshHistory | apps/next-app/src/components/painter/action.ts:40-63 | a fresh history throws "Cannot undo empty history" on undo, and on redo steps onto the tail and throws "Method not implemented." there |
| SentinelHistory.RedoAtNewest | apps/next-app/src/components/painter/action.ts:56-72 | redo right after a push always moves to the tail sentinel and throws "Method not implemented." |
| SentinelHistory.PushUndo | apps/next-app/src/components/painter/action.ts:47-72 | undo right after a push, from anywhere but the tail, calls the action's undo once and returns to the node that was current |
| SentinelHistory.UndoRedo | apps/next-app/src/components/painter/action.ts:47-63 | when the current node's `prev` links forward to it, undo calls its undo and steps back, and redo then calls its redo and comes back |
| SentinelHistory.PushAtTailCycles | apps/next-app/src/components/painter/action.ts:65-72 | a push while the tail is current links the tail and the new node to each other both ways, a cycle |
| Tiling.Split | apps/next-app/src/components/painter/drawing-layer/uniforms.ts:9-14 | the section counts are not negative, each remainder lies in `[0, 256)`, and 256 times the count plus the remainder is the image size on each axis |
| Tiling.SectionOf | apps/next-app/src/components/old_painter/renderer-state/renderer-state.ts:69-71 | a pixel's section is the 256-wide band on each axis that contains it |
| Tiling.Local | apps/next-app/src/components/painter/drawing-layer/uniforms.ts:54-58 | the position inside the section lies in `[0, 256)` on each axis, and adding the section's origin back gives the pixel |
| Tiling.UniformIndexRange | apps/next-app/src/components/painter/drawing-layer/uniforms.ts:44-46 | every section of the grid, the trailing ones included, has a row-major slot inside the uniform array |
| Tiling.UniformIndexInjective | apps/next-app/src/components/old_painter/renderer-state/renderer-state.ts:76-82 | two sections of the grid never share a slot |
| Tiling.SpanWhole | apps/next-app/src/components/painter/drawing-layer/uniforms.ts:33-38 | the first `n` sides before the trailing one are whole sections, `256 n` pixels together |
| Tiling.SidesCover | apps/next-app/src/components/painter/drawing-layer/uniforms.ts:9-38 | the section widths along a row add up to the image width, and the heights along a column to its height |
| Tiling.InSection | apps/next-app/src/components/painter/drawing-layer/uniforms.ts:33-59 | an in-bounds pixel's section is one of the grid's, and its position inside lies within that section's size, trailing sections included |
| Tiling.Zeros | apps/next-app/src/components/painter/drawing-layer/uniforms.ts:23 | a new `Uint8Array` holds the requested number of zero bytes |
| Tiling.SlotDecode | apps/next-app/src/components/painter/drawing-layer/uniforms.ts:18-31 | the nested loops' push order and `uniform(j, i)` agree: slot `i * (numSections.x + 1) + j` decodes to section `(j, i)` |
| Tiling.PushFresh | apps/next-app/src/components/painter/drawing-layer/uniforms.ts:18-31 | pushing the next section's fresh buffer keeps every slot holding the buffer of the section it decodes to |
| Tiling.FilledShaped | apps/next-app/src/components/painter/drawing-layer/uniforms.ts:18-31 | once every slot is filled, each section finds at its slot a zeroed buffer of `width * height * 4` bytes |
| Tiling.Allocate | apps/next-app/src/components/painter/drawing-layer/uniforms.ts:9-31 | the constructor leaves every section's zeroed `width * height * 4`-byte buffer at the slot `uniform(j, i)` reads |
| Tiling.ShapedUpdate | apps/next-app/src/components/painter/drawing-layer/uniforms.ts:61-66 | writing into a buffer without changing its length keeps every section's buffer shape |
| Tiling.OwnedInRange | apps/next-app/src/components/painter/drawing-layer/uniforms.ts:54-65 | an in-bounds pixel's four bytes lie inside its section's buffer |
| Tiling.TileFillSpec | apps/next-app/src/components/painter/drawing-layer/uniforms.ts:48-67 | on an in-bounds pixel, `fillPixel` succeeds, keeps every buffer's length, writes the four colour channels into exactly the four bytes the pixel owns, and leaves every other byte of every buffer unchanged |
| Tiling.OwnsInjective | apps/next-app/src/components/painter/drawing-layer/uniforms.ts:54-60 | two different in-bounds pixels never own the same byte of any buffer |
| Tiling.DrawPointsSpec | apps/next-app/src/components/painter/drawing-layer.ts:43-62 | in-bounds points draw without a throw, keep every buffer's shape, and change no byte outside the points' pixels |
| Tiling.DrawnTail | apps/next-app/src/components/painter/drawing-layer.ts:46-61 | a byte that no point of a list owns is owned neither by its first point nor by the rest |
| Tiling.DrawLastWins | apps/next-app/src/components/painter/drawing-layer.ts:43-62 | after drawing in-bounds points and then one more, that last pixel's four bytes hold the last colour drawn |
| Tiling.DrawAppend | apps/next-app/src/components/painter/drawing-layer.ts:43-62 | drawing one more point is `fillPixel` of that point after drawing the others |
| Vectors.ClampR | apps/next-app/src/components/painter/controls/controls.ts:79-89 | a clamp with ordered bounds lands inside them and leaves a value already inside alone; with crossed bounds the lower one wins |
| Vectors.ClampPan | apps/next-app/src/components/painter/controls/controls.ts:79-89 | clamping into `[-b, b]` on both axes lands inside for a non-negative bound; a negative bound pins both components to `-b` |
| Statistics.ReduceFrame | apps/next-app/src/components/old_painter/statistics/statistics.ts:42-93 | clear empties the map; segment -1 never gets an entry; an update leaves every segment other than its old and new ones as it was |
| Statistics.OthersKept | apps/next-app/src/components/old_painter/statistics/statistics.ts:61 | storing one segment's entry keeps every other segment's presence and entry |
| Statistics.MovePoints | apps/next-app/src/components/old_painter/statistics/statistics.ts:51-91 | between two different real segments, the update throws exactly when the new count would go negative, the old segment has no entry, or the old count would go negative; otherwise the points move from the old count to the new one |
| Statistics.MeanStep | apps/next-app/src/components/old_painter/statistics/statistics.ts:63-84 | scaling a running mean back up by its count recovers the total, so adding or removing a sum and dividing gives the new total's mean |
| Statistics.AddKeepsMean | apps/next-app/src/components/old_painter/statistics/statistics.ts:53-76 | adding points keeps the centroid the mean of all the segment's points, from its first points on |
| Statistics.MeanCoords | apps/next-app/src/components/old_painter/statistics/statistics.ts:63-67 | both coordinates of the rescaled centroid plus the sum, divided by the new count, are the new total's mean |
| Statistics.AddCentroid | apps/next-app/src/components/old_painter/statistics/statistics.ts:63-67 | adding points to a non-empty segment gives the centroid `(c n + sum) / (n + k)` per coordinate |
| Statistics.FirstCentroid | apps/next-app/src/components/old_painter/statistics/statistics.ts:68-72 | the first points added to an empty segment give their own mean as the centroid |
| Statistics.RemoveKeepsMean | apps/next-app/src/components/old_painter/statistics/statistics.ts:79-89 | removing points keeps the centroid the mean of the points left; removing every point leaves a non-finite centroid |
| Statistics.LeftCoords | apps/next-app/src/components/old_painter/statistics/statistics.ts:81-84 | both coordinates of the rescaled centroid minus the sum, divided by the new count, are the remaining total's mean |
| Statistics.RemoveCentroid | apps/next-app/src/components/old_painter/statistics/statistics.ts:81-84 | removing some of a segment's points gives the centroid `(c n - sum) / (n - k)` per coordinate |
| ControlsReducer.CursorAndPan | apps/next-app/src/components/painter/controls/controls.ts:59-69 | a cursor event sets only the two flags; a pan event sets only the pan, unclamped |
| ControlsReducer.ZoomBounds | apps/next-app/src/components/painter/controls/controls.ts:70-92 | a zoom event sets the zoom and the zooming flag, keeps the cursor flags, and leaves the pan inside the new bound; zooming about an origin moves the pan by `(origin - pan)(s - 1)` when that stays inside the bound |
| TexturePainterTools.ReduceKeeps | apps/next-app/src/components/texture-painter/state.ts:50-76 | every known action keeps the tool built from the current size and colour and never replaces the drawing; only `SetTool` changes the tool's kind and only `HideCursor` the cursor flag; an unknown action, and only that, throws |
| AppTexturePainter.ReduceKeeps | apps/next-app/src/app/components/texture-painter/state.ts:29-71 | no action changes size, colour or drawing; the tool stays built from them, with a colour exactly when it is a brush; `SetTool` installs the named tool and `SetToolAlpha` records the alpha; an unknown action, and only that, throws |
| TexturePainterStates.Zeros | apps/next-app/src/components/texture-painter/state.tsx:232-234 | a new `Uint8Array` holds the requested number of zero bytes |
| TexturePainterStates.AllocateDrawings | apps/next-app/src/components/texture-painter/state.tsx:228-236 | the nested loops give `(kSubdivisions + 1)²` slots, each a zeroed buffer of `floor(width * height / sections) * 4` bytes |
| TexturePainterStates.ReduceShape | apps/next-app/src/components/texture-painter/state.tsx:135-327 | an unknown action, and only that, throws; every other action keeps the tool built from size and colour and the state's variant (loading always loads); cursor, zoom and pan leave an initial state alone; hiding the cursor releases it; only loading replaces the drawings |
| TexturePainterStates.LoadedResets | apps/next-app/src/components/texture-painter/state.tsx:227-250 | loading a background gives the loaded state with zoom 1, pan zero, the cursor hidden and up, and four zeroed buffers of `floor(width * height / 4) * 4` bytes |
| TexturePainterStates.PanStaysBounded | apps/next-app/src/components/texture-painter/state.tsx:267-323 | zoom and pan leave the pan inside the non-negative bound of the resulting zoom |
| Stamping.Clip | apps/next-app/src/components/painter/tools/utils.ts:55-59 | an offset lies in the clipped window exactly when it lies in the brush's range and its pixel is on the canvas |
| Stamping.ShiftSpec | apps/next-app/src/components/painter/tools/utils.ts:60-72 | moving offsets to `pos` gives exactly the pixels whose offset from `pos` is listed, and keeps distinct offsets distinct |
| Stamping.ShiftedMember | apps/next-app/src/components/painter/tools/utils.ts:60-72 | a pixel is among the moved offsets exactly when its offset from `pos` is listed |
| Stamping.ShiftDistinct | apps/next-app/src/components/painter/tools/utils.ts:60-72 | moving distinct offsets gives distinct pixels |
| Stamping.MemoFillsSpec | apps/next-app/src/components/painter/tools/utils.ts:60-72 | the loop fills at most one pixel per offset, exactly `pos + o` for the listed offsets inside the window, and distinct offsets give distinct pixels |
| Stamping.DrawMemoizedCircleSpec | apps/next-app/src/components/painter/tools/utils.ts:48-74 | `fill` is called on `pos + o` exactly for the listed offsets with both coordinates in `(-r, r)` whose pixel is on the canvas, at most once per offset |
| Stamping.LeftmostNeverFilled | apps/next-app/src/components/painter/tools/utils.ts:31-74 | the circle points list the offset `(-r, 0)`, yet `drawMemoizedCircle` never fills it, because its window starts at `-r + 1` |
| Stamping.DrawSquareSpec | apps/next-app/src/components/painter/tools/utils.ts:79-97 | `drawSquare` fills exactly the canvas pixels within `[-h, h)` of `pos` on both axes, `h = floor(length / 2)`, each once |
| Stamping.ClippedCircleSpec | apps/next-app/src/components/texture-painter/tools/utils.ts:153-171 | `drawCircle` fills exactly the canvas pixels at offsets in `(-r, r)` with `x² + y² <= r²`, each once |
| Stamping.ClippedCircleMembers | apps/game/src/texture-painter/utils.tsx:21-38 | the pixels the clipped scan fills are exactly the canvas pixels of the disc window |
| Stamping.ClippedCircleAt | apps/game/src/texture-painter/tools.ts:15-30 | one pixel is filled by the clipped scan exactly when its offset is in the window and in the disc |
| Stamping.KeptMember | apps/game/src/texture-painter/tools.ts:23-27 | the disc filter keeps exactly the window offsets with `x² + y² <= r²` |
| Stamping.BlockMember | apps/game/src/texture-painter/tools.ts:23-24 | the nested loops visit exactly the offsets of the window |
| Stamping.ClippedCircleDistinct | apps/game/src/texture-painter/tools.ts:15-30 | the clipped scan fills no pixel twice |
| Stamping.PixelIndexInRange | apps/next-app/src/components/texture-painter/tools/utils.ts:15-17 | an on-canvas pixel's four bytes start at a multiple of four and lie inside the `w * h * 4` buffer |
| Stamping.Store | apps/next-app/src/components/texture-painter/tools/utils.ts:29-32 | a store into a `Uint8Array` keeps its length, sets the byte when the index is inside, and changes nothing else |
| Stamping.FillPixel | apps/next-app/src/components/texture-painter/tools/utils.ts:19-33 | `fillPixel` writes channel `k % 4` of the colour into each of the pixel's four bytes and leaves every other byte alone |
| Stamping.PaintSpec | apps/next-app/src/components/texture-painter/tools/utils.ts:159-171 | after painting a list of pixels, a byte holds its channel of the colour when some painted pixel owns it and is unchanged otherwise |
| Stamping.DrawCircleBytesSpec | apps/next-app/src/components/texture-painter/tools/utils.ts:147-171 | on a `w * h * 4` buffer, `drawCircle` sets exactly the bytes of the clipped disc's pixels and leaves every other byte as it was |
| Stamping.CircleOverlaySpec | apps/game/src/texture-painter/tools.ts:66-76 | for a positive radius the overlay keeps its `side² * 4` length and the disc is drawn unclipped around `(r - 1, r - 1)`, every write landing inside the buffer |
| Stamping.OverlayUnclipped | apps/game/src/texture-painter/tools.ts:67-75 | around the overlay's centre, every offset of the disc lands on the overlay |
| Stamping.OverlayTextureMatches | apps/game/src/texture-painter/tools.ts:66-76 | the texture is declared 39 by 39, which matches the buffer's side only for radius 20 |
| Stamping.Steps | apps/next-app/src/components/texture-painter/tools/utils.ts:192-193 | a `for` loop over numbers from `x` while below `hi` visits `x, x + 1, …` and stops at the first value not below `hi` |
| Stamping.HalfPixelSquare | apps/next-app/src/components/texture-painter/tools/utils.ts:174-204 | as written, a one-pixel square at `(5, 5)` on a 10 by 10 texture writes its four bytes from byte 198, which starts no pixel |
| Stamping.TextureSquareAligned | apps/next-app/src/components/texture-painter/tools/utils.ts:174-204 | with the half-length rounded down, every write starts a pixel of the canvas and stays inside the buffer |
| Stamping.TextureSquareSpec | apps/next-app/src/components/texture-painter/tools/utils.ts:174-204 | with the half-length rounded down, the square paints exactly the bytes of its pixels and leaves the rest unchanged |
| Stamping.CastMul | apps/next-app/src/components/texture-painter/tools/utils.ts:16 | the product of two integers is the same computed as numbers |
| Stamping.StepsIntegral | apps/next-app/src/components/texture-painter/tools/utils.ts:192-193 | over integer bounds the number loop counts `a, a + 1, …, b - 1` |
| Stamping.BytesAppend | apps/next-app/src/components/texture-painter/tools/utils.ts:192-203 | the first bytes of a concatenation of pixel lists are the concatenation of their first bytes |
| Stamping.RowMatches | apps/next-app/src/components/texture-painter/tools/utils.ts:193-202 | one column of the number loops writes that column's pixels, in order |
| Stamping.RowEntry | apps/next-app/src/components/texture-painter/tools/utils.ts:15-17 | the number loops' byte offset of a pixel is its integer index |
| Stamping.ColumnLength | apps/next-app/src/components/texture-painter/tools/utils.ts:193 | a column of the window has one pixel per row in range |
| Stamping.StartsMatch | apps/next-app/src/components/texture-painter/tools/utils.ts:192-203 | over integer bounds the number loops write the pixels of the integer loops, in the same order |
| Stamping.EvenSquareAgrees | apps/next-app/src/components/texture-painter/tools/utils.ts:174-204 | for an even length the square as written writes exactly the pixels of the rounded square, in the same order |
| Stamping.EvenBounds | apps/next-app/src/components/texture-painter/tools/utils.ts:182-191 | for an even length the loops as written run over the integer window's bounds |
| DrawingLayer.InitialState | apps/next-app/src/components/painter/drawing-layer/drawing-layer.ts:87-99 | a new layer has a `w × h` buffer that is -1 at every pixel, no segments, no active segment, and satisfies the layer's invariant |
| DrawingLayer.IncrementSegments | apps/next-app/src/components/painter/drawing-layer/drawing-layer.ts:68-81 | with ids 1..n, the new entry is empty and keyed n+1, so the ids stay 1..n+1; nothing else changes |
| DrawingLayer.IncrementValid | apps/next-app/src/components/painter/drawing-layer/drawing-layer.ts:68-81 | adding the empty entry keeps the layer's invariant |
| DrawingLayer.ContiguousKeys | apps/next-app/src/components/painter/drawing-layer/drawing-layer.ts:74 | with 1-based contiguous ids, an id has an entry exactly when it lies between 1 and the number of entries |
| DrawingLayer.GetSegment | apps/next-app/src/components/painter/drawing-layer/drawing-layer.ts:104-109 | on the canvas the raw read at `y * w + x` is the pixel's segment |
| DrawingLayer.AroundSpec | apps/next-app/src/components/painter/drawing-layer/drawing-layer.ts:111-116 | the four offsets reach each orthogonal neighbour exactly once |
| DrawingLayer.OnCanvas | apps/next-app/src/components/painter/drawing-layer/drawing-layer.ts:269-275 | the on-canvas filter keeps exactly the on-canvas points, without repeats when there were none |
| DrawingLayer.Adjacent | apps/next-app/src/components/painter/drawing-layer/drawing-layer.ts:264-275 | the adjacent list holds each on-canvas orthogonal neighbour exactly once and nothing else |
| DrawingLayer.Holding | apps/next-app/src/components/painter/drawing-layer/drawing-layer.ts:359-361 | the in-segment filter keeps exactly the listed pixels that hold the segment |
| DrawingLayer.HoldingDelta | apps/next-app/src/components/painter/drawing-layer/drawing-layer.ts:303-305 | writing one pixel changes how many listed pixels hold a segment only by what that pixel gained or lost |
| DrawingLayer.CountDelta | apps/next-app/src/components/painter/drawing-layer/drawing-layer.ts:303-305 | writing a pixel moves a neighbour count by one exactly when the pixel is an orthogonal neighbour and entered or left the counted segment |
| DrawingLayer.Around | apps/next-app/src/components/painter/drawing-layer/drawing-layer.ts:303-305 | the neighbours still in the prior segment are exactly the adjacent pixels holding it, each once |
| DrawingLayer.MarkSpec | apps/next-app/src/components/painter/drawing-layer/drawing-layer.ts:323-340 | recording a new boundary point creates the segment's entry when missing, adds just that point, and keeps every other entry and every counter exact |
| DrawingLayer.ForgetSpec | apps/next-app/src/components/painter/drawing-layer/drawing-layer.ts:289-293 | forgetting a point removes just it from the segment's entry, only when the entry exists, and keeps the counters exact |
| DrawingLayer.Unrecord | apps/next-app/src/components/painter/drawing-layer/drawing-layer.ts:283-294 | with an action, the pixel leaves the record of its prior segment exactly when it had fewer than four neighbours there |
| DrawingLayer.Detach | apps/next-app/src/components/painter/drawing-layer/drawing-layer.ts:303-348 | each neighbour in the prior segment loses one neighbour; with an action, exactly those that had four are newly recorded, and nothing else in the record changes |
| DrawingLayer.Attach | apps/next-app/src/components/painter/drawing-layer/drawing-layer.ts:378-396 | each neighbour in the new segment gains one neighbour |
| DrawingLayer.Release | apps/next-app/src/components/painter/drawing-layer/drawing-layer.ts:281-349 | only the prior segment's entry changes: the pixel leaves it and its neighbours in it lose one; the action's record drops the pixel if it was a boundary point and adds the neighbours that had four |
| DrawingLayer.Claim | apps/next-app/src/components/painter/drawing-layer/drawing-layer.ts:354-397 | only the new segment's entry changes: the pixel joins it with its count of neighbours in it, and each of those neighbours gains one |
| DrawingLayer.Untouched | apps/next-app/src/components/painter/drawing-layer/drawing-layer.ts:282-310 | the entries the source reads with non-null assertions exist: the prior segment holds the pixel, and each neighbour still in a segment is held by that segment's entry |
| DrawingLayer.ExpectedAt | apps/next-app/src/components/painter/drawing-layer/drawing-layer.ts:240-398 | releasing and then claiming leaves each entry as the write alone requires: the pixel moves between segments and its neighbours' counts move by one |
| DrawingLayer.Revalidate | apps/next-app/src/components/painter/drawing-layer/drawing-layer.ts:240-398 | a write whose entries change that way keeps the layer's invariant: every painted pixel's entry holds its exact in-segment neighbour count, and entries hold only their own pixels |
| DrawingLayer.StillBoundary | apps/next-app/src/components/painter/drawing-layer/drawing-layer.ts:277-349 | a boundary point of a third segment stays a boundary point after the write |
| DrawingLayer.NewBoundary | apps/next-app/src/components/painter/drawing-layer/drawing-layer.ts:311-342 | a neighbour that had four in the prior segment and still holds it has fewer than four afterwards, so recording it is right |
| DrawingLayer.TrackedAfter | apps/next-app/src/components/painter/drawing-layer/drawing-layer.ts:277-349 | the write keeps the action's record sound: every recorded point is an on-canvas boundary point of a segment other than the one painted, and the counters are exact |
| DrawingLayer.SetSegment | apps/next-app/src/components/painter/drawing-layer/drawing-layer.ts:240-398 | nothing changes when the pixel already holds the segment; otherwise the buffer changes at that pixel only, the ids stay the same, the invariant is kept, and the action's record stays sound |
| LayerRecompute.Bfs | apps/next-app/src/components/painter/drawing-layer/bft.ts:9-50 | the visited container holds exactly the recorded points, which reach the start through the offsets; each recorded point passed a call; the start is recorded exactly when its first test passes; with a stateless test that never exits, the result is closed under passing neighbours |
| LayerRecompute.BoundarySteady | apps/next-app/src/components/painter/drawing-layer/drawing-layer.ts:142-154 | the grouping test keeps no state, never calls `exitLoop` and answers alike at every call |
| LayerRecompute.GroupPassed | apps/next-app/src/components/painter/drawing-layer/drawing-layer.ts:142-154 | every point the grouping run records is a recorded boundary point |
| LayerRecompute.RunSize | apps/next-app/src/components/painter/drawing-layer/drawing-layer.ts:156-159 | the run is never larger than the boundary container, and is as large exactly when it holds every boundary point |
| LayerRecompute.Group | apps/next-app/src/components/painter/drawing-layer/drawing-layer.ts:142-159 | the run starts at the chosen point, reaches it through 8-connected steps, holds only boundary points, is closed under 8-connected boundary neighbours, and is all of them exactly when its size equals the container's |
| LayerRecompute.DeleteAll | apps/next-app/src/components/painter/drawing-layer/drawing-layer.ts:221-223 | deleting the run's points removes exactly them from the boundary container and keeps its counter exact |
| LayerRecompute.FlooderDeletes | apps/next-app/src/components/painter/drawing-layer/drawing-layer.ts:167-189 | each call of the flood's test only takes points out of the boundary container and keeps its counter exact |
| LayerRecompute.Deletes | apps/next-app/src/components/painter/drawing-layer/drawing-layer.ts:165-191 | along the flood the boundary container only loses points, and its counter stays exact |
| LayerRecompute.FloodShrinks | apps/next-app/src/components/painter/drawing-layer/drawing-layer.ts:165-191 | after the flood the boundary container is strictly smaller and has lost the start |
| LayerRecompute.FloodTakes | apps/next-app/src/components/painter/drawing-layer/drawing-layer.ts:179 | a pixel the flood passed is no longer in the boundary container |
| LayerRecompute.FloodPassed | apps/next-app/src/components/painter/drawing-layer/drawing-layer.ts:168-174 | a pixel the flood passed is an on-canvas pixel of the segment |
| LayerRecompute.Take | apps/next-app/src/components/painter/drawing-layer/drawing-layer.ts:165-191 | the flooded piece reaches the start through orthogonal steps, holds only on-canvas pixels of the segment, none of them left in the boundary container, which has shrunk and still holds only pixels of the segment; unless the container emptied, every orthogonal neighbour of the piece holding the segment is in it |
| LayerRecompute.FloodSweeps | apps/next-app/src/components/painter/drawing-layer/drawing-layer.ts:165-191 | a flood that never exited records every orthogonal neighbour of a recorded pixel that holds the segment |
| LayerRecompute.FloodCalm | apps/next-app/src/components/painter/drawing-layer/drawing-layer.ts:168-188 | a flood that leaves a boundary point in the container never called `exitLoop`, since the exit comes only when the container empties and it never refills |
| LayerRecompute.Relabel | apps/next-app/src/components/painter/drawing-layer/drawing-layer.ts:197-218 | exactly the one pixel moves to the new id, the layer stays valid with the same ids, and it enters the painted points with its old and new segment only when it was not there already |
| LayerRecompute.Flood | apps/next-app/src/components/painter/drawing-layer/drawing-layer.ts:197-218 | exactly the listed pixels move to the new id, the layer stays valid, and each enters the painted points when it was not there already |
| LayerRecompute.FloodRecomputed | apps/next-app/src/components/painter/drawing-layer/drawing-layer.ts:196-219 | the flood's relabelling changes exactly the listed pixels, from the segment to the new id, recording each in the painted points |
| LayerRecompute.Split | apps/next-app/src/components/painter/drawing-layer/drawing-layer.ts:160-219 | a new id is allocated; when the boundary container has not emptied, exactly the flooded piece moves to it, which reaches the start orthogonally and takes every orthogonal neighbour holding the segment; otherwise no pixel moves; either way the container shrinks |
| LayerRecompute.FirstRecorded | apps/next-app/src/components/painter/drawing-layer/drawing-layer.ts:138 | the point `firstPointWhere` returns is the container's first entry |
| LayerRecompute.RunLeaves | apps/next-app/src/components/painter/drawing-layer/drawing-layer.ts:220-224 | when the run holds every boundary point, deleting it empties the container |
| LayerRecompute.Round | apps/next-app/src/components/painter/drawing-layer/drawing-layer.ts:136-225 | a round starts at the first recorded boundary point; it splits exactly when the 8-connected run misses some boundary point; without a split nothing but the container changes and it empties; the pixels that change are the flooded piece, which with a split and a container left non-empty is the whole orthogonal piece of the start, and the container shrinks |
| LayerRecompute.Settle | apps/next-app/src/components/painter/drawing-layer/drawing-layer.ts:136-225 | the rounds for one segment end with its container empty, the layer valid, pixels moved only from the segment to new ids, and nothing changed when it started empty |
| LayerRecompute.RecomputedThen | apps/next-app/src/components/painter/drawing-layer/drawing-layer.ts:128-226 | two recomputations in a row amount to one over both segments |
| LayerRecompute.Visit | apps/next-app/src/components/painter/drawing-layer/drawing-layer.ts:128-226 | settling one more effected segment extends the recomputation to it and empties its container |
| LayerRecompute.SweepNext | apps/next-app/src/components/painter/drawing-layer/drawing-layer.ts:128-226 | the loop over the effected segments settles them in insertion order, emptying each container |
| LayerRecompute.RecomputeSegments | apps/next-app/src/components/painter/drawing-layer/drawing-layer.ts:124-227 | afterwards every boundary container is empty, the layer is valid, pixels have moved only from effected segments to new ids, each moved pixel is in the painted points with its old and new segment, and with nothing recorded nothing changes |
| Grid.CellIndex | packages/drawing/src/drawing.ts:33 | the row-major index `y * w + x` of an on-canvas pixel lies inside the `w * h` buffer |
| Grid.IndexInjective | packages/drawing/src/drawing.ts:92-108 | two on-canvas pixels never share a buffer index, so a store at one leaves the others alone |
| Grid.ColumnSpec | packages/drawing/src/brush.ts:20 | the inner loop visits the column's offsets from `y` up to below `hi`, one per step, in order |
| Grid.BlockSpec | packages/drawing/src/brush.ts:19-20 | the nested loops visit exactly the offsets of the rectangle, each once |
| JsCollections.SetFirst | packages/drawing/src/drawing.ts:421-425 | `values().next().value` is undefined exactly when the set is empty, and otherwise the item at the front of the insertion order |
| JsCollections.OldestAdded | packages/drawing/src/drawing.ts:402-425 | after any run of `add` calls the first value is the set's old first item when it had one, and otherwise the first item added: the traversal starts at the oldest pending point |
| JsCollections.SetDelete | packages/drawing/src/drawing.ts:436 | `Set.delete` removes the item, reports whether it was there, and the size drops by one exactly then |
| JsCollections.SetAdd | packages/drawing/src/drawing.ts:466 | `Set.add` puts a new item last and leaves an existing one where it is |
| JsCollections.Remove | packages/drawing/src/drawing.ts:397 | removing an item keeps the others in order, changes nothing when it is absent, and shortens a set without repeats by one when present |
| JsCollections.Get | apps/next-app/src/server/scoring.ts:64-66 | `Map.get` is defined exactly for a present key, with its value |
| JsCollections.Put | apps/next-app/src/server/scoring.ts:60-70 | `Map.set` stores the value; a new key is appended to the iteration order and an existing one keeps its place |
| JsCollections.Delete | apps/next-app/src/components/painter/point-container.ts:90 | `Map.delete` removes the key from the table and from the iteration order, and the size drops by one exactly when it was there |
| JsCollections.MapSize | apps/next-app/src/components/painter/drawing-layer/drawing-layer.ts:74 | a map's `size` is the number of its keys |

## Left out

- Networking, socket handling, React components, three.js rendering, GLSL shaders and the machine-learning scripts: they are I/O and presentation around the core.
- rle.py: reading the argument list and the JSON input file are I/O. The script's output is modelled as a function of the argument count and the labels (`RunLength.OutputIsBracketedJoin`), usage message included.
- Canvas.ApplyDrawEvent: the rectangle outline between the stroke's ends is computed in floating point in the source (packages/drawing/src/drawing.ts:219-328). It is a parameter `outline` here, so which pixels the rasterized outline holds is not modelled.
- Stroke paths: the interpolated pixel path between a stroke's ends (floating-point line stepping) is the parameter `path` of `SharedDrawing.SmoothPaint` and `SegmentBuffers.UtilSmoothPaint`.
- AppColours.GetColor: the sine-based hash that turns an index into a colour is the parameter `hue`, so the model speaks of which index each entry uses, not of the colour values.
- SeededColours.GetColor: the seeded random stream (seedrandom) is the parameter `random`, read three draws per colour.
- DrawingLayer.IncrementSegments: the random colour of a new segment (`Math.random`) is left out.
- SegmentBuffers.UtilSmoothPaint: when a colour lookup in `draw` throws partway through a stroke, the source has already made the stroke's earlier stores and fills; the model returns only the error, without those partial writes.
- ServerDrawing.SmoothPaintServer: when a store or fill throws partway through a stroke, the source keeps the writes made before it; the model's thrown room keeps the draw node, the event and the counter, but the buffer as it was before the stroke.
- SegmentBuffers.SetSegment: segment ids are unbounded integers. The source stores them in an `Int32Array`, so wrap-around past 2^31 - 1 is not modelled.
- Stamping.TextureSquareAsWritten: it gives the byte positions the written code computes, which are fractional for odd lengths. What a typed array does with a fractional index (the write goes to an ordinary property, not an element) is not modelled.
- Stamping: the float-to-byte conversion of a colour and its alpha into channel bytes is not modelled; the channel bytes are given.
- Bft.PackageBft: the source's traversal does not end when the test accepts pixels without bound. The traversal therefore requires that the test passes only inside the canvas, and the unbounded case is left out.
- Bft.CommonBft: the same bounded-test requirement as `Bft.PackageBft`.
- Bft.PainterBft: the same bounded-test requirement as `Bft.PackageBft`.
- LayerRecompute.Bfs: the same bounded-test requirement as `Bft.PackageBft`.
- TexturePainterStates.Reduce: it requires that no division yields a non-finite float (a zero zoom, an empty background, a zero square root). The JavaScript result in those cases (`Infinity`, `NaN`) is not modelled.
- Vectors, Statistics, ControlsReducer and TexturePainterStates: JavaScript numbers in `THREE.Vector2`/`THREE.Color` arithmetic, the pan and zoom, and the statistics centroid are modelled as exact reals. IEEE rounding is not modelled. In particular, `Statistics.AddKeepsMean`, `Statistics.RemoveKeepsMean`, `Statistics.AddCentroid` and `Statistics.RemoveCentroid` state that the centroid is the exact mean, while the source's incremental float update can drift from it.
- ControlsReducer.Reduce: the pan bound `1 - 1/sqrt(zoom)` and the zoom ratio's square root are parameters (`panBound`, `ratioRoot`), since they are floating point.
- Statistics.Reduce: a centroid that would not be finite (a division by a zero count) is `None`, not `NaN`.
- The texture painter's tool factory only builds objects; it is left out. The tools it builds are modelled.
- DrawingLayer: colours, shader uniform updates and the statistics dispatch are left out; the boundary containers and segment bookkeeping are modelled.
- ServerDrawing: the `prev`/`next` links of the log nodes and their `numPixels` field (always 0) are not modelled. Nodes are identified by their position in the log.
- Canvas.SplitOnce: its contract states that `fill.points` and the remaining pending points lie inside the affected pending set and are disjoint, but not that together they are exactly the pending set. `Canvas.Rounded` pins down both sets exactly.
- `addCondensedStateEntry`, the draw and pan tools' event wiring, type-only modules, and the "reset" event that no handler handles: they hold no logic beyond what is modelled.

## Findings

| source | as written | input that shows it | evidently intended | confidence | as-written member | corrected member |
|---|---|---|---|---|---|---|
| apps/next-app/src/common/colors.ts:9-17 | `index` is computed once, before the loop that grows the cache, so every entry one call appends gets the same `hue(length + 1)`, and a segment's colour depends on which segments were asked for before it | segment 2 asked first gets `hue(1)`; asked after segments 0 and 1 it gets `hue(3)` | each appended entry `k` gets `hue(k + 1)`, so a segment's colour does not depend on the order of requests | not executed | AppColours.HistoryDependent | AppColours.IndexedStable |
| apps/next-app/src/components/texture-painter/tools/utils.ts:182-191 | the square's half side is the unrounded `length / 2`, so an odd length gives half-integer offsets and byte indices that are not multiples of 4 | a length-1 square at `(5, 5)` on a 10 by 10 texture writes from byte 198, which is not the start of any pixel | the floored half side of the painter tools, which writes whole pixels; the two agree on every even length | not executed | Stamping.HalfPixelSquare | Stamping.TextureSquareSpec |
| apps/next-app/src/common/drawing.ts:258-280 | a round counts the unclaimed pending points down once per passing test call, and the traversal tests a pixel once per visited neighbour, so a pending point met twice is counted twice and the round may report no split although a pending point stays unreached | the five-by-two canvas of `DoubleCount`, pending points `(0,0)`, `(2,0)`, `(4,0)`: the count reaches zero and the round does not relabel, while `(4,0)` is not reached | a round splits exactly when some unclaimed pending point lies outside the flooded piece. The effect holds per round only: a later round still splits the piece off, so the whole recomputation separates every piece, but under different ids | not executed | DoubleCount.MissedSplit | DoubleCount.IntendedSplit |

=== FILE: bft.dfy ===
/**
 * The four `breadthFirstTraversal` functions of the repository, each an
 * instance of the traversal in module Traversal: its neighbourhood, where
 * the test applies, and the container the visited points are returned in.
 */
module Bft {
  import opened Grid
  import opened JsCollections
  import opened Traversal
  import PointContainer

  /** `kAdjacency`: the four orthogonal offsets, in the order they are tried. */
  const Orthogonals: seq<Pos> := [Pos(0, 1), Pos(0, -1), Pos(1, 0), Pos(-1, 0)]

  /** The diagonal offsets appended when diagonals are allowed. */
  const Diagonals: seq<Pos> := [Pos(1, 1), Pos(1, -1), Pos(-1, 1), Pos(-1, -1)]

  function Neighbourhood(allowDiagonal: bool): (r: seq<Pos>)
    ensures |r| == if allowDiagonal then 8 else 4
    ensures r[..4] == Orthogonals
  {
    Orthogonals + if allowDiagonal then Diagonals else []
  }

  /**
   * packages/drawing: `start` is tested first (with an exit callback that
   * does nothing) and nothing is visited when it fails; neighbours are
   * tested as they are enqueued. Returns the `visited` set in insertion order.
   */
  method PackageBft<S(!new)>(start: Pos, test: (S, Pos) -> Verdict<S>, s0: S, allowDiagonal: bool,
                             ghost w: int, ghost h: int, ghost inv: S -> bool)
    returns (visited: JsSet<Pos>, trace: seq<Call<S>>, s: S)
    requires forall st, p :: test(st, p).pass ==> InBounds(w, h, p)
    ensures Threads(test, s0, trace) && s == After(s0, trace)
    ensures |trace| > 0 && trace[0] == Call(start, test(s0, start))
    ensures start in visited <==> test(s0, start).pass
    ensures !test(s0, start).pass ==> visited == [] && |trace| == 1
    ensures Connected(visited, start, Neighbourhood(allowDiagonal))
    ensures forall i :: 0 <= i < |visited| ==> InBounds(w, h, visited[i]) && PassedIn(trace, visited[i])
    ensures forall c :: 0 <= c < |trace| ==> trace[c].pos == start || NearOrder(visited, trace[c].pos, Neighbourhood(allowDiagonal))
    ensures ExitHalts(TestStartFirst, visited, trace, Neighbourhood(allowDiagonal))
    ensures Steady(test, inv, s0) ==> Closed(test, s0, visited, Neighbourhood(allowDiagonal))
    ensures Outcome(Setup(start, test, s0, Neighbourhood(allowDiagonal), TestStartFirst), visited, trace, s)
  {
    var order;
    order, trace, s := Traverse(start, test, s0, Neighbourhood(allowDiagonal), TestStartFirst, w, h, inv);
    visited := order;
  }

  /**
   * common/bft.ts: `start` is visited without being tested; neighbours
   * (diagonals included unless turned off) are tested as they are enqueued.
   */
  method CommonBft<S(!new)>(start: Pos, test: (S, Pos) -> Verdict<S>, s0: S, allowDiagonal: bool,
                            ghost w: int, ghost h: int, ghost inv: S -> bool)
    returns (visited: JsSet<Pos>, trace: seq<Call<S>>, s: S)
    requires forall st, p :: test(st, p).pass ==> InBounds(w, h, p)
    ensures Threads(test, s0, trace) && s == After(s0, trace)
    ensures |visited| > 0 && visited[0] == start
    ensures Connected(visited, start, Neighbourhood(allowDiagonal))
    ensures forall i :: 0 < i < |visited| ==> InBounds(w, h, visited[i]) && PassedIn(trace, visited[i])
    ensures forall c :: 0 <= c < |trace| ==>
      trace[c].pos == start || NearOrder(visited, trace[c].pos, Neighbourhood(allowDiagonal))
    ensures ExitHalts(StartUntested, visited, trace, Neighbourhood(allowDiagonal))
    ensures Steady(test, inv, s0) ==> Closed(test, s0, visited, Neighbourhood(allowDiagonal))
    ensures Outcome(Setup(start, test, s0, Neighbourhood(allowDiagonal), StartUntested), visited, trace, s)
  {
    var order;
    order, trace, s := Traverse(start, test, s0, Neighbourhood(allowDiagonal), StartUntested, w, h, inv);
    visited := order;
  }

  /** The visited points as a point container, each stored with `null` data (modelled as `()`). */
  function Recorded(order: seq<Pos>): seq<(Pos, ())>
  {
    seq(|order|, i requires 0 <= i < |order| => (order[i], ()))
  }

  lemma RecordedContainer(order: seq<Pos>)
    requires Distinct(order)
    ensures var c := PointContainer.SetAll(PointContainer.Empty(), Recorded(order));
      && PointContainer.SizeOk(c)
      && forall q :: PointContainer.HasPoint(c, q) <==> q in order
  {
    var es := Recorded(order);
    var c := PointContainer.SetAll(PointContainer.Empty(), es);
    PointContainer.EmptySizeOk<()>();
    PointContainer.SetAllSizeOk(PointContainer.Empty(), es);
    PointContainer.SetAllSpec(PointContainer.Empty(), es);
    forall q ensures PointContainer.HasPoint(c, q) <==> q in order {
      if q in order {
        var i :| 0 <= i < |order| && order[i] == q;
        assert es[i].0 == q;
      } else {
        assert !PointContainer.Mentions(es, q);
        assert PointContainer.GetPoint(PointContainer.Empty<()>(), q).None?;
      }
    }
  }

  /**
   * The painter and old_painter drawing-layer traversals: every dequeued
   * point is tested and visited only if it passes and is new; neighbours
   * (the caller's list) are tested as they are enqueued. The two files
   * differ only in the point container's surface syntax.
   */
  method PainterBft<S(!new)>(start: Pos, test: (S, Pos) -> Verdict<S>, s0: S, neighbours: seq<Pos>,
                             ghost w: int, ghost h: int, ghost inv: S -> bool)
    returns (visited: PointContainer.Container<()>, order: seq<Pos>, trace: seq<Call<S>>, s: S)
    requires forall st, p :: test(st, p).pass ==> InBounds(w, h, p)
    ensures PointContainer.SizeOk(visited)
    ensures forall q :: PointContainer.HasPoint(visited, q) <==> q in order
    ensures Distinct(order) && Connected(order, start, neighbours)
    ensures Threads(test, s0, trace) && s == After(s0, trace)
    ensures |trace| > 0 && trace[0] == Call(start, test(s0, start))
    ensures PointContainer.HasPoint(visited, start) <==> test(s0, start).pass
    ensures !test(s0, start).pass ==> visited.size == 0 && |trace| == 1
    ensures forall i :: 0 <= i < |order| ==> InBounds(w, h, order[i]) && PassedIn(trace, order[i])
    ensures ExitHalts(TestOnDequeue, order, trace, neighbours)
    ensures Steady(test, inv, s0) ==> Closed(test, s0, order, neighbours)
    ensures Outcome(Setup(start, test, s0, neighbours, TestOnDequeue), order, trace, s)
  {
    order, trace, s := Traverse(start, test, s0, neighbours, TestOnDequeue, w, h, inv);
    visited := PointContainer.SetAll(PointContainer.Empty(), Recorded(order));
    RecordedContainer(order);
    if !test(s0, start).pass {
      assert order == [];
      assert visited.size == |PointContainer.Points(visited)|;
      assert PointContainer.Points(visited) == {};
    }
  }
}

=== FILE: brushes.dfy ===
/**
 * Brush stencils: the lattice offsets of a disc, generated by the nested
 * loops `for x in [-r, r) for y in [-r, r)` (x outermost) and kept when
 * inside the disc, each with the flags that mark the disc's rim.
 *
 * Three flavours appear in the repository:
 *   - packages/drawing getBrush: `{offset, boundary}`, memoised per size;
 *   - the `{pos, boundaryEdges}` brushes of common/brush.ts (a table of 20
 *     sizes), util/drawing.ts and painter.tsx (diameter 20);
 *   - the bare offsets of painter/tools/utils.ts, which keep the rim
 *     (`<=` instead of `<`).
 */
module Brushes {
  import opened Wrappers
  import opened Grid
  import opened JsCollections

  // ---- The scan ----------------------------------------------------------

  /** Every point of `[-r, r)²`, in loop order. */
  function Scan(r: int): seq<Pos>
  {
    Block(-r, r, -r, r)
  }

  lemma ScanSpec(r: int)
    ensures forall p :: p in Scan(r) <==> -r <= p.x < r && -r <= p.y < r
    ensures Distinct(Scan(r))
  {
    BlockSpec(-r, r, -r, r);
  }

  /** Within the disc of radius `r`: strictly (`<`) or, when `closed`, rim included (`<=`). */
  predicate InDisc(r: int, p: Pos, closed: bool)
  {
    if closed then p.x * p.x + p.y * p.y <= r * r else Inside(r, p)
  }

  /** The loop body's `if`: the scanned points within the disc, in scan order. */
  function Keep(ps: seq<Pos>, r: int, closed: bool): seq<Pos>
  {
    if |ps| == 0 then []
    else (if InDisc(r, ps[0], closed) then [ps[0]] else []) + Keep(ps[1..], r, closed)
  }

  lemma {:induction false} KeepSpec(ps: seq<Pos>, r: int, closed: bool)
    ensures forall p :: p in Keep(ps, r, closed) <==> p in ps && InDisc(r, p, closed)
    ensures Distinct(ps) ==> Distinct(Keep(ps, r, closed))
    decreases |ps|
  {
    if |ps| > 0 {
      var rest := Keep(ps[1..], r, closed);
      KeepSpec(ps[1..], r, closed);
      assert ps == [ps[0]] + ps[1..];
      if Distinct(ps) {
        assert Distinct(ps[1..]) by {
          forall i, j | 0 <= i < j < |ps[1..]| ensures ps[1..][i] != ps[1..][j] {
            assert ps[1..][i] == ps[i + 1] && ps[1..][j] == ps[j + 1];
          }
        }
        assert ps[0] !in ps[1..];
        assert ps[0] !in rest;
      }
    }
  }

  /** The lattice points of `[-r, r)²` within the disc, in the order the loops visit them. */
  function Stencil(r: int, closed: bool): seq<Pos>
  {
    Keep(Scan(r), r, closed)
  }

  lemma StencilSpec(r: int, closed: bool)
    ensures forall p :: p in Stencil(r, closed) <==> -r <= p.x < r && -r <= p.y < r && InDisc(r, p, closed)
    ensures Distinct(Stencil(r, closed))
  {
    ScanSpec(r);
    KeepSpec(Scan(r), r, closed);
  }

  // ---- Geometry ----------------------------------------------------------

  /** `Math.ceil(n / 2)` for an integer `n`, which is also `Math.floor((n + 1) / 2)`. */
  function HalfUp(n: int): (r: int)
    ensures 2 * r - 1 <= n <= 2 * r
  {
    (n + 1) / 2
  }

  /** Strictly inside the disc of radius `r`. */
  predicate Inside(r: int, p: Pos)
  {
    p.x * p.x + p.y * p.y < r * r
  }

  lemma SquareBelow(x: int, r: int)
    requires 0 <= r && x * x < r * r
    ensures -r < x < r
  {
    if x >= r {
      MulMonotone(r, x, r);
      MulMonotone(r, x, x);
      assert false;
    } else if x <= -r {
      MulMonotone(r, -x, r);
      MulMonotone(r, -x, -x);
      assert false;
    }
  }

  lemma InsideInSquare(r: int, p: Pos)
    requires 0 <= r && Inside(r, p)
    ensures -r < p.x < r && -r < p.y < r
  {
    SquareBelow(p.x, r);
    SquareBelow(p.y, r);
  }

  // ---- packages/drawing getBrush ----------------------------------------

  datatype BrushPoint = BrushPoint(offset: Pos, boundary: bool)

  /** A rim point: one step outward along x, or along y, leaves the disc (`Math.sign(0)` is 0). */
  predicate Rim(r: int, p: Pos)
  {
    !Inside(r, Add(p, Pos(Sign(p.x), 0))) || !Inside(r, Add(p, Pos(0, Sign(p.y))))
  }

  /** Each offset with its rim flag. */
  function Flag(r: int, ps: seq<Pos>): seq<BrushPoint>
  {
    seq(|ps|, i requires 0 <= i < |ps| => BrushPoint(ps[i], Rim(r, ps[i])))
  }

  /** The points of the brush of `size`, radius `ceil(size / 2)`. */
  function Disc(size: int): seq<BrushPoint>
  {
    Flag(HalfUp(size), Stencil(HalfUp(size), false))
  }

  /**
   * Every point is strictly inside the disc and flagged exactly when it is
   * on the rim; every lattice point strictly inside is present, once.
   */
  lemma DiscSpec(size: int)
    requires size >= 0
    ensures forall i :: 0 <= i < |Disc(size)| ==>
      Inside(HalfUp(size), Disc(size)[i].offset) &&
      (Disc(size)[i].boundary <==> Rim(HalfUp(size), Disc(size)[i].offset))
    ensures forall p :: Inside(HalfUp(size), p) ==> BrushPoint(p, Rim(HalfUp(size), p)) in Disc(size)
    ensures forall i, j :: 0 <= i < j < |Disc(size)| ==> Disc(size)[i].offset != Disc(size)[j].offset
  {
    StencilSpec(HalfUp(size), false);
    forall p | Inside(HalfUp(size), p) ensures BrushPoint(p, Rim(HalfUp(size), p)) in Disc(size) {
      DiscHas(size, p);
    }
  }

  /** One inside lattice point is in the brush, with its rim flag. */
  lemma DiscHas(size: int, p: Pos)
    requires size >= 0 && Inside(HalfUp(size), p)
    ensures BrushPoint(p, Rim(HalfUp(size), p)) in Disc(size)
  {
    var r := HalfUp(size);
    var k := Stencil(r, false);
    StencilSpec(r, false);
    InsideInSquare(r, p);
    var i :| 0 <= i < |k| && k[i] == p;
    assert Disc(size)[i] == BrushPoint(p, Rim(r, p));
  }

  /** The centre of a brush of size at least 1 is in it and is not a rim point. */
  lemma CentreIsInterior(size: int)
    requires size >= 1
    ensures BrushPoint(Pos(0, 0), false) in Disc(size)
  {
    DiscSpec(size);
    assert Inside(HalfUp(size), Pos(0, 0));
  }

  /** The cache of generated brushes, keyed by `size - 5`. */
  type BrushCache = map<int, seq<BrushPoint>>

  const MinBrushSize := 5

  ghost predicate CacheOk(c: BrushCache)
  {
    forall i :: i in c ==> c[i] == Disc(i + MinBrushSize)
  }

  /**
   * `getBrush`: the cached brush when there is one (an empty list counts,
   * JavaScript arrays being truthy), otherwise a freshly generated and
   * stored one. Returns the brush and the new cache.
   */
  function GetBrush(c: BrushCache, size: int): (r: (seq<BrushPoint>, BrushCache))
    ensures size - MinBrushSize in r.1 && r.1[size - MinBrushSize] == r.0
    ensures forall i :: i in c ==> i in r.1 && r.1[i] == c[i]
    ensures r.1.Keys == c.Keys + {size - MinBrushSize}
    ensures CacheOk(c) ==> CacheOk(r.1) && r.0 == Disc(size)
  {
    if size - MinBrushSize in c then (c[size - MinBrushSize], c)
    else
      var c' := c[size - MinBrushSize := Disc(size)];
      CacheGrows(c, size);
      (Disc(size), c')
  }

  /** Storing a freshly generated brush under its key keeps a correct cache correct. */
  lemma CacheGrows(c: BrushCache, size: int)
    ensures CacheOk(c) ==> CacheOk(c[size - MinBrushSize := Disc(size)])
  {
    if CacheOk(c) {
      var c' := c[size - MinBrushSize := Disc(size)];
      forall i | i in c' ensures c'[i] == Disc(i + MinBrushSize) {
        CacheEntry(c, size, i);
      }
    }
  }

  /** One key of the grown cache holds the brush of its size. */
  lemma CacheEntry(c: BrushCache, size: int, i: int)
    requires CacheOk(c) && i in c[size - MinBrushSize := Disc(size)]
    ensures c[size - MinBrushSize := Disc(size)][i] == Disc(i + MinBrushSize)
  {
    if i == size - MinBrushSize {
      assert i + MinBrushSize == size;
    } else {
      assert i in c;
    }
  }

  /** Asking again for the same size returns the same list and leaves the cache alone. */
  lemma GetBrushRepeats(c: BrushCache, size: int)
    ensures var first := GetBrush(c, size);
      GetBrush(first.1, size) == (first.0, first.1)
  {
  }

  // ---- Brushes with boundary edges ---------------------------------------

  datatype EdgedPoint = EdgedPoint(pos: Pos, edges: seq<Pos>)

  /** `checkOffset`: record `offset` when the neighbour in that direction is outside the disc. */
  function CheckOffset(r: int, p: Pos, offset: Pos): seq<Pos>
  {
    if !Inside(r, Add(offset, p)) then [offset] else []
  }

  /** The rim edges of `p`: only the outward direction on each axis is checked. */
  function Edges(r: int, p: Pos): seq<Pos>
  {
    var xs := if p.x < 0 then CheckOffset(r, p, Pos(-1, 0))
              else if p.x > 0 then CheckOffset(r, p, Pos(1, 0))
              else [];
    var ys := if p.y < 0 then CheckOffset(r, p, Pos(0, -1))
              else if p.y > 0 then CheckOffset(r, p, Pos(0, 1))
              else [];
    xs + ys
  }

  /** An outward axis direction of `p`: away from the centre along x or along y. */
  predicate Outward(p: Pos, e: Pos)
  {
    (p.x != 0 && e == Pos(Sign(p.x), 0)) || (p.y != 0 && e == Pos(0, Sign(p.y)))
  }

  /**
   * At most two edges; an edge is recorded exactly when it is an outward
   * direction and the neighbour that way is outside the disc.
   */
  lemma EdgesSpec(r: int, p: Pos)
    ensures |Edges(r, p)| <= 2
    ensures forall e :: e in Edges(r, p) <==> Outward(p, e) && !Inside(r, Add(p, e))
  {
  }

  /** The edge list is non-empty exactly for the rim points of the flagged brush. */
  lemma EdgesMatchRim(r: int, p: Pos)
    requires Inside(r, p)
    ensures Edges(r, p) != [] <==> Rim(r, p)
  {
    EdgesSpec(r, p);
    if Rim(r, p) {
      if !Inside(r, Add(p, Pos(Sign(p.x), 0))) {
        assert p.x != 0;
        assert Pos(Sign(p.x), 0) in Edges(r, p);
      } else {
        assert p.y != 0;
        assert Pos(0, Sign(p.y)) in Edges(r, p);
      }
    }
  }

  /** Each position with its rim edges. */
  function EdgeAll(r: int, ps: seq<Pos>): seq<EdgedPoint>
  {
    seq(|ps|, i requires 0 <= i < |ps| => EdgedPoint(ps[i], Edges(r, ps[i])))
  }

  /** `createCirclePoints(diameter)` with boundary edges, radius `ceil(diameter / 2)`. */
  function EdgedDisc(diameter: int): seq<EdgedPoint>
  {
    EdgeAll(HalfUp(diameter), Stencil(HalfUp(diameter), false))
  }

  /** Every point is strictly inside with its rim edges; every inside lattice point is present, once. */
  lemma EdgedDiscSpec(diameter: int)
    requires diameter >= 0
    ensures forall i :: 0 <= i < |EdgedDisc(diameter)| ==>
      Inside(HalfUp(diameter), EdgedDisc(diameter)[i].pos) &&
      EdgedDisc(diameter)[i].edges == Edges(HalfUp(diameter), EdgedDisc(diameter)[i].pos)
    ensures forall p :: Inside(HalfUp(diameter), p) ==> EdgedPoint(p, Edges(HalfUp(diameter), p)) in EdgedDisc(diameter)
    ensures forall i, j :: 0 <= i < j < |EdgedDisc(diameter)| ==> EdgedDisc(diameter)[i].pos != EdgedDisc(diameter)[j].pos
  {
    StencilSpec(HalfUp(diameter), false);
    forall p | Inside(HalfUp(diameter), p) ensures EdgedPoint(p, Edges(HalfUp(diameter), p)) in EdgedDisc(diameter) {
      EdgedDiscHas(diameter, p);
    }
  }

  /** One inside lattice point is in the edged disc, with its rim edges. */
  lemma EdgedDiscHas(diameter: int, p: Pos)
    requires diameter >= 0 && Inside(HalfUp(diameter), p)
    ensures EdgedPoint(p, Edges(HalfUp(diameter), p)) in EdgedDisc(diameter)
  {
    var r := HalfUp(diameter);
    var k := Stencil(r, false);
    StencilSpec(r, false);
    InsideInSquare(r, p);
    var i :| 0 <= i < |k| && k[i] == p;
    assert EdgedDisc(diameter)[i] == EdgedPoint(p, Edges(r, p));
  }

  /** The two stencil generators agree: same offsets in the same order, and edges exactly at the rim. */
  lemma EdgedDiscMatchesDisc(size: int)
    ensures |EdgedDisc(size)| == |Disc(size)|
    ensures forall i :: 0 <= i < |Disc(size)| ==>
      EdgedDisc(size)[i].pos == Disc(size)[i].offset &&
      (EdgedDisc(size)[i].edges != [] <==> Disc(size)[i].boundary)
  {
    var r := HalfUp(size);
    StencilSpec(r, false);
    forall i | 0 <= i < |Disc(size)|
      ensures EdgedDisc(size)[i].edges != [] <==> Disc(size)[i].boundary
    {
      assert Stencil(r, false)[i] in Stencil(r, false);
      EdgesMatchRim(r, Stencil(r, false)[i]);
    }
  }

  // ---- common/brush.ts ---------------------------------------------------

  const MaxBrushSize := 100
  const BrushSizeInterval := 5

  /** The number of `kBrushes` entries. */
  const TableSize: nat := (MaxBrushSize - MinBrushSize) / BrushSizeInterval + 1

  /**
   * Entry `index` of `kBrushes`, which the module fills with the brushes of
   * sizes 5, 10, …, 100 in order; it is written per index so that no proof
   * evaluates the whole table.
   */
  function KBrush(index: int): seq<EdgedPoint>
    requires 0 <= index < TableSize
  {
    EdgedDisc(MinBrushSize + BrushSizeInterval * index)
  }

  /** Table index arithmetic: `5 + 5 * floor((size - 5) / 5)` rounds `size` down to a multiple of 5. */
  lemma RoundDown(size: int, index: int)
    requires index == (size - 5) / 5
    ensures MinBrushSize + BrushSizeInterval * index == size - size % 5
    ensures 0 <= index < TableSize <==> 5 <= size < 105
  {
  }

  /** The entry `getBrush` picks for `size` exists exactly for sizes 5 to 104 and is the brush of `size` rounded down. */
  lemma EntryFor(size: int, index: int)
    requires index == (size - 5) / 5
    ensures 0 <= index < TableSize <==> 5 <= size < 105
    ensures 0 <= index < TableSize ==> KBrush(index) == EdgedDisc(size - size % 5)
  {
    RoundDown(size, index);
  }

  /**
   * `getBrush`: the table entry `floor((size - 5) / 5)`, `undefined` outside
   * the table; inside it, the brush of the size rounded down to a multiple of 5.
   */
  function CommonGetBrush(size: int): (r: Option<seq<EdgedPoint>>)
    ensures r.Some? <==> MinBrushSize <= size < MaxBrushSize + BrushSizeInterval
    ensures r.Some? ==> r.value == EdgedDisc(size - size % 5)
  {
    var index := (size - MinBrushSize) / BrushSizeInterval;
    EntryFor(size, index);
    if 0 <= index < TableSize then Some(KBrush(index)) else None
  }

  /** The diameter of `kBrushPoints` in util/drawing.ts: the util stroke stamps `EdgedDisc(PainterBrushDiameter)`. */
  const PainterBrushDiameter := 20


  // ---- painter/tools/utils.ts --------------------------------------------

  /** The tools' `createCirclePoints`: offsets of `[-r, r)²` with `x² + y² <= r²`, radius `floor((d + 1) / 2)`. */
  function ToolCircle(diameter: int): seq<Pos>
  {
    Stencil(HalfUp(diameter), true)
  }

  lemma ToolCircleSpec(diameter: int)
    ensures forall p :: p in ToolCircle(diameter) <==>
      -HalfUp(diameter) <= p.x < HalfUp(diameter) && -HalfUp(diameter) <= p.y < HalfUp(diameter) &&
      InDisc(HalfUp(diameter), p, true)
    ensures Distinct(ToolCircle(diameter))
  {
    StencilSpec(HalfUp(diameter), true);
  }

  /** `(-r, 0)` lies on the circle of radius `r`: in the closed disc, not strictly inside. */
  lemma OnCircle(r: int)
    ensures InDisc(r, Pos(-r, 0), true)
    ensures !Inside(r, Pos(-r, 0))
  {
  }

  /** The tools' circle keeps the far-left offset `(-r, 0)`, which the flagged brush never has. */
  lemma ToolCircleKeepsLeftmost(diameter: int)
    requires diameter >= 1
    ensures Pos(-HalfUp(diameter), 0) in ToolCircle(diameter)
    ensures !Inside(HalfUp(diameter), Pos(-HalfUp(diameter), 0))
  {
    ToolCircleSpec(diameter);
    OnCircle(HalfUp(diameter));
  }
}

=== FILE: canvas.dfy ===
/**
 * The segmented canvas of packages/drawing: every painted pixel stores the
 * id of the segment it belongs to and how many of its four orthogonal
 * neighbours are in the same segment (saturating at 4; a pixel with fewer
 * than four is a boundary pixel). Painting keeps those counts up to date
 * incrementally.
 */
module Canvas {
  import opened Wrappers
  import opened Grid
  import opened JsCollections
  import opened Traversal
  import opened Bft
  import Brushes

  /** The possible number of same-segment neighbours. */
  type Count = n: int | 0 <= n <= 4

  datatype PixelData = PixelData(segment: int, neighbours: Count)

  /**
   * The canvas state: the resolution, the sparse pixel array indexed
   * `y*w + x` (a missing key is an unpainted pixel) and the next unused
   * segment id.
   */
  datatype State = State(w: int, h: int, canvas: map<int, PixelData>, next: int)

  /** One call of `onUpdateSegment`: position, the data before (`None` when unpainted) and after. */
  datatype Update = Update(pos: Pos, before: Option<PixelData>, after: PixelData)

  /** `getPixelData`: the entry at the position's index, for any position. */
  function At(st: State, p: Pos): Option<PixelData>
  {
    if Index(st.w, p) in st.canvas then Some(st.canvas[Index(st.w, p)]) else None
  }

  /** The segment of an in-bounds painted pixel. */
  function SegmentAt(st: State, p: Pos): Option<int>
  {
    if InBounds(st.w, st.h, p) && Index(st.w, p) in st.canvas then Some(st.canvas[Index(st.w, p)].segment)
    else None
  }

  /** The segment ids of the canvas, forgetting the counts. */
  function Segments(c: map<int, PixelData>): map<int, int>
  {
    map i | i in c :: c[i].segment
  }

  // ---- Neighbour counts --------------------------------------------------

  function Inc(n: Count): (r: Count)
    ensures r == if n < 4 then n + 1 else 4
  {
    match n
    case 0 => 1
    case 1 => 2
    case 2 => 3
    case 3 => 4
    case 4 => 4
  }

  function Dec(n: Count): (r: Count)
    ensures r == if n > 0 then n - 1 else 0
  {
    match n
    case 0 => 0
    case 1 => 0
    case 2 => 1
    case 3 => 2
    case 4 => 3
  }

  /** Away from the saturation points the two counters undo each other. */
  lemma IncDecInverse(n: Count)
    ensures n < 4 ==> Dec(Inc(n)) == n
    ensures n > 0 ==> Inc(Dec(n)) == n
  {
  }

  // ---- Setting one pixel -------------------------------------------------

  /**
   * `setSegment`: stores `(segment, count)` at `p` and reports an update
   * exactly when the pixel was unpainted or held something else.
   */
  function SetSegment(st: State, p: Pos, count: Count, segment: int): (r: (State, seq<Update>))
    ensures r.0.w == st.w && r.0.h == st.h && r.0.next == st.next
    ensures Index(st.w, p) in r.0.canvas && r.0.canvas[Index(st.w, p)] == PixelData(segment, count)
    ensures r.0.canvas.Keys == st.canvas.Keys + {Index(st.w, p)}
    ensures forall i :: i in st.canvas && i != Index(st.w, p) ==> r.0.canvas[i] == st.canvas[i]
    ensures r.1 != [] <==> At(st, p) != Some(PixelData(segment, count))
    ensures r.1 != [] ==> r.1 == [Update(p, At(st, p), PixelData(segment, count))]
  {
    var data := PixelData(segment, count);
    if At(st, p) == Some(data) then (st, [])
    else (st.(canvas := st.canvas[Index(st.w, p) := data]), [Update(p, At(st, p), data)])
  }

  /**
   * Whether painting a pixel that held `data` with `segment` changes the
   * count of a painted neighbour holding `nd`: only when the pixel changes
   * segment, and then for neighbours of the new segment (one more) or of
   * the old one (one fewer).
   */
  predicate Moves(nd: PixelData, segment: int, data: Option<PixelData>)
  {
    && (data.None? || data.value.segment != segment)
    && (nd.segment == segment || (data.Some? && data.value.segment == nd.segment))
  }

  function Adjust(nd: PixelData, segment: int, data: Option<PixelData>): PixelData
  {
    if !Moves(nd, segment, data) then nd
    else if nd.segment == segment then nd.(neighbours := Inc(nd.neighbours))
    else nd.(neighbours := Dec(nd.neighbours))
  }

  /** One iteration of the neighbour loop of `setBoundarySegment`, at neighbour `q`. */
  function Visit(st: State, q: Pos, segment: int, data: Option<PixelData>, count: Count): (r: (State, Count, seq<Update>))
    ensures r.0.w == st.w && r.0.h == st.h && r.0.next == st.next
    ensures r.0.canvas.Keys == st.canvas.Keys
    ensures Segments(r.0.canvas) == Segments(st.canvas)
    ensures forall i :: i in st.canvas && i != Index(st.w, q) ==> r.0.canvas[i] == st.canvas[i]
    ensures InBounds(st.w, st.h, q) && Index(st.w, q) in st.canvas ==>
      r.0.canvas[Index(st.w, q)] == Adjust(st.canvas[Index(st.w, q)], segment, data)
    ensures r.1 == if SegmentAt(st, q) == Some(segment) then Inc(count) else count
    ensures forall u :: u in r.2 ==> u.pos == q && InBounds(st.w, st.h, q)
  {
    if !InBounds(st.w, st.h, q) || Index(st.w, q) !in st.canvas then (st, count, [])
    else
      var nd := st.canvas[Index(st.w, q)];
      var c := if nd.segment == segment then Inc(count) else count;
      if Moves(nd, segment, data) then
        var nd' := Adjust(nd, segment, data);
        (st.(canvas := st.canvas[Index(st.w, q) := nd']), c, [Update(q, Some(nd'), nd')])
      else (st, c, [])
  }

  /** 1 when `q` is painted with segment `s`. */
  function Same(st: State, q: Pos, s: int): nat
  {
    if SegmentAt(st, q) == Some(s) then 1 else 0
  }

  /** How many of `p`'s orthogonal neighbours, from the `k`-th of `kAdjacency` on, are painted with `s`. */
  function TallyFrom(st: State, p: Pos, s: int, k: nat): nat
    requires k <= 4
    decreases 4 - k
  {
    if k == 4 then 0 else Same(st, Add(p, Orthogonals[k]), s) + TallyFrom(st, p, s, k + 1)
  }

  /** The number of `p`'s orthogonal neighbours painted with segment `s`. */
  function Tally(st: State, p: Pos, s: int): nat
  {
    Same(st, Pos(p.x, p.y + 1), s) + Same(st, Pos(p.x, p.y - 1), s)
    + Same(st, Pos(p.x + 1, p.y), s) + Same(st, Pos(p.x - 1, p.y), s)
  }

  /** The index of one of `p`'s in-bounds neighbours from the `k`-th of `kAdjacency` on. */
  predicate NeighbourIndex(w: int, h: int, p: Pos, k: nat, i: int)
  {
    exists j :: k <= j < 4 && InBounds(w, h, Add(p, Orthogonals[j])) && i == Index(w, Add(p, Orthogonals[j]))
  }

  /** The neighbour loop of `setBoundarySegment` from the `k`-th neighbour on. */
  function Survey(st: State, p: Pos, segment: int, data: Option<PixelData>, k: nat, count: Count)
    : (r: (State, Count, seq<Update>))
    requires k <= 4 && count <= k
    ensures r.0.w == st.w && r.0.h == st.h && r.0.next == st.next
    ensures r.0.canvas.Keys == st.canvas.Keys
    ensures Segments(r.0.canvas) == Segments(st.canvas)
    decreases 4 - k
  {
    if k == 4 then (st, count, [])
    else
      var v := Visit(st, Add(p, Orthogonals[k]), segment, data, count);
      var rest := Survey(v.0, p, segment, data, k + 1, v.1);
      (rest.0, rest.1, v.2 + rest.2)
  }

  /** The loop counts the neighbours already painted with the new segment. */
  lemma {:induction false} SurveyCount(st: State, p: Pos, segment: int, data: Option<PixelData>, k: nat, count: Count)
    requires k <= 4 && count <= k
    ensures Survey(st, p, segment, data, k, count).1 == count + TallyFrom(st, p, segment, k)
    decreases 4 - k
  {
    if k < 4 {
      var v := Visit(st, Add(p, Orthogonals[k]), segment, data, count);
      SameFrame(st, v.0, p, segment, k + 1);
      SurveyCount(v.0, p, segment, data, k + 1, v.1);
    }
  }

  /** Two different neighbours of an in-bounds pixel never share an index. */
  lemma NeighboursApart(w: int, h: int, p: Pos, j: nat, j': nat)
    requires j < 4 && j' < 4 && j != j'
    requires InBounds(w, h, Add(p, Orthogonals[j])) && InBounds(w, h, Add(p, Orthogonals[j']))
    ensures Index(w, Add(p, Orthogonals[j])) != Index(w, Add(p, Orthogonals[j']))
  {
    if Index(w, Add(p, Orthogonals[j])) == Index(w, Add(p, Orthogonals[j'])) {
      IndexInjective(w, h, Add(p, Orthogonals[j]), Add(p, Orthogonals[j']));
      assert false;
    }
  }

  /** Each painted neighbour gets its adjusted count; every other pixel is left alone. */
  lemma {:induction false} SurveyPixels(st: State, p: Pos, segment: int, data: Option<PixelData>, k: nat, count: Count)
    requires k <= 4 && count <= k
    ensures var r := Survey(st, p, segment, data, k, count);
      forall j :: k <= j < 4 && InBounds(st.w, st.h, Add(p, Orthogonals[j])) && Index(st.w, Add(p, Orthogonals[j])) in st.canvas ==>
        r.0.canvas[Index(st.w, Add(p, Orthogonals[j]))] == Adjust(st.canvas[Index(st.w, Add(p, Orthogonals[j]))], segment, data)
    ensures var r := Survey(st, p, segment, data, k, count);
      forall i :: i in st.canvas && !NeighbourIndex(st.w, st.h, p, k, i) ==> r.0.canvas[i] == st.canvas[i]
    decreases 4 - k
  {
    if k < 4 {
      var q := Add(p, Orthogonals[k]);
      var v := Visit(st, q, segment, data, count);
      SurveyPixels(v.0, p, segment, data, k + 1, v.1);
      var r := Survey(st, p, segment, data, k, count);
      assert r.0 == Survey(v.0, p, segment, data, k + 1, v.1).0;
      forall j | k <= j < 4 && InBounds(st.w, st.h, Add(p, Orthogonals[j])) && Index(st.w, Add(p, Orthogonals[j])) in st.canvas
        ensures r.0.canvas[Index(st.w, Add(p, Orthogonals[j]))] == Adjust(st.canvas[Index(st.w, Add(p, Orthogonals[j]))], segment, data)
      {
        var i := Index(st.w, Add(p, Orthogonals[j]));
        if j == k {
          forall j' | k + 1 <= j' < 4 && InBounds(st.w, st.h, Add(p, Orthogonals[j']))
            ensures i != Index(st.w, Add(p, Orthogonals[j']))
          {
            NeighboursApart(st.w, st.h, p, j, j');
          }
          assert !NeighbourIndex(st.w, st.h, p, k + 1, i);
        } else {
          if InBounds(st.w, st.h, q) {
            NeighboursApart(st.w, st.h, p, j, k);
          }
          assert v.0.canvas[i] == st.canvas[i];
        }
      }
    }
  }

  /** Every reported neighbour update is at an in-bounds orthogonal neighbour. */
  lemma {:induction false} SurveyLog(st: State, p: Pos, segment: int, data: Option<PixelData>, k: nat, count: Count)
    requires k <= 4 && count <= k
    ensures forall u :: u in Survey(st, p, segment, data, k, count).2 ==> InBounds(st.w, st.h, u.pos) && OrthNeighbours(p, u.pos)
    decreases 4 - k
  {
    if k < 4 {
      var v := Visit(st, Add(p, Orthogonals[k]), segment, data, count);
      SurveyLog(v.0, p, segment, data, k + 1, v.1);
    }
  }

  /** Changing only counts leaves every segment and hence every tally as it was. */
  lemma SameFrame(st: State, st': State, p: Pos, s: int, k: nat)
    requires k <= 4
    requires st'.w == st.w && st'.h == st.h
    requires st'.canvas.Keys == st.canvas.Keys && Segments(st'.canvas) == Segments(st.canvas)
    ensures TallyFrom(st', p, s, k) == TallyFrom(st, p, s, k)
    ensures forall q :: SegmentAt(st', q) == SegmentAt(st, q)
  {
    forall q ensures SegmentAt(st', q) == SegmentAt(st, q) {
      var i := Index(st.w, q);
      if i in st.canvas {
        assert Segments(st'.canvas)[i] == Segments(st.canvas)[i];
      }
    }
    TallyFromFrame(st, st', p, s, k);
  }

  lemma {:induction false} TallyFromFrame(st: State, st': State, p: Pos, s: int, k: nat)
    requires k <= 4
    requires forall q :: SegmentAt(st', q) == SegmentAt(st, q)
    ensures TallyFrom(st', p, s, k) == TallyFrom(st, p, s, k)
    decreases 4 - k
  {
    if k < 4 {
      TallyFromFrame(st, st', p, s, k + 1);
    }
  }

  /** The loop's tally is the four-term count. */
  lemma TallyUnrolled(st: State, p: Pos, s: int)
    ensures TallyFrom(st, p, s, 0) == Tally(st, p, s)
  {
  }

  /**
   * `setBoundarySegment`: counts the neighbours already in `segment`,
   * adjusts the neighbours' counts when the pixel changes segment, then
   * stores the pixel with its count.
   */
  function SetBoundarySegment(st: State, p: Pos, segment: int): (r: (State, seq<Update>))
    ensures r.0.w == st.w && r.0.h == st.h && r.0.next == st.next
  {
    var s := Survey(st, p, segment, At(st, p), 0, 0);
    var t := SetSegment(s.0, p, s.1, segment);
    (t.0, s.2 + t.1)
  }

  /** `setNonBoundarySegment`: the pixel is stored as having all four neighbours in its segment. */
  function SetNonBoundarySegment(st: State, p: Pos, segment: int): (r: (State, seq<Update>))
    ensures r.0.w == st.w && r.0.h == st.h && r.0.next == st.next
  {
    SetSegment(st, p, 4, segment)
  }

  /** `st'` is `st` with the pixel at `p` now in `segment` and every other segment as it was. */
  ghost predicate Relabels(st: State, st': State, p: Pos, segment: int)
  {
    && st'.w == st.w && st'.h == st.h && st'.next == st.next
    && SegmentAt(st', p) == Some(segment)
    && forall q :: q != p ==> SegmentAt(st', q) == SegmentAt(st, q)
  }

  /** Writing one in-bounds index leaves the segment of every other position as it was. */
  lemma WriteFrame(st: State, st': State, p: Pos)
    requires InBounds(st.w, st.h, p) && st'.w == st.w && st'.h == st.h
    requires st'.canvas.Keys == st.canvas.Keys + {Index(st.w, p)}
    requires forall i :: i in st.canvas && i != Index(st.w, p) ==> st'.canvas[i].segment == st.canvas[i].segment
    ensures forall q :: q != p ==> SegmentAt(st', q) == SegmentAt(st, q)
  {
    forall q | q != p ensures SegmentAt(st', q) == SegmentAt(st, q) {
      if InBounds(st.w, st.h, q) && Index(st.w, q) == Index(st.w, p) {
        IndexInjective(st.w, st.h, p, q);
      }
    }
  }

  /**
   * Painting a boundary pixel relabels exactly that pixel, stores the
   * number of its neighbours already in the segment, and reports updates
   * only at the pixel and its in-bounds neighbours.
   */
  lemma SetBoundarySegmentSpec(st: State, p: Pos, segment: int)
    requires InBounds(st.w, st.h, p)
    ensures var r := SetBoundarySegment(st, p, segment);
      && Relabels(st, r.0, p, segment)
      && r.0.canvas.Keys == st.canvas.Keys + {Index(st.w, p)}
      && Segments(r.0.canvas) == Segments(st.canvas)[Index(st.w, p) := segment]
      && r.0.canvas[Index(st.w, p)].neighbours == Tally(st, p, segment)
      && forall u :: u in r.1 ==> InBounds(st.w, st.h, u.pos) && (u.pos == p || OrthNeighbours(p, u.pos))
  {
    var s := Survey(st, p, segment, At(st, p), 0, 0);
    var t := SetSegment(s.0, p, s.1, segment);
    SurveyCount(st, p, segment, At(st, p), 0, 0);
    TallyUnrolled(st, p, segment);
    SurveyLog(st, p, segment, At(st, p), 0, 0);
    SameFrame(st, s.0, p, segment, 0);
    forall i | i in s.0.canvas && i != Index(st.w, p) ensures t.0.canvas[i].segment == st.canvas[i].segment {
      assert Segments(s.0.canvas)[i] == Segments(st.canvas)[i];
    }
    WriteFrame(st, t.0, p);
    SetSegmentSegments(s.0, p, s.1, segment);
  }

  /** Storing a pixel sets its index in the segment view and nothing else. */
  lemma SetSegmentSegments(st: State, p: Pos, count: Count, segment: int)
    ensures Segments(SetSegment(st, p, count, segment).0.canvas) == Segments(st.canvas)[Index(st.w, p) := segment]
  {
  }

  /** Painting an interior pixel relabels exactly that pixel and reports at most its own update. */
  lemma SetNonBoundarySegmentSpec(st: State, p: Pos, segment: int)
    requires InBounds(st.w, st.h, p)
    ensures var r := SetNonBoundarySegment(st, p, segment);
      && Relabels(st, r.0, p, segment)
      && r.0.canvas.Keys == st.canvas.Keys + {Index(st.w, p)}
      && Segments(r.0.canvas) == Segments(st.canvas)[Index(st.w, p) := segment]
      && r.0.canvas[Index(st.w, p)].neighbours == 4
      && forall u :: u in r.1 ==> u.pos == p
  {
    WriteFrame(st, SetNonBoundarySegment(st, p, segment).0, p);
    SetSegmentSegments(st, p, 4, segment);
  }

  // ---- Exact counts -------------------------------------------------------

  /** The stored count of a painted pixel is its number of same-segment neighbours. */
  ghost predicate Exact(st: State, q: Pos)
  {
    InBounds(st.w, st.h, q) && Index(st.w, q) in st.canvas ==>
      st.canvas[Index(st.w, q)].neighbours == Tally(st, q, st.canvas[Index(st.w, q)].segment)
  }

  /** A relabelling at `p` shifts a neighbour's tally by what `p` gained and lost. */
  lemma TallyShift(st: State, st': State, q: Pos, s: int, p: Pos)
    requires st'.w == st.w && st'.h == st.h
    requires forall r :: r != p ==> SegmentAt(st', r) == SegmentAt(st, r)
    ensures Tally(st', q, s) == Tally(st, q, s) + if OrthNeighbours(q, p) then Same(st', p, s) - Same(st, p, s) else 0
  {
  }

  lemma OffsetIsNeighbour(p: Pos, j: nat)
    requires j < 4
    ensures OrthNeighbours(p, Add(p, Orthogonals[j]))
  {
  }

  lemma NeighbourOffset(p: Pos, q: Pos) returns (j: nat)
    requires OrthNeighbours(p, q)
    ensures j < 4 && q == Add(p, Orthogonals[j])
  {
    if q == Pos(p.x, p.y + 1) { j := 0; }
    else if q == Pos(p.x, p.y - 1) { j := 1; }
    else if q == Pos(p.x + 1, p.y) { j := 2; }
    else { j := 3; }
  }

  /**
   * The incremental bookkeeping is exact: if every stored count equals the
   * true number of same-segment neighbours before a boundary pixel is
   * painted, the same holds afterwards, for the pixel and all the others.
   */
  lemma BoundaryKeepsExact(st: State, p: Pos, segment: int)
    requires InBounds(st.w, st.h, p)
    requires forall q :: Exact(st, q)
    ensures forall q :: Exact(SetBoundarySegment(st, p, segment).0, q)
  {
    SetBoundarySegmentSpec(st, p, segment);
    SurveyPixels(st, p, segment, At(st, p), 0, 0);
    assert Surveyed(st, p, segment);
    forall q ensures Exact(SetBoundarySegment(st, p, segment).0, q) {
      ExactAt(st, p, segment, q);
    }
  }

  /** What `BoundaryKeepsExact` knows of the write of `p` and of the neighbour survey. */
  ghost predicate Surveyed(st: State, p: Pos, segment: int)
    requires InBounds(st.w, st.h, p)
  {
    && (var st' := SetBoundarySegment(st, p, segment).0;
        && Relabels(st, st', p, segment)
        && st'.canvas.Keys == st.canvas.Keys + {Index(st.w, p)}
        && st'.canvas[Index(st.w, p)].neighbours == Tally(st, p, segment))
    && (var s := Survey(st, p, segment, At(st, p), 0, 0);
        && (forall j :: 0 <= j < 4 && InBounds(st.w, st.h, Add(p, Orthogonals[j])) && Index(st.w, Add(p, Orthogonals[j])) in st.canvas ==>
              s.0.canvas[Index(st.w, Add(p, Orthogonals[j]))] == Adjust(st.canvas[Index(st.w, Add(p, Orthogonals[j]))], segment, At(st, p)))
        && (forall i :: i in st.canvas && !NeighbourIndex(st.w, st.h, p, 0, i) ==> s.0.canvas[i] == st.canvas[i]))
  }

  /** The per-position case split of `BoundaryKeepsExact`. */
  lemma ExactAt(st: State, p: Pos, segment: int, q: Pos)
    requires InBounds(st.w, st.h, p) && Exact(st, q) && Surveyed(st, p, segment)
    ensures Exact(SetBoundarySegment(st, p, segment).0, q)
  {
    var st' := SetBoundarySegment(st, p, segment).0;
    var i := Index(st.w, q);
    if InBounds(st.w, st.h, q) && i in st'.canvas && q != p {
      if OrthNeighbours(p, q) {
        ExactNear(st, p, segment, q);
      } else {
        ExactAway(st, p, segment, q);
      }
    } else if q == p {
      TallyShift(st, st', p, segment, p);
    }
  }

  /** A written neighbour of `p` gets its count adjusted by the survey. */
  lemma ExactNear(st: State, p: Pos, segment: int, q: Pos)
    requires InBounds(st.w, st.h, p) && Exact(st, q) && Surveyed(st, p, segment)
    requires InBounds(st.w, st.h, q) && Index(st.w, q) in SetBoundarySegment(st, p, segment).0.canvas && q != p
    requires OrthNeighbours(p, q)
    ensures Exact(SetBoundarySegment(st, p, segment).0, q)
  {
    var st' := SetBoundarySegment(st, p, segment).0;
    var s := Survey(st, p, segment, At(st, p), 0, 0);
    var i := Index(st.w, q);
    if i == Index(st.w, p) {
      IndexInjective(st.w, st.h, p, q);
    }
    assert st'.canvas[i] == s.0.canvas[i];
    var j := NeighbourOffset(p, q);
    OrthSymmetric(p, q);
    NeighbourDelta(st, st', p, q, segment, At(st, p));
  }

  /** A written pixel away from `p` is untouched by the survey. */
  lemma ExactAway(st: State, p: Pos, segment: int, q: Pos)
    requires InBounds(st.w, st.h, p) && Exact(st, q) && Surveyed(st, p, segment)
    requires InBounds(st.w, st.h, q) && Index(st.w, q) in SetBoundarySegment(st, p, segment).0.canvas && q != p
    requires !OrthNeighbours(p, q)
    ensures Exact(SetBoundarySegment(st, p, segment).0, q)
  {
    var st' := SetBoundarySegment(st, p, segment).0;
    var s := Survey(st, p, segment, At(st, p), 0, 0);
    var i := Index(st.w, q);
    if i == Index(st.w, p) {
      IndexInjective(st.w, st.h, p, q);
    }
    assert st'.canvas[i] == s.0.canvas[i];
    if NeighbourIndex(st.w, st.h, p, 0, i) {
      var j :| 0 <= j < 4 && InBounds(st.w, st.h, Add(p, Orthogonals[j])) && i == Index(st.w, Add(p, Orthogonals[j]));
      IndexInjective(st.w, st.h, q, Add(p, Orthogonals[j]));
      OffsetIsNeighbour(p, j);
      assert false;
    }
    OrthSymmetric(q, p);
    ExactFar(st, st', p, q);
  }

  /** A pixel that is neither `p` nor next to it keeps its data and its tally. */
  lemma ExactFar(st: State, st': State, p: Pos, q: Pos)
    requires InBounds(st.w, st.h, q) && !OrthNeighbours(q, p) && Exact(st, q)
    requires st'.w == st.w && st'.h == st.h
    requires forall r :: r != p ==> SegmentAt(st', r) == SegmentAt(st, r)
    requires Index(st.w, q) in st.canvas && Index(st.w, q) in st'.canvas
    requires st'.canvas[Index(st.w, q)] == st.canvas[Index(st.w, q)]
    ensures Exact(st', q)
  {
    TallyShift(st, st', q, st.canvas[Index(st.w, q)].segment, p);
  }

  lemma OrthSymmetric(p: Pos, q: Pos)
    ensures OrthNeighbours(p, q) <==> OrthNeighbours(q, p)
  {
  }

  /** The count arithmetic at one painted neighbour `q` of `p`. */
  lemma NeighbourDelta(st: State, st': State, p: Pos, q: Pos, segment: int, data: Option<PixelData>)
    requires InBounds(st.w, st.h, p) && InBounds(st.w, st.h, q) && OrthNeighbours(q, p)
    requires Index(st.w, q) in st.canvas && Index(st.w, q) in st'.canvas && Exact(st, q)
    requires data == At(st, p) && Relabels(st, st', p, segment) && st'.canvas.Keys == st.canvas.Keys + {Index(st.w, p)}
    requires st'.canvas[Index(st.w, q)] == Adjust(st.canvas[Index(st.w, q)], segment, data)
    ensures Exact(st', q)
  {
    var nd := st.canvas[Index(st.w, q)];
    TallyShift(st, st', q, nd.segment, p);
    TallyHasTerm(st, q, p, nd.segment);
  }

  /** A neighbour's own term is part of the tally, so the rest is at most three. */
  lemma TallyHasTerm(st: State, q: Pos, p: Pos, s: int)
    requires OrthNeighbours(q, p)
    ensures Same(st, p, s) <= Tally(st, q, s) <= 3 + Same(st, p, s)
  {
  }

  // ---- Applying a stroke ----------------------------------------------------

  /** A draw response without its history index: a stroke from `from` to `to` in `segment`. */
  datatype Stroke = Stroke(from: Pos, to: Pos, size: int, segment: int)

  /** On the outermost ring of the canvas. */
  predicate OnCanvasBoundary(st: State, p: Pos)
  {
    p.x == 0 || p.y == 0 || p.x == st.w - 1 || p.y == st.h - 1
  }

  /** Paints one in-bounds pixel, counting its neighbours when it may be a boundary pixel. */
  function PaintPixel(st: State, p: Pos, segment: int, boundary: bool): (r: (State, seq<Update>))
    ensures r.0.w == st.w && r.0.h == st.h && r.0.next == st.next
  {
    if boundary || OnCanvasBoundary(st, p) then SetBoundarySegment(st, p, segment)
    else SetNonBoundarySegment(st, p, segment)
  }

  lemma PaintPixelSpec(st: State, p: Pos, segment: int, boundary: bool)
    requires InBounds(st.w, st.h, p)
    ensures Relabels(st, PaintPixel(st, p, segment, boundary).0, p, segment)
    ensures Repaints(st, PaintPixel(st, p, segment, boundary).0, segment)
    ensures forall u :: u in PaintPixel(st, p, segment, boundary).1 ==> InBounds(st.w, st.h, u.pos)
  {
    if boundary || OnCanvasBoundary(st, p) {
      SetBoundarySegmentSpec(st, p, segment);
    } else {
      SetNonBoundarySegmentSpec(st, p, segment);
    }
    SegmentsRepaint(st, PaintPixel(st, p, segment, boundary).0, Index(st.w, p), segment);
  }

  lemma SegmentsRepaint(st: State, st': State, k: int, segment: int)
    requires Segments(st'.canvas) == Segments(st.canvas)[k := segment]
    ensures Repaints(st, st', segment)
  {
    forall i | i in st'.canvas
      ensures (i in st.canvas && st'.canvas[i].segment == st.canvas[i].segment) || st'.canvas[i].segment == segment
    {
      assert i in Segments(st'.canvas);
      assert Segments(st'.canvas)[i] == st'.canvas[i].segment;
      if i != k {
        assert i in Segments(st.canvas);
      }
    }
  }

  /** Every stored entry either keeps its segment or now belongs to `segment`. */
  ghost predicate Repaints(st: State, st': State, segment: int)
  {
    forall i :: i in st'.canvas ==> (i in st.canvas && st'.canvas[i].segment == st.canvas[i].segment) || st'.canvas[i].segment == segment
  }

  /** Every pixel either keeps its segment or now belongs to `segment`. */
  ghost predicate OnlyTo(st: State, st': State, segment: int)
  {
    forall q :: SegmentAt(st', q) == SegmentAt(st, q) || SegmentAt(st', q) == Some(segment)
  }

  /** Only pixels of `zone` changed segment. */
  ghost predicate ChangesWithin(st: State, st': State, zone: set<Pos>)
  {
    forall q :: SegmentAt(st', q) != SegmentAt(st, q) ==> q in zone
  }

  /** The pixels a brush covers when centred at `c`. */
  ghost function Footprint(c: Pos, brush: seq<Brushes.BrushPoint>): set<Pos>
  {
    set i | 0 <= i < |brush| :: Add(c, brush[i].offset)
  }

  /** `drawCircle`: each in-bounds pixel of the brush centred at `c`, rim pixels as boundary pixels. */
  function Stamp(st: State, c: Pos, brush: seq<Brushes.BrushPoint>, segment: int): (r: (State, seq<Update>))
    ensures r.0.w == st.w && r.0.h == st.h && r.0.next == st.next
    decreases |brush|
  {
    if brush == [] then (st, [])
    else
      var q := Add(c, brush[0].offset);
      var a := if InBounds(st.w, st.h, q) then PaintPixel(st, q, segment, brush[0].boundary) else (st, []);
      var b := Stamp(a.0, c, brush[1..], segment);
      (b.0, a.1 + b.1)
  }

  /**
   * A stamp paints every in-bounds pixel under the brush with the segment,
   * changes nothing else, and reports updates only inside the canvas.
   */
  lemma {:induction false} StampSpec(st: State, c: Pos, brush: seq<Brushes.BrushPoint>, segment: int)
    ensures var r := Stamp(st, c, brush, segment);
      && OnlyTo(st, r.0, segment)
      && Repaints(st, r.0, segment)
      && ChangesWithin(st, r.0, Footprint(c, brush))
      && (forall i :: 0 <= i < |brush| && InBounds(st.w, st.h, Add(c, brush[i].offset)) ==>
            SegmentAt(r.0, Add(c, brush[i].offset)) == Some(segment))
      && forall u :: u in r.1 ==> InBounds(st.w, st.h, u.pos)
    decreases |brush|
  {
    if brush != [] {
      var q := Add(c, brush[0].offset);
      var a := if InBounds(st.w, st.h, q) then PaintPixel(st, q, segment, brush[0].boundary) else (st, []);
      if InBounds(st.w, st.h, q) {
        PaintPixelSpec(st, q, segment, brush[0].boundary);
      }
      StampSpec(a.0, c, brush[1..], segment);
      var r := Stamp(st, c, brush, segment);
      assert Footprint(c, brush) == {q} + Footprint(c, brush[1..]) by {
        forall x | x in Footprint(c, brush) ensures x in {q} + Footprint(c, brush[1..]) {
          var i :| 0 <= i < |brush| && x == Add(c, brush[i].offset);
          if i > 0 {
            assert brush[1..][i - 1] == brush[i];
          }
        }
        forall x | x in Footprint(c, brush[1..]) ensures x in Footprint(c, brush) {
          var i :| 0 <= i < |brush[1..]| && x == Add(c, brush[1..][i].offset);
          assert brush[i + 1] == brush[1..][i];
        }
      }
      forall i | 0 <= i < |brush| && InBounds(st.w, st.h, Add(c, brush[i].offset))
        ensures SegmentAt(r.0, Add(c, brush[i].offset)) == Some(segment)
      {
        if i > 0 {
          assert brush[1..][i - 1] == brush[i];
        }
      }
    }
  }

  /** The threaded state of the rectangle fill: the canvas and the updates reported so far. */
  datatype Painting = Painting(st: State, log: seq<Update>)

  /**
   * The test of the rectangle fill: a pixel on the rectangle's outline is
   * painted as a boundary pixel and stops the traversal; any other
   * in-bounds pixel is painted and passes.
   */
  function RectTest(w: int, h: int, outline: set<Pos>, segment: int, s: Painting, q: Pos): (v: Verdict<Painting>)
    ensures v.pass ==> InBounds(w, h, q)
  {
    if !InBounds(w, h, q) then Verdict(false, false, s)
    else
      var a := PaintPixel(s.st, q, segment, q in outline);
      Verdict(q !in outline, false, Painting(a.0, s.log + a.1))
  }

  /** What painting with one segment keeps, relative to the canvas `st0` it started from. */
  ghost predicate PaintInv(st0: State, segment: int, s: Painting)
  {
    && s.st.w == st0.w && s.st.h == st0.h && s.st.next == st0.next
    && OnlyTo(st0, s.st, segment)
    && Repaints(st0, s.st, segment)
    && forall u :: u in s.log ==> InBounds(st0.w, st0.h, u.pos)
  }

  lemma RectKeeps(st0: State, outline: set<Pos>, segment: int)
    ensures Keeps((s: Painting, q: Pos) => RectTest(st0.w, st0.h, outline, segment, s, q),
                  (s: Painting) => PaintInv(st0, segment, s))
  {
    forall s: Painting, q: Pos | PaintInv(st0, segment, s)
      ensures PaintInv(st0, segment, RectTest(st0.w, st0.h, outline, segment, s, q).state)
    {
      if InBounds(st0.w, st0.h, q) {
        PaintPixelSpec(s.st, q, segment, q in outline);
      }
    }
  }

  /** `Math.floor` of the midpoint, coordinate-wise. */
  function Midpoint(a: Pos, b: Pos): Pos
  {
    Pos((a.x + b.x) / 2, (a.y + b.y) / 2)
  }

  /**
   * `applyDrawEvent`: fills the rectangle between the stroke's ends when
   * its outline (computed in floating point, here the parameter `outline`)
   * has any pixel, then stamps the brush at `to` and then at `from`.
   */
  method ApplyDrawEvent(st: State, cache: Brushes.BrushCache, stroke: Stroke, outline: set<Pos>)
    returns (st': State, cache': Brushes.BrushCache, log: seq<Update>)
    requires Brushes.CacheOk(cache)
    ensures st'.w == st.w && st'.h == st.h && st'.next == st.next
    ensures Brushes.CacheOk(cache') && cache'.Keys == cache.Keys + {stroke.size - Brushes.MinBrushSize}
    ensures OnlyTo(st, st', stroke.segment) && Repaints(st, st', stroke.segment)
    ensures forall i, c ::
      (0 <= i < |Brushes.Disc(stroke.size)| && (c == stroke.to || c == stroke.from)
       && InBounds(st.w, st.h, Add(c, Brushes.Disc(stroke.size)[i].offset))) ==>
      SegmentAt(st', Add(c, Brushes.Disc(stroke.size)[i].offset)) == Some(stroke.segment)
    ensures outline == {} ==>
      ChangesWithin(st, st', Footprint(stroke.to, Brushes.Disc(stroke.size)) + Footprint(stroke.from, Brushes.Disc(stroke.size)))
    ensures forall u :: u in log ==> InBounds(st.w, st.h, u.pos)
  {
    var painting := Painting(st, []);
    if |outline| > 0 {
      var test := (s: Painting, q: Pos) => RectTest(st.w, st.h, outline, stroke.segment, s, q);
      ghost var inv := (s: Painting) => PaintInv(st, stroke.segment, s);
      RectKeeps(st, outline, stroke.segment);
      var visited, trace, s := PackageBft(Midpoint(stroke.from, stroke.to), test, painting, false, st.w, st.h, inv);
      KeepsAlong(test, inv, painting, trace, 0, |trace|);
      painting := s;
    }
    var first := Brushes.GetBrush(cache, stroke.size);
    var a := Stamp(painting.st, stroke.to, first.0, stroke.segment);
    var second := Brushes.GetBrush(first.1, stroke.size);
    var b := Stamp(a.0, stroke.from, second.0, stroke.segment);
    StampSpec(painting.st, stroke.to, first.0, stroke.segment);
    StampSpec(a.0, stroke.from, second.0, stroke.segment);
    st', cache', log := b.0, second.1, painting.log + a.1 + b.1;
  }

  // ---- Choosing the segment ---------------------------------------------------

  datatype Tool = BrushTool | EraserTool

  /** A draw event as the client sends it, before a segment is chosen. */
  datatype DrawEvent = DrawEvent(tool: Tool, from: Pos, to: Pos, size: int)

  /** Every segment stored on the canvas is an id already handed out (or the eraser's -1). */
  ghost predicate FreshIds(st: State)
  {
    st.next >= 0 && forall i :: i in st.canvas ==> st.canvas[i].segment < st.next
  }

  /**
   * The segment a draw event paints with: the eraser always uses -1; the
   * brush continues the segment under `from`, or takes the next id when
   * `from` is unpainted or erased.
   */
  function ChooseSegment(st: State, e: DrawEvent): (r: (int, State))
    ensures r.1 == st || r.1 == st.(next := st.next + 1)
  {
    var under := if At(st, e.from).Some? then At(st, e.from).value.segment else -1;
    if e.tool == EraserTool then (-1, st)
    else if under == -1 then (st.next, st.(next := st.next + 1))
    else (under, st)
  }

  lemma ChooseSegmentSpec(st: State, e: DrawEvent)
    ensures var r := ChooseSegment(st, e);
      && (e.tool == EraserTool ==> r == (-1, st))
      && (e.tool == BrushTool && At(st, e.from).Some? && At(st, e.from).value.segment != -1 ==>
            r == (At(st, e.from).value.segment, st))
      && (e.tool == BrushTool && (At(st, e.from).None? || At(st, e.from).value.segment == -1) ==>
            r.0 == st.next && r.1 == st.(next := st.next + 1) && (FreshIds(st) ==> forall q :: SegmentAt(st, q) != Some(r.0)))
      && (FreshIds(st) ==> FreshIds(r.1) && r.0 < r.1.next)
  {
  }

  // ---- Tracking the segments a stroke cut into ---------------------------------

  /** An update of a pixel that belonged to segment `s`, which is neither the stroke's nor the eraser's. */
  predicate Hits(u: Update, segment: int, s: int)
  {
    u.before.Some? && u.before.value.segment == s && s != segment && s != -1
  }

  /** The pixel stayed in its old segment and is now one of its boundary pixels. */
  predicate Adds(u: Update)
  {
    u.before.Some? && u.after.segment == u.before.value.segment && u.after.neighbours < 4
  }

  /** Some update of the log cut into segment `s`. */
  predicate Cut(log: seq<Update>, segment: int, s: int)
  {
    exists k :: 0 <= k < |log| && Hits(log[k], segment, s)
  }

  /** The split callback of `drawAndFindSplits` for one update. */
  function Track(eff: JsMap<int, JsSet<Pos>>, segment: int, u: Update): JsMap<int, JsSet<Pos>>
  {
    if u.before.Some? && Hits(u, segment, u.before.value.segment) then
      var s := u.before.value.segment;
      Put(eff, s, Pending(eff, s, u))
    else eff
  }

  /** The new point set of the segment `u` hits: `u.pos` removed, then added back when it stays on the boundary. */
  function Pending(eff: JsMap<int, JsSet<Pos>>, s: int, u: Update): (r: JsSet<Pos>)
    ensures forall q :: q in r <==> if q == u.pos then Adds(u) else Has(eff, s) && q in eff.table[s]
  {
    var points := if Has(eff, s) then SetDelete(eff.table[s], u.pos).0 else EmptySet();
    var r := if Adds(u) then SetAdd(points, u.pos) else points;
    forall q ensures q in r <==> if q == u.pos then Adds(u) else Has(eff, s) && q in eff.table[s] {
      assert q in r <==> q in Elements(r);
      assert q in points <==> q in Elements(points);
      assert Has(eff, s) ==> (q in eff.table[s] <==> q in Elements(eff.table[s]));
    }
    r
  }

  /** One callback adds the segment it hits as a key and changes only that segment's points. */
  lemma TrackSpec(eff: JsMap<int, JsSet<Pos>>, segment: int, u: Update)
    ensures forall s :: Has(Track(eff, segment, u), s) <==> Has(eff, s) || Hits(u, segment, s)
    ensures forall s :: !Hits(u, segment, s) && Has(eff, s) ==> Track(eff, segment, u).table[s] == eff.table[s]
    ensures forall s :: Hits(u, segment, s) ==> Track(eff, segment, u).table[s] == Pending(eff, s, u)
  {
  }

  /** `effectedSegments` after the callback has seen the whole update log, in order. */
  function Effected(log: seq<Update>, segment: int): JsMap<int, JsSet<Pos>>
    decreases |log|
  {
    if log == [] then EmptyMap()
    else Track(Effected(log[..|log| - 1], segment), segment, log[|log| - 1])
  }

  /** Update `k` was the last one to hit `q` in segment `s`, and it kept `q` there as a boundary pixel. */
  predicate LastHitAdds(log: seq<Update>, segment: int, s: int, q: Pos)
  {
    exists k :: 0 <= k < |log| && log[k].pos == q && Hits(log[k], segment, s) && Adds(log[k])
      && forall k' :: k < k' < |log| && log[k'].pos == q ==> !Hits(log[k'], segment, s)
  }

  /**
   * The segments recorded are exactly those some update cut into, and a
   * point is pending for segment `s` exactly when the last update that hit
   * it in `s` left it there as a boundary pixel.
   */
  lemma {:induction false} EffectedSpec(log: seq<Update>, segment: int)
    ensures forall s :: Has(Effected(log, segment), s) <==> Cut(log, segment, s)
    ensures forall s, q :: Has(Effected(log, segment), s) ==>
      (q in Effected(log, segment).table[s] <==> LastHitAdds(log, segment, s, q))
    decreases |log|
  {
    if log != [] {
      var pre := log[..|log| - 1];
      var u := log[|log| - 1];
      EffectedSpec(pre, segment);
      var e0 := Effected(pre, segment);
      var e := Effected(log, segment);
      assert log[..|log| - 1] == pre;
      TrackSpec(e0, segment, u);
      forall s ensures Has(e, s) <==> exists k :: 0 <= k < |log| && Hits(log[k], segment, s) {
        if exists k :: 0 <= k < |pre| && Hits(pre[k], segment, s) {
          var k :| 0 <= k < |pre| && Hits(pre[k], segment, s);
          assert log[k] == pre[k];
        }
        if exists k :: 0 <= k < |log| && Hits(log[k], segment, s) {
          var k :| 0 <= k < |log| && Hits(log[k], segment, s);
          if k < |pre| {
            assert pre[k] == log[k];
          }
        }
      }
      forall s, q | Has(e, s) ensures q in e.table[s] <==> LastHitAdds(log, segment, s, q) {
        EffectedStep(pre, u, log, segment, s, q);
      }
    }
  }

  /** The inductive step of `EffectedSpec` for one segment and point. */
  lemma EffectedStep(pre: seq<Update>, u: Update, log: seq<Update>, segment: int, s: int, q: Pos)
    requires log == pre + [u]
    requires forall s :: Has(Effected(pre, segment), s) <==> exists k :: 0 <= k < |pre| && Hits(pre[k], segment, s)
    requires forall s, q :: Has(Effected(pre, segment), s) ==>
      (q in Effected(pre, segment).table[s] <==> LastHitAdds(pre, segment, s, q))
    requires Has(Effected(log, segment), s)
    ensures q in Effected(log, segment).table[s] <==> LastHitAdds(log, segment, s, q)
  {
    assert log[..|log| - 1] == pre && log[|log| - 1] == u;
    var e0 := Effected(pre, segment);
    TrackSpec(e0, segment, u);
    if u.pos == q && Hits(u, segment, s) {
      LastHitAddsHit(pre, u, log, segment, s, q);
    } else {
      LastHitAddsMiss(pre, u, log, segment, s, q);
    }
  }

  /** When the new update hits `q` in `s`, it alone decides. */
  lemma LastHitAddsHit(pre: seq<Update>, u: Update, log: seq<Update>, segment: int, s: int, q: Pos)
    requires log == pre + [u] && u.pos == q && Hits(u, segment, s)
    ensures LastHitAdds(log, segment, s, q) <==> Adds(u)
  {
    if LastHitAdds(log, segment, s, q) {
      var k :| 0 <= k < |log| && log[k].pos == q && Hits(log[k], segment, s) && Adds(log[k])
        && forall k' :: k < k' < |log| && log[k'].pos == q ==> !Hits(log[k'], segment, s);
      assert log[|pre|] == u;
    }
    if Adds(u) {
      assert log[|pre|] == u;
    }
  }

  /** An update that does not hit `q` in `s` leaves the question as it was. */
  lemma LastHitAddsMiss(pre: seq<Update>, u: Update, log: seq<Update>, segment: int, s: int, q: Pos)
    requires log == pre + [u] && !(u.pos == q && Hits(u, segment, s))
    ensures LastHitAdds(log, segment, s, q) <==> LastHitAdds(pre, segment, s, q)
  {
    if LastHitAdds(log, segment, s, q) {
      var k :| 0 <= k < |log| && log[k].pos == q && Hits(log[k], segment, s) && Adds(log[k])
        && forall k' :: k < k' < |log| && log[k'].pos == q ==> !Hits(log[k'], segment, s);
      assert k < |pre| && pre[k] == log[k];
      assert forall k' :: k < k' < |pre| ==> pre[k'] == log[k'];
    }
    if LastHitAdds(pre, segment, s, q) {
      var k :| 0 <= k < |pre| && pre[k].pos == q && Hits(pre[k], segment, s) && Adds(pre[k])
        && forall k' :: k < k' < |pre| && pre[k'].pos == q ==> !Hits(pre[k'], segment, s);
      assert log[k] == pre[k];
      assert forall k' :: k < k' < |pre| ==> pre[k'] == log[k'];
    }
  }

  // ---- Finding splits -------------------------------------------------------------

  /** A flood fill event: the segment to fill with and the points it may start from. */
  datatype FillEvent = FillEvent(segment: int, points: JsSet<Pos>)

  /** The first traversal's test: an in-bounds pending point passes and stops being pending. */
  function ClaimTest(w: int, h: int, pending: JsSet<Pos>, q: Pos): (v: Verdict<JsSet<Pos>>)
    ensures v.pass ==> InBounds(w, h, q)
    ensures v.pass <==> InBounds(w, h, q) && q in pending
    ensures Elements(v.state) == Elements(pending) - (if InBounds(w, h, q) then {q} else {})
  {
    if InBounds(w, h, q) then
      var d := SetDelete(pending, q);
      Verdict(d.1, false, d.0)
    else Verdict(false, false, pending)
  }

  /** The first traversal of a round: claims the pending points reachable through pending points. */
  function Claimer(w: int, h: int): (JsSet<Pos>, Pos) -> Verdict<JsSet<Pos>>
  {
    (p: JsSet<Pos>, q: Pos) => ClaimTest(w, h, p, q)
  }

  /** The second traversal's state: the pending points, the fill's points and the `removeFill` calls. */
  datatype Sweep = Sweep(pending: JsSet<Pos>, visited: JsSet<Pos>, removed: seq<Pos>)

  /**
   * The second traversal's test, over the boundary pixels of segment `s`:
   * a pending point moves to the fill's points (and the traversal stops
   * once none is left); any other boundary pixel is reported to `removeFill`.
   */
  function SweepTest(st: State, s: int, k: Sweep, q: Pos): (v: Verdict<Sweep>)
    ensures v.pass ==> InBounds(st.w, st.h, q)
  {
    if InBounds(st.w, st.h, q) && At(st, q).Some? && At(st, q).value.segment == s && At(st, q).value.neighbours < 4 then
      var d := SetDelete(k.pending, q);
      if d.1 then Verdict(true, |d.0| == 0, Sweep(d.0, SetAdd(k.visited, q), k.removed))
      else Verdict(true, false, Sweep(k.pending, k.visited, k.removed + [q]))
    else Verdict(false, false, k)
  }

  function Sweeper(st: State, s: int): (Sweep, Pos) -> Verdict<Sweep>
  {
    (k: Sweep, q: Pos) => SweepTest(st, s, k, q)
  }

  /**
   * What the second traversal keeps: a point only moves from pending to
   * the fill's points, so the two stay apart; the fill starts at `start`
   * and stays on the canvas.
   */
  ghost predicate SweepInv(w: int, h: int, pending0: JsSet<Pos>, visited0: JsSet<Pos>, start: Pos, k: Sweep)
  {
    && Elements(k.pending) <= Elements(pending0)
    && Elements(k.visited) <= Elements(visited0) + Elements(pending0)
    && Elements(k.visited) !! Elements(k.pending)
    && |k.visited| > 0 && k.visited[0] == start
    && (forall q :: q in k.visited ==> InBounds(w, h, q))
    && forall q :: q in k.removed ==> InBounds(w, h, q)
  }

  lemma SweepKeeps(st: State, s: int, pending0: JsSet<Pos>, visited0: JsSet<Pos>, start: Pos)
    ensures Keeps(Sweeper(st, s), (k: Sweep) => SweepInv(st.w, st.h, pending0, visited0, start, k))
  {
    forall k: Sweep, q: Pos | SweepInv(st.w, st.h, pending0, visited0, start, k)
      ensures SweepInv(st.w, st.h, pending0, visited0, start, SweepTest(st, s, k, q).state)
    {
      var k' := SweepTest(st, s, k, q).state;
      assert Elements(k'.visited) <= Elements(k.visited) + {q};
      assert forall x :: x in k'.visited ==> x in Elements(k'.visited);
    }
  }

  /**
   * The first traversal claims `start` on its first call and only ever
   * removes points, so the pending set ends strictly smaller.
   */
  lemma ClaimShrinks(w: int, h: int, pending: JsSet<Pos>, start: Pos, trace: seq<Call<JsSet<Pos>>>)
    requires start in pending && InBounds(w, h, start)
    requires Threads(Claimer(w, h), pending, trace)
    requires |trace| > 0 && trace[0].pos == start
    ensures Elements(After(pending, trace)) <= Elements(pending) - {start}
    ensures |After(pending, trace)| < |pending|
  {
    ClaimKeeps(w, h, Elements(pending) - {start});
    assert Before(pending, trace, 1) == ClaimTest(w, h, pending, start).state;
    KeepsAlong(Claimer(w, h), (p: JsSet<Pos>) => Elements(p) <= Elements(pending) - {start}, pending, trace, 1, |trace|);
    var left := After(pending, trace);
    SetSize(left);
    SetSize(pending);
    SubsetSize(Elements(left), Elements(pending) - {start});
  }

  /** Claiming only takes points out of the pending set. */
  lemma ClaimKeeps(w: int, h: int, bound: set<Pos>)
    ensures Keeps(Claimer(w, h), (p: JsSet<Pos>) => Elements(p) <= bound)
  {
  }

  /** Along the first traversal the pending set only shrinks: each state lies within the earlier ones. */
  lemma ClaimWithin(w: int, h: int, pending: JsSet<Pos>, trace: seq<Call<JsSet<Pos>>>, j: nat, i: nat)
    requires Threads(Claimer(w, h), pending, trace) && j <= i <= |trace|
    ensures Elements(Before(pending, trace, i)) <= Elements(Before(pending, trace, j))
  {
    ClaimKeeps(w, h, Elements(Before(pending, trace, j)));
    KeepsAlong(Claimer(w, h), (p: JsSet<Pos>) => Elements(p) <= Elements(Before(pending, trace, j)), pending, trace, j, i);
  }

  /** A point the first traversal passed was pending, and is pending no more when the traversal ends. */
  lemma ClaimTaken(w: int, h: int, pending: JsSet<Pos>, trace: seq<Call<JsSet<Pos>>>, q: Pos)
    requires Threads(Claimer(w, h), pending, trace) && PassedIn(trace, q)
    ensures q in pending && q !in After(pending, trace)
  {
    var c :| 0 <= c < |trace| && trace[c].pos == q && trace[c].verdict.pass;
    assert trace[c].verdict == ClaimTest(w, h, Before(pending, trace, c), q);
    ClaimWithin(w, h, pending, trace, 0, c);
    ClaimWithin(w, h, pending, trace, c + 1, |trace|);
    assert q in Elements(Before(pending, trace, c)) && q !in Elements(Before(pending, trace, c + 1));
  }

  /** The claimed points were pending and are apart from the points left pending. */
  lemma ClaimsTaken(w: int, h: int, pending: JsSet<Pos>, trace: seq<Call<JsSet<Pos>>>, visited: JsSet<Pos>)
    requires Threads(Claimer(w, h), pending, trace)
    requires forall i :: 0 <= i < |visited| ==> PassedIn(trace, visited[i])
    ensures Elements(visited) <= Elements(pending) && Elements(visited) !! Elements(After(pending, trace))
  {
    forall q | q in Elements(visited) ensures q in Elements(pending) && q !in Elements(After(pending, trace)) {
      var i :| 0 <= i < |visited| && visited[i] == q;
      ClaimTaken(w, h, pending, trace, visited[i]);
    }
  }

  lemma SubsetSize<T>(a: set<T>, b: set<T>)
    requires a <= b
    ensures |a| <= |b|
  {
    assert b == a + (b - a);
  }

  /** A well-formed fill: it has a first point, and all its points are on the canvas. */
  predicate FillOnCanvas(w: int, h: int, f: FillEvent)
  {
    |f.points| > 0 && forall q :: q in f.points ==> InBounds(w, h, q)
  }

  /** The first traversal of a round: from the oldest pending point, tested first. */
  function ClaimRun(w: int, h: int, pending: JsSet<Pos>): Setup<JsSet<Pos>>
    requires |pending| > 0
  {
    Setup(pending[0], Claimer(w, h), pending, Neighbourhood(true), TestStartFirst)
  }

  /** The second traversal: from the same point, with the unclaimed points pending and the claimed ones in the fill. */
  function SweepRun(st: State, s: int, start: Pos, visited: JsSet<Pos>, left: JsSet<Pos>): Setup<Sweep>
  {
    Setup(start, Sweeper(st, s), Sweep(left, visited, []), Neighbourhood(true), TestStartFirst)
  }

  /**
   * A round's fill points, remaining pending points and `removeFill` calls,
   * as the two traversals determine them: when the first one claims every
   * pending point, the fill is what it claimed; otherwise the boundary walk
   * moves the pending points it meets into the fill, and reports the other
   * boundary pixels it passes.
   */
  ghost predicate Rounded(st: State, s: int, pending: JsSet<Pos>, points: JsSet<Pos>, pending': JsSet<Pos>, removed: seq<Pos>)
    requires |pending| > 0
  {
    exists visited: JsSet<Pos>, t1, left: JsSet<Pos> :: Outcome(ClaimRun(st.w, st.h, pending), visited, t1, left) &&
      SweepResult(st, s, pending[0], visited, left, points, pending', removed)
  }

  /** The second half of a round, from what the first traversal claimed and left. */
  ghost predicate SweepResult(st: State, s: int, start: Pos, visited: JsSet<Pos>, left: JsSet<Pos>,
                              points: JsSet<Pos>, pending': JsSet<Pos>, removed: seq<Pos>)
  {
    if |left| == 0 then points == visited && pending' == left && removed == []
    else exists reached, t2, k ::
      Outcome(SweepRun(st, s, start, visited, left), reached, t2, k) && points == k.visited && pending' == k.pending && removed == k.removed
  }

  /** The walk over the boundary of `s`, from `start`, with `left` pending and `visited` in the fill. */
  method SweepWalk(st: State, s: int, start: Pos, visited: JsSet<Pos>, left: JsSet<Pos>) returns (k: Sweep)
    requires InBounds(st.w, st.h, start) && |visited| > 0 && visited[0] == start
    requires (forall q :: q in visited ==> InBounds(st.w, st.h, q)) && Elements(visited) !! Elements(left)
    ensures exists reached, trace :: Outcome(SweepRun(st, s, start, visited, left), reached, trace, k)
    ensures SweepInv(st.w, st.h, left, visited, start, k) && |k.pending| <= |left|
  {
    var sweep := Sweeper(st, s);
    ghost var inv := (k: Sweep) => SweepInv(st.w, st.h, left, visited, start, k);
    SweepKeeps(st, s, left, visited, start);
    var k0 := Sweep(left, visited, []);
    var reached, trace;
    reached, trace, k := PackageBft(start, sweep, k0, true, st.w, st.h, inv);
    KeepsAlong(sweep, inv, k0, trace, 0, |trace|);
    assert Outcome(SweepRun(st, s, start, visited, left), reached, trace, k);
    SetSize(k.pending);
    SetSize(left);
    SubsetSize(Elements(k.pending), Elements(left));
  }

  /**
   * The second half of a round: with pending points left unclaimed, the
   * walk over the boundary of `s`. The fill takes a fresh id exactly when
   * pending points are still unreached afterwards.
   */
  method Sweeping(st: State, s: int, start: Pos, visited: JsSet<Pos>, left: JsSet<Pos>, next: int)
    returns (fill: FillEvent, next': int, pending': JsSet<Pos>, removed: seq<Pos>)
    requires InBounds(st.w, st.h, start) && |visited| > 0 && visited[0] == start
    requires (forall q :: q in visited ==> InBounds(st.w, st.h, q)) && Elements(visited) !! Elements(left)
    ensures SweepResult(st, s, start, visited, left, fill.points, pending', removed)
    ensures fill.segment == (if |pending'| > 0 then next else s)
    ensures next' == (if |pending'| > 0 then next + 1 else next)
    ensures Elements(fill.points) <= Elements(visited) + Elements(left) && Elements(fill.points) !! Elements(pending')
    ensures Elements(pending') <= Elements(left) && |pending'| <= |left|
    ensures FillOnCanvas(st.w, st.h, fill) && fill.points[0] == start
    ensures forall q :: q in removed ==> InBounds(st.w, st.h, q)
  {
    if |left| > 0 {
      var k := SweepWalk(st, s, start, visited, left);
      if |k.pending| > 0 {
        fill, next' := FillEvent(next, k.visited), next + 1;
      } else {
        fill, next' := FillEvent(s, k.visited), next;
      }
      pending', removed := k.pending, k.removed;
    } else {
      fill, next', pending', removed := FillEvent(s, visited), next, left, [];
    }
  }

  /**
   * One round of the `while` loop for cut segment `s`: traverses the
   * pending points from the oldest one; when some remain unreached, it
   * traverses the whole boundary of `s`. The fill takes a fresh id, and the
   * counter moves on, exactly when pending points are still unreached
   * afterwards; otherwise it keeps `s`. The fill's points are the pending
   * points reached, and none of them is pending any more.
   */
  method SplitOnce(st: State, s: int, pending: JsSet<Pos>, next: int)
    returns (fill: FillEvent, next': int, pending': JsSet<Pos>, removed: seq<Pos>)
    requires |pending| > 0 && forall q :: q in pending ==> InBounds(st.w, st.h, q)
    ensures Rounded(st, s, pending, fill.points, pending', removed)
    ensures fill.segment == (if |pending'| > 0 then next else s)
    ensures next' == (if |pending'| > 0 then next + 1 else next)
    ensures Elements(fill.points) <= Elements(pending) && Elements(fill.points) !! Elements(pending')
    ensures Elements(pending') <= Elements(pending) && |pending'| < |pending|
    ensures FillOnCanvas(st.w, st.h, fill) && fill.points[0] == pending[0]
    ensures forall q :: q in removed ==> InBounds(st.w, st.h, q)
  {
    var start := pending[0];
    var visited, trace, left := PackageBft(start, Claimer(st.w, st.h), pending, true, st.w, st.h, (p: JsSet<Pos>) => true);
    ClaimShrinks(st.w, st.h, pending, start, trace);
    ClaimsTaken(st.w, st.h, pending, trace, visited);
    assert visited[0] == start;
    fill, next', pending', removed := Sweeping(st, s, start, visited, left, next);
    assert Outcome(ClaimRun(st.w, st.h, pending), visited, trace, left);
  }

  /**
   * The `while` loop for one cut segment `s`, until no pending point is
   * left. Every round but the last leaves pending points unreached, so its
   * fill takes the next fresh id; the last round's fill keeps `s`. The
   * fills share no point, and each takes its points from `points`.
   */
  method SplitSegment(st: State, s: int, points: JsSet<Pos>, next0: int)
    returns (fills: seq<FillEvent>, next: int, removed: seq<Pos>)
    requires forall q :: q in points ==> InBounds(st.w, st.h, q)
    ensures |points| > 0 <==> |fills| > 0
    ensures |fills| == 0 ==> next == next0
    ensures |fills| > 0 ==> fills[|fills| - 1].segment == s && next == next0 + |fills| - 1
    ensures forall i :: 0 <= i < |fills| - 1 ==> fills[i].segment == next0 + i
    ensures forall f :: f in fills ==> FillOnCanvas(st.w, st.h, f) && Elements(f.points) <= Elements(points)
    ensures forall i, j :: 0 <= i < j < |fills| ==> Elements(fills[i].points) !! Elements(fills[j].points)
    ensures forall q :: q in removed ==> InBounds(st.w, st.h, q)
  {
    var pending := points;
    fills, next, removed := [], next0, [];
    while |pending| > 0
      invariant Elements(pending) <= Elements(points)
      invariant |pending| < |points| ==> |fills| > 0
      invariant |points| == 0 ==> |fills| == 0
      invariant Numbered(fills, s, next0, next, |pending| == 0)
      invariant forall f :: f in fills ==> FillOnCanvas(st.w, st.h, f) && Elements(f.points) <= Elements(points)
      invariant forall f :: f in fills ==> Elements(f.points) !! Elements(pending)
      invariant forall i, j :: 0 <= i < j < |fills| ==> Elements(fills[i].points) !! Elements(fills[j].points)
      invariant forall q :: q in removed ==> InBounds(st.w, st.h, q)
      decreases |pending|
    {
      assert forall q :: q in pending ==> q in Elements(points);
      var fill, next', pending', gone := SplitOnce(st, s, pending, next);
      Appended(fills, fill, pending, pending');
      NumberedStep(fills, fill, s, next0, next, next', |pending'| == 0);
      fills, next, pending, removed := fills + [fill], next', pending', removed + gone;
    }
  }

  /**
   * The ids of a segment's fills: while points are pending, the fills so far
   * took fresh ids from `next0` on, in order; once none is, the last one
   * kept `s`.
   */
  predicate Numbered(fills: seq<FillEvent>, s: int, next0: int, next: int, done: bool)
  {
    if done && |fills| > 0 then
      && fills[|fills| - 1].segment == s && next == next0 + |fills| - 1
      && forall i :: 0 <= i < |fills| - 1 ==> fills[i].segment == next0 + i
    else
      && next == next0 + |fills|
      && forall i :: 0 <= i < |fills| ==> fills[i].segment == next0 + i
  }

  /** A round either takes the next fresh id and leaves points pending, or keeps `s` and ends the loop. */
  lemma NumberedStep(fills: seq<FillEvent>, fill: FillEvent, s: int, next0: int, next: int, next': int, done: bool)
    requires Numbered(fills, s, next0, next, false)
    requires fill.segment == (if done then s else next) && next' == (if done then next else next + 1)
    ensures Numbered(fills + [fill], s, next0, next', done)
  {
    var all := fills + [fill];
    forall i | 0 <= i < |fills| ensures all[i].segment == next0 + i {
      assert all[i] == fills[i];
    }
  }

  /** Adding a round's fill, taken from the pending points, keeps the fills apart from each other and from what is still pending. */
  lemma Appended(fills: seq<FillEvent>, fill: FillEvent, pending: JsSet<Pos>, pending': JsSet<Pos>)
    requires forall f :: f in fills ==> Elements(f.points) !! Elements(pending)
    requires forall i, j :: 0 <= i < j < |fills| ==> Elements(fills[i].points) !! Elements(fills[j].points)
    requires Elements(fill.points) <= Elements(pending) && Elements(fill.points) !! Elements(pending')
    requires Elements(pending') <= Elements(pending)
    ensures forall f :: f in fills + [fill] ==> Elements(f.points) !! Elements(pending')
    ensures forall i, j :: 0 <= i < j < |fills + [fill]| ==> Elements((fills + [fill])[i].points) !! Elements((fills + [fill])[j].points)
  {
    var all := fills + [fill];
    forall i, j | 0 <= i < j < |all| ensures Elements(all[i].points) !! Elements(all[j].points) {
      if j == |fills| {
        assert all[i] in fills;
      } else {
        assert all[i] == fills[i] && all[j] == fills[j];
      }
    }
  }

  /** Some fill uses id `n`. */
  ghost predicate Named(fills: seq<FillEvent>, n: int)
  {
    exists i :: 0 <= i < |fills| && fills[i].segment == n
  }

  /** The fill's points all come from the pending points of one cut segment. */
  ghost predicate FromCut(eff: JsMap<int, JsSet<Pos>>, f: FillEvent)
  {
    exists s :: Has(eff, s) && Elements(f.points) <= Elements(eff.table[s])
  }

  /** A segment's fills use every fresh id they took. */
  lemma NamedAll(more: seq<FillEvent>, s: int, next0: int, next: int)
    requires |more| == 0 ==> next == next0
    requires |more| > 0 ==> next == next0 + |more| - 1
    requires forall i :: 0 <= i < |more| - 1 ==> more[i].segment == next0 + i
    ensures forall n :: next0 <= n < next ==> Named(more, n)
  {
    forall n | next0 <= n < next ensures Named(more, n) {
      assert more[n - next0].segment == n;
    }
  }

  /** Appending fills keeps the ids already used, and adds those of the new ones. */
  lemma NamedJoin(fills: seq<FillEvent>, more: seq<FillEvent>, lo: int, mid: int, hi: int)
    requires forall n :: lo <= n < mid ==> Named(fills, n)
    requires forall n :: mid <= n < hi ==> Named(more, n)
    ensures forall n :: lo <= n < hi ==> Named(fills + more, n)
  {
    forall n | lo <= n < hi ensures Named(fills + more, n) {
      if n < mid {
        assert Named(fills, n);
        var i :| 0 <= i < |fills| && fills[i].segment == n;
        assert (fills + more)[i] == fills[i];
      } else {
        assert Named(more, n);
        var i :| 0 <= i < |more| && more[i].segment == n;
        assert (fills + more)[|fills| + i] == more[i];
      }
    }
  }

  /**
   * The `for` loop over the cut segments, in the order they were first
   * cut; new segment ids are taken from `st.next` on, in order, and every
   * one taken is used by some fill. Each fill keeps a cut segment's id or
   * takes a fresh one, and its points are pending points of one cut
   * segment.
   */
  method FindSplits(st: State, eff: JsMap<int, JsSet<Pos>>) returns (fills: seq<FillEvent>, next: int, removed: seq<Pos>)
    requires forall s, q :: Has(eff, s) && q in eff.table[s] ==> InBounds(st.w, st.h, q)
    ensures st.next <= next
    ensures forall f :: f in fills ==> FillOnCanvas(st.w, st.h, f) && (Has(eff, f.segment) || st.next <= f.segment < next)
    ensures forall i, j :: 0 <= i < j < |fills| && !Has(eff, fills[i].segment) && !Has(eff, fills[j].segment) ==>
      fills[i].segment < fills[j].segment
    ensures forall n :: st.next <= n < next ==> Named(fills, n)
    ensures forall f :: f in fills ==> FromCut(eff, f)
    ensures forall q :: q in removed ==> InBounds(st.w, st.h, q)
  {
    fills, next, removed := [], st.next, [];
    for n := 0 to |eff.keys|
      invariant st.next <= next
      invariant forall f :: f in fills ==> FillOnCanvas(st.w, st.h, f) && (Has(eff, f.segment) || st.next <= f.segment < next)
      invariant forall i, j :: 0 <= i < j < |fills| && !Has(eff, fills[i].segment) && !Has(eff, fills[j].segment) ==>
        fills[i].segment < fills[j].segment
      invariant forall n :: st.next <= n < next ==> Named(fills, n)
      invariant forall f :: f in fills ==> FromCut(eff, f)
      invariant forall q :: q in removed ==> InBounds(st.w, st.h, q)
    {
      var s := eff.keys[n];
      assert Has(eff, s);
      var more, next', gone := SplitSegment(st, s, eff.table[s], next);
      Joined(st, eff, s, fills, more, next, next');
      NamedAll(more, s, next, next');
      NamedJoin(fills, more, st.next, next, next');
      fills, next, removed := fills + more, next', removed + gone;
    }
  }

  /** One cut segment's fills, appended to the earlier ones, keep the loop's ordering, range and origin facts. */
  lemma Joined(st: State, eff: JsMap<int, JsSet<Pos>>, s: int, fills: seq<FillEvent>, more: seq<FillEvent>, next: int, next': int)
    requires Has(eff, s) && st.next <= next
    requires forall f :: f in fills ==> FillOnCanvas(st.w, st.h, f) && (Has(eff, f.segment) || st.next <= f.segment < next)
    requires forall i, j :: 0 <= i < j < |fills| && !Has(eff, fills[i].segment) && !Has(eff, fills[j].segment) ==>
      fills[i].segment < fills[j].segment
    requires forall f :: f in fills ==> FromCut(eff, f)
    requires |more| == 0 ==> next' == next
    requires |more| > 0 ==> more[|more| - 1].segment == s && next' == next + |more| - 1
    requires forall i :: 0 <= i < |more| - 1 ==> more[i].segment == next + i
    requires forall f :: f in more ==> FillOnCanvas(st.w, st.h, f) && Elements(f.points) <= Elements(eff.table[s])
    ensures next <= next'
    ensures forall f :: f in fills + more ==> FillOnCanvas(st.w, st.h, f) && (Has(eff, f.segment) || st.next <= f.segment < next')
    ensures forall i, j :: 0 <= i < j < |fills + more| && !Has(eff, (fills + more)[i].segment) && !Has(eff, (fills + more)[j].segment) ==>
      (fills + more)[i].segment < (fills + more)[j].segment
    ensures forall f :: f in fills + more ==> FromCut(eff, f)
  {
    var all := fills + more;
    forall f | f in more ensures (Has(eff, f.segment) || next <= f.segment < next') && FromCut(eff, f) {
      var i :| 0 <= i < |more| && more[i] == f;
      assert Has(eff, s) && Elements(f.points) <= Elements(eff.table[s]);
    }
    forall i, j | 0 <= i < j < |all| && !Has(eff, all[i].segment) && !Has(eff, all[j].segment)
      ensures all[i].segment < all[j].segment
    {
      if j >= |fills| && i < |fills| {
        assert all[j] in more;
        assert all[i] in fills;
      } else if i >= |fills| {
        assert all[i] == more[i - |fills|] && all[j] == more[j - |fills|];
      } else {
        assert all[i] == fills[i] && all[j] == fills[j];
      }
    }
  }

  /** The fill's points are all points the stroke cut into one segment `s` and left on its boundary. */
  ghost predicate CutPiece(log: seq<Update>, segment: int, f: FillEvent)
  {
    exists s :: Cut(log, segment, s) && forall q :: q in f.points ==> LastHitAdds(log, segment, s, q)
  }

  /**
   * `drawAndFindSplits`: chooses the segment, applies the stroke while
   * recording which other segments it cut into, and returns the chosen
   * segment with one flood fill event per piece of a cut segment (a piece
   * that split off gets a new id).
   */
  method DrawAndFindSplits(st: State, cache: Brushes.BrushCache, e: DrawEvent, outline: set<Pos>)
    returns (st': State, cache': Brushes.BrushCache, log: seq<Update>, active: int, fills: seq<FillEvent>, removed: seq<Pos>)
    requires Brushes.CacheOk(cache)
    ensures active == ChooseSegment(st, e).0
    ensures st'.w == st.w && st'.h == st.h && ChooseSegment(st, e).1.next <= st'.next
    ensures Brushes.CacheOk(cache')
    ensures OnlyTo(st, st', active)
    ensures forall i, c ::
      (0 <= i < |Brushes.Disc(e.size)| && (c == e.to || c == e.from)
       && InBounds(st.w, st.h, Add(c, Brushes.Disc(e.size)[i].offset))) ==>
      SegmentAt(st', Add(c, Brushes.Disc(e.size)[i].offset)) == Some(active)
    ensures FreshIds(st) ==> FreshIds(st')
    ensures forall u :: u in log ==> InBounds(st.w, st.h, u.pos)
    ensures forall f :: f in fills ==> FillOnCanvas(st.w, st.h, f)
    ensures forall f :: f in fills ==> Cut(log, active, f.segment) || ChooseSegment(st, e).1.next <= f.segment < st'.next
    ensures forall i, j :: 0 <= i < j < |fills| && !Cut(log, active, fills[i].segment) && !Cut(log, active, fills[j].segment) ==>
      fills[i].segment < fills[j].segment
    ensures forall n :: ChooseSegment(st, e).1.next <= n < st'.next ==> Named(fills, n)
    ensures forall f :: f in fills ==> CutPiece(log, active, f)
    ensures forall q :: q in removed ==> InBounds(st.w, st.h, q)
  {
    var choice := ChooseSegment(st, e);
    ChooseSegmentSpec(st, e);
    active := choice.0;
    var drawn;
    drawn, cache', log := ApplyDrawEvent(choice.1, cache, Stroke(e.from, e.to, e.size, active), outline);
    var eff := Effected(log, active);
    EffectedSpec(log, active);
    forall s, q | Has(eff, s) && q in eff.table[s] ensures InBounds(st.w, st.h, q) {
      var k :| 0 <= k < |log| && log[k].pos == q && Hits(log[k], active, s) && Adds(log[k])
        && forall k' :: k < k' < |log| && log[k'].pos == q ==> !Hits(log[k'], active, s);
      assert log[k] in log;
    }
    var next;
    fills, next, removed := FindSplits(drawn, eff);
    forall f | f in fills ensures CutPiece(log, active, f) {
      assert FromCut(eff, f);
      var s :| Has(eff, s) && Elements(f.points) <= Elements(eff.table[s]);
      assert forall q :: q in f.points ==> q in Elements(f.points);
    }
    st' := drawn.(next := next);
    assert forall q :: SegmentAt(st', q) == SegmentAt(drawn, q);
  }

  // ---- Flood fills --------------------------------------------------------------------

  /** One call of the flood fill's `onUpdateSegment`: the pixel, its data after the fill, and which fill. */
  datatype Filled = Filled(pos: Pos, entry: PixelData, fill: nat)

  /** The flood fill's threaded state: the canvas and the reported fills. */
  datatype Flooding = Flooding(st: State, log: seq<Filled>)

  /** A pixel the fill may pass through: painted with the old or the new segment. */
  predicate Fillable(st: State, q: Pos, from: int, to: int)
  {
    SegmentAt(st, q) == Some(from) || SegmentAt(st, q) == Some(to)
  }

  /** Relabels a fillable pixel, keeping its boundary status, and reports it. */
  function FillTest(w: int, h: int, from: int, to: int, index: nat, s: Flooding, q: Pos): (v: Verdict<Flooding>)
    ensures v.pass ==> InBounds(w, h, q)
    ensures !v.exit
  {
    if InBounds(w, h, q) && At(s.st, q).Some? && (At(s.st, q).value.segment == to || At(s.st, q).value.segment == from) then
      var a := if At(s.st, q).value.neighbours < 4 then SetBoundarySegment(s.st, q, to) else SetNonBoundarySegment(s.st, q, to);
      Verdict(true, false, Flooding(a.0, s.log + [Filled(q, a.0.canvas[Index(a.0.w, q)], index)]))
    else Verdict(false, false, s)
  }

  lemma FillTestSpec(w: int, h: int, from: int, to: int, index: nat, s: Flooding, q: Pos)
    requires s.st.w == w && s.st.h == h
    ensures var v := FillTest(w, h, from, to, index, s, q);
      && (v.pass <==> Fillable(s.st, q, from, to))
      && (v.pass ==> Relabels(s.st, v.state.st, q, to))
      && (!v.pass ==> v.state == s)
  {
    if InBounds(w, h, q) && At(s.st, q).Some? && (At(s.st, q).value.segment == to || At(s.st, q).value.segment == from) {
      if At(s.st, q).value.neighbours < 4 {
        SetBoundarySegmentSpec(s.st, q, to);
      } else {
        SetNonBoundarySegmentSpec(s.st, q, to);
      }
    }
  }

  /** The fill keeps the resolution and which pixels are fillable, so its test answers as at the start. */
  ghost predicate FillSteady(st0: State, from: int, to: int, s: Flooding)
  {
    && s.st.w == st0.w && s.st.h == st0.h
    && forall q :: Fillable(s.st, q, from, to) == Fillable(st0, q, from, to)
  }

  /** Only pixels of the old segment changed, and they now have the new one. */
  ghost predicate FromTo(st0: State, from: int, to: int, s: Flooding)
  {
    && s.st.w == st0.w && s.st.h == st0.h && s.st.next == st0.next
    && forall q :: SegmentAt(s.st, q) == SegmentAt(st0, q) || (SegmentAt(st0, q) == Some(from) && SegmentAt(s.st, q) == Some(to))
  }

  lemma FillKeeps(st0: State, from: int, to: int, index: nat)
    ensures Steady((s: Flooding, q: Pos) => FillTest(st0.w, st0.h, from, to, index, s, q),
                   (s: Flooding) => FillSteady(st0, from, to, s), Flooding(st0, []))
    ensures Keeps((s: Flooding, q: Pos) => FillTest(st0.w, st0.h, from, to, index, s, q),
                  (s: Flooding) => FromTo(st0, from, to, s))
  {
    forall s: Flooding, p: Pos | FillSteady(st0, from, to, s)
      ensures FillSteady(st0, from, to, FillTest(st0.w, st0.h, from, to, index, s, p).state)
      ensures FillTest(st0.w, st0.h, from, to, index, s, p).pass == FillTest(st0.w, st0.h, from, to, index, Flooding(st0, []), p).pass
    {
      FillTestSpec(st0.w, st0.h, from, to, index, s, p);
      FillTestSpec(st0.w, st0.h, from, to, index, Flooding(st0, []), p);
    }
    forall s: Flooding, p: Pos | FromTo(st0, from, to, s)
      ensures FromTo(st0, from, to, FillTest(st0.w, st0.h, from, to, index, s, p).state)
    {
      FillTestSpec(st0.w, st0.h, from, to, index, s, p);
    }
  }

  /** Every entry the fill logs carries its index and an in-bounds position. */
  ghost predicate Logged(w: int, h: int, index: nat, s: Flooding)
  {
    forall f :: f in s.log ==> f.fill == index && InBounds(w, h, f.pos)
  }

  lemma FillKeepsLog(w: int, h: int, from: int, to: int, index: nat)
    ensures Keeps((s: Flooding, p: Pos) => FillTest(w, h, from, to, index, s, p),
                  (s: Flooding) => Logged(w, h, index, s))
  {
  }

  /** Once a pixel has the new segment it keeps it. */
  lemma FillKeepsPixel(w: int, h: int, from: int, to: int, index: nat, q: Pos)
    ensures Keeps((s: Flooding, p: Pos) => FillTest(w, h, from, to, index, s, p),
                  (s: Flooding) => s.st.w == w && s.st.h == h && SegmentAt(s.st, q) == Some(to))
  {
    forall s: Flooding, p: Pos | s.st.w == w && s.st.h == h && SegmentAt(s.st, q) == Some(to)
      ensures var t := FillTest(w, h, from, to, index, s, p).state; t.st.w == w && t.st.h == h && SegmentAt(t.st, q) == Some(to)
    {
      FillTestSpec(w, h, from, to, index, s, p);
    }
  }

  /** The eight directions of a flood fill, `kAdjacency` followed by the diagonals. */
  function Around8(): seq<Pos>
  {
    Neighbourhood(true)
  }

  /**
   * One fill of `floodFill`, from `start`: nothing happens unless `start`
   * is painted with a different segment; otherwise every pixel connected
   * to `start` (diagonals included) through pixels of the old or the new
   * segment is relabelled, keeping its boundary status.
   */
  method ApplyFill(st: State, to: int, start: Pos, index: nat) returns (st': State, filled: seq<Filled>, ghost region: seq<Pos>)
    ensures st'.w == st.w && st'.h == st.h && st'.next == st.next
    ensures At(st, start).None? || At(st, start).value.segment == to ==> st' == st && filled == []
    ensures At(st, start).Some? && At(st, start).value.segment != to ==>
      var from := At(st, start).value.segment;
      && (InBounds(st.w, st.h, start) ==> start in region)
      && (forall q :: q in region ==> SegmentAt(st', q) == Some(to))
      && (forall q, d :: q in region && 0 <= d < 8 && Fillable(st, Add(q, Around8()[d]), from, to) ==> Add(q, Around8()[d]) in region)
      && (forall q :: SegmentAt(st', q) == SegmentAt(st, q) || (SegmentAt(st, q) == Some(from) && SegmentAt(st', q) == Some(to)))
      && (forall q :: SegmentAt(st', q) != SegmentAt(st, q) ==> q in region)
    ensures Connected(region, start, Around8())
    ensures forall f :: f in filled ==> f.fill == index && InBounds(st.w, st.h, f.pos)
  {
    st', filled, region := st, [], [];
    var data := At(st, start);
    if data.Some? && data.value.segment != to {
      var from := data.value.segment;
      var s0 := Flooding(st, []);
      var test := (s: Flooding, q: Pos) => FillTest(st.w, st.h, from, to, index, s, q);
      ghost var inv := (s: Flooding) => FillSteady(st, from, to, s);
      FillKeeps(st, from, to, index);
      var visited, trace, s := PackageBft(start, test, s0, true, st.w, st.h, inv);
      FillOutcome(st, from, to, index, start, visited, trace);
      FillConfined(st, from, to, index, start, visited, trace);
      st', filled, region := s.st, s.log, visited;
    }
  }

  /** What the traversal of one fill leaves behind, from the traversal's own guarantees. */
  lemma FillOutcome(st: State, from: int, to: int, index: nat, start: Pos, visited: seq<Pos>, trace: seq<Call<Flooding>>)
    requires Steady((s: Flooding, q: Pos) => FillTest(st.w, st.h, from, to, index, s, q),
                    (s: Flooding) => FillSteady(st, from, to, s), Flooding(st, []))
    requires Threads((s: Flooding, q: Pos) => FillTest(st.w, st.h, from, to, index, s, q), Flooding(st, []), trace)
    requires start in visited <==> FillTest(st.w, st.h, from, to, index, Flooding(st, []), start).pass
    requires forall i :: 0 <= i < |visited| ==> PassedIn(trace, visited[i])
    requires Closed((s: Flooding, q: Pos) => FillTest(st.w, st.h, from, to, index, s, q), Flooding(st, []), visited, Neighbourhood(true))
    requires SegmentAt(st, start) == Some(from) || !InBounds(st.w, st.h, start)
    ensures var s := After(Flooding(st, []), trace);
      && s.st.w == st.w && s.st.h == st.h && s.st.next == st.next
      && (InBounds(st.w, st.h, start) ==> start in visited)
      && (forall q :: q in visited ==> SegmentAt(s.st, q) == Some(to))
      && (forall q, d :: q in visited && 0 <= d < 8 && Fillable(st, Add(q, Around8()[d]), from, to) ==> Add(q, Around8()[d]) in visited)
      && (forall q :: SegmentAt(s.st, q) == SegmentAt(st, q) || (SegmentAt(st, q) == Some(from) && SegmentAt(s.st, q) == Some(to)))
      && Logged(st.w, st.h, index, s)
  {
    var s0 := Flooding(st, []);
    var test := (s: Flooding, q: Pos) => FillTest(st.w, st.h, from, to, index, s, q);
    FillKeeps(st, from, to, index);
    FillKeepsLog(st.w, st.h, from, to, index);
    KeepsAlong(test, (s: Flooding) => Logged(st.w, st.h, index, s), s0, trace, 0, |trace|);
    KeepsAlong(test, (s: Flooding) => FromTo(st, from, to, s), s0, trace, 0, |trace|);
    FillTestSpec(st.w, st.h, from, to, index, s0, start);
    forall q | q in visited ensures SegmentAt(After(s0, trace).st, q) == Some(to) {
      var i :| 0 <= i < |visited| && visited[i] == q;
      FillReaches(st, from, to, index, trace, q);
    }
    forall q, d | q in visited && 0 <= d < 8 && Fillable(st, Add(q, Around8()[d]), from, to)
      ensures Add(q, Around8()[d]) in visited
    {
      var k :| 0 <= k < |visited| && visited[k] == q;
      FillTestSpec(st.w, st.h, from, to, index, s0, Add(q, Around8()[d]));
    }
  }

  /**
   * The fill changes no pixel outside the region it visits: a changed
   * pixel passed some call, and a passing call is about `start` or a
   * fillable neighbour of a visited pixel, which the region holds.
   */
  lemma FillConfined(st: State, from: int, to: int, index: nat, start: Pos, visited: seq<Pos>, trace: seq<Call<Flooding>>)
    requires Threads((s: Flooding, q: Pos) => FillTest(st.w, st.h, from, to, index, s, q), Flooding(st, []), trace)
    requires start in visited <==> FillTest(st.w, st.h, from, to, index, Flooding(st, []), start).pass
    requires forall c :: 0 <= c < |trace| ==> trace[c].pos == start || NearOrder(visited, trace[c].pos, Around8())
    requires forall q, d :: q in visited && 0 <= d < 8 && Fillable(st, Add(q, Around8()[d]), from, to) ==> Add(q, Around8()[d]) in visited
    ensures forall q :: SegmentAt(After(Flooding(st, []), trace).st, q) != SegmentAt(st, q) ==> q in visited
  {
    var s0 := Flooding(st, []);
    var test := (s: Flooding, q: Pos) => FillTest(st.w, st.h, from, to, index, s, q);
    forall q | SegmentAt(After(s0, trace).st, q) != SegmentAt(st, q) ensures q in visited {
      var i := FillChanged(st, from, to, index, trace, |trace|, q);
      FillPassSteady(st, from, to, index, trace, i);
      FillTestSpec(st.w, st.h, from, to, index, s0, q);
      if q != start {
        var j :| 0 <= j < |visited| && Adjacent(visited[j], q, Around8());
        var d :| 0 <= d < |Around8()| && q == Add(visited[j], Around8()[d]);
        assert visited[j] in visited;
      }
    }
  }

  /** A pixel changed by the first `c` calls is the pixel of one of them that passed. */
  lemma {:induction false} FillChanged(st: State, from: int, to: int, index: nat, trace: seq<Call<Flooding>>, c: nat, q: Pos)
    returns (i: nat)
    requires Threads((s: Flooding, q: Pos) => FillTest(st.w, st.h, from, to, index, s, q), Flooding(st, []), trace)
    requires c <= |trace| && SegmentAt(Before(Flooding(st, []), trace, c).st, q) != SegmentAt(st, q)
    ensures i < c && trace[i].pos == q && trace[i].verdict.pass
    decreases c
  {
    var k: nat :| k + 1 == c;
    if SegmentAt(Before(Flooding(st, []), trace, k).st, q) != SegmentAt(st, q) {
      i := FillChanged(st, from, to, index, trace, k, q);
    } else {
      FillCall(st, from, to, index, trace, k, q);
      i := k;
    }
  }

  /** A pixel that call `c` of the fill changes is the one it asks about, and the call passed. */
  lemma FillCall(st: State, from: int, to: int, index: nat, trace: seq<Call<Flooding>>, c: nat, q: Pos)
    requires Threads((s: Flooding, q: Pos) => FillTest(st.w, st.h, from, to, index, s, q), Flooding(st, []), trace)
    requires c < |trace|
    requires SegmentAt(Before(Flooding(st, []), trace, c + 1).st, q) != SegmentAt(Before(Flooding(st, []), trace, c).st, q)
    ensures q == trace[c].pos && trace[c].verdict.pass
  {
    var s0 := Flooding(st, []);
    var test := (s: Flooding, q: Pos) => FillTest(st.w, st.h, from, to, index, s, q);
    FillKeepsSize(st.w, st.h, from, to, index);
    KeepsAlong(test, (s: Flooding) => s.st.w == st.w && s.st.h == st.h, s0, trace, 0, c);
    FillTestSpec(st.w, st.h, from, to, index, Before(s0, trace, c), trace[c].pos);
  }

  lemma FillKeepsSize(w: int, h: int, from: int, to: int, index: nat)
    ensures Keeps((s: Flooding, p: Pos) => FillTest(w, h, from, to, index, s, p),
                  (s: Flooding) => s.st.w == w && s.st.h == h)
  {
    forall s: Flooding, p: Pos | s.st.w == w && s.st.h == h
      ensures var t := FillTest(w, h, from, to, index, s, p).state; t.st.w == w && t.st.h == h
    {
      FillTestSpec(w, h, from, to, index, s, p);
    }
  }

  /** A pixel that passed some call of the fill is fillable on the canvas the fill started from. */
  lemma FillPassSteady(st: State, from: int, to: int, index: nat, trace: seq<Call<Flooding>>, i: nat)
    requires Threads((s: Flooding, q: Pos) => FillTest(st.w, st.h, from, to, index, s, q), Flooding(st, []), trace)
    requires i < |trace| && trace[i].verdict.pass
    ensures Fillable(st, trace[i].pos, from, to)
  {
    var s0 := Flooding(st, []);
    var test := (s: Flooding, q: Pos) => FillTest(st.w, st.h, from, to, index, s, q);
    FillKeeps(st, from, to, index);
    KeepsAlong(test, (s: Flooding) => FillSteady(st, from, to, s), s0, trace, 0, i);
    FillTestSpec(st.w, st.h, from, to, index, Before(s0, trace, i), trace[i].pos);
  }

  /** A pixel the fill passed through ends with the new segment. */
  lemma FillReaches(st: State, from: int, to: int, index: nat, trace: seq<Call<Flooding>>, q: Pos)
    requires Threads((s: Flooding, q: Pos) => FillTest(st.w, st.h, from, to, index, s, q), Flooding(st, []), trace)
    requires PassedIn(trace, q)
    ensures SegmentAt(After(Flooding(st, []), trace).st, q) == Some(to)
  {
    var c :| 0 <= c < |trace| && trace[c].pos == q && trace[c].verdict.pass;
    FillPassed(st, from, to, index, trace, c);
    FillKeepsPixel(st.w, st.h, from, to, index, q);
    KeepsAlong((s: Flooding, q: Pos) => FillTest(st.w, st.h, from, to, index, s, q),
               (s: Flooding) => s.st.w == st.w && s.st.h == st.h && SegmentAt(s.st, q) == Some(to),
               Flooding(st, []), trace, c + 1, |trace|);
  }

  /** Right after a passing call, the pixel asked about has the new segment. */
  lemma FillPassed(st: State, from: int, to: int, index: nat, trace: seq<Call<Flooding>>, c: nat)
    requires Threads((s: Flooding, q: Pos) => FillTest(st.w, st.h, from, to, index, s, q), Flooding(st, []), trace)
    requires c < |trace| && trace[c].verdict.pass
    ensures var b := Before(Flooding(st, []), trace, c + 1);
      b.st.w == st.w && b.st.h == st.h && SegmentAt(b.st, trace[c].pos) == Some(to)
  {
    var s0 := Flooding(st, []);
    var test := (s: Flooding, q: Pos) => FillTest(st.w, st.h, from, to, index, s, q);
    FillKeeps(st, from, to, index);
    KeepsAlong(test, (s: Flooding) => FromTo(st, from, to, s), s0, trace, 0, c);
    FillTestSpec(st.w, st.h, from, to, index, Before(s0, trace, c), trace[c].pos);
  }

  /** A fill as `floodFill` receives it: a server response names its start, an event starts at its oldest point. */
  datatype FillSource = FromResponse(segment: int, startingPoint: Pos) | FromEvent(event: FillEvent)
  {
    function Target(): int
    {
      match this
      case FromResponse(s, _) => s
      case FromEvent(e) => e.segment
    }

    /** `traversalStart`: `None` for an event without points, where the source throws. */
    function Start(): (r: Option<Pos>)
      ensures FromEvent? ==> (r.None? <==> |event.points| == 0)
    {
      match this
      case FromResponse(_, p) => Some(p)
      case FromEvent(e) => SetFirst(e.points)
    }
  }

  /** One more fill keeps every changed pixel inside the region of the last fill that changed it. */
  lemma FillStep(st: State, cur: State, next: State, fills: seq<FillSource>, regions: seq<seq<Pos>>, region: seq<Pos>, n: nat)
    requires |regions| == n < |fills|
    requires forall q :: SegmentAt(cur, q) != SegmentAt(st, q) ==>
      exists i :: 0 <= i < |regions| && q in regions[i] && SegmentAt(cur, q) == Some(fills[i].Target())
    requires forall q :: SegmentAt(next, q) != SegmentAt(cur, q) ==> q in region && SegmentAt(next, q) == Some(fills[n].Target())
    ensures forall q :: SegmentAt(next, q) != SegmentAt(st, q) ==>
      exists i :: 0 <= i < |regions + [region]| && q in (regions + [region])[i] && SegmentAt(next, q) == Some(fills[i].Target())
  {
    forall q | SegmentAt(next, q) != SegmentAt(st, q)
      ensures exists i :: 0 <= i < |regions + [region]| && q in (regions + [region])[i] && SegmentAt(next, q) == Some(fills[i].Target())
    {
      if SegmentAt(next, q) != SegmentAt(cur, q) {
        assert (regions + [region])[n] == region;
      } else {
        var i :| 0 <= i < |regions| && q in regions[i] && SegmentAt(cur, q) == Some(fills[i].Target());
        assert (regions + [region])[i] == regions[i];
      }
    }
  }

  /**
   * `floodFill`: applies the fills in order; a fill event without points
   * makes the source throw, which stops the loop with the earlier fills
   * applied.
   */
  method FloodFill(st: State, fills: seq<FillSource>)
    returns (st': State, filled: seq<Filled>, thrown: bool, ghost regions: seq<seq<Pos>>)
    ensures st'.w == st.w && st'.h == st.h && st'.next == st.next
    ensures thrown <==> exists i :: 0 <= i < |fills| && fills[i].Start().None?
    ensures forall q :: (SegmentAt(st', q) == SegmentAt(st, q) ||
      exists i :: 0 <= i < |fills| && SegmentAt(st', q) == Some(fills[i].Target()))
    ensures forall f :: f in filled ==> f.fill < |fills| && InBounds(st.w, st.h, f.pos)
    ensures |regions| <= |fills| && (!thrown ==> |regions| == |fills|)
    ensures forall i :: 0 <= i < |regions| ==> fills[i].Start().Some? && Connected(regions[i], fills[i].Start().value, Around8())
    ensures forall q :: SegmentAt(st', q) != SegmentAt(st, q) ==>
      exists i :: 0 <= i < |regions| && q in regions[i] && SegmentAt(st', q) == Some(fills[i].Target())
  {
    st', filled, thrown, regions := st, [], false, [];
    var n := 0;
    while n < |fills| && !thrown
      invariant 0 <= n <= |fills|
      invariant st'.w == st.w && st'.h == st.h && st'.next == st.next
      invariant thrown <==> n > 0 && fills[n - 1].Start().None?
      invariant forall i :: 0 <= i < n - 1 ==> fills[i].Start().Some?
      invariant !thrown ==> forall i :: 0 <= i < n ==> fills[i].Start().Some?
      invariant thrown ==> n > 0
      invariant forall q :: (SegmentAt(st', q) == SegmentAt(st, q) ||
        exists i :: 0 <= i < n && SegmentAt(st', q) == Some(fills[i].Target()))
      invariant forall f :: f in filled ==> f.fill < n && InBounds(st.w, st.h, f.pos)
      invariant |regions| == (if thrown then n - 1 else n)
      invariant forall i :: 0 <= i < |regions| ==> fills[i].Start().Some? && Connected(regions[i], fills[i].Start().value, Around8())
      invariant forall q :: SegmentAt(st', q) != SegmentAt(st, q) ==>
        exists i :: 0 <= i < |regions| && q in regions[i] && SegmentAt(st', q) == Some(fills[i].Target())
    {
      var start := fills[n].Start();
      if start.None? {
        thrown := true;
      } else {
        var next, more, region := ApplyFill(st', fills[n].Target(), start.value, n);
        FillStep(st, st', next, fills, regions, region, n);
        forall q ensures SegmentAt(next, q) == SegmentAt(st, q) ||
          exists i :: 0 <= i < n + 1 && SegmentAt(next, q) == Some(fills[i].Target())
        {
          if SegmentAt(next, q) != SegmentAt(st', q) {
            assert SegmentAt(next, q) == Some(fills[n].Target());
          }
        }
        st', filled, regions := next, filled + more, regions + [region];
      }
      n := n + 1;
    }
    if !thrown {
      assert n == |fills|;
    }
  }
}

=== FILE: client.dfy ===
/**
 * The client's drawing of apps/next-app: the segment choice of
 * `smoothPaintClient`, and `fillUpdatedSegment`, which applies a split the
 * server announced: the new boundary pixels and then the 8-connected
 * region of the old segment around `fillStart` take the next segment id.
 *
 * The texture writes of `fillPixel` are logged as fills: `Boundary` for
 * the boosted border alpha, `NotBoundary` for the plain drawing alpha.
 */
module ClientDrawing {
  import opened Wrappers
  import opened Grid
  import opened SegmentBuffers
  import opened Traversal
  import opened Bft
  import opened SharedDrawing

  // ---- smoothPaintClient's segment choice --------------------------------------------

  /**
   * The stroke's segment: the one under `event.from`, or the next id when
   * that pixel is empty (-1), in which case the counter moves on. A read
   * off the buffer is `undefined` (None) and is kept as the segment.
   */
  function ClientSegment(b: seq<int>, w: nat, from: Pos, next: int): (r: (Option<int>, int))
  {
    match GetSegment(b, w, from)
    case Some(s) => if s == -1 then (Some(next), next + 1) else (Some(s), next)
    case None => (None, next)
  }

  /** On the canvas the client chooses the same segment and counter as the shared `smoothPaint`. */
  lemma ClientMatchesShared(b: seq<int>, w: nat, h: nat, e: DrawEvent, path: seq<Pos>, next: int)
    requires |b| == w * h && InBounds(w, h, e.from)
    ensures var r := ClientSegment(b, w, e.from, next);
      && r.1 == SmoothPaint(b, w, h, next, e, path).0
      && r.0.Some?
      && (SmoothPaint(b, w, h, next, e, path).1.Some? ==> r.0.value == SmoothPaint(b, w, h, next, e, path).1.value.active)
  {
    ReadAfterWrite(b, w, h, e.from, e.from, 0);
  }

  // ---- fillUpdatedSegment -------------------------------------------------------------

  /** The buffer and the texture writes made so far. */
  datatype Flood = Flood(buffer: seq<int>, log: seq<Effect>)

  /** The boundary loop: each listed point, in order, takes `next` (a raw-index store) and a border fill. */
  function MarkBoundary(f: Flood, w: nat, boundary: seq<Pos>, next: int): (r: Flood)
    ensures |r.buffer| == |f.buffer|
    decreases |boundary|
  {
    if boundary == [] then f
    else MarkBoundary(Flood(SetSegment(f.buffer, w, boundary[0], next), f.log + [Fill(boundary[0], Boundary)]),
                      w, boundary[1..], next)
  }

  /** Some listed point has raw index `i`. */
  predicate Lists(w: nat, boundary: seq<Pos>, i: int)
  {
    exists k :: 0 <= k < |boundary| && Index(w, boundary[k]) == i
  }

  /** After the boundary loop a cell holds `next` exactly when a listed point indexes it, else its old value; one border fill per point. */
  lemma {:induction false} MarkBoundarySpec(f: Flood, w: nat, boundary: seq<Pos>, next: int)
    ensures var r := MarkBoundary(f, w, boundary, next);
      && (forall i :: 0 <= i < |f.buffer| ==> r.buffer[i] == if Lists(w, boundary, i) then next else f.buffer[i])
      && r.log == f.log + seq(|boundary|, k requires 0 <= k < |boundary| => Fill(boundary[k], Boundary))
    decreases |boundary|
  {
    if boundary != [] {
      var f' := Flood(SetSegment(f.buffer, w, boundary[0], next), f.log + [Fill(boundary[0], Boundary)]);
      MarkBoundarySpec(f', w, boundary[1..], next);
      var r := MarkBoundary(f, w, boundary, next);
      forall i | 0 <= i < |f.buffer| ensures r.buffer[i] == if Lists(w, boundary, i) then next else f.buffer[i] {
        if Lists(w, boundary[1..], i) {
          var k :| 0 <= k < |boundary[1..]| && Index(w, boundary[1..][k]) == i;
          assert Index(w, boundary[k + 1]) == i;
        } else if Lists(w, boundary, i) {
          var k :| 0 <= k < |boundary| && Index(w, boundary[k]) == i;
        }
      }
      var fills := seq(|boundary|, k requires 0 <= k < |boundary| => Fill(boundary[k], Boundary));
      var rest := seq(|boundary[1..]|, k requires 0 <= k < |boundary[1..]| => Fill(boundary[1..][k], Boundary));
      assert fills == [Fill(boundary[0], Boundary)] + rest;
    }
  }

  /**
   * The traversal's test: off the canvas fails; a pixel already holding
   * `next` passes untouched; a pixel holding the initial segment takes
   * `next` and a plain fill and passes; any other pixel fails. An
   * `undefined` initial segment (None) equals no pixel.
   */
  function FloodTest(w: nat, h: nat, initial: Option<int>, next: int, f: Flood, q: Pos): Verdict<Flood>
  {
    if !InBounds(w, h, q) then Verdict(false, false, f)
    else if View(f.buffer, w, q) == next then Verdict(true, false, f)
    else if initial == Some(View(f.buffer, w, q)) then
      Verdict(true, false, Flood(SetSegment(f.buffer, w, q, next), f.log + [Fill(q, NotBoundary)]))
    else Verdict(false, false, f)
  }

  function Flooder(w: nat, h: nat, initial: Option<int>, next: int): (Flood, Pos) -> Verdict<Flood>
  {
    (f: Flood, q: Pos) => FloodTest(w, h, initial, next, f, q)
  }

  /** The pixels the flood may enter: on the canvas and holding `next` or the initial segment. */
  predicate Floodable(b: seq<int>, w: nat, h: nat, initial: Option<int>, next: int, q: Pos)
  {
    InBounds(w, h, q) && (View(b, w, q) == next || initial == Some(View(b, w, q)))
  }

  /** What the flood keeps: the same pixels are floodable as in `b`. */
  ghost predicate SameFloodable(b: seq<int>, w: nat, h: nat, initial: Option<int>, next: int, f: Flood)
  {
    && |f.buffer| == |b|
    && forall q :: Floodable(f.buffer, w, h, initial, next, q) <==> Floodable(b, w, h, initial, next, q)
  }

  ghost function KeepsFloodable(b: seq<int>, w: nat, h: nat, initial: Option<int>, next: int): Flood -> bool
  {
    (f: Flood) => SameFloodable(b, w, h, initial, next, f)
  }

  /** The flood's test passes where the pixel is floodable, and turning an initial pixel into `next` keeps every pixel's floodability. */
  lemma FloodSteady(b: seq<int>, w: nat, h: nat, initial: Option<int>, next: int, log: seq<Effect>)
    requires |b| == w * h
    ensures Steady(Flooder(w, h, initial, next), KeepsFloodable(b, w, h, initial, next), Flood(b, log))
  {
    var test := Flooder(w, h, initial, next);
    forall f: Flood, p | SameFloodable(b, w, h, initial, next, f)
      ensures SameFloodable(b, w, h, initial, next, test(f, p).state)
      ensures !test(f, p).exit && test(f, p).pass == test(Flood(b, log), p).pass
    {
      var f' := test(f, p).state;
      assert test(f, p).pass == Floodable(f.buffer, w, h, initial, next, p);
      if f' != f {
        forall q ensures Floodable(f'.buffer, w, h, initial, next, q) <==> Floodable(f.buffer, w, h, initial, next, q) {
          if InBounds(w, h, q) {
            ReadAfterWrite(f.buffer, w, h, p, q, next);
          }
        }
      }
    }
  }

  /**
   * What the flood has done once the pixels of `passed` have passed: they
   * were floodable and now hold `next`, every other pixel is as it was, and
   * each pass over a pixel that did not already hold `next` made one plain fill.
   */
  ghost predicate Flooded(b: seq<int>, log0: seq<Effect>, w: nat, h: nat, initial: Option<int>, next: int,
                          f: Flood, passed: set<Pos>)
  {
    && |f.buffer| == |b|
    && (forall q :: q in passed ==> Floodable(b, w, h, initial, next, q))
    && (forall q :: InBounds(w, h, q) ==> View(f.buffer, w, q) == if q in passed then next else View(b, w, q))
    && |log0| <= |f.log| && f.log[..|log0|] == log0
    && (forall k :: |log0| <= k < |f.log| ==> f.log[k].Fill? && f.log[k].kind == NotBoundary && f.log[k].pos in passed)
  }

  lemma FloodPass(b: seq<int>, log0: seq<Effect>, w: nat, h: nat, initial: Option<int>, next: int,
                  f: Flood, passed: set<Pos>, q: Pos)
    requires |b| == w * h
    requires Flooded(b, log0, w, h, initial, next, f, passed)
    requires FloodTest(w, h, initial, next, f, q).pass
    ensures Flooded(b, log0, w, h, initial, next, FloodTest(w, h, initial, next, f, q).state, passed + {q})
  {
    var f' := FloodTest(w, h, initial, next, f, q).state;
    var p' := passed + {q};
    assert Floodable(b, w, h, initial, next, q) by {
      if q !in passed {
        assert View(f.buffer, w, q) == View(b, w, q);
      }
    }
    if f' != f {
      forall q' | InBounds(w, h, q') ensures View(f'.buffer, w, q') == if q' in p' then next else View(b, w, q') {
        ReadAfterWrite(f.buffer, w, h, q, q', next);
      }
      assert f'.log[..|log0|] == f.log[..|log0|];
    }
  }

  lemma {:induction false} FloodAlong(b: seq<int>, log0: seq<Effect>, w: nat, h: nat, initial: Option<int>, next: int,
                                      trace: seq<Call<Flood>>, i: nat)
    requires |b| == w * h
    requires Threads(Flooder(w, h, initial, next), Flood(b, log0), trace) && i <= |trace|
    ensures Flooded(b, log0, w, h, initial, next, Before(Flood(b, log0), trace, i), PassedBefore(trace, i))
    decreases i
  {
    if i > 0 {
      var s0 := Flood(b, log0);
      FloodAlong(b, log0, w, h, initial, next, trace, i - 1);
      var c := trace[i - 1];
      var f := Before(s0, trace, i - 1);
      assert c.verdict == FloodTest(w, h, initial, next, f, c.pos);
      assert Before(s0, trace, i) == c.verdict.state;
      PassedStep(trace, i);
      if c.verdict.pass {
        FloodPass(b, log0, w, h, initial, next, f, PassedBefore(trace, i - 1), c.pos);
      } else {
        assert c.verdict.state == f;
        assert PassedBefore(trace, i) == PassedBefore(trace, i - 1);
      }
    }
  }

  /** An 8-connected path from `start` whose later pixels are all floodable in `b`. */
  ghost predicate FloodPath(b: seq<int>, w: nat, h: nat, initial: Option<int>, next: int, start: Pos, path: seq<Pos>)
  {
    && |path| > 0 && path[0] == start
    && forall i :: 0 < i < |path| ==> Adjacent(path[i - 1], path[i], Around()) && Floodable(b, w, h, initial, next, path[i])
  }

  /**
   * `fillUpdatedSegment`. The initial segment is read at `fillStart`
   * before the boundary loop; the traversal runs whenever `fillStart` is
   * given (an `undefined` read still runs it, matching nothing); the
   * counter moves on once per call.
   *
   * After the boundary loop (`marked`), the flood leaves every pixel as it
   * was or makes it `next`; it makes `next` exactly the pixels it passes,
   * which were floodable; it reaches every pixel other than `fillStart`
   * that an 8-connected floodable path from `fillStart` leads to; and the
   * traversal's `region` is 8-connected from `fillStart`, every pixel of it
   * but `fillStart` ends as `next`, and no pixel outside it changes: other
   * segments stop the fill.
   */
  method FillUpdatedSegment(b: seq<int>, w: nat, h: nat, boundary: seq<Pos>, fillStart: Option<Pos>, next: int)
    returns (b': seq<int>, log: seq<Effect>, next': int, ghost marked: Flood, ghost region: seq<Pos>)
    requires |b| == w * h
    ensures next' == next + 1
    ensures marked == MarkBoundary(Flood(b, []), w, boundary, next)
    ensures forall i :: 0 <= i < |b| ==> marked.buffer[i] == if Lists(w, boundary, i) then next else b[i]
    ensures |b'| == |b| && |marked.log| <= |log| && log[..|marked.log|] == marked.log
    ensures fillStart.None? ==> b' == marked.buffer && log == marked.log
    ensures fillStart.Some? ==>
      var initial := GetSegment(b, w, fillStart.value);
      && (exists passed :: Flooded(marked.buffer, marked.log, w, h, initial, next, Flood(b', log), passed))
      && forall path :: FloodPath(marked.buffer, w, h, initial, next, fillStart.value, path) && path[|path| - 1] != fillStart.value ==>
           View(b', w, path[|path| - 1]) == next
    ensures fillStart.Some? ==>
      && |region| > 0 && Connected(region, fillStart.value, Around())
      && (forall i :: 0 < i < |region| ==> View(b', w, region[i]) == next)
      && (forall q :: InBounds(w, h, q) && View(b', w, q) != View(marked.buffer, w, q) ==> q in region)
  {
    var initial := if fillStart.Some? then GetSegment(b, w, fillStart.value) else None;
    var m := MarkBoundary(Flood(b, []), w, boundary, next);
    marked := m;
    MarkBoundarySpec(Flood(b, []), w, boundary, next);
    if fillStart.Some? {
      var start := fillStart.value;
      var test := Flooder(w, h, initial, next);
      var visited, trace, r := CommonBft(start, test, m, true, w, h, KeepsFloodable(marked.buffer, w, h, initial, next));
      FloodAlong(marked.buffer, marked.log, w, h, initial, next, trace, |trace|);
      FloodSteady(marked.buffer, w, h, initial, next, marked.log);
      b', log := r.buffer, r.log;
      FloodReaches(marked, w, h, initial, next, start, visited, trace, r);
      FloodConfined(marked, w, h, initial, next, start, visited, trace, r);
      region := visited;
    } else {
      b', log := m.buffer, m.log;
      region := [];
    }
    next' := next + 1;
  }

  /** A closed traversal from `start` makes `next` every pixel a floodable path from `start` leads to, `start` aside. */
  lemma FloodReaches(m: Flood, w: nat, h: nat, initial: Option<int>, next: int, start: Pos,
                     visited: seq<Pos>, trace: seq<Call<Flood>>, r: Flood)
    requires |m.buffer| == w * h
    requires |visited| > 0 && visited[0] == start
    requires forall i :: 0 < i < |visited| ==> PassedIn(trace, visited[i])
    requires Closed(Flooder(w, h, initial, next), m, visited, Around())
    requires Flooded(m.buffer, m.log, w, h, initial, next, r, PassedBefore(trace, |trace|))
    ensures forall path :: FloodPath(m.buffer, w, h, initial, next, start, path) && path[|path| - 1] != start ==>
      View(r.buffer, w, path[|path| - 1]) == next
  {
    var test := Flooder(w, h, initial, next);
    forall path | FloodPath(m.buffer, w, h, initial, next, start, path) && path[|path| - 1] != start
      ensures View(r.buffer, w, path[|path| - 1]) == next
    {
      var last := path[|path| - 1];
      forall i | 0 < i < |path| ensures test(m, path[i]).pass {
        assert Floodable(m.buffer, w, h, initial, next, path[i]);
      }
      assert PassingPath(test, m, Around(), path);
      PathRecorded(test, m, visited, Around(), path);
      var k :| 0 <= k < |visited| && visited[k] == last;
      var c :| 0 <= c < |trace| && trace[c].pos == last && trace[c].verdict.pass;
      assert last in PassedBefore(trace, |trace|);
    }
  }

  /**
   * The flood changes only pixels of the traversal's region, and every
   * region pixel after `start` passed and so holds `next`.
   */
  lemma FloodConfined(m: Flood, w: nat, h: nat, initial: Option<int>, next: int, start: Pos,
                      visited: seq<Pos>, trace: seq<Call<Flood>>, r: Flood)
    requires |m.buffer| == w * h
    requires |visited| > 0 && visited[0] == start
    requires Threads(Flooder(w, h, initial, next), m, trace)
    requires forall i :: 0 < i < |visited| ==> PassedIn(trace, visited[i])
    requires forall c :: 0 <= c < |trace| ==> trace[c].pos == start || NearOrder(visited, trace[c].pos, Around())
    requires Closed(Flooder(w, h, initial, next), m, visited, Around())
    requires Flooded(m.buffer, m.log, w, h, initial, next, r, PassedBefore(trace, |trace|))
    ensures forall i :: 0 < i < |visited| ==> View(r.buffer, w, visited[i]) == next
    ensures forall q :: InBounds(w, h, q) && View(r.buffer, w, q) != View(m.buffer, w, q) ==> q in visited
  {
    var test := Flooder(w, h, initial, next);
    forall i | 0 < i < |visited| ensures View(r.buffer, w, visited[i]) == next {
      var c :| 0 <= c < |trace| && trace[c].pos == visited[i] && trace[c].verdict.pass;
      assert visited[i] in PassedBefore(trace, |trace|);
    }
    FloodSteady(m.buffer, w, h, initial, next, m.log);
    assert m == Flood(m.buffer, m.log);
    forall q | InBounds(w, h, q) && View(r.buffer, w, q) != View(m.buffer, w, q) ensures q in visited {
      assert q in PassedBefore(trace, |trace|);
      var c :| 0 <= c < |trace| && trace[c].verdict.pass && trace[c].pos == q;
      SteadyPassed(test, KeepsFloodable(m.buffer, w, h, initial, next), m, trace, q);
      if q != start {
        var j :| 0 <= j < |visited| && Adjacent(visited[j], q, Around());
        var d :| 0 <= d < |Around()| && q == Add(visited[j], Around()[d]);
      }
    }
  }
}

=== FILE: colours.dfy ===
/**
 * `getColor` of the drawing package's client: a module-level cache of
 * segment colours, grown on demand from a seeded random stream, three
 * draws per colour. The stream is a parameter: draw number `d` is
 * `random(d)`, and the cache records how many draws it has used.
 */
module SeededColours {
  import opened Wrappers
  import opened Vectors

  datatype Cache = Cache(colors: seq<Color>, drawn: nat)

  /** The colour built from draws `d`, `d + 1` and `d + 2`. */
  function Draw(random: nat -> real, d: nat): Color
  {
    Color(random(d), random(d + 1), random(d + 2))
  }

  /** The cache as the seeded stream fills it from the start: entry `k` from draws `3k .. 3k + 2`. */
  ghost predicate Generated(c: Cache, random: nat -> real)
  {
    c.drawn == 3 * |c.colors| && forall k :: 0 <= k < |c.colors| ==> c.colors[k] == Draw(random, 3 * k)
  }

  /**
   * A cached segment is answered from the cache (a negative one reads
   * `undefined`); otherwise the cache grows to `segment + 1` entries, each
   * new entry from the next three draws, and the last one is returned.
   * A cache filled from the start stays so, and then a segment's colour
   * depends on the segment alone.
   */
  method GetColor(c: Cache, random: nat -> real, segment: int) returns (r: Option<Color>, c': Cache)
    ensures segment < |c.colors| ==> c' == c && r == (if segment >= 0 then Some(c.colors[segment]) else None)
    ensures segment >= |c.colors| ==> |c'.colors| == segment + 1 && r == Some(c'.colors[segment])
    ensures |c.colors| <= |c'.colors| && c'.colors[..|c.colors|] == c.colors
    ensures c'.drawn == c.drawn + 3 * (|c'.colors| - |c.colors|)
    ensures forall k :: |c.colors| <= k < |c'.colors| ==> c'.colors[k] == Draw(random, c.drawn + 3 * (k - |c.colors|))
    ensures Generated(c, random) ==> Generated(c', random) && (segment >= 0 ==> r == Some(Draw(random, 3 * segment)))
  {
    if |c.colors| > segment {
      r := if segment >= 0 then Some(c.colors[segment]) else None;
      c' := c;
      return;
    }
    c' := c;
    while |c'.colors| <= segment
      invariant |c.colors| <= |c'.colors| <= segment + 1 && c'.colors[..|c.colors|] == c.colors
      invariant c'.drawn == c.drawn + 3 * (|c'.colors| - |c.colors|)
      invariant forall k :: |c.colors| <= k < |c'.colors| ==> c'.colors[k] == Draw(random, c.drawn + 3 * (k - |c.colors|))
      decreases segment + 1 - |c'.colors|
    {
      var col := Color(random(c'.drawn), random(c'.drawn + 1), random(c'.drawn + 2));
      c' := Cache(c'.colors + [col], c'.drawn + 3);
    }
    r := Some(c'.colors[|c'.colors| - 1]);
  }
}

/**
 * `getColor` of the app: the same cache, but each colour is computed from
 * `index = length + 1` by a sine-based hash. The hash is a float
 * computation passed in as `hue(index)`.
 */
module AppColours {
  import opened Wrappers
  import opened Vectors

  /**
   * As written: `index` is computed once before the loop, so every entry
   * one call appends is `hue(length + 1)`.
   */
  function GetColor(cache: seq<Color>, hue: int -> Color, segment: int): (r: (Option<Color>, seq<Color>))
    ensures segment < |cache| ==> r.1 == cache && r.0 == (if segment >= 0 then Some(cache[segment]) else None)
    ensures segment >= |cache| ==> |r.1| == segment + 1 && r.0 == Some(r.1[segment])
    ensures |cache| <= |r.1| && r.1[..|cache|] == cache
    ensures forall k :: |cache| <= k < |r.1| ==> r.1[k] == hue(|cache| + 1)
  {
    if |cache| > segment then (if segment >= 0 then Some(cache[segment]) else None, cache)
    else
      var grown := cache + seq(segment + 1 - |cache|, _ => hue(|cache| + 1));
      (Some(grown[segment]), grown)
  }

  /** Entry `k` is the colour of index `k + 1`. */
  ghost predicate Indexed(cache: seq<Color>, hue: int -> Color)
  {
    forall k :: 0 <= k < |cache| ==> cache[k] == hue(k + 1)
  }

  /** The evidently intended cache: each appended entry uses its own index. */
  function GetColorIndexed(cache: seq<Color>, hue: int -> Color, segment: int): (r: (Option<Color>, seq<Color>))
    ensures segment < |cache| ==> r.1 == cache && r.0 == (if segment >= 0 then Some(cache[segment]) else None)
    ensures segment >= |cache| ==> |r.1| == segment + 1 && r.0 == Some(r.1[segment])
    ensures |cache| <= |r.1| && r.1[..|cache|] == cache
  {
    if |cache| > segment then (if segment >= 0 then Some(cache[segment]) else None, cache)
    else
      var grown := cache + seq(segment + 1 - |cache|, j => hue(|cache| + j + 1));
      (Some(grown[segment]), grown)
  }

  /** With per-entry indices a segment's colour is `hue(segment + 1)` whatever was asked before. */
  lemma IndexedStable(cache: seq<Color>, hue: int -> Color, segment: int)
    requires Indexed(cache, hue)
    ensures var r := GetColorIndexed(cache, hue, segment);
      Indexed(r.1, hue) && (segment >= 0 ==> r.0 == Some(hue(segment + 1)))
  {
    var r := GetColorIndexed(cache, hue, segment);
    if |cache| <= segment {
      forall k | 0 <= k < |r.1|
        ensures r.1[k] == hue(k + 1)
      {
        if k >= |cache| {
          assert r.1[k] == hue(|cache| + (k - |cache|) + 1);
        }
      }
    }
  }

  /**
   * As written, segment 2's colour depends on what was asked before:
   * asked first it is `hue(1)`, asked after segments 0 and 1 it is `hue(3)`.
   */
  lemma HistoryDependent()
    ensures var hue := (i: int) => Color(i as real, 0.0, 0.0);
      && GetColor([], hue, 2).0 == Some(hue(1))
      && GetColor(GetColor(GetColor([], hue, 0).1, hue, 1).1, hue, 2).0 == Some(hue(3))
      && hue(1) != hue(3)
  {
    var hue := (i: int) => Color(i as real, 0.0, 0.0);
    var d1 := GetColor([], hue, 0).1;
    assert d1 == [hue(1)];
    var d2 := GetColor(d1, hue, 1).1;
    assert d2 == [hue(1), hue(2)];
  }
}

=== FILE: doublecount.dfy ===
/**
 * A concrete round on which the counting decision of `recomputeSegments`
 * decides against a split although the piece of its start point misses a
 * pending point. The canvas is five pixels wide and two high:
 *
 *   row 0:  0 0 0 1 0
 *   row 1:  1 0 1 1 1
 *
 * Segment 0 falls apart into the piece {(0,0), (1,0), (2,0), (1,1)} and
 * the lone pixel (4,0). The pending points are (0,0), (2,0) and (4,0).
 * The counting traversal from (0,0) tests (2,0) once from (1,0) and again
 * from (1,1), so its count of two unclaimed points reaches zero although
 * (4,0) was never reached; the meeting decision splits here. The claim is
 * about this one round: the next round, from (2,0), counts one unclaimed
 * point that its walk never meets, and relabels the piece of (2,0).
 */
module DoubleCount {
  import opened Grid
  import opened JsCollections
  import opened Traversal
  import opened SharedDrawing
  import Canvas

  function DemoBuffer(): seq<int> { [0, 0, 0, 1, 0, 1, 0, 1, 1, 1] }

  /** Every pixel counts as a boundary pixel. */
  function AnyPixel(): Pos -> bool { (q: Pos) => true }

  function DemoPending(): JsSet<Pos> { [Pos(0, 0), Pos(2, 0), Pos(4, 0)] }

  function DemoCounter(): (int, Pos) -> Verdict<int>
  {
    Counter(DemoBuffer(), 5, 2, AnyPixel(), 0, [Pos(2, 0), Pos(4, 0)])
  }

  /** The counting test on this canvas, pixel by pixel: the edge pixels of segment 0 and the unclaimed ones among them. */
  function CountTable(count: int, q: Pos): Verdict<int>
  {
    if q in [Pos(0, 0), Pos(1, 0), Pos(2, 0), Pos(4, 0), Pos(1, 1)] then
      if q in [Pos(2, 0), Pos(4, 0)] then Verdict(true, count - 1 == 0, count - 1) else Verdict(true, false, count)
    else Verdict(false, false, count)
  }

  /** The test of the counting traversal, with (2,0) and (4,0) unclaimed, is the table. */
  lemma CounterTable(count: int, q: Pos)
    ensures DemoCounter()(count, q) == CountTable(count, q)
  {
    EdgeTable(q);
  }

  lemma CounterIsTable(t: (int, Pos) -> Verdict<int>)
    requires t == DemoCounter()
    ensures forall c, q :: t(c, q) == CountTable(c, q)
  {
    forall c, q ensures t(c, q) == CountTable(c, q) {
      CounterTable(c, q);
    }
  }

  /** Segment 0 has edge pixels (0,0), (1,0), (2,0), (4,0) and (1,1). */
  lemma EdgeTable(q: Pos)
    ensures Edge(DemoBuffer(), 5, 2, AnyPixel(), 0, q) <==> q in [Pos(0, 0), Pos(1, 0), Pos(2, 0), Pos(4, 0), Pos(1, 1)]
  {
    if InBounds(5, 2, q) {
      if q.y == 0 {
        EdgeRow(q, 0);
      } else {
        EdgeRow(q, 1);
      }
    }
  }

  /** The edge pixels of segment 0 in row `y`, pixel by pixel. */
  lemma EdgeRow(q: Pos, y: int)
    requires InBounds(5, 2, q) && q.y == y
    ensures Edge(DemoBuffer(), 5, 2, AnyPixel(), 0, q) <==> q in [Pos(0, 0), Pos(1, 0), Pos(2, 0), Pos(4, 0), Pos(1, 1)]
  {
    var b := DemoBuffer();
    assert View(b, 5, q) == b[y * 5 + q.x];
    if q.x == 0 {
    } else if q.x == 1 {
    } else if q.x == 2 {
    } else if q.x == 3 {
    } else {
      assert q.x == 4;
    }
  }

  /** The eight offsets in the order they are tried. */
  lemma AroundIs()
    ensures Around() == [Pos(0, 1), Pos(0, -1), Pos(1, 0), Pos(-1, 0), Pos(1, 1), Pos(1, -1), Pos(-1, 1), Pos(-1, -1)]
  {
  }

  // ---- The neighbour loops, one tried offset at a time --------------------------------

  /** The neighbour loop at (0,0), the count at two: (1,0) and (1,1) are queued. */
  lemma CountFromStart(t: (int, Pos) -> Verdict<int>, c: Pos, n: seq<Pos>)
    requires c == Pos(0, 0) && n == [Pos(0, 1), Pos(0, -1), Pos(1, 0), Pos(-1, 0), Pos(1, 1), Pos(1, -1), Pos(-1, 1), Pos(-1, -1)]
    requires t(2, Pos(0, 1)) == Verdict(false, false, 2)
    requires t(2, Pos(0, -1)) == Verdict(false, false, 2)
    requires t(2, Pos(1, 0)) == Verdict(true, false, 2)
    requires t(2, Pos(-1, 0)) == Verdict(false, false, 2)
    requires t(2, Pos(1, 1)) == Verdict(true, false, 2)
    requires t(2, Pos(1, -1)) == Verdict(false, false, 2)
    requires t(2, Pos(-1, 1)) == Verdict(false, false, 2)
    requires t(2, Pos(-1, -1)) == Verdict(false, false, 2)
    ensures Spread(t, c, n, 0, 2, false) == ([Pos(1, 0), Pos(1, 1)], false, 2)
  {
    assert Spread(t, c, n, 8, 2, false) == ([], false, 2);
    SpreadFails(t, c, n, 7, 2, false, Pos(-1, -1), Verdict(false, false, 2), ([], false, 2));
    SpreadFails(t, c, n, 6, 2, false, Pos(-1, 1), Verdict(false, false, 2), ([], false, 2));
    SpreadFails(t, c, n, 5, 2, false, Pos(1, -1), Verdict(false, false, 2), ([], false, 2));
    SpreadPasses(t, c, n, 4, 2, false, Pos(1, 1), Verdict(true, false, 2), ([], false, 2), [Pos(1, 1)]);
    SpreadFails(t, c, n, 3, 2, false, Pos(-1, 0), Verdict(false, false, 2), ([Pos(1, 1)], false, 2));
    SpreadPasses(t, c, n, 2, 2, false, Pos(1, 0), Verdict(true, false, 2), ([Pos(1, 1)], false, 2), [Pos(1, 0), Pos(1, 1)]);
    SpreadFails(t, c, n, 1, 2, false, Pos(0, -1), Verdict(false, false, 2), ([Pos(1, 0), Pos(1, 1)], false, 2));
    SpreadFails(t, c, n, 0, 2, false, Pos(0, 1), Verdict(false, false, 2), ([Pos(1, 0), Pos(1, 1)], false, 2));
  }

  lemma VerdictsFromStart(t: (int, Pos) -> Verdict<int>)
    requires forall c, q :: t(c, q) == CountTable(c, q)
    ensures t(2, Pos(0, 1)) == Verdict(false, false, 2)
    ensures t(2, Pos(0, -1)) == Verdict(false, false, 2)
    ensures t(2, Pos(1, 0)) == Verdict(true, false, 2)
    ensures t(2, Pos(-1, 0)) == Verdict(false, false, 2)
    ensures t(2, Pos(1, 1)) == Verdict(true, false, 2)
    ensures t(2, Pos(1, -1)) == Verdict(false, false, 2)
    ensures t(2, Pos(-1, 1)) == Verdict(false, false, 2)
    ensures t(2, Pos(-1, -1)) == Verdict(false, false, 2)
  {
  }

  lemma DemoFromStart(t: (int, Pos) -> Verdict<int>, c: Pos, n: seq<Pos>)
    requires t == DemoCounter() && c == Pos(0, 0) && n == Around()
    ensures Spread(t, c, n, 0, 2, false) == ([Pos(1, 0), Pos(1, 1)], false, 2)
  {
    CounterIsTable(t);
    VerdictsFromStart(t);
    AroundIs();
    CountFromStart(t, c, n);
  }

  /** The neighbour loop at (1,0), the count at two: (2,0) passes and counts one. */
  lemma CountFromB1(t: (int, Pos) -> Verdict<int>, c: Pos, n: seq<Pos>)
    requires c == Pos(1, 0) && n == [Pos(0, 1), Pos(0, -1), Pos(1, 0), Pos(-1, 0), Pos(1, 1), Pos(1, -1), Pos(-1, 1), Pos(-1, -1)]
    requires t(2, Pos(1, 1)) == Verdict(true, false, 2)
    requires t(2, Pos(1, -1)) == Verdict(false, false, 2)
    requires t(2, Pos(2, 0)) == Verdict(true, false, 1)
    requires t(1, Pos(0, 0)) == Verdict(true, false, 1)
    requires t(1, Pos(2, 1)) == Verdict(false, false, 1)
    requires t(1, Pos(2, -1)) == Verdict(false, false, 1)
    requires t(1, Pos(0, 1)) == Verdict(false, false, 1)
    requires t(1, Pos(0, -1)) == Verdict(false, false, 1)
    ensures Spread(t, c, n, 0, 2, false) == ([Pos(1, 1), Pos(2, 0), Pos(0, 0)], false, 1)
  {
    assert Spread(t, c, n, 8, 1, false) == ([], false, 1);
    SpreadFails(t, c, n, 7, 1, false, Pos(0, -1), Verdict(false, false, 1), ([], false, 1));
    SpreadFails(t, c, n, 6, 1, false, Pos(0, 1), Verdict(false, false, 1), ([], false, 1));
    SpreadFails(t, c, n, 5, 1, false, Pos(2, -1), Verdict(false, false, 1), ([], false, 1));
    SpreadFails(t, c, n, 4, 1, false, Pos(2, 1), Verdict(false, false, 1), ([], false, 1));
    SpreadPasses(t, c, n, 3, 1, false, Pos(0, 0), Verdict(true, false, 1), ([], false, 1), [Pos(0, 0)]);
    SpreadPasses(t, c, n, 2, 2, false, Pos(2, 0), Verdict(true, false, 1), ([Pos(0, 0)], false, 1), [Pos(2, 0), Pos(0, 0)]);
    SpreadFails(t, c, n, 1, 2, false, Pos(1, -1), Verdict(false, false, 2), ([Pos(2, 0), Pos(0, 0)], false, 1));
    SpreadPasses(t, c, n, 0, 2, false, Pos(1, 1), Verdict(true, false, 2), ([Pos(2, 0), Pos(0, 0)], false, 1), [Pos(1, 1), Pos(2, 0), Pos(0, 0)]);
  }

  lemma VerdictsFromB1(t: (int, Pos) -> Verdict<int>)
    requires forall c, q :: t(c, q) == CountTable(c, q)
    ensures t(2, Pos(1, 1)) == Verdict(true, false, 2)
    ensures t(2, Pos(1, -1)) == Verdict(false, false, 2)
    ensures t(2, Pos(2, 0)) == Verdict(true, false, 1)
    ensures t(1, Pos(0, 0)) == Verdict(true, false, 1)
    ensures t(1, Pos(2, 1)) == Verdict(false, false, 1)
    ensures t(1, Pos(2, -1)) == Verdict(false, false, 1)
    ensures t(1, Pos(0, 1)) == Verdict(false, false, 1)
    ensures t(1, Pos(0, -1)) == Verdict(false, false, 1)
  {
    VerdictsFromB1Tail(t);
  }

  lemma VerdictsFromB1Tail(t: (int, Pos) -> Verdict<int>)
    requires forall c, q :: t(c, q) == CountTable(c, q)
    ensures t(1, Pos(0, 0)) == Verdict(true, false, 1)
    ensures t(1, Pos(2, 1)) == Verdict(false, false, 1)
    ensures t(1, Pos(2, -1)) == Verdict(false, false, 1)
    ensures t(1, Pos(0, 1)) == Verdict(false, false, 1)
    ensures t(1, Pos(0, -1)) == Verdict(false, false, 1)
  {
  }

  lemma DemoFromB1(t: (int, Pos) -> Verdict<int>, c: Pos, n: seq<Pos>)
    requires t == DemoCounter() && c == Pos(1, 0) && n == Around()
    ensures Spread(t, c, n, 0, 2, false) == ([Pos(1, 1), Pos(2, 0), Pos(0, 0)], false, 1)
  {
    CounterIsTable(t);
    VerdictsFromB1(t);
    AroundIs();
    CountFromB1(t, c, n);
  }

  /** The neighbour loop at (1,1), the count at one: (2,0) passes again, counts to zero and breaks. */
  lemma CountFromB2(t: (int, Pos) -> Verdict<int>, c: Pos, n: seq<Pos>)
    requires c == Pos(1, 1) && n == [Pos(0, 1), Pos(0, -1), Pos(1, 0), Pos(-1, 0), Pos(1, 1), Pos(1, -1), Pos(-1, 1), Pos(-1, -1)]
    requires t(1, Pos(1, 2)) == Verdict(false, false, 1)
    requires t(1, Pos(1, 0)) == Verdict(true, false, 1)
    requires t(1, Pos(2, 1)) == Verdict(false, false, 1)
    requires t(1, Pos(0, 1)) == Verdict(false, false, 1)
    requires t(1, Pos(2, 2)) == Verdict(false, false, 1)
    requires t(1, Pos(2, 0)) == Verdict(true, true, 0)
    ensures Spread(t, c, n, 0, 1, false) == ([Pos(1, 0)], true, 0)
  {
    SpreadBreaks(t, c, n, 5, 1, false, Pos(2, 0), Verdict(true, true, 0));
    SpreadFails(t, c, n, 4, 1, false, Pos(2, 2), Verdict(false, false, 1), ([], true, 0));
    SpreadFails(t, c, n, 3, 1, false, Pos(0, 1), Verdict(false, false, 1), ([], true, 0));
    SpreadFails(t, c, n, 2, 1, false, Pos(2, 1), Verdict(false, false, 1), ([], true, 0));
    SpreadPasses(t, c, n, 1, 1, false, Pos(1, 0), Verdict(true, false, 1), ([], true, 0), [Pos(1, 0)]);
    SpreadFails(t, c, n, 0, 1, false, Pos(1, 2), Verdict(false, false, 1), ([Pos(1, 0)], true, 0));
  }

  lemma VerdictsFromB2(t: (int, Pos) -> Verdict<int>)
    requires forall c, q :: t(c, q) == CountTable(c, q)
    ensures t(1, Pos(1, 2)) == Verdict(false, false, 1)
    ensures t(1, Pos(1, 0)) == Verdict(true, false, 1)
    ensures t(1, Pos(2, 1)) == Verdict(false, false, 1)
    ensures t(1, Pos(0, 1)) == Verdict(false, false, 1)
    ensures t(1, Pos(2, 2)) == Verdict(false, false, 1)
    ensures t(1, Pos(2, 0)) == Verdict(true, true, 0)
  {
  }

  lemma DemoFromB2(t: (int, Pos) -> Verdict<int>, c: Pos, n: seq<Pos>)
    requires t == DemoCounter() && c == Pos(1, 1) && n == Around()
    ensures Spread(t, c, n, 0, 1, false) == ([Pos(1, 0)], true, 0)
  {
    CounterIsTable(t);
    VerdictsFromB2(t);
    AroundIs();
    CountFromB2(t, c, n);
  }

  /** The claiming loop at (0,0): no neighbour is pending. */
  lemma ClaimFromStart(t: (JsSet<Pos>, Pos) -> Verdict<JsSet<Pos>>, c: Pos, n: seq<Pos>)
    requires t == Canvas.Claimer(5, 2) && c == Pos(0, 0) && n == Around()
    ensures Spread(t, c, n, 0, [Pos(2, 0), Pos(4, 0)], false) == ([], false, [Pos(2, 0), Pos(4, 0)])
  {
    AroundIs();
    assert forall j :: 0 <= j < |n| ==> n[j].x <= 1;
    ClaimMisses(t, c, n, 0, [Pos(2, 0), Pos(4, 0)]);
  }

  /** The claiming test leaves the pending points alone at a point that is not pending. */
  lemma ClaimMiss(t: (JsSet<Pos>, Pos) -> Verdict<JsSet<Pos>>, pq: JsSet<Pos>, q: Pos)
    requires t == Canvas.Claimer(5, 2) && q !in pq
    ensures t(pq, q) == Verdict(false, false, pq)
  {
    assert Remove(pq, q) == pq;
  }

  /** From offset `k` on, no neighbour of `c` is pending: the loop queues nothing and keeps the state. */
  lemma {:induction false} ClaimMisses(t: (JsSet<Pos>, Pos) -> Verdict<JsSet<Pos>>, c: Pos, n: seq<Pos>, k: nat, pq: JsSet<Pos>)
    requires t == Canvas.Claimer(5, 2) && k <= |n|
    requires forall j :: k <= j < |n| ==> Add(c, n[j]) !in pq
    ensures Spread(t, c, n, k, pq, false) == ([], false, pq)
    decreases |n| - k
  {
    if k < |n| {
      ClaimMisses(t, c, n, k + 1, pq);
      ClaimMiss(t, pq, Add(c, n[k]));
      SpreadFails(t, c, n, k, pq, false, Add(c, n[k]), Verdict(false, false, pq), ([], false, pq));
    }
  }

  // ---- The two traversals of the round ------------------------------------------------

  /** The claiming traversal from (0,0) records it alone and leaves (2,0) and (4,0) pending. */
  lemma ClaimRun(u: Setup<JsSet<Pos>>)
    requires u == ClaimSetup(5, 2, DemoPending())
    ensures var k := Run(u, Initial(u), 1);
      Halted(k) && k.order == [Pos(0, 0)] && k.s == [Pos(2, 0), Pos(4, 0)]
  {
    var pq: JsSet<Pos> := [Pos(2, 0), Pos(4, 0)];
    assert u.s0 == pq && u.start == Pos(0, 0);
    var k0 := Initial(u);
    assert k0 == Walk([], [], pq, [Pos(0, 0)], 0, false);
    StepSpread(u, k0);
    ClaimFromStart(u.test, Pos(0, 0), u.offsets);
    RunAdvance(u, 0, k0);
  }

  /** The counting traversal of the round: from (0,0), counting down from two. */
  ghost predicate CountsDemo(v: Setup<int>)
  {
    v.test == DemoCounter() && v.offsets == Around() && v.s0 == 2 && v.start == Pos(0, 0) && v.mode == StartUntested
  }

  lemma CountSetupIs(v: Setup<int>)
    requires v == CountSetup(DemoBuffer(), 5, 2, AnyPixel(), 0, DemoPending(), [Pos(0, 0)], [Pos(2, 0), Pos(4, 0)])
    ensures CountsDemo(v)
  {
  }

  /** First turn: (0,0) is recorded and queues (1,0) and (1,1); the count stays two. */
  lemma CountTurn1(v: Setup<int>)
    requires CountsDemo(v)
    ensures var k := Run(v, Initial(v), 1);
      k.order == [Pos(0, 0)] && k.queue == [Pos(0, 0), Pos(1, 0), Pos(1, 1)] && k.qi == 1 && !k.broke && k.s == 2
  {
    var k0 := Initial(v);
    assert k0 == Walk([], [], 2, [Pos(0, 0)], 0, false);
    StepSpread(v, k0);
    DemoFromStart(v.test, Pos(0, 0), v.offsets);
    RunAdvance(v, 0, k0);
  }

  /** Second turn: (1,0) is recorded; its test of (2,0) counts one unclaimed point. */
  lemma CountTurn2(v: Setup<int>)
    requires CountsDemo(v)
    ensures var k := Run(v, Initial(v), 2);
      k.order == [Pos(0, 0), Pos(1, 0)] && |k.queue| > 2 && k.queue[2] == Pos(1, 1) && k.qi == 2 && !k.broke && k.s == 1
  {
    CountTurn1(v);
    var k1 := Run(v, Initial(v), 1);
    DemoFromB1(v.test, Pos(1, 0), v.offsets);
    SecondStep(v, k1);
    RunAdvance(v, 1, k1);
  }

  lemma SecondStep(v: Setup<int>, k1: Walk<int>)
    requires v.mode == StartUntested
    requires Spread(v.test, Pos(1, 0), v.offsets, 0, 2, false) == ([Pos(1, 1), Pos(2, 0), Pos(0, 0)], false, 1)
    requires k1.order == [Pos(0, 0)] && k1.queue == [Pos(0, 0), Pos(1, 0), Pos(1, 1)] && k1.qi == 1 && !k1.broke && k1.s == 2
    ensures var k := Step(v, k1);
      k.order == [Pos(0, 0), Pos(1, 0)] && |k.queue| > 2 && k.queue[2] == Pos(1, 1) && k.qi == 2 && !k.broke && k.s == 1
  {
    StepSpread(v, k1);
    assert [Pos(0, 0)] + [Pos(1, 0)] == [Pos(0, 0), Pos(1, 0)];
  }

  /** Third turn: (1,1) is recorded; its test of (2,0) counts the same point again, reaching zero. */
  lemma CountRun(v: Setup<int>)
    requires CountsDemo(v)
    ensures var k := Run(v, Initial(v), 3); Halted(k) && k.s == 0
  {
    CountTurn2(v);
    var k2 := Run(v, Initial(v), 2);
    StepSpread(v, k2);
    DemoFromB2(v.test, Pos(1, 1), v.offsets);
    RunAdvance(v, 2, k2);
  }

  // ---- The round, as written and as intended ------------------------------------------

  /** As written, the round does not split: the count of two unclaimed points reaches zero. */
  lemma MissedSplit()
    ensures !CountSplits(DemoBuffer(), 5, 2, AnyPixel(), 0, DemoPending())
  {
    var u := ClaimSetup(5, 2, DemoPending());
    ClaimRun(u);
    var k := Run(u, Initial(u), 1);
    RunOutcome(u, 1, k);
    var v := CountSetup(DemoBuffer(), 5, 2, AnyPixel(), 0, DemoPending(), k.order, k.s);
    CountSetupIs(v);
    CountRun(v);
    var kc := Run(v, Initial(v), 3);
    RunOutcome(v, 3, kc);
  }

  /** The piece of (0,0): it and its three edge neighbours; (4,0) is not among them. */
  lemma StartPiece(piece: seq<Pos>)
    requires piece == [Pos(0, 0), Pos(1, 0), Pos(1, 1), Pos(2, 0)]
    ensures Piece(DemoBuffer(), 5, 2, AnyPixel(), 0, Pos(0, 0), piece)
  {
    var n := Around();
    AroundIs();
    assert n[2] == Pos(1, 0) && n[4] == Pos(1, 1);
    PieceConnected(piece, n);
    forall k | 0 < k < |piece| ensures Edge(DemoBuffer(), 5, 2, AnyPixel(), 0, piece[k]) {
      EdgeTable(piece[k]);
    }
    forall k, d | 0 <= k < |piece| && 0 <= d < 8
      ensures Edge(DemoBuffer(), 5, 2, AnyPixel(), 0, Add(piece[k], n[d])) ==> Add(piece[k], n[d]) in piece
    {
      PieceClosed(piece, n, k, d);
    }
  }

  lemma PieceConnected(piece: seq<Pos>, n: seq<Pos>)
    requires piece == [Pos(0, 0), Pos(1, 0), Pos(1, 1), Pos(2, 0)]
    requires |n| == 8 && n[2] == Pos(1, 0) && n[4] == Pos(1, 1)
    ensures Connected(piece, Pos(0, 0), n)
  {
    FourConnected(Pos(0, 0), Pos(1, 0), Pos(1, 1), Pos(2, 0), n);
  }

  lemma AdjacentVia(p: Pos, q: Pos, n: seq<Pos>, d: nat)
    requires d < |n| && q == Add(p, n[d])
    ensures Adjacent(p, q, n)
  {
  }

  /** Four points, the second and third next to the first and the fourth next to the second. */
  lemma FourConnected(a: Pos, b: Pos, c: Pos, e: Pos, n: seq<Pos>)
    requires |n| > 4 && b == Add(a, n[2]) && c == Add(a, n[4]) && e == Add(b, n[2])
    ensures Connected([a, b, c, e], a, n)
  {
    AdjacentVia(a, b, n, 2);
    AdjacentVia(a, c, n, 4);
    AdjacentVia(b, e, n, 2);
    var order := [a, b, c, e];
    forall k | 0 < k < |order| ensures exists j :: 0 <= j < k && Adjacent(order[j], order[k], n) {
      if k == 3 {
        assert Adjacent(order[1], order[3], n);
      } else {
        assert Adjacent(order[0], order[k], n);
      }
    }
  }

  /** No neighbour of the piece reaches column 4, so every edge neighbour is in the piece. */
  lemma PieceClosed(piece: seq<Pos>, n: seq<Pos>, k: nat, d: nat)
    requires piece == [Pos(0, 0), Pos(1, 0), Pos(1, 1), Pos(2, 0)]
    requires n == [Pos(0, 1), Pos(0, -1), Pos(1, 0), Pos(-1, 0), Pos(1, 1), Pos(1, -1), Pos(-1, 1), Pos(-1, -1)]
    requires k < 4 && d < 8
    ensures Edge(DemoBuffer(), 5, 2, AnyPixel(), 0, Add(piece[k], n[d])) ==> Add(piece[k], n[d]) in piece
  {
    var p, o := piece[k], n[d];
    assert p.x <= 2 by {
      assert k == 0 || k == 1 || k == 2 || k == 3;
    }
    assert o.x <= 1 by {
      assert d == 0 || d == 1 || d == 2 || d == 3 || d == 4 || d == 5 || d == 6 || d == 7;
    }
    EdgeLeft(piece, Add(p, o));
  }

  /** Left of column 4 the edge points are exactly the piece. */
  lemma EdgeLeft(piece: seq<Pos>, q: Pos)
    requires piece == [Pos(0, 0), Pos(1, 0), Pos(1, 1), Pos(2, 0)] && q.x <= 3
    ensures Edge(DemoBuffer(), 5, 2, AnyPixel(), 0, q) ==> q in piece
  {
    EdgeTable(q);
    if Edge(DemoBuffer(), 5, 2, AnyPixel(), 0, q) {
      assert q == piece[0] || q == piece[1] || q == piece[3] || q == piece[2];
    }
  }

  /**
   * As intended, the round splits: whatever the corrected decision returns
   * here, its contract forces it to report the split, because (4,0) stays
   * unclaimed and lies outside the piece of (0,0).
   */
  lemma IntendedSplit(split: bool, left: JsSet<Pos>)
    requires exists visited, t1 :: Outcome(ClaimSetup(5, 2, DemoPending()), visited, t1, left)
    requires forall piece :: Piece(DemoBuffer(), 5, 2, AnyPixel(), 0, DemoPending()[0], piece) ==>
      (split <==> exists q :: q in left && q !in piece)
    ensures split
  {
    ClaimLeaves(left);
    var piece := [Pos(0, 0), Pos(1, 0), Pos(1, 1), Pos(2, 0)];
    StartPiece(piece);
    assert Pos(4, 0) in left && Pos(4, 0) !in piece;
  }

  /** The claiming traversal of the round leaves (4,0) pending. */
  lemma ClaimLeaves(left: JsSet<Pos>)
    requires exists visited, t1 :: Outcome(ClaimSetup(5, 2, DemoPending()), visited, t1, left)
    ensures Pos(4, 0) in left
  {
    var u := ClaimSetup(5, 2, DemoPending());
    ClaimRun(u);
    var k := Run(u, Initial(u), 1);
    RunOutcome(u, 1, k);
    var visited, t1 :| Outcome(u, visited, t1, left);
    OutcomeDeterministic(u, k.order, k.trace, k.s, visited, t1, left);
  }
}

=== FILE: grid.dfy ===
/**
 * Integer lattice positions, the bounded grid of a w×h image and its
 * row-major cell index `y*w + x`, shared by every canvas in the model.
 */
module Grid {
  import opened JsCollections

  datatype Pos = Pos(x: int, y: int)

  function Add(p: Pos, d: Pos): Pos
  {
    Pos(p.x + d.x, p.y + d.y)
  }

  predicate InBounds(w: int, h: int, p: Pos)
  {
    0 <= p.x < w && 0 <= p.y < h
  }

  /** The row-major index of `p`; negative or too large for positions off the grid. */
  function Index(w: int, p: Pos): int
  {
    p.y * w + p.x
  }

  /** The cells of a w×h grid as a finite set. */
  ghost function Cells(w: int, h: int): (r: set<Pos>)
    ensures forall p :: p in r <==> InBounds(w, h, p)
  {
    set x, y | 0 <= x < w && 0 <= y < h :: Pos(x, y)
  }

  lemma IndexInRange(w: int, h: int, p: Pos)
    requires InBounds(w, h, p)
    ensures 0 <= Index(w, p) < w * h
  {
    assert p.y * w + p.x < p.y * w + w == (p.y + 1) * w;
    assert (p.y + 1) * w <= h * w by {
      assert p.y + 1 <= h;
    }
  }

  /** The row-major index of `p`, in range when `p` is on the grid. */
  function CellIndex(w: int, h: int, p: Pos): (i: int)
    ensures i == Index(w, p)
    ensures InBounds(w, h, p) ==> 0 <= i < w * h
  {
    if InBounds(w, h, p) then IndexInRange(w, h, p); Index(w, p) else Index(w, p)
  }

  lemma MulMonotone(a: int, b: int, w: int)
    requires a <= b && 0 <= w
    ensures a * w <= b * w
  {
  }

  /** Distinct in-bounds cells never share an index. */
  lemma IndexInjective(w: int, h: int, p: Pos, q: Pos)
    requires InBounds(w, h, p) && InBounds(w, h, q)
    requires Index(w, p) == Index(w, q)
    ensures p == q
  {
    if p.y < q.y {
      MulMonotone(p.y + 1, q.y, w);
      assert false;
    } else if q.y < p.y {
      MulMonotone(q.y + 1, p.y, w);
      assert false;
    }
  }

  /** The four orthogonal unit offsets. */
  function Orthogonal(): seq<Pos>
  {
    [Pos(-1, 0), Pos(1, 0), Pos(0, -1), Pos(0, 1)]
  }

  /** `q` is one orthogonal step away from `p`. */
  predicate OrthNeighbours(p: Pos, q: Pos)
  {
    (p.x == q.x && (p.y - q.y == 1 || q.y - p.y == 1))
    || (p.y == q.y && (p.x - q.x == 1 || q.x - p.x == 1))
  }

  function Sign(n: int): int
  {
    if n > 0 then 1 else if n < 0 then -1 else 0
  }

  // ---- Lattice scans -----------------------------------------------------

  /** The inner loop `for (y = y; y < hi; y++)` at column `x`. */
  function Column(x: int, y: int, hi: int): seq<Pos>
    decreases hi - y
  {
    if y >= hi then [] else [Pos(x, y)] + Column(x, y + 1, hi)
  }

  /** The nested loops over `[x, hiX) × [loY, hiY)`, x outermost. */
  function Block(x: int, hiX: int, loY: int, hiY: int): seq<Pos>
    decreases hiX - x
  {
    if x >= hiX then [] else Column(x, loY, hiY) + Block(x + 1, hiX, loY, hiY)
  }

  lemma {:induction false} ColumnSpec(x: int, y: int, hi: int)
    ensures forall p :: p in Column(x, y, hi) <==> p.x == x && y <= p.y < hi
    ensures forall i :: 0 <= i < |Column(x, y, hi)| ==> Column(x, y, hi)[i] == Pos(x, y + i)
    decreases hi - y
  {
    if y < hi {
      ColumnSpec(x, y + 1, hi);
    }
  }

  /** The loops visit exactly the points of the rectangle, each once. */
  lemma {:induction false} BlockSpec(x: int, hiX: int, loY: int, hiY: int)
    ensures forall p :: p in Block(x, hiX, loY, hiY) <==> x <= p.x < hiX && loY <= p.y < hiY
    ensures Distinct(Block(x, hiX, loY, hiY))
    decreases hiX - x
  {
    if x < hiX {
      ColumnSpec(x, loY, hiY);
      BlockSpec(x + 1, hiX, loY, hiY);
      var c := Column(x, loY, hiY);
      var rest := Block(x + 1, hiX, loY, hiY);
      var b := c + rest;
      forall i, j | 0 <= i < j < |b| ensures b[i] != b[j] {
        if j < |c| {
          assert b[i] == Pos(x, loY + i) && b[j] == Pos(x, loY + j);
        } else if i < |c| {
          assert b[j] in rest;
        } else {
          assert b[i] == rest[i - |c|] && b[j] == rest[j - |c|];
        }
      }
    }
  }
}

=== FILE: histories.dfy ===
/**
 * What the painter's undo/redo histories share: nodes in an arena (a
 * reference is an index, and allocation appends), the painted points an
 * action records, and the segment writes undoing or redoing an action
 * performs on the drawing layer.
 */
module HistoryNodes {
  import opened Wrappers
  import opened Grid

  /** A node: `next`, `prev` and the payload. */
  datatype Node<T> = Node(next: Option<nat>, prev: Option<nat>, data: T)

  /** One entry of an action's `paintedPoints`: the pixel, and its alpha and segment before and after. */
  datatype Painted = Painted(pos: Pos, oldAlpha: real, oldSegment: int, newAlpha: real, newSegment: int)

  /** A canvas action: its painted points in the container's iteration order. */
  datatype Action = Action(points: seq<Painted>)

  /** A `setSegment` call on the drawing layer. */
  datatype Write = Write(pos: Pos, alpha: real, segment: int)

  function UndoWrites(a: Action): (r: seq<Write>)
    ensures |r| == |a.points|
    ensures forall k :: 0 <= k < |r| ==> r[k].pos == a.points[k].pos && r[k].segment == a.points[k].oldSegment
  {
    seq(|a.points|, k requires 0 <= k < |a.points| => Write(a.points[k].pos, a.points[k].oldAlpha, a.points[k].oldSegment))
  }

  function RedoWrites(a: Action): (r: seq<Write>)
    ensures |r| == |a.points|
    ensures forall k :: 0 <= k < |r| ==> r[k].pos == a.points[k].pos && r[k].segment == a.points[k].newSegment
  {
    seq(|a.points|, k requires 0 <= k < |a.points| => Write(a.points[k].pos, a.points[k].newAlpha, a.points[k].newSegment))
  }

  /** The drawing layer's segments, as far as the writes concern them. */
  function Apply(layer: map<Pos, int>, ws: seq<Write>): (r: map<Pos, int>)
    decreases |ws|
  {
    if |ws| == 0 then layer else Apply(layer[ws[0].pos := ws[0].segment], ws[1..])
  }

  /** A pixel no write names keeps its segment. */
  lemma {:induction false} ApplyUntouched(layer: map<Pos, int>, ws: seq<Write>, p: Pos)
    requires forall k :: 0 <= k < |ws| ==> ws[k].pos != p
    ensures p in Apply(layer, ws) <==> p in layer
    ensures p in layer ==> Apply(layer, ws)[p] == layer[p]
    decreases |ws|
  {
    if |ws| > 0 {
      assert ws[0].pos != p;
      ApplyUntouched(layer[ws[0].pos := ws[0].segment], ws[1..], p);
    }
  }

  /** The last write to `p` decides its segment. */
  lemma {:induction false} ApplyLast(layer: map<Pos, int>, ws: seq<Write>, p: Pos, k: nat)
    requires k < |ws| && ws[k].pos == p
    requires forall m :: k < m < |ws| ==> ws[m].pos != p
    ensures p in Apply(layer, ws) && Apply(layer, ws)[p] == ws[k].segment
    decreases |ws|
  {
    var layer' := layer[ws[0].pos := ws[0].segment];
    if k == 0 {
      ApplyUntouched(layer', ws[1..], p);
    } else {
      ApplyLast(layer', ws[1..], p, k - 1);
    }
  }

  /** The painted points name distinct pixels. */
  predicate DistinctPixels(a: Action)
  {
    forall i, j :: 0 <= i < j < |a.points| ==> a.points[i].pos != a.points[j].pos
  }

  /** Undoing an action of distinct pixels puts every pixel back to its old segment, redoing to its new one. */
  lemma UndoRedoRestore(layer: map<Pos, int>, a: Action)
    requires DistinctPixels(a)
    ensures forall k :: 0 <= k < |a.points| ==>
      && a.points[k].pos in Apply(layer, UndoWrites(a)) && Apply(layer, UndoWrites(a))[a.points[k].pos] == a.points[k].oldSegment
      && a.points[k].pos in Apply(layer, RedoWrites(a)) && Apply(layer, RedoWrites(a))[a.points[k].pos] == a.points[k].newSegment
  {
    forall k | 0 <= k < |a.points|
      ensures a.points[k].pos in Apply(layer, UndoWrites(a)) && Apply(layer, UndoWrites(a))[a.points[k].pos] == a.points[k].oldSegment
      ensures a.points[k].pos in Apply(layer, RedoWrites(a)) && Apply(layer, RedoWrites(a))[a.points[k].pos] == a.points[k].newSegment
    {
      ApplyLast(layer, UndoWrites(a), a.points[k].pos, k);
      ApplyLast(layer, RedoWrites(a), a.points[k].pos, k);
    }
  }

  // ---- Arena invariants -------------------------------------------------------

  /** Every link names an allocated node, and a node's `prev` was allocated before it. */
  ghost predicate Linked<T>(heap: seq<Node<T>>)
  {
    forall x :: 0 <= x < |heap| ==>
      (heap[x].next.Some? ==> heap[x].next.value < |heap|) &&
      (heap[x].prev.Some? ==> heap[x].prev.value < x)
  }

  /** `next` and `prev` agree: whatever a node points forward to points back to it. */
  ghost predicate Coherent<T>(heap: seq<Node<T>>)
    requires Linked(heap)
  {
    forall x :: 0 <= x < |heap| && heap[x].next.Some? ==> heap[heap[x].next.value].prev == Some(x)
  }

  /** Walking `prev` from `x`, each step's `next` leads back: `x` is on the live chain. */
  ghost predicate OnChain<T>(heap: seq<Node<T>>, x: nat)
    requires Linked(heap) && x < |heap|
    decreases x
  {
    match heap[x].prev
    case None => true
    case Some(p) => heap[p].next == Some(x) && OnChain(heap, p)
  }

  /** Changing links of nodes above `x`, or appending nodes, leaves `x`'s chain alone. */
  lemma {:induction false} OnChainFrame<T>(heap: seq<Node<T>>, heap': seq<Node<T>>, x: nat)
    requires Linked(heap) && Linked(heap') && x < |heap| <= |heap'|
    requires forall y :: 0 <= y <= x ==> heap'[y].prev == heap[y].prev
    requires forall y :: 0 <= y < x ==> heap'[y].next == heap[y].next
    ensures OnChain(heap', x) == OnChain(heap, x)
    decreases x
  {
    if heap[x].prev.Some? {
      OnChainFrame(heap, heap', heap[x].prev.value);
    }
  }
}

/**
 * `historyReducer`: the painter's undo/redo history as a reducer over a
 * node chain hanging off a data-less head. Undo and redo replay an
 * action's painted points on the drawing layer; push and clear touch only
 * the history.
 */
module HistoryReducer {
  import opened Wrappers
  import opened HistoryNodes

  datatype History = History(heap: seq<Node<Option<Action>>>, head: nat, current: nat)

  datatype Event = Push(action: Action) | Undo | Redo | Clear

  /**
   * The shape every reachable history keeps: links allocated and coherent,
   * a node with a `prev` carries an action (so `data!` holds), and the
   * current node is on the live chain.
   */
  ghost predicate Valid(h: History)
  {
    && h.head < |h.heap| && h.current < |h.heap|
    && Linked(h.heap) && Coherent(h.heap)
    && (forall x :: 0 <= x < |h.heap| && h.heap[x].prev.Some? ==> h.heap[x].data.Some?)
    && OnChain(h.heap, h.current)
  }

  /** A fresh history: the head is current. */
  function Initial(): (h: History)
    ensures Valid(h)
  {
    History([Node(None, None, None)], 0, 0)
  }

  /** The reducer's new history and the `setSegment` calls it makes, in order. */
  function Reduce(h: History, e: Event): (r: (History, seq<Write>))
    requires Valid(h)
  {
    match e
    case Push(a) =>
      var n := |h.heap|;
      var heap := h.heap[h.current := h.heap[h.current].(next := Some(n))] + [Node(None, Some(h.current), Some(a))];
      (h.(heap := heap, current := n), [])
    case Clear =>
      var n := |h.heap|;
      (History(h.heap + [Node(None, None, None), Node(None, None, None)], n, n + 1), [])
    case Redo =>
      (match h.heap[h.current].next
       case Some(c) => (h.(current := c), RedoWrites(h.heap[c].data.value))
       case None => (h, []))
    case Undo =>
      (match h.heap[h.current].prev
       case Some(p) => (h.(current := p), UndoWrites(h.heap[h.current].data.value))
       case None => (h, []))
  }

  /** Every event keeps the history valid. */
  lemma ReduceValid(h: History, e: Event)
    requires Valid(h)
    ensures Valid(Reduce(h, e).0)
  {
    var r := Reduce(h, e).0;
    match e
    case Push(a) =>
      var n := |h.heap|;
      assert r.heap[n].prev == Some(h.current);
      assert Linked(r.heap);
      OnChainFrame(h.heap, r.heap, h.current);
    case Clear =>
      OnChainFrame(h.heap, r.heap, h.current);
    case Redo =>
    case Undo =>
  }

  /** Push and clear make no `setSegment` call; push makes the new node current and leaves nothing to redo. */
  lemma PushClearQuiet(h: History, a: Action)
    requires Valid(h)
    ensures Reduce(h, Push(a)).1 == [] && Reduce(h, Clear).1 == []
    ensures var h' := Reduce(h, Push(a)).0;
      && h'.heap[h'.current].data == Some(a)
      && h'.heap[h'.current].prev == Some(h.current)
      && Valid(h')
      && Reduce(h', Redo) == (h', [])
  {
    ReduceValid(h, Push(a));
  }

  /** After a clear, undo and redo change nothing. */
  lemma ClearedIsEmpty(h: History)
    requires Valid(h)
    ensures var c := Reduce(h, Clear).0;
      Valid(c) && Reduce(c, Undo) == (c, []) && Reduce(c, Redo) == (c, [])
  {
    ReduceValid(h, Clear);
  }

  /** Undo right after a push returns to the node that was current, replaying the action's old segments. */
  lemma PushUndo(h: History, a: Action)
    requires Valid(h)
    ensures var h' := Reduce(h, Push(a)).0;
      Valid(h') && Reduce(h', Undo) == (h'.(current := h.current), UndoWrites(a))
  {
    ReduceValid(h, Push(a));
  }

  /** Redo right after an undo comes back to the same node, replaying its new segments. */
  lemma UndoRedo(h: History)
    requires Valid(h) && h.heap[h.current].prev.Some?
    ensures var u := Reduce(h, Undo);
      && u.1 == UndoWrites(h.heap[h.current].data.value)
      && Valid(u.0)
      && Reduce(u.0, Redo) == (h, RedoWrites(h.heap[h.current].data.value))
  {
    ReduceValid(h, Undo);
  }

  /** Undo at the first node (no `prev`) and redo at the newest (no `next`) leave the history unchanged. */
  lemma EndsAreNoOps(h: History)
    requires Valid(h)
    ensures h.heap[h.current].prev.None? ==> Reduce(h, Undo) == (h, [])
    ensures h.heap[h.current].next.None? ==> Reduce(h, Redo) == (h, [])
  {
  }
}

/**
 * The `ActionHistory` class of the painter: a head node, a current node,
 * and undo/redo that throw "No data" on a data-less node. Undo replays a
 * node's old alpha and segment, then steps back; redo steps forward, then
 * replays the new ones.
 */
module ActionHistoryClass {
  import opened Wrappers
  import opened HistoryNodes

  datatype ActionHistory = ActionHistory(heap: seq<Node<Option<Action>>>, head: nat, current: nat)

  /** The state after a call, the calls it made, and what it threw. */
  datatype Outcome = Outcome(state: ActionHistory, writes: seq<Write>, thrown: Option<string>)

  ghost predicate Valid(h: ActionHistory)
  {
    && h.head < |h.heap| && h.current < |h.heap|
    && Linked(h.heap)
    && h.heap[h.head].prev.None?
  }

  function Create(): (h: ActionHistory)
    ensures Valid(h) && h.current == h.head && h.heap[h.head].data.None?
  {
    ActionHistory([Node(None, None, None)], 0, 0)
  }

  /** `clear`: cuts the head's `next` and makes the head current. */
  function Clear(h: ActionHistory): (r: ActionHistory)
    requires Valid(h)
  {
    ActionHistory(h.heap[h.head := h.heap[h.head].(next := None)], h.head, h.head)
  }

  function Undo(h: ActionHistory): Outcome
    requires Valid(h)
  {
    var c := h.heap[h.current];
    if c.prev.None? then Outcome(h, [], None)
    else if c.data.None? then Outcome(h, [], Some("No data"))
    else Outcome(h.(current := c.prev.value), UndoWrites(c.data.value), None)
  }

  function Redo(h: ActionHistory): Outcome
    requires Valid(h)
  {
    match h.heap[h.current].next
    case None => Outcome(h, [], None)
    case Some(n) =>
      var h' := h.(current := n);
      if h.heap[n].data.None? then Outcome(h', [], Some("No data"))
      else Outcome(h', RedoWrites(h.heap[n].data.value), None)
  }

  /** `push`: a new data node after the current one, which it replaces as current. */
  function Push(h: ActionHistory, a: Action): (r: ActionHistory)
    requires Valid(h)
  {
    var n := |h.heap|;
    ActionHistory(h.heap[h.current := h.heap[h.current].(next := Some(n))] + [Node(None, Some(h.current), Some(a))], h.head, n)
  }

  lemma OperationsValid(h: ActionHistory, a: Action)
    requires Valid(h)
    ensures Valid(Clear(h)) && Valid(Undo(h).state) && Valid(Redo(h).state) && Valid(Push(h, a))
  {
    ClearValid(h);
    StepValid(h);
    PushValid(h, a);
  }

  /** `clear` leaves a single head node. */
  lemma ClearValid(h: ActionHistory)
    requires Valid(h)
    ensures Valid(Clear(h))
  {
  }

  /** Undo and redo only move `current` along the links. */
  lemma StepValid(h: ActionHistory)
    requires Valid(h)
    ensures Valid(Undo(h).state) && Valid(Redo(h).state)
  {
  }

  /** `push` links the new node after `current`. */
  lemma PushValid(h: ActionHistory, a: Action)
    requires Valid(h)
    ensures Valid(Push(h, a))
  {
    var p := Push(h, a);
    assert p.heap[|h.heap|].prev == Some(h.current);
  }

  /** At the head (fresh or cleared), undo changes nothing. */
  lemma UndoAtHead(h: ActionHistory)
    requires Valid(h) && h.current == h.head
    ensures Undo(h) == Outcome(h, [], None)
  {
  }

  /** After `clear`, redo does nothing either: the head has no `next`. */
  lemma ClearEmpties(h: ActionHistory)
    requires Valid(h)
    ensures var c := Clear(h);
      c.current == c.head && Undo(c) == Outcome(c, [], None) && Redo(c) == Outcome(c, [], None)
  {
  }

  /** Undo after push returns to the previous node, replaying the action's old values. */
  lemma PushUndo(h: ActionHistory, a: Action)
    requires Valid(h)
    ensures Valid(Push(h, a))
    ensures Undo(Push(h, a)) == Outcome(Push(h, a).(current := h.current), UndoWrites(a), None)
    ensures Redo(Push(h, a)) == Outcome(Push(h, a), [], None)
  {
    OperationsValid(h, a);
  }

  /** Redo after an undo that stepped back from a node that is its predecessor's `next` comes back to it. */
  lemma UndoRedo(h: ActionHistory)
    requires Valid(h)
    requires h.heap[h.current].prev.Some? && h.heap[h.current].data.Some?
    requires h.heap[h.heap[h.current].prev.value].next == Some(h.current)
    ensures var u := Undo(h);
      && u.thrown.None? && u.writes == UndoWrites(h.heap[h.current].data.value)
      && Redo(u.state) == Outcome(h, RedoWrites(h.heap[h.current].data.value), None)
  {
  }

  /** A data-less node that has a `prev` makes undo throw "No data" without moving. */
  lemma UndoNoData(h: ActionHistory)
    requires Valid(h) && h.heap[h.current].prev.Some? && h.heap[h.current].data.None?
    ensures Undo(h) == Outcome(h, [], Some("No data"))
  {
  }
}

/**
 * The sentinel-bounded `ActionHistory` of `action.ts`: head and tail
 * sentinels hold an action whose undo and redo throw "Method not
 * implemented."; actions are opaque, so their undo and redo are recorded
 * as calls.
 */
module SentinelHistory {
  import opened Wrappers
  import opened HistoryNodes

  /** A node's action: a sentinel's `EmptyAction` or a pushed one. */
  datatype CanvasAction = EmptyAction | Pushed(id: nat)

  /** A call of an action's `undo` or `redo`. */
  datatype Call = UndoCall(id: nat) | RedoCall(id: nat)

  /** The head sentinel is node 0, the tail sentinel node 1. */
  datatype SentinelList = SentinelList(heap: seq<Node<CanvasAction>>, current: nat)

  const HeadId: nat := 0
  const TailId: nat := 1

  datatype Outcome = Outcome(state: SentinelList, calls: seq<Call>, thrown: Option<string>)

  const NotImplemented := "Method not implemented."

  predicate Valid(l: SentinelList)
  {
    && |l.heap| >= 2 && l.current < |l.heap|
    && l.heap[HeadId].data == EmptyAction && l.heap[TailId].data == EmptyAction
    && forall x :: 0 <= x < |l.heap| ==>
         (l.heap[x].next.Some? ==> l.heap[x].next.value < |l.heap|) &&
         (l.heap[x].prev.Some? ==> l.heap[x].prev.value < |l.heap|)
  }

  /** The constructor: `head.next = tail`, current at the head, `tail.prev` unset. */
  function Create(): (l: SentinelList)
    ensures Valid(l)
  {
    SentinelList([Node(Some(TailId), None, EmptyAction), Node(None, None, EmptyAction)], HeadId)
  }

  /** Calling `undo` or `redo` on a node's action: the sentinels' throw. */
  function Invoke(a: CanvasAction, undo: bool): (r: (seq<Call>, Option<string>))
  {
    match a
    case EmptyAction => ([], Some(NotImplemented))
    case Pushed(id) => ([if undo then UndoCall(id) else RedoCall(id)], None)
  }

  /** `undo`: the current action's undo, then a step back; throws when there is no `prev`. */
  function Undo(l: SentinelList): Outcome
    requires Valid(l)
  {
    var c := l.heap[l.current];
    match c.prev
    case None => Outcome(l, [], Some("Cannot undo empty history"))
    case Some(p) =>
      var r := Invoke(c.data, true);
      if r.1.Some? then Outcome(l, r.0, r.1) else Outcome(l.(current := p), r.0, None)
  }

  /** `redo`: a step forward, then that node's redo; throws when there is no `next`. */
  function Redo(l: SentinelList): Outcome
    requires Valid(l)
  {
    match l.heap[l.current].next
    case None => Outcome(l, [], Some("Cannot redo up to date history"))
    case Some(n) =>
      var r := Invoke(l.heap[n].data, false);
      Outcome(l.(current := n), r.0, r.1)
  }

  /** `push`: the new node goes between the current node and the tail and becomes current. */
  function Push(l: SentinelList, id: nat): (r: SentinelList)
    requires Valid(l)
    ensures Valid(r)
  {
    var n := |l.heap|;
    var heap := l.heap + [Node(Some(TailId), Some(l.current), Pushed(id))];
    var heap := heap[TailId := heap[TailId].(prev := Some(n))];
    var heap := heap[l.current := heap[l.current].(next := Some(n))];
    SentinelList(heap, n)
  }

  /** A fresh history cannot undo; its redo steps onto the tail and throws there. */
  lemma FreshHistory()
    ensures Create().heap[TailId].prev.None?
    ensures Undo(Create()) == Outcome(Create(), [], Some("Cannot undo empty history"))
    ensures Redo(Create()) == Outcome(Create().(current := TailId), [], Some(NotImplemented))
  {
  }

  /** Redo from the newest action always reaches the tail and throws, having moved there. */
  lemma RedoAtNewest(l: SentinelList, id: nat)
    requires Valid(l)
    ensures var p := Push(l, id);
      Redo(p) == Outcome(p.(current := TailId), [], Some(NotImplemented))
  {
  }

  /** Undo right after a push calls the action's undo and returns to the node that was current. */
  lemma PushUndo(l: SentinelList, id: nat)
    requires Valid(l) && l.current != TailId
    ensures var p := Push(l, id);
      Undo(p) == Outcome(p.(current := l.current), [UndoCall(id)], None)
  {
  }

  /** Redo after undo returns to the node undone from, calling its undo then its redo. */
  lemma UndoRedo(l: SentinelList)
    requires Valid(l) && l.heap[l.current].prev.Some? && l.heap[l.current].data.Pushed?
    requires l.heap[l.heap[l.current].prev.value].next == Some(l.current)
    ensures var u := Undo(l);
      && u == Outcome(l.(current := l.heap[l.current].prev.value), [UndoCall(l.heap[l.current].data.id)], None)
      && Redo(u.state) == Outcome(l, [RedoCall(l.heap[l.current].data.id)], None)
  {
  }

  /** Pushing while stranded on the tail links tail and node to each other both ways: a cycle. */
  lemma PushAtTailCycles(l: SentinelList, id: nat)
    requires Valid(l) && l.current == TailId
    ensures var p := Push(l, id); var n := |l.heap|;
      && p.heap[TailId].next == Some(n) && p.heap[n].next == Some(TailId)
      && p.heap[TailId].prev == Some(n) && p.heap[n].prev == Some(TailId)
  {
  }
}

=== FILE: jscollections.dfy ===
/**
 * JavaScript's `Map` and `Set`: finite collections that iterate in
 * insertion order. Setting an existing key keeps its place, deleting a key
 * removes it, and a new key goes to the end. The drawing code depends on
 * that order (the first boundary point, the first match, the greedy
 * matching of the score), so the model keeps it.
 */
module JsCollections {
  import opened Wrappers

  predicate Distinct<T(==)>(s: seq<T>)
  {
    forall i, j :: 0 <= i < j < |s| ==> s[i] != s[j]
  }

  function Elements<T>(s: seq<T>): set<T>
  {
    set x | x in s
  }

  lemma {:induction false} DistinctCardinality<T>(s: seq<T>)
    requires Distinct(s)
    ensures |Elements(s)| == |s|
    decreases |s|
  {
    if |s| > 0 {
      var t := s[..|s| - 1];
      DistinctCardinality(t);
      assert Elements(s) == Elements(t) + {s[|s| - 1]};
      assert s[|s| - 1] !in Elements(t);
    }
  }

  /** `s` without `x`, the rest in order. */
  function Remove<T(==)>(s: seq<T>, x: T): (r: seq<T>)
    ensures Elements(r) == Elements(s) - {x}
    ensures Distinct(s) ==> Distinct(r)
    ensures x !in s ==> r == s
    ensures Distinct(s) && x in s ==> |r| == |s| - 1
    decreases |s|
  {
    if |s| == 0 then []
    else
      var rest := Remove(s[1..], x);
      assert s == [s[0]] + s[1..];
      assert Elements(s) == {s[0]} + Elements(s[1..]);
      if s[0] == x then rest
      else
        assert Elements([s[0]] + rest) == {s[0]} + Elements(rest);
        assert Distinct(s) ==> s[0] !in Elements(s[1..]);
        [s[0]] + rest
  }

  // ---- Set ------------------------------------------------------------

  /** A JavaScript `Set`: distinct items in insertion order. */
  type JsSet<T(==)> = s: seq<T> | Distinct(s)

  function EmptySet<T(==)>(): JsSet<T> { [] }

  /** `Set.add`: a new item goes to the end, an existing one keeps its place. */
  function SetAdd<T(==)>(s: JsSet<T>, x: T): (r: JsSet<T>)
    ensures Elements(r) == Elements(s) + {x}
    ensures x in s ==> r == s
    ensures x !in s ==> r == s + [x]
  {
    if x in s then s else s + [x]
  }

  /** `Set.delete`: the set without `x` and whether `x` was there. */
  function SetDelete<T(==)>(s: JsSet<T>, x: T): (r: (JsSet<T>, bool))
    ensures Elements(r.0) == Elements(s) - {x}
    ensures r.1 <==> x in s
    ensures |r.0| == if x in s then |s| - 1 else |s|
  {
    (Remove(s, x), x in s)
  }

  /** `set.values().next().value`: the oldest item, `undefined` when empty. */
  function SetFirst<T(==)>(s: JsSet<T>): (r: Option<T>)
    ensures r.None? <==> |s| == 0
    ensures r.Some? ==> r.value in s && r.value == s[0]
  {
    if |s| == 0 then None else Some(s[0])
  }

  /** Successive `Set.add` calls, in order. */
  function AddAll<T(==)>(s: JsSet<T>, xs: seq<T>): JsSet<T>
    decreases |xs|
  {
    if |xs| == 0 then s else AddAll(SetAdd(s, xs[0]), xs[1..])
  }

  /**
   * `values().next().value` is the oldest item: after any run of `add`
   * calls it is the set's first item when it had one, and otherwise the
   * first item added.
   */
  lemma {:induction false} OldestAdded<T>(s: JsSet<T>, xs: seq<T>)
    ensures SetFirst(AddAll(s, xs)) == if |s| > 0 then Some(s[0]) else if |xs| > 0 then Some(xs[0]) else None
    decreases |xs|
  {
    if |xs| > 0 {
      var s' := SetAdd(s, xs[0]);
      OldestAdded(s', xs[1..]);
      assert |s'| > 0 && s'[0] == if |s| > 0 then s[0] else xs[0];
    }
  }

  /** The size of a JavaScript set is the number of its distinct items. */
  lemma SetSize<T>(s: JsSet<T>)
    ensures |Elements(s)| == |s|
  {
    DistinctCardinality(s);
  }

  // ---- Map ------------------------------------------------------------

  /** The raw parts of a JavaScript `Map`: key order and the key/value table. */
  datatype MapParts<K(==), V> = MapParts(keys: seq<K>, table: map<K, V>)
  {
    predicate Valid()
    {
      Distinct(keys) && table.Keys == Elements(keys)
    }
  }

  type JsMap<K(==), V> = m: MapParts<K, V> | m.Valid() witness MapParts([], map[])

  function EmptyMap<K(==), V>(): JsMap<K, V> { MapParts([], map[]) }

  function Size<K(==), V>(m: JsMap<K, V>): nat { |m.keys| }

  predicate Has<K(==), V>(m: JsMap<K, V>, k: K) { k in m.table }

  /** `Map.get`: `undefined` for a missing key. */
  function Get<K(==), V>(m: JsMap<K, V>, k: K): (r: Option<V>)
    ensures r.Some? <==> k in m.keys
    ensures r.Some? ==> r.value == m.table[k]
  {
    if k in m.table then Some(m.table[k]) else None
  }

  /** `Map.set`: a new key is appended, an existing key keeps its position. */
  function Put<K(==), V>(m: JsMap<K, V>, k: K, v: V): (r: JsMap<K, V>)
    ensures r.table == m.table[k := v]
    ensures k in m.keys ==> r.keys == m.keys
    ensures k !in m.keys ==> r.keys == m.keys + [k]
  {
    MapParts(if k in m.table then m.keys else m.keys + [k], m.table[k := v])
  }

  /** `Map.delete`: the key leaves both the order and the table. */
  function Delete<K(==), V>(m: JsMap<K, V>, k: K): (r: JsMap<K, V>)
    ensures r.table == m.table - {k}
    ensures r.keys == Remove(m.keys, k)
    ensures Size(r) == if k in m.keys then Size(m) - 1 else Size(m)
  {
    MapParts(Remove(m.keys, k), m.table - {k})
  }

  /** The size of a JavaScript map is the number of its keys. */
  lemma MapSize<K, V>(m: JsMap<K, V>)
    ensures |m.table.Keys| == Size(m)
  {
    DistinctCardinality(m.keys);
    assert m.table.Keys == Elements(m.keys);
  }
}

=== FILE: layer.dfy ===
/**
 * The painter's drawing layer (components/painter/drawing-layer): a
 * row-major segment buffer, a map from 1-based segment ids to the points of
 * each segment with their in-segment neighbour counts, and the segment being
 * drawn. A point with fewer than four in-segment neighbours is a boundary
 * point. Colours, shader uniforms and the statistics dispatch are left out.
 */
module DrawingLayer {
  import opened Wrappers
  import opened Grid
  import opened JsCollections
  import opened PointContainer

  /** `kAdjacency` of the drawing layer, in the order it is tried. */
  const Adjacency: seq<Pos> := [Pos(-1, 0), Pos(1, 0), Pos(0, -1), Pos(0, 1)]

  /** The new boundary points an action records per effected segment (`null` data modelled as `()`). */
  type Effected = JsMap<int, Container<()>>

  datatype Layer = Layer(w: nat, h: nat, buffer: seq<int>, segments: JsMap<int, Container<int>>, active: int)

  // ---- Neighbour counts ----------------------------------------------------------------

  /** The segment at an on-canvas pixel. */
  function At(b: seq<int>, w: nat, h: nat, p: Pos): int
    requires |b| == w * h && InBounds(w, h, p)
  {
    b[CellIndex(w, h, p)]
  }

  /** The points of `ps` on the canvas, in order. */
  function OnCanvas(w: nat, h: nat, ps: seq<Pos>): (r: seq<Pos>)
    ensures forall q :: q in r <==> q in ps && InBounds(w, h, q)
    ensures Distinct(ps) ==> Distinct(r)
  {
    if ps == [] then []
    else
      var rest := OnCanvas(w, h, ps[1..]);
      assert forall q :: q in ps[1..] ==> q in ps;
      if InBounds(w, h, ps[0]) then [ps[0]] + rest else rest
  }

  /** `adjacent`: the four neighbours of `p` that lie on the canvas, in `kAdjacency` order. */
  function Adjacent(w: nat, h: nat, p: Pos): (r: seq<Pos>)
    ensures Distinct(r)
    ensures forall q :: q in r <==> InBounds(w, h, q) && OrthNeighbours(p, q)
  {
    var around := seq(4, k requires 0 <= k < 4 => Add(p, Adjacency[k]));
    AroundSpec(p, around);
    OnCanvas(w, h, around)
  }

  /** The four offsets of `kAdjacency` reach each orthogonal neighbour exactly once. */
  lemma AroundSpec(p: Pos, around: seq<Pos>)
    requires around == seq(4, k requires 0 <= k < 4 => Add(p, Adjacency[k]))
    ensures Distinct(around) && forall q :: q in around <==> OrthNeighbours(p, q)
  {
    assert around == [Pos(p.x - 1, p.y), Pos(p.x + 1, p.y), Pos(p.x, p.y - 1), Pos(p.x, p.y + 1)];
  }

  /** The on-canvas points of `ns` that hold `s`, in order. */
  function Holding(b: seq<int>, w: nat, h: nat, ns: seq<Pos>, s: int): (r: seq<Pos>)
    requires |b| == w * h && forall q :: q in ns ==> InBounds(w, h, q)
    ensures forall q :: q in r <==> q in ns && At(b, w, h, q) == s
    ensures Distinct(ns) ==> Distinct(r)
  {
    if ns == [] then []
    else
      var rest := Holding(b, w, h, ns[1..], s);
      assert forall q :: q in ns[1..] ==> q in ns;
      if At(b, w, h, ns[0]) == s then [ns[0]] + rest else rest
  }

  /** The number of `p`'s on-canvas orthogonal neighbours that hold `s`. */
  function Count(b: seq<int>, w: nat, h: nat, p: Pos, s: int): nat
    requires |b| == w * h
  {
    |Holding(b, w, h, Adjacent(w, h, p), s)|
  }

  /** Writing `v` at `p` changes the count of `s` among distinct points by what `p` gained and lost. */
  lemma {:induction false} HoldingDelta(b: seq<int>, w: nat, h: nat, ns: seq<Pos>, s: int, p: Pos, v: int)
    requires |b| == w * h && InBounds(w, h, p) && Distinct(ns) && forall q :: q in ns ==> InBounds(w, h, q)
    ensures var b' := b[CellIndex(w, h, p) := v];
      |Holding(b', w, h, ns, s)| == |Holding(b, w, h, ns, s)|
        + if p in ns then (if v == s then 1 else 0) - (if At(b, w, h, p) == s then 1 else 0) else 0
    decreases |ns|
  {
    if ns != [] {
      var b' := b[CellIndex(w, h, p) := v];
      assert forall q :: q in ns[1..] ==> q in ns;
      assert Distinct(ns[1..]) by {
        forall i, j | 0 <= i < j < |ns[1..]| ensures ns[1..][i] != ns[1..][j] {
          assert ns[1..][i] == ns[i + 1] && ns[1..][j] == ns[j + 1];
        }
      }
      HoldingDelta(b, w, h, ns[1..], s, p, v);
      if ns[0] == p {
        assert p !in ns[1..] by {
          forall j | 0 <= j < |ns[1..]| ensures ns[1..][j] != p {
            assert ns[1..][j] == ns[j + 1];
          }
        }
      } else {
        Apart(w, h, ns[0], p);
        assert At(b', w, h, ns[0]) == At(b, w, h, ns[0]);
      }
    }
  }

  /** Distinct on-canvas pixels have distinct cells. */
  lemma Apart(w: nat, h: nat, p: Pos, q: Pos)
    requires InBounds(w, h, p) && InBounds(w, h, q) && p != q
    ensures CellIndex(w, h, p) != CellIndex(w, h, q)
  {
    if Index(w, p) == Index(w, q) {
      IndexInjective(w, h, p, q);
    }
  }

  /** The count of `s` around `q` after writing `v` at `p`. */
  lemma CountDelta(b: seq<int>, w: nat, h: nat, q: Pos, s: int, p: Pos, v: int)
    requires |b| == w * h && InBounds(w, h, p)
    ensures Count(b[CellIndex(w, h, p) := v], w, h, q, s) == Count(b, w, h, q, s)
      + if OrthNeighbours(q, p) then (if v == s then 1 else 0) - (if At(b, w, h, p) == s then 1 else 0) else 0
  {
    HoldingDelta(b, w, h, Adjacent(w, h, q), s, p, v);
  }

  // ---- The layer's invariant ----------------------------------------------------------

  /** The segment ids are 1, 2, …, n in insertion order. */
  predicate Contiguous<V>(m: JsMap<int, V>)
  {
    forall i :: 0 <= i < |m.keys| ==> m.keys[i] == i + 1
  }

  lemma ContiguousKeys<V>(m: JsMap<int, V>, k: int)
    requires Contiguous(m)
    ensures k in m.table <==> 1 <= k <= Size(m)
  {
    if 1 <= k <= Size(m) {
      assert m.keys[k - 1] == k;
    }
  }

  /**
   * The layer's invariant: the ids are contiguous; every painted pixel's
   * segment has an entry holding the pixel with its in-segment neighbour
   * count; and each entry holds only on-canvas pixels of its segment.
   */
  ghost predicate Valid(l: Layer)
  {
    && |l.buffer| == l.w * l.h
    && Contiguous(l.segments)
    && (forall p {:trigger Backed(l, p)} :: InBounds(l.w, l.h, p) ==> Backed(l, p))
    && (forall s, p :: s in l.segments.table && HasPoint(l.segments.table[s], p) ==>
          InBounds(l.w, l.h, p) && At(l.buffer, l.w, l.h, p) == s)
  }

  /** A painted pixel's segment has an entry holding the pixel with its in-segment neighbour count. */
  ghost predicate Backed(l: Layer, p: Pos)
    requires |l.buffer| == l.w * l.h && InBounds(l.w, l.h, p)
  {
    var s := At(l.buffer, l.w, l.h, p);
    s != -1 ==> s in l.segments.table && GetPoint(l.segments.table[s], p) == Some(Count(l.buffer, l.w, l.h, p, s))
  }

  /** `initialState`: an all-empty buffer, no segments and no active segment. */
  function InitialState(w: nat, h: nat): (l: Layer)
    ensures l.w == w && l.h == h && |l.buffer| == w * h && Size(l.segments) == 0 && l.active == -1
    ensures forall p :: InBounds(w, h, p) ==> At(l.buffer, w, h, p) == -1
    ensures Valid(l)
  {
    Layer(w, h, seq(w * h, _ => -1), EmptyMap(), -1)
  }

  /** `incrementSegments`: an empty entry keyed one past the number of entries (the random colour is left out). */
  function IncrementSegments(l: Layer): (l': Layer)
    ensures l'.w == l.w && l'.h == l.h && l'.buffer == l.buffer && l'.active == l.active
    ensures Contiguous(l.segments) ==>
      && Contiguous(l'.segments) && Size(l'.segments) == Size(l.segments) + 1
      && l'.segments.table == l.segments.table[Size(l'.segments) := Empty()]
  {
    var n := Size(l.segments) + 1;
    var l' := l.(segments := Put(l.segments, n, Empty()));
    if Contiguous(l.segments) then ContiguousKeys(l.segments, n); l' else l'
  }

  /** The new, empty entry keeps the invariant. */
  lemma IncrementValid(l: Layer)
    requires Valid(l)
    ensures Valid(IncrementSegments(l))
  {
    var l' := IncrementSegments(l);
    var n := Size(l'.segments);
    ContiguousKeys(l.segments, n);
    forall p | InBounds(l.w, l.h, p) ensures Backed(l', p) {
      assert Backed(l, p);
    }
    forall s, p | s in l'.segments.table && HasPoint(l'.segments.table[s], p)
      ensures InBounds(l'.w, l'.h, p) && At(l'.buffer, l'.w, l'.h, p) == s
    {
      assert s != n by {
        assert GetPoint(Empty<int>(), p).None?;
      }
    }
  }

  /** `getSegment`: the raw typed-array read at `y * w + x`, undefined (None) off the buffer. */
  function GetSegment(l: Layer, p: Pos): (s: Option<int>)
    ensures |l.buffer| == l.w * l.h && InBounds(l.w, l.h, p) ==> s == Some(At(l.buffer, l.w, l.h, p))
  {
    if 0 <= Index(l.w, p) < |l.buffer| then Some(l.buffer[Index(l.w, p)]) else None
  }

  // ---- setSegment ---------------------------------------------------------------------

  /** The effected entry of `prior` with `n` added, created empty first when missing. */
  function Mark(eff: Effected, prior: int, n: Pos): Effected
  {
    Put(eff, prior, SetPoint(if prior in eff.table then eff.table[prior] else Empty(), n, ()))
  }

  /** `q` is recorded as a new boundary point of `k`. */
  predicate IsRecorded(eff: Effected, k: int, q: Pos)
  {
    k in eff.table && HasPoint(eff.table[k], q)
  }

  /** Every entry's counter agrees with its points. */
  ghost predicate SizesOk(eff: Effected)
  {
    forall k :: k in eff.table ==> SizeOk(eff.table[k])
  }

  /**
   * `e1` is `e0` with `removed` dropped from and `added` recorded for
   * `prior`; the entry of `prior` is created only when something is added,
   * every other entry is kept, and the counters stay exact.
   */
  ghost predicate Marked(e0: Effected, e1: Effected, prior: int, removed: set<Pos>, added: set<Pos>)
  {
    && (forall k :: k in e0.table ==> k in e1.table)
    && (forall k :: k in e1.table ==> k in e0.table || (k == prior && added != {}))
    && (forall k :: k != prior && k in e0.table ==> e1.table[k] == e0.table[k])
    && (forall q :: IsRecorded(e1, prior, q) <==> (IsRecorded(e0, prior, q) && q !in removed) || q in added)
    && (SizesOk(e0) ==> SizesOk(e1))
  }

  lemma MarkSpec(eff: Effected, prior: int, n: Pos)
    ensures Marked(eff, Mark(eff, prior, n), prior, {}, {n})
  {
    var base := if prior in eff.table then eff.table[prior] else Empty();
    var c := SetPoint(base, n, ());
    var e1 := Mark(eff, prior, n);
    assert e1.table == eff.table[prior := c];
    forall q
      ensures IsRecorded(e1, prior, q) <==> IsRecorded(eff, prior, q) || q in {n}
    {
      assert GetPoint(c, q) == if q == n then Some(()) else GetPoint(base, q);
      if prior !in eff.table {
        assert GetPoint(base, q) == None;
      }
    }
    MarkSizes(eff, prior, n);
  }

  lemma MarkSizes(eff: Effected, prior: int, n: Pos)
    ensures SizesOk(eff) ==> SizesOk(Mark(eff, prior, n))
  {
    var base := if prior in eff.table then eff.table[prior] else Empty();
    SetPointSize(base, n, ());
    EmptySizeOk<()>();
  }

  lemma MarkedThen(e0: Effected, e1: Effected, e2: Effected, prior: int, removed: set<Pos>, a: set<Pos>, b: set<Pos>)
    requires Marked(e0, e1, prior, removed, a) && Marked(e1, e2, prior, {}, b)
    ensures Marked(e0, e2, prior, removed, a + b)
  {
    assert forall k :: k in e0.table ==> k in e2.table;
    assert forall k :: k in e2.table ==> k in e0.table || (k == prior && a + b != {});
    assert forall k :: k != prior && k in e0.table ==> e2.table[k] == e0.table[k];
  }

  /** The counts of `pts` with those of the points in `done` moved by `d`. */
  ghost predicate Moved(pts: Container<int>, r: Container<int>, done: seq<Pos>, d: int)
  {
    forall q :: GetPoint(r, q) == if q in done then Shift(GetPoint(pts, q), d) else GetPoint(pts, q)
  }

  /** One more point moved by `d`. */
  lemma MovedStep(pts: Container<int>, r: Container<int>, ns: seq<Pos>, i: nat, d: int)
    requires i < |ns| && Distinct(ns) && Moved(pts, r, ns[..i], d)
    ensures GetPoint(r, ns[i]) == GetPoint(pts, ns[i])
    ensures GetPoint(r, ns[i]).Some? ==> Moved(pts, SetPoint(r, ns[i], GetPoint(r, ns[i]).value + d), ns[..i + 1], d)
  {
    assert ns[i] !in ns[..i];
    assert ns[..i + 1] == ns[..i] + [ns[i]];
  }

  /** The points of `done` that had four neighbours. */
  ghost function Full(pts: Container<int>, done: seq<Pos>): set<Pos>
  {
    set n | n in done && GetPoint(pts, n) == Some(4)
  }

  /** The next point joins the full ones when it had four. */
  lemma FullStep(pts: Container<int>, ns: seq<Pos>, i: nat)
    requires i < |ns|
    ensures GetPoint(pts, ns[i]) == Some(4) ==> Full(pts, ns[..i + 1]) == Full(pts, ns[..i]) + {ns[i]}
    ensures GetPoint(pts, ns[i]) != Some(4) ==> Full(pts, ns[..i + 1]) == Full(pts, ns[..i])
  {
    assert ns[..i + 1] == ns[..i] + [ns[i]];
  }

  /** Recording the next point, which had four. */
  lemma MarkFull(e0: Effected, e: Effected, prior: int, pts: Container<int>, ns: seq<Pos>, i: nat)
    requires i < |ns| && GetPoint(pts, ns[i]) == Some(4) && Marked(e0, e, prior, {}, Full(pts, ns[..i]))
    ensures Marked(e0, Mark(e, prior, ns[i]), prior, {}, Full(pts, ns[..i + 1]))
  {
    FullStep(pts, ns, i);
    MarkSpec(e, prior, ns[i]);
    MarkedThen(e0, e, Mark(e, prior, ns[i]), prior, {}, Full(pts, ns[..i]), {ns[i]});
  }

  /** With an action, a neighbour that had four is recorded. */
  function Note(eff: Option<Effected>, prior: int, n: Pos, k: int): Option<Effected>
  {
    if k == 4 && eff.Some? then Some(Mark(eff.value, prior, n)) else eff
  }

  lemma NoteStep(pts: Container<int>, ns: seq<Pos>, i: nat, e0: Option<Effected>, e: Option<Effected>, prior: int, k: int)
    requires i < |ns| && GetPoint(pts, ns[i]) == Some(k) && e.Some? == e0.Some?
    requires e0.Some? ==> Marked(e0.value, e.value, prior, {}, Full(pts, ns[..i]))
    ensures Note(e, prior, ns[i], k).Some? == e0.Some?
    ensures e0.Some? ==> Marked(e0.value, Note(e, prior, ns[i], k).value, prior, {}, Full(pts, ns[..i + 1]))
  {
    FullStep(pts, ns, i);
    if k == 4 && e.Some? {
      MarkFull(e0.value, e.value, prior, pts, ns, i);
    }
  }

  /** Nothing marked yet. */
  lemma MarkedNone(e: Effected, prior: int)
    ensures Marked(e, e, prior, {}, {})
  {
  }

  /** The first `i` neighbours done: their counts moved down, the full ones recorded. */
  ghost predicate Detached(pts: Container<int>, r: Container<int>, ns: seq<Pos>, i: nat, e0: Option<Effected>, e: Option<Effected>, prior: int)
    requires i <= |ns|
  {
    && Moved(pts, r, ns[..i], -1)
    && e.Some? == e0.Some?
    && (e0.Some? ==> Marked(e0.value, e.value, prior, {}, Full(pts, ns[..i])))
  }

  lemma DetachStart(pts: Container<int>, ns: seq<Pos>, e0: Option<Effected>, prior: int)
    ensures Detached(pts, pts, ns, 0, e0, e0, prior)
  {
    assert ns[..0] == [];
    if e0.Some? {
      MarkedNone(e0.value, prior);
      assert Full(pts, ns[..0]) == {};
    }
  }

  /** One turn of the loop below keeps its invariant. */
  lemma DetachStep(pts: Container<int>, r: Container<int>, ns: seq<Pos>, i: nat, e0: Option<Effected>, e: Option<Effected>, prior: int)
    requires i < |ns| && Distinct(ns) && GetPoint(pts, ns[i]).Some? && Detached(pts, r, ns, i, e0, e, prior)
    ensures GetPoint(r, ns[i]).Some?
    ensures var k := GetPoint(r, ns[i]).value;
      Detached(pts, SetPoint(r, ns[i], k - 1), ns, i + 1, e0, Note(e, prior, ns[i], k), prior)
  {
    MovedStep(pts, r, ns, i, -1);
    NoteStep(pts, ns, i, e0, e, prior, GetPoint(r, ns[i]).value);
  }

  lemma DetachEnd(pts: Container<int>, r: Container<int>, ns: seq<Pos>, e0: Option<Effected>, e: Option<Effected>, prior: int)
    requires Detached(pts, r, ns, |ns|, e0, e, prior)
    ensures Moved(pts, r, ns, -1) && e.Some? == e0.Some?
    ensures e0.Some? ==> Marked(e0.value, e.value, prior, {}, Full(pts, ns))
  {
    assert ns[..|ns|] == ns;
  }

  /** The body of the loop below: neighbour `ns[i]` loses one, and is recorded when it had four. */
  method DetachOne(pts: Container<int>, r: Container<int>, ns: seq<Pos>, i: nat, e0: Option<Effected>, e: Option<Effected>, prior: int)
    returns (r': Container<int>, e': Option<Effected>)
    requires i < |ns| && Distinct(ns) && GetPoint(pts, ns[i]).Some? && Detached(pts, r, ns, i, e0, e, prior)
    ensures Detached(pts, r', ns, i + 1, e0, e', prior)
  {
    var n := ns[i];
    DetachStep(pts, r, ns, i, e0, e, prior);
    var k := GetPoint(r, n).value;
    e' := Note(e, prior, n, k);
    r' := SetPoint(r, n, k - 1);
  }

  /**
   * The loop over the prior segment's neighbours: each loses one neighbour,
   * and, when there is an action, those that had four are recorded as new
   * boundary points of `prior`.
   */
  method Detach(pts: Container<int>, eff: Option<Effected>, prior: int, ns: seq<Pos>)
    returns (r: Container<int>, eff': Option<Effected>)
    requires Distinct(ns) && forall n :: n in ns ==> GetPoint(pts, n).Some?
    ensures Moved(pts, r, ns, -1)
    ensures eff'.Some? == eff.Some?
    ensures eff.Some? ==> Marked(eff.value, eff'.value, prior, {}, Full(pts, ns))
  {
    r, eff' := pts, eff;
    DetachStart(pts, ns, eff, prior);
    var i := 0;
    while i < |ns|
      invariant 0 <= i <= |ns|
      invariant Detached(pts, r, ns, i, eff, eff', prior)
    {
      r, eff' := DetachOne(pts, r, ns, i, eff, eff', prior);
      i := i + 1;
    }
    DetachEnd(pts, r, ns, eff, eff', prior);
  }

  /** The loop over the new segment's neighbours: each gains one neighbour. */
  method Attach(pts: Container<int>, ns: seq<Pos>) returns (r: Container<int>)
    requires Distinct(ns) && forall n :: n in ns ==> GetPoint(pts, n).Some?
    ensures Moved(pts, r, ns, 1)
  {
    r := pts;
    var i := 0;
    assert ns[..0] == [];
    while i < |ns|
      invariant 0 <= i <= |ns|
      invariant Moved(pts, r, ns[..i], 1)
    {
      MovedStep(pts, r, ns, i, 1);
      r := SetPoint(r, ns[i], GetPoint(r, ns[i]).value + 1);
      i := i + 1;
    }
    assert ns[..i] == ns;
  }

  /** The effected entry of `prior` with `p` taken out, when the entry exists. */
  function Forget(eff: Effected, prior: int, p: Pos): Effected
  {
    if prior in eff.table then Put(eff, prior, DeletePoint(eff.table[prior], p)) else eff
  }

  lemma ForgetSpec(eff: Effected, prior: int, p: Pos)
    ensures Marked(eff, Forget(eff, prior, p), prior, {p}, {})
  {
    if prior in eff.table {
      DeletePointSize(eff.table[prior], p);
      var e1 := Forget(eff, prior, p);
      assert e1.table == eff.table[prior := DeletePoint(eff.table[prior], p)];
    }
  }

  /** The prior segment's neighbours of `p` on buffer `b`. */
  function Around(b: seq<int>, w: nat, h: nat, p: Pos, prior: int): (r: seq<Pos>)
    requires |b| == w * h
    ensures Distinct(r) && forall q :: q in r <==> q in Adjacent(w, h, p) && At(b, w, h, q) == prior
  {
    Holding(b, w, h, Adjacent(w, h, p), prior)
  }

  /** A pixel that was a boundary point of the prior segment (fewer than four neighbours) leaves the action's record. */
  method Unrecord(eff: Option<Effected>, prior: int, p: Pos, point: int) returns (eff': Option<Effected>)
    ensures eff'.Some? == eff.Some?
    ensures eff.Some? ==> Marked(eff.value, eff'.value, prior, if point < 4 then {p} else {}, {})
  {
    eff' := eff;
    if point < 4 && eff.Some? {
      ForgetSpec(eff.value, prior, p);
      eff' := Some(Forget(eff.value, prior, p));
    } else if eff.Some? {
      MarkedNone(eff.value, prior);
    }
  }

  lemma ReleasedAll(pts: Container<int>, detached: Container<int>, b: seq<int>, w: nat, h: nat, p: Pos, prior: int)
    requires |b| == w * h && InBounds(w, h, p) && At(b, w, h, p) != prior
    requires Moved(DeletePoint(pts, p), detached, Around(b, w, h, p, prior), -1)
    ensures forall q ::
      GetPoint(detached, q) ==
        if q == p then None
        else if q in Adjacent(w, h, p) && At(b, w, h, q) == prior then Shift(GetPoint(pts, q), -1)
        else GetPoint(pts, q)
  {
    forall q ensures GetPoint(detached, q) ==
      (if q == p then None
       else if q in Adjacent(w, h, p) && At(b, w, h, q) == prior then Shift(GetPoint(pts, q), -1)
       else GetPoint(pts, q))
    {
      ReleasedAt(pts, detached, b, w, h, p, prior, q);
    }
  }

  /** The prior segment's entry after the pixel leaves and its neighbours lose one. */
  lemma ReleasedAt(pts: Container<int>, detached: Container<int>, b: seq<int>, w: nat, h: nat, p: Pos, prior: int, q: Pos)
    requires |b| == w * h && InBounds(w, h, p) && At(b, w, h, p) != prior
    requires Moved(DeletePoint(pts, p), detached, Around(b, w, h, p, prior), -1)
    ensures GetPoint(detached, q) ==
      (if q == p then None
       else if q in Adjacent(w, h, p) && At(b, w, h, q) == prior then Shift(GetPoint(pts, q), -1)
       else GetPoint(pts, q))
  {
    assert GetPoint(DeletePoint(pts, p), q) == if q == p then None else GetPoint(pts, q);
  }

  lemma FullAround(pts: Container<int>, b: seq<int>, w: nat, h: nat, p: Pos, prior: int)
    requires |b| == w * h && InBounds(w, h, p) && At(b, w, h, p) != prior
    ensures Full(DeletePoint(pts, p), Around(b, w, h, p, prior))
         == set n | n in Adjacent(w, h, p) && At(b, w, h, n) == prior && GetPoint(pts, n) == Some(4)
  {
    var rest := DeletePoint(pts, p);
    forall n | n in Around(b, w, h, p, prior) ensures GetPoint(rest, n) == GetPoint(pts, n) {
      assert n != p;
    }
  }

  /**
   * The prior segment's part of `setSegment` on buffer `b` (already
   * written at `p`): a former boundary pixel leaves the action's record,
   * the pixel leaves the prior segment's points, and its neighbours still
   * in that segment lose a neighbour, those that had four becoming newly
   * recorded boundary points.
   */
  method Release(segs: JsMap<int, Container<int>>, b: seq<int>, w: nat, h: nat, p: Pos, prior: int, eff: Option<Effected>)
    returns (segs': JsMap<int, Container<int>>, eff': Option<Effected>)
    requires |b| == w * h && InBounds(w, h, p) && At(b, w, h, p) != prior
    requires prior in segs.table && GetPoint(segs.table[prior], p).Some?
    requires forall n :: n in Adjacent(w, h, p) && At(b, w, h, n) == prior ==> GetPoint(segs.table[prior], n).Some?
    ensures segs'.keys == segs.keys
    ensures prior in segs'.table && segs'.table == segs.table[prior := segs'.table[prior]]
    ensures forall q ::
      GetPoint(segs'.table[prior], q) ==
        if q == p then None
        else if q in Adjacent(w, h, p) && At(b, w, h, q) == prior then Shift(GetPoint(segs.table[prior], q), -1)
        else GetPoint(segs.table[prior], q)
    ensures eff'.Some? == eff.Some?
    ensures eff.Some? ==> Marked(eff.value, eff'.value, prior,
      if GetPoint(segs.table[prior], p).value < 4 then {p} else {},
      set n | n in Adjacent(w, h, p) && At(b, w, h, n) == prior && GetPoint(segs.table[prior], n) == Some(4))
  {
    var pts := segs.table[prior];
    var point := GetPoint(pts, p).value;
    var eff1 := Unrecord(eff, prior, p, point);
    var ns := Around(b, w, h, p, prior);
    var rest := DeletePoint(pts, p);
    var detached;
    detached, eff' := Detach(rest, eff1, prior, ns);
    segs' := Put(segs, prior, detached);
    ReleasedAll(pts, detached, b, w, h, p, prior);
    if eff.Some? {
      FullAround(pts, b, w, h, p, prior);
      MarkedThen(eff.value, eff1.value, eff'.value, prior, if point < 4 then {p} else {}, {}, Full(rest, ns));
    }
  }

  /** The new segment's entry after the pixel joins and its neighbours gain one. */
  lemma ClaimedAt(pts: Container<int>, attached: Container<int>, b: seq<int>, w: nat, h: nat, p: Pos, segment: int, q: Pos)
    requires |b| == w * h && InBounds(w, h, p) && At(b, w, h, p) == segment
    requires Moved(SetPoint(pts, p, Count(b, w, h, p, segment)), attached, Around(b, w, h, p, segment), 1)
    ensures GetPoint(attached, q) ==
      (if q == p then Some(Count(b, w, h, p, segment))
       else if q in Adjacent(w, h, p) && At(b, w, h, q) == segment then Shift(GetPoint(pts, q), 1)
       else GetPoint(pts, q))
  {
    assert p !in Adjacent(w, h, p);
    assert GetPoint(SetPoint(pts, p, Count(b, w, h, p, segment)), q) == if q == p then Some(Count(b, w, h, p, segment)) else GetPoint(pts, q);
  }

  /**
   * The new segment's part: the pixel joins it with its number of
   * neighbours in it, and each of those neighbours gains one.
   */
  method Claim(segs: JsMap<int, Container<int>>, b: seq<int>, w: nat, h: nat, p: Pos, segment: int)
    returns (segs': JsMap<int, Container<int>>)
    requires |b| == w * h && InBounds(w, h, p) && At(b, w, h, p) == segment && segment in segs.table
    requires forall n :: n in Adjacent(w, h, p) && At(b, w, h, n) == segment ==> GetPoint(segs.table[segment], n).Some?
    ensures segs'.keys == segs.keys
    ensures segment in segs'.table && segs'.table == segs.table[segment := segs'.table[segment]]
    ensures forall q ::
      GetPoint(segs'.table[segment], q) ==
        if q == p then Some(Count(b, w, h, p, segment))
        else if q in Adjacent(w, h, p) && At(b, w, h, q) == segment then Shift(GetPoint(segs.table[segment], q), 1)
        else GetPoint(segs.table[segment], q)
  {
    var pts := segs.table[segment];
    var ns := Around(b, w, h, p, segment);
    assert p !in ns;
    var joined := SetPoint(pts, p, |ns|);
    var attached := Attach(joined, ns);
    segs' := Put(segs, segment, attached);
    forall q ensures GetPoint(segs'.table[segment], q) ==
      (if q == p then Some(Count(b, w, h, p, segment))
       else if q in Adjacent(w, h, p) && At(b, w, h, q) == segment then Shift(GetPoint(pts, q), 1)
       else GetPoint(pts, q))
    {
      ClaimedAt(pts, attached, b, w, h, p, segment, q);
    }
  }

  /** A stored count moved by `d`; a missing entry stays missing. */
  function Shift(o: Option<int>, d: int): Option<int>
  {
    if o.Some? then Some(o.value + d) else None
  }

  /**
   * What `setSegment(p, segment)` leaves in entry `k` at `q`: the pixel
   * leaves its prior segment and joins the new one with its neighbour count,
   * its neighbours in either segment move by one, and everything else is kept.
   */
  ghost function Expected(l: Layer, p: Pos, segment: int, k: int, q: Pos): Option<int>
    requires |l.buffer| == l.w * l.h && InBounds(l.w, l.h, p) && k in l.segments.table
  {
    var b := l.buffer[CellIndex(l.w, l.h, p) := segment];
    var prior := At(l.buffer, l.w, l.h, p);
    var was := GetPoint(l.segments.table[k], q);
    if prior == segment || (k != prior && k != segment) then was
    else if q == p then (if k == segment then Some(Count(b, l.w, l.h, p, segment)) else None)
    else if q in Adjacent(l.w, l.h, p) && At(b, l.w, l.h, q) == k then Shift(was, if k == segment then 1 else -1)
    else was
  }

  /** After the write, a pixel's entry holds its new neighbour count. */
  lemma BackedAfter(l: Layer, p: Pos, segment: int, l': Layer, q: Pos)
    requires Valid(l) && InBounds(l.w, l.h, p) && InBounds(l.w, l.h, q)
    requires l'.w == l.w && l'.h == l.h && l'.buffer == l.buffer[CellIndex(l.w, l.h, p) := segment]
    requires forall k :: k in l'.segments.table <==> k in l.segments.table
    requires forall k :: k in l.segments.table ==> GetPoint(l'.segments.table[k], q) == Expected(l, p, segment, k, q)
    requires segment != -1 ==> segment in l.segments.table
    ensures Backed(l', q)
  {
    if q == p {
      BackedAtPixel(l, p, segment, l');
    } else {
      BackedAround(l, p, segment, l', q);
    }
  }

  /** The written pixel's new entry holds its neighbour count in `segment`. */
  lemma BackedAtPixel(l: Layer, p: Pos, segment: int, l': Layer)
    requires Valid(l) && InBounds(l.w, l.h, p)
    requires l'.w == l.w && l'.h == l.h && l'.buffer == l.buffer[CellIndex(l.w, l.h, p) := segment]
    requires forall k :: k in l'.segments.table <==> k in l.segments.table
    requires forall k :: k in l.segments.table ==> GetPoint(l'.segments.table[k], p) == Expected(l, p, segment, k, p)
    requires segment != -1 ==> segment in l.segments.table
    ensures Backed(l', p)
  {
    var b := l'.buffer;
    assert At(b, l.w, l.h, p) == segment;
    if segment != -1 {
      assert GetPoint(l'.segments.table[segment], p) == Expected(l, p, segment, segment, p);
      if At(l.buffer, l.w, l.h, p) == segment {
        assert b == l.buffer;
        assert Backed(l, p);
      }
    }
  }

  /** A pixel other than the written one keeps an entry holding its new neighbour count. */
  lemma BackedAround(l: Layer, p: Pos, segment: int, l': Layer, q: Pos)
    requires Valid(l) && InBounds(l.w, l.h, p) && InBounds(l.w, l.h, q) && q != p
    requires l'.w == l.w && l'.h == l.h && l'.buffer == l.buffer[CellIndex(l.w, l.h, p) := segment]
    requires forall k :: k in l'.segments.table <==> k in l.segments.table
    requires forall k :: k in l.segments.table ==> GetPoint(l'.segments.table[k], q) == Expected(l, p, segment, k, q)
    ensures Backed(l', q)
  {
    var b := l'.buffer;
    Apart(l.w, l.h, q, p);
    var s := At(l.buffer, l.w, l.h, q);
    assert At(b, l.w, l.h, q) == s;
    if s != -1 {
      assert Backed(l, q);
      assert GetPoint(l'.segments.table[s], q) == Expected(l, p, segment, s, q);
      CountDelta(l.buffer, l.w, l.h, q, s, p, segment);
      assert OrthNeighbours(q, p) <==> q in Adjacent(l.w, l.h, p);
      if At(l.buffer, l.w, l.h, p) == segment {
        assert b == l.buffer;
      }
    }
  }

  /** After the write, every stored point lies on the canvas and holds its entry's segment. */
  lemma HeldAfter(l: Layer, p: Pos, segment: int, l': Layer, k: int, q: Pos)
    requires Valid(l) && InBounds(l.w, l.h, p) && k in l.segments.table
    requires l'.w == l.w && l'.h == l.h && l'.buffer == l.buffer[CellIndex(l.w, l.h, p) := segment]
    requires Expected(l, p, segment, k, q).Some?
    ensures InBounds(l.w, l.h, q) && At(l'.buffer, l.w, l.h, q) == k
  {
    var was := GetPoint(l.segments.table[k], q);
    if q != p && was.Some? {
      assert HasPoint(l.segments.table[k], q);
      Apart(l.w, l.h, q, p);
    }
  }

  /** A write whose entries change as `Expected` says keeps the layer's invariant. */
  lemma Revalidate(l: Layer, p: Pos, segment: int, l': Layer)
    requires Valid(l) && InBounds(l.w, l.h, p) && (segment != -1 ==> segment in l.segments.table)
    requires l'.w == l.w && l'.h == l.h && l'.buffer == l.buffer[CellIndex(l.w, l.h, p) := segment]
    requires l'.segments.keys == l.segments.keys
    requires forall k :: k in l'.segments.table <==> k in l.segments.table
    requires forall k, q :: k in l.segments.table ==> GetPoint(l'.segments.table[k], q) == Expected(l, p, segment, k, q)
    ensures Valid(l')
  {
    AllBackedAfter(l, p, segment, l');
    AllHeldAfter(l, p, segment, l');
    assert Contiguous(l'.segments);
  }

  lemma AllBackedAfter(l: Layer, p: Pos, segment: int, l': Layer)
    requires Valid(l) && InBounds(l.w, l.h, p) && (segment != -1 ==> segment in l.segments.table)
    requires l'.w == l.w && l'.h == l.h && l'.buffer == l.buffer[CellIndex(l.w, l.h, p) := segment]
    requires forall k :: k in l'.segments.table <==> k in l.segments.table
    requires forall k, q :: k in l.segments.table ==> GetPoint(l'.segments.table[k], q) == Expected(l, p, segment, k, q)
    ensures forall q {:trigger Backed(l', q)} :: InBounds(l'.w, l'.h, q) ==> Backed(l', q)
  {
    forall q | InBounds(l.w, l.h, q) ensures Backed(l', q) {
      BackedAfter(l, p, segment, l', q);
    }
  }

  lemma AllHeldAfter(l: Layer, p: Pos, segment: int, l': Layer)
    requires Valid(l) && InBounds(l.w, l.h, p)
    requires l'.w == l.w && l'.h == l.h && l'.buffer == l.buffer[CellIndex(l.w, l.h, p) := segment]
    requires forall k :: k in l'.segments.table <==> k in l.segments.table
    requires forall k, q :: k in l.segments.table ==> GetPoint(l'.segments.table[k], q) == Expected(l, p, segment, k, q)
    ensures forall k, q :: k in l'.segments.table && HasPoint(l'.segments.table[k], q) ==>
      InBounds(l'.w, l'.h, q) && At(l'.buffer, l'.w, l'.h, q) == k
  {
    forall k, q | k in l'.segments.table && HasPoint(l'.segments.table[k], q)
      ensures InBounds(l'.w, l'.h, q) && At(l'.buffer, l'.w, l'.h, q) == k
    {
      HeldAfter(l, p, segment, l', k, q);
    }
  }

  /**
   * The record an action keeps while it paints `target`: every entry is
   * some other segment's, its counter is exact, and each recorded point is
   * an on-canvas boundary point of that segment.
   */
  ghost predicate Tracked(l: Layer, eff: Effected, target: int)
    requires |l.buffer| == l.w * l.h
  {
    && SizesOk(eff)
    && (forall k :: k in eff.table ==> k != target && k != -1)
    && (forall k, q :: IsRecorded(eff, k, q) ==>
          InBounds(l.w, l.h, q) && At(l.buffer, l.w, l.h, q) == k && Count(l.buffer, l.w, l.h, q, k) < 4)
  }

  /** The pixel leaves the record of its prior segment when it was a boundary point there. */
  ghost function Dropped(l: Layer, p: Pos): set<Pos>
    requires |l.buffer| == l.w * l.h && InBounds(l.w, l.h, p)
  {
    var prior := At(l.buffer, l.w, l.h, p);
    if prior in l.segments.table && GetPoint(l.segments.table[prior], p).Some? && GetPoint(l.segments.table[prior], p).value < 4
    then {p} else {}
  }

  /** The neighbours, still in the prior segment on `b`, that had four neighbours. */
  ghost function Opened(l: Layer, p: Pos, b: seq<int>): set<Pos>
    requires |l.buffer| == l.w * l.h && |b| == |l.buffer| && InBounds(l.w, l.h, p)
  {
    var prior := At(l.buffer, l.w, l.h, p);
    set n | n in Adjacent(l.w, l.h, p) && At(b, l.w, l.h, n) == prior && prior in l.segments.table
      && GetPoint(l.segments.table[prior], n) == Some(4)
  }

  /** The record after writing `p`: marked as `Release` marks it. */
  ghost predicate Recorded1(l: Layer, p: Pos, b: seq<int>, e0: Effected, e1: Effected)
    requires |l.buffer| == l.w * l.h && |b| == |l.buffer| && InBounds(l.w, l.h, p)
  {
    Marked(e0, e1, At(l.buffer, l.w, l.h, p), Dropped(l, p), Opened(l, p, b))
  }

  /** A boundary point of `k` other than the written pixel stays one when `k` is neither segment involved. */
  lemma StillBoundary(l: Layer, p: Pos, segment: int, b: seq<int>, k: int, q: Pos)
    requires |l.buffer| == l.w * l.h && InBounds(l.w, l.h, p) && InBounds(l.w, l.h, q) && q != p
    requires b == l.buffer[CellIndex(l.w, l.h, p) := segment] && k != segment
    requires At(l.buffer, l.w, l.h, q) == k && Count(l.buffer, l.w, l.h, q, k) < 4
    ensures At(b, l.w, l.h, q) == k && Count(b, l.w, l.h, q, k) < 4
  {
    Apart(l.w, l.h, q, p);
    CountDelta(l.buffer, l.w, l.h, q, k, p, segment);
  }

  /** A neighbour of the written pixel that had four in the prior segment now has three. */
  lemma NewBoundary(l: Layer, p: Pos, segment: int, b: seq<int>, q: Pos)
    requires Valid(l) && InBounds(l.w, l.h, p) && b == l.buffer[CellIndex(l.w, l.h, p) := segment]
    requires At(l.buffer, l.w, l.h, p) != segment && At(l.buffer, l.w, l.h, p) in l.segments.table
    requires q in Adjacent(l.w, l.h, p) && At(b, l.w, l.h, q) == At(l.buffer, l.w, l.h, p)
    requires GetPoint(l.segments.table[At(l.buffer, l.w, l.h, p)], q) == Some(4)
    ensures Count(b, l.w, l.h, q, At(b, l.w, l.h, q)) < 4
  {
    var prior := At(l.buffer, l.w, l.h, p);
    Apart(l.w, l.h, q, p);
    assert Backed(l, q);
    CountDelta(l.buffer, l.w, l.h, q, prior, p, segment);
  }

  /** One recorded point after the write: still a boundary point of its segment. */
  lemma TrackedPoint(l: Layer, p: Pos, segment: int, l': Layer, e0: Effected, e1: Effected, k: int, q: Pos)
    requires Valid(l) && InBounds(l.w, l.h, p) && At(l.buffer, l.w, l.h, p) != segment
    requires l'.w == l.w && l'.h == l.h && l'.buffer == l.buffer[CellIndex(l.w, l.h, p) := segment]
    requires Tracked(l, e0, segment)
    requires Recorded1(l, p, l'.buffer, e0, e1)
    requires IsRecorded(e1, k, q)
    ensures InBounds(l.w, l.h, q) && At(l'.buffer, l.w, l.h, q) == k && Count(l'.buffer, l.w, l.h, q, k) < 4
  {
    var prior := At(l.buffer, l.w, l.h, p);
    if k != prior {
      assert IsRecorded(e0, k, q);
      StillBoundary(l, p, segment, l'.buffer, k, q);
    } else {
      assert Backed(l, p);
      if k in e0.table {
        assert prior != -1;
      } else {
        assert Opened(l, p, l'.buffer) != {};
      }
      assert prior in l.segments.table;
      assert IsRecorded(e1, prior, q);
      if IsRecorded(e0, prior, q) {
        if q == p {
          assert false;
        }
        StillBoundary(l, p, segment, l'.buffer, k, q);
      } else {
        NewBoundary(l, p, segment, l'.buffer, q);
      }
    }
  }

  /** The write keeps the action's record tracked. */
  lemma TrackedAfter(l: Layer, p: Pos, segment: int, l': Layer, e0: Effected, e1: Effected)
    requires Valid(l) && InBounds(l.w, l.h, p) && At(l.buffer, l.w, l.h, p) != segment
    requires l'.w == l.w && l'.h == l.h && l'.buffer == l.buffer[CellIndex(l.w, l.h, p) := segment]
    requires Tracked(l, e0, segment)
    requires Recorded1(l, p, l'.buffer, e0, e1)
    ensures Tracked(l', e1, segment)
  {
    forall k, q | IsRecorded(e1, k, q)
      ensures InBounds(l'.w, l'.h, q) && At(l'.buffer, l'.w, l'.h, q) == k && Count(l'.buffer, l'.w, l'.h, q, k) < 4
    {
      TrackedPoint(l, p, segment, l', e0, e1, k, q);
    }
  }

  /**
   * `setSegment` of the on-canvas pixel `p` to `segment`, with the action's
   * effected segments when there is an action. Nothing happens when the
   * pixel already holds `segment`; otherwise the buffer changes at `p` only,
   * the stored neighbour counts stay exact, and an action painting
   * `segment` keeps its record of new boundary points tracked.
   */
  method SetSegment(l: Layer, p: Pos, segment: int, eff: Option<Effected>) returns (l': Layer, eff': Option<Effected>)
    requires Valid(l) && InBounds(l.w, l.h, p) && (segment != -1 ==> segment in l.segments.table)
    ensures l'.w == l.w && l'.h == l.h && l'.active == l.active && eff'.Some? == eff.Some?
    ensures At(l.buffer, l.w, l.h, p) == segment ==> l' == l && eff' == eff
    ensures l'.buffer == l.buffer[CellIndex(l.w, l.h, p) := segment]
    ensures l'.segments.keys == l.segments.keys
    ensures Valid(l')
    ensures eff.Some? && Tracked(l, eff.value, segment) ==> Tracked(l', eff'.value, segment)
  {
    var i := CellIndex(l.w, l.h, p);
    var prior := l.buffer[i];
    if prior == segment {
      assert l.buffer[i := segment] == l.buffer;
      return l, eff;
    }
    var b := l.buffer[i := segment];
    Untouched(l, p, segment, prior);
    var released := l.segments;
    eff' := eff;
    if prior != -1 {
      released, eff' := Release(l.segments, b, l.w, l.h, p, prior, eff);
    }
    assert segment != -1 ==> segment in released.table && released.table[segment] == l.segments.table[segment];
    var claimed := released;
    if segment != -1 {
      claimed := Claim(released, b, l.w, l.h, p, segment);
    }
    l' := l.(buffer := b, segments := claimed);
    assert forall k :: k in l'.segments.table <==> k in l.segments.table by {
      assert l'.segments.table.Keys == Elements(l'.segments.keys);
    }
    forall k, q | k in l.segments.table ensures GetPoint(l'.segments.table[k], q) == Expected(l, p, segment, k, q) {
      var was := GetPoint(l.segments.table[k], q);
      if k != prior && k != segment {
        assert claimed.table[k] == l.segments.table[k];
      } else if k == prior {
        assert claimed.table[k] == released.table[k];
      } else {
        assert released.table[k] == l.segments.table[k];
      }
      ExpectedAt(l, p, segment, prior, b, was, GetPoint(claimed.table[k], q), k, q);
    }
    Revalidate(l, p, segment, l');
    if eff.Some? && Tracked(l, eff.value, segment) {
      TrackedAfter(l, p, segment, l', eff.value, eff'.value);
    }
  }

  /** Release followed by Claim leaves entry `k` as `Expected` says. */
  lemma ExpectedAt(l: Layer, p: Pos, segment: int, prior: int, b: seq<int>, was: Option<int>, now: Option<int>, k: int, q: Pos)
    requires |l.buffer| == l.w * l.h && InBounds(l.w, l.h, p) && k in l.segments.table
    requires prior == At(l.buffer, l.w, l.h, p) && prior != segment && b == l.buffer[CellIndex(l.w, l.h, p) := segment]
    requires was == GetPoint(l.segments.table[k], q)
    requires k != prior && k != segment ==> now == was
    requires k == prior ==>
      now == (if q == p then None
              else if q in Adjacent(l.w, l.h, p) && At(b, l.w, l.h, q) == prior then Shift(was, -1)
              else was)
    requires k == segment ==>
      now == (if q == p then Some(Count(b, l.w, l.h, p, segment))
              else if q in Adjacent(l.w, l.h, p) && At(b, l.w, l.h, q) == segment then Shift(was, 1)
              else was)
    ensures now == Expected(l, p, segment, k, q)
  {
  }

  /** A neighbour of `p` holding some other segment than `p`'s new one is backed by that segment's entry. */
  lemma Untouched(l: Layer, p: Pos, segment: int, prior: int)
    requires Valid(l) && InBounds(l.w, l.h, p) && prior == At(l.buffer, l.w, l.h, p) && prior != segment
    ensures prior != -1 ==> prior in l.segments.table && HasPoint(l.segments.table[prior], p)
    ensures var b := l.buffer[CellIndex(l.w, l.h, p) := segment];
      forall n :: n in Adjacent(l.w, l.h, p) && At(b, l.w, l.h, n) != -1 ==>
        At(b, l.w, l.h, n) == At(l.buffer, l.w, l.h, n)
        && At(b, l.w, l.h, n) in l.segments.table && HasPoint(l.segments.table[At(b, l.w, l.h, n)], n)
  {
    var b := l.buffer[CellIndex(l.w, l.h, p) := segment];
    assert Backed(l, p);
    forall n | n in Adjacent(l.w, l.h, p) ensures At(b, l.w, l.h, n) == At(l.buffer, l.w, l.h, n) && Backed(l, n) {
      Apart(l.w, l.h, n, p);
    }
  }
}

=== FILE: layer_recompute.dfy ===
/**
 * `recomputeSegments` of the painter's drawing layer: once an action is
 * finished, the new boundary points it recorded for each segment it cut
 * into are grouped, round by round, into runs that touch one another
 * (diagonal steps allowed). When the run through the first recorded point
 * misses some of them, the segment is flooded from that point with a new
 * id; unless the flood reaches every remaining recorded point, the flooded
 * piece moves to the new id and each moved pixel enters the action's
 * painted points. The statistics dispatch and the shader uniforms are left
 * out.
 */
module LayerRecompute {
  import opened Wrappers
  import opened Grid
  import opened JsCollections
  import opened PointContainer
  import opened Traversal
  import opened Bft
  import opened DrawingLayer

  /** One entry of an action's `paintedPoints`: the pixel's segment before and after. */
  datatype Change = Change(oldSegment: int, newSegment: int)

  type Painted = Container<Change>

  /** The offsets of the grouping traversal: `kAdjacency`, then the four diagonals. */
  const Around8: seq<Pos> := Adjacency + [Pos(-1, -1), Pos(1, -1), Pos(-1, 1), Pos(1, 1)]

  // ---- The two traversals' tests -----------------------------------------------------

  /** The grouping test: a recorded boundary point on the canvas. It keeps no state. */
  function OnBoundary(bd: Container<()>, w: nat, h: nat): ((), Pos) -> Verdict<()>
  {
    (u: (), q: Pos) => Verdict(HasPoint(bd, q) && InBounds(w, h, q), false, u)
  }

  /**
   * The flood's test: an on-canvas pixel of `segment` passes and leaves the
   * boundary container, and `exitLoop` is called once the container is
   * empty.
   */
  function FillStep(l: Layer, segment: int, bd: Container<()>, q: Pos): Verdict<Container<()>>
  {
    if GetSegment(l, q) == Some(segment) && InBounds(l.w, l.h, q) then
      var bd' := DeletePoint(bd, q);
      Verdict(true, bd'.size == 0, bd')
    else Verdict(false, false, bd)
  }

  function Flooder(l: Layer, segment: int): (Container<()>, Pos) -> Verdict<Container<()>>
  {
    (bd: Container<()>, q: Pos) => FillStep(l, segment, bd, q)
  }

  // ---- What the recomputation needs and keeps ---------------------------------------

  /** The boundary container of `segment`: its counter is exact and it holds on-canvas pixels of `segment`. */
  ghost predicate Pending(l: Layer, segment: int, bd: Container<()>)
    requires |l.buffer| == l.w * l.h
  {
    SizeOk(bd) && forall q :: HasPoint(bd, q) ==> InBounds(l.w, l.h, q) && At(l.buffer, l.w, l.h, q) == segment
  }

  /** Every effected segment's container is pending. */
  ghost predicate Ready(l: Layer, eff: Effected)
    requires |l.buffer| == l.w * l.h
  {
    forall k :: k in eff.table ==> Pending(l, k, eff.table[k])
  }

  /** The painted-points entry of `q` once the pixel has moved from its segment in `l0` to the one in `l`. */
  ghost function Noted(l0: Layer, p0: Painted, l: Layer, q: Pos): Option<Change>
    requires |l0.buffer| == l0.w * l0.h && |l.buffer| == |l0.buffer| && l.w == l0.w && l.h == l0.h
  {
    if !HasPoint(p0, q) && InBounds(l0.w, l0.h, q) && At(l.buffer, l.w, l.h, q) != At(l0.buffer, l0.w, l0.h, q)
    then Some(Change(At(l0.buffer, l0.w, l0.h, q), At(l.buffer, l.w, l.h, q)))
    else GetPoint(p0, q)
  }

  /**
   * What the recomputation has done to layer `l0` and painted points `p0`:
   * the dimensions and the active segment are kept, ids are only added, a
   * pixel changes only from a segment of `keys` to one of the added ids,
   * and each changed pixel not yet in the painted points enters them with
   * its old and new segment while every other entry is kept.
   */
  ghost predicate Recomputed(l0: Layer, p0: Painted, keys: set<int>, l: Layer, p: Painted)
  {
    && l.w == l0.w && l.h == l0.h && l.active == l0.active
    && |l0.buffer| == l0.w * l0.h && |l.buffer| == |l0.buffer|
    && Size(l0.segments) <= Size(l.segments)
    && (forall q :: InBounds(l0.w, l0.h, q) && At(l.buffer, l.w, l.h, q) != At(l0.buffer, l0.w, l0.h, q) ==>
          At(l0.buffer, l0.w, l0.h, q) in keys
          && Size(l0.segments) < At(l.buffer, l.w, l.h, q) <= Size(l.segments))
    && (forall q :: GetPoint(p, q) == Noted(l0, p0, l, q))
    && (SizeOk(p0) ==> SizeOk(p))
  }

  /** Two recomputations in a row, the second on a segment that existed before the first. */
  lemma RecomputedThen(l0: Layer, p0: Painted, keys: set<int>, l1: Layer, p1: Painted, k: int, l2: Layer, p2: Painted)
    requires Recomputed(l0, p0, keys, l1, p1) && Recomputed(l1, p1, {k}, l2, p2)
    requires k <= Size(l0.segments)
    ensures Recomputed(l0, p0, keys + {k}, l2, p2)
  {
    forall q | InBounds(l0.w, l0.h, q)
      ensures At(l2.buffer, l2.w, l2.h, q) != At(l0.buffer, l0.w, l0.h, q) ==>
        At(l0.buffer, l0.w, l0.h, q) in keys + {k}
        && Size(l0.segments) < At(l2.buffer, l2.w, l2.h, q) <= Size(l2.segments)
      ensures GetPoint(p2, q) == Noted(l0, p0, l2, q)
    {
      var b0, b1, b2 := At(l0.buffer, l0.w, l0.h, q), At(l1.buffer, l1.w, l1.h, q), At(l2.buffer, l2.w, l2.h, q);
      if b1 != b0 {
        assert b2 == b1;
      }
    }
  }

  /** A container with points recorded for `segment` names `segment` on a valid layer: it is empty or has an entry. */
  lemma KeyHeld(l: Layer, segment: int, bd: Container<()>)
    requires Valid(l) && Pending(l, segment, bd) && bd.size > 0
    ensures segment == -1 || (segment in l.segments.table && 1 <= segment <= Size(l.segments))
  {
    var q :| q in Points(bd);
    assert Backed(l, q);
    if segment != -1 {
      ContiguousKeys(l.segments, segment);
    }
  }

  /** A container of a segment the recomputation has not touched is still pending. */
  lemma StillPending(l0: Layer, p0: Painted, keys: set<int>, l: Layer, p: Painted, segment: int, bd: Container<()>)
    requires Recomputed(l0, p0, keys, l, p) && Pending(l0, segment, bd) && segment !in keys
    ensures Pending(l, segment, bd)
  {
    forall q | HasPoint(bd, q) ensures InBounds(l.w, l.h, q) && At(l.buffer, l.w, l.h, q) == segment {
      assert At(l0.buffer, l0.w, l0.h, q) == segment;
    }
  }

  // ---- Counting points ----------------------------------------------------------------

  lemma SubsetSize<T>(a: set<T>, b: set<T>)
    requires a <= b
    ensures |a| <= |b|
    ensures |a| == |b| <==> a == b
  {
    assert b == a + (b - a);
    assert a * (b - a) == {};
  }

  /** `forEachPoint(visited, deletePoint(boundary, …))`: each listed point leaves the container in turn. */
  function DeleteAll(bd: Container<()>, es: seq<(Pos, ())>): (r: Container<()>)
    ensures forall q :: GetPoint(r, q) == if Mentions(es, q) then None else GetPoint(bd, q)
    ensures SizeOk(bd) ==> SizeOk(r)
    decreases |es|
  {
    if |es| == 0 then bd
    else
      var r := DeleteAll(DeletePoint(bd, es[0].0), es[1..]);
      DeletePointSize(bd, es[0].0);
      assert forall q :: Mentions(es, q) <==> q == es[0].0 || Mentions(es[1..], q) by {
        forall q ensures Mentions(es, q) <==> q == es[0].0 || Mentions(es[1..], q) {
          if Mentions(es, q) && q != es[0].0 {
            var i :| 0 <= i < |es| && es[i].0 == q;
            assert es[1..][i - 1] == es[i];
          }
          if Mentions(es[1..], q) {
            var i :| 0 <= i < |es[1..]| && es[1..][i].0 == q;
            assert es[i + 1] == es[1..][i];
          }
        }
      }
      r
  }

  lemma MentionsStep<D>(es: seq<(Pos, D)>, i: nat, q: Pos)
    requires i < |es|
    ensures Mentions(es[..i + 1], q) <==> Mentions(es[..i], q) || q == es[i].0
  {
    if Mentions(es[..i + 1], q) && q != es[i].0 {
      var j :| 0 <= j < i + 1 && es[..i + 1][j].0 == q;
      assert es[..i][j] == es[j];
    }
    if Mentions(es[..i], q) {
      var j :| 0 <= j < i && es[..i][j].0 == q;
      assert es[..i + 1][j] == es[j];
    }
    if q == es[i].0 {
      assert es[..i + 1][i] == es[i];
    }
  }

  // ---- The traversal, as the recomputation uses it -----------------------------------

  /** Each call's verdict is the test's answer in the state before it (`Threads`, keyed on that state). */
  ghost predicate Threaded<S>(test: (S, Pos) -> Verdict<S>, s0: S, trace: seq<Call<S>>)
  {
    forall i {:trigger Before(s0, trace, i)} :: 0 <= i < |trace| ==> trace[i].verdict == test(Before(s0, trace, i), trace[i].pos)
  }

  lemma ThreadedOf<S>(test: (S, Pos) -> Verdict<S>, s0: S, trace: seq<Call<S>>)
    requires Threads(test, s0, trace)
    ensures Threaded(test, s0, trace)
  {
    forall i | 0 <= i < |trace| ensures trace[i].verdict == test(Before(s0, trace, i), trace[i].pos) {
    }
  }

  /**
   * The drawing layer's `breadthFirstTraversal`: the visited container
   * holds the recorded points, which start at `start` and reach it through
   * the offsets; every recorded point passed a call of the test, and
   * `start` is recorded exactly when its first test passes.
   */
  method Bfs<S(!new)>(start: Pos, test: (S, Pos) -> Verdict<S>, s0: S, offsets: seq<Pos>,
                      ghost w: int, ghost h: int, ghost inv: S -> bool)
    returns (visited: Container<()>, order: seq<Pos>, trace: seq<Call<S>>, s: S)
    requires forall st, p :: test(st, p).pass ==> InBounds(w, h, p)
    ensures SizeOk(visited) && (forall q :: HasPoint(visited, q) <==> q in order)
    ensures Connected(order, start, offsets)
    ensures Threaded(test, s0, trace) && s == After(s0, trace)
    ensures |trace| > 0 && trace[0] == Call(start, test(s0, start))
    ensures HasPoint(visited, start) <==> test(s0, start).pass
    ensures forall i :: 0 <= i < |order| ==> PassedIn(trace, order[i])
    ensures Steady(test, inv, s0) ==> Closed(test, s0, order, offsets)
    ensures Outcome(Setup(start, test, s0, offsets, TestOnDequeue), order, trace, s)
  {
    visited, order, trace, s := PainterBft(start, test, s0, offsets, w, h, inv);
    ThreadedOf(test, s0, trace);
  }

  // ---- The grouping traversal ---------------------------------------------------------

  /** The invariant the grouping traversal needs: none. */
  predicate Anything<S>(s: S)
  {
    true
  }

  /** The grouping test keeps no state, never exits and answers alike at every call. */
  lemma BoundarySteady(bd: Container<()>, w: nat, h: nat)
    ensures Steady(OnBoundary(bd, w, h), Anything, ())
  {
    forall s: (), p: Pos ensures !OnBoundary(bd, w, h)(s, p).exit && OnBoundary(bd, w, h)(s, p).pass == OnBoundary(bd, w, h)((), p).pass {
    }
  }

  /** Every point of the run passed a call of the grouping test, so it is a recorded boundary point. */
  lemma GroupPassed(bd: Container<()>, w: nat, h: nat, trace: seq<Call<()>>, run: seq<Pos>)
    requires Threaded(OnBoundary(bd, w, h), (), trace)
    requires forall i :: 0 <= i < |run| ==> PassedIn(trace, run[i])
    ensures forall q :: q in run ==> HasPoint(bd, q)
  {
    forall q | q in run ensures HasPoint(bd, q) {
      var k :| 0 <= k < |run| && run[k] == q;
      assert PassedIn(trace, run[k]);
      var i :| 0 <= i < |trace| && trace[i].pos == q && trace[i].verdict.pass;
      assert trace[i].verdict == OnBoundary(bd, w, h)(Before((), trace, i), q);
    }
  }

  /** A container whose points are some of `bd`'s is no larger, and is as large exactly when it has them all. */
  lemma RunSize(bd: Container<()>, visited: Container<()>, run: seq<Pos>)
    requires SizeOk(bd) && SizeOk(visited)
    requires forall q :: HasPoint(visited, q) <==> q in run
    requires forall q :: q in run ==> HasPoint(bd, q)
    ensures visited.size <= bd.size
    ensures visited.size == bd.size <==> forall q :: HasPoint(bd, q) ==> q in run
  {
    forall q | q in Points(visited) ensures q in Points(bd) {
      assert HasPoint(visited, q);
    }
    SubsetSize(Points(visited), Points(bd));
    if forall q :: HasPoint(bd, q) ==> q in run {
      forall q | q in Points(bd) ensures q in Points(visited) {
        assert HasPoint(bd, q);
      }
    }
    if visited.size == bd.size {
      forall q | HasPoint(bd, q) ensures q in run {
        assert q in Points(bd);
      }
    }
  }

  /**
   * The first traversal of a round: the run of recorded boundary points
   * that reach `start` through one another, diagonal steps included. The
   * run is all of them exactly when the visited container is as large as
   * the boundary container.
   */
  method Group(l: Layer, segment: int, bd: Container<()>, start: Pos) returns (visited: Container<()>, ghost run: seq<Pos>)
    requires |l.buffer| == l.w * l.h && Pending(l, segment, bd) && HasPoint(bd, start)
    ensures SizeOk(visited) && forall q :: HasPoint(visited, q) <==> q in run
    ensures |run| > 0 && run[0] == start && Connected(run, start, Around8)
    ensures forall q :: q in run ==> HasPoint(bd, q)
    ensures Closed(OnBoundary(bd, l.w, l.h), (), run, Around8)
    ensures visited.size <= bd.size
    ensures visited.size == bd.size <==> forall q :: HasPoint(bd, q) ==> q in run
  {
    var test := OnBoundary(bd, l.w, l.h);
    var order, trace, u;
    BoundarySteady(bd, l.w, l.h);
    visited, order, trace, u := Bfs(start, test, (), Around8, l.w, l.h, Anything);
    run := order;
    assert test((), start).pass;
    GroupPassed(bd, l.w, l.h, trace, run);
    RunSize(bd, visited, run);
  }

  // ---- The flood ----------------------------------------------------------------------

  /** Every call of `test` only takes points out of the container and keeps its counter exact. */
  ghost predicate OnlyDeletes(test: (Container<()>, Pos) -> Verdict<Container<()>>)
  {
    forall s, p :: Points(test(s, p).state) <= Points(s) && (SizeOk(s) ==> SizeOk(test(s, p).state))
  }

  lemma FlooderDeletes(l: Layer, segment: int)
    ensures OnlyDeletes(Flooder(l, segment))
  {
    forall s, p ensures Points(Flooder(l, segment)(s, p).state) <= Points(s)
      && (SizeOk(s) ==> SizeOk(Flooder(l, segment)(s, p).state))
    {
      DeletePointSize(s, p);
    }
  }

  /** Along a trace of such a test the container only loses points, and its counter stays exact. */
  lemma {:induction false} Deletes(test: (Container<()>, Pos) -> Verdict<Container<()>>, bd: Container<()>,
                                   trace: seq<Call<Container<()>>>, i: nat, j: nat)
    requires OnlyDeletes(test) && Threaded(test, bd, trace) && i <= j <= |trace|
    ensures Points(Before(bd, trace, j)) <= Points(Before(bd, trace, i))
    ensures SizeOk(Before(bd, trace, i)) ==> SizeOk(Before(bd, trace, j))
    decreases j - i
  {
    if i < j {
      Deletes(test, bd, trace, i, j - 1);
      var s := Before(bd, trace, j - 1);
      assert trace[j - 1].verdict == test(s, trace[j - 1].pos);
      var s' := Before(bd, trace, j);
      assert s' == test(s, trace[j - 1].pos).state;
      var a, b, c := Points(s'), Points(s), Points(Before(bd, trace, i));
      assert a <= b && b <= c;
      assert a <= c;
      assert SizeOk(s) ==> SizeOk(s');
    } else {
      var c := Points(Before(bd, trace, i));
      var s := Before(bd, trace, i);
      assert Before(bd, trace, j) == s;
      assert c <= c && (SizeOk(s) ==> SizeOk(s));
    }
  }

  /** After its first call, which takes `start`, the flood's container is a smaller part of `bd`. */
  lemma FloodShrinks(l: Layer, segment: int, bd: Container<()>, start: Pos, trace: seq<Call<Container<()>>>)
    requires |l.buffer| == l.w * l.h && SizeOk(bd) && HasPoint(bd, start)
    requires InBounds(l.w, l.h, start) && At(l.buffer, l.w, l.h, start) == segment
    requires Threaded(Flooder(l, segment), bd, trace) && |trace| > 0 && trace[0].pos == start
    ensures SizeOk(After(bd, trace)) && Points(After(bd, trace)) <= Points(bd) - {start}
    ensures After(bd, trace).size < bd.size
  {
    assert trace[0].verdict == Flooder(l, segment)(Before(bd, trace, 0), start);
    assert GetSegment(l, start) == Some(segment);
    assert Before(bd, trace, 1) == DeletePoint(bd, start);
    DeletePointSize(bd, start);
    FlooderDeletes(l, segment);
    Deletes(Flooder(l, segment), bd, trace, 1, |trace|);
    SubsetSize(Points(After(bd, trace)), Points(bd) - {start});
    assert Points(bd) == (Points(bd) - {start}) + {start};
  }

  /** A pixel the flood passed has left the container for good. */
  lemma FloodTakes(l: Layer, segment: int, bd: Container<()>, trace: seq<Call<Container<()>>>, q: Pos)
    requires Threaded(Flooder(l, segment), bd, trace) && PassedIn(trace, q)
    ensures !HasPoint(After(bd, trace), q)
  {
    var i :| 0 <= i < |trace| && trace[i].pos == q && trace[i].verdict.pass;
    assert trace[i].verdict == FillStep(l, segment, Before(bd, trace, i), q);
    FlooderDeletes(l, segment);
    Deletes(Flooder(l, segment), bd, trace, i + 1, |trace|);
  }

  /** A pixel the flood passed is an on-canvas pixel of `segment`. */
  lemma FloodPassed(l: Layer, segment: int, bd: Container<()>, trace: seq<Call<Container<()>>>, q: Pos)
    requires |l.buffer| == l.w * l.h && Threaded(Flooder(l, segment), bd, trace) && PassedIn(trace, q)
    ensures InBounds(l.w, l.h, q) && At(l.buffer, l.w, l.h, q) == segment
  {
    var i :| 0 <= i < |trace| && trace[i].pos == q && trace[i].verdict.pass;
    assert trace[i].verdict == FillStep(l, segment, Before(bd, trace, i), q);
  }

  /** Every orthogonal neighbour on the canvas of a pixel of `piece` that holds `segment` is in `piece`. */
  ghost predicate Whole(l: Layer, segment: int, piece: seq<Pos>)
    requires |l.buffer| == l.w * l.h
  {
    forall q, d :: q in piece && d in Adjacency && InBounds(l.w, l.h, Add(q, d)) && At(l.buffer, l.w, l.h, Add(q, d)) == segment
      ==> Add(q, d) in piece
  }

  /** A flood that leaves some boundary point recorded never exited: an exit empties the container for good. */
  lemma FloodCalm(l: Layer, segment: int, bd: Container<()>, trace: seq<Call<Container<()>>>)
    requires SizeOk(bd) && Threaded(Flooder(l, segment), bd, trace) && After(bd, trace).size > 0
    ensures Calm(trace)
  {
    forall c | 0 <= c < |trace| ensures !trace[c].verdict.exit {
      if trace[c].verdict.exit {
        assert trace[c].verdict == FillStep(l, segment, Before(bd, trace, c), trace[c].pos);
        assert Before(bd, trace, c + 1).size == 0;
        FlooderDeletes(l, segment);
        Deletes(Flooder(l, segment), bd, trace, 0, c + 1);
        Deletes(Flooder(l, segment), bd, trace, c + 1, |trace|);
      }
    }
  }

  /**
   * A flood that never exited takes the whole orthogonal piece: the flood
   * test passes alike at every call, so every neighbour it asks about that
   * holds `segment` is recorded.
   */
  lemma FloodSweeps(l: Layer, segment: int, bd: Container<()>, start: Pos,
                    order: seq<Pos>, trace: seq<Call<Container<()>>>, s: Container<()>)
    requires |l.buffer| == l.w * l.h && SizeOk(bd)
    requires Threaded(Flooder(l, segment), bd, trace) && After(bd, trace).size > 0
    requires Outcome(Setup(start, Flooder(l, segment), bd, Adjacency, TestOnDequeue), order, trace, s)
    ensures Whole(l, segment, order)
  {
    FloodCalm(l, segment, bd, trace);
    CalmOutcome(Setup(start, Flooder(l, segment), bd, Adjacency, TestOnDequeue), order, trace, s);
    forall q, d | q in order && d in Adjacency && InBounds(l.w, l.h, Add(q, d)) && At(l.buffer, l.w, l.h, Add(q, d)) == segment
      ensures Add(q, d) in order
    {
      var j :| 0 <= j < |order| && order[j] == q;
      var e :| 0 <= e < |Adjacency| && Adjacency[e] == d;
      assert Asked(trace, Add(order[j], Adjacency[e]));
      var c :| 0 <= c < |trace| && trace[c].pos == Add(q, d);
      assert trace[c].verdict == FillStep(l, segment, Before(bd, trace, c), Add(q, d));
      FloodNeverFails(l, segment, bd, trace, Add(q, d));
    }
  }

  /** The flood test passes at a pixel of `segment` whatever the container. */
  lemma FloodNeverFails(l: Layer, segment: int, bd: Container<()>, trace: seq<Call<Container<()>>>, q: Pos)
    requires |l.buffer| == l.w * l.h && Threaded(Flooder(l, segment), bd, trace)
    requires InBounds(l.w, l.h, q) && At(l.buffer, l.w, l.h, q) == segment
    ensures !FailedIn(trace, q)
  {
    forall c | 0 <= c < |trace| && trace[c].pos == q ensures trace[c].verdict.pass {
      assert trace[c].verdict == FillStep(l, segment, Before(bd, trace, c), q);
    }
  }

  /**
   * The fill callback for one flooded pixel: it enters the painted points
   * with its old and new segment unless it is there already, then moves to
   * `next` through `setSegment` (with no action). No other pixel changes.
   */
  method Relabel(l: Layer, p: Pos, next: int, segment: int, painted: Painted) returns (l': Layer, painted': Painted)
    requires Valid(l) && next in l.segments.table && InBounds(l.w, l.h, p)
    ensures Valid(l') && l'.w == l.w && l'.h == l.h && l'.active == l.active && l'.segments.keys == l.segments.keys
    ensures forall q :: InBounds(l.w, l.h, q) ==>
      At(l'.buffer, l.w, l.h, q) == (if q == p then next else At(l.buffer, l.w, l.h, q))
    ensures forall q ::
      GetPoint(painted', q) == if q == p && !HasPoint(painted, q) then Some(Change(segment, next)) else GetPoint(painted, q)
    ensures SizeOk(painted) ==> SizeOk(painted')
  {
    painted' := painted;
    if !HasPoint(painted, p) {
      SetPointSize(painted, p, Change(segment, next));
      painted' := SetPoint(painted, p, Change(segment, next));
    }
    var e;
    l', e := SetSegment(l, p, next, None);
    forall q | InBounds(l.w, l.h, q) && q != p
      ensures At(l'.buffer, l.w, l.h, q) == At(l.buffer, l.w, l.h, q)
    {
      Apart(l.w, l.h, p, q);
    }
  }

  /**
   * `forEachPoint` over the flooded pixels: a pixel not yet among the
   * painted points enters them with its old and new segment, then the
   * pixel moves to `next` through `setSegment` (with no action).
   */
  method Flood(l: Layer, next: int, segment: int, es: seq<(Pos, ())>, painted: Painted) returns (l': Layer, painted': Painted)
    requires Valid(l) && next in l.segments.table && next != segment
    requires forall i :: 0 <= i < |es| ==> InBounds(l.w, l.h, es[i].0) && At(l.buffer, l.w, l.h, es[i].0) == segment
    ensures Valid(l') && l'.w == l.w && l'.h == l.h && l'.active == l.active && l'.segments.keys == l.segments.keys
    ensures forall q :: InBounds(l.w, l.h, q) ==>
      At(l'.buffer, l.w, l.h, q) == (if Mentions(es, q) then next else At(l.buffer, l.w, l.h, q))
    ensures forall q ::
      GetPoint(painted', q) == if !HasPoint(painted, q) && Mentions(es, q) then Some(Change(segment, next)) else GetPoint(painted, q)
    ensures SizeOk(painted) ==> SizeOk(painted')
  {
    l', painted' := l, painted;
    for i := 0 to |es|
      invariant Valid(l') && l'.w == l.w && l'.h == l.h && l'.active == l.active && l'.segments.keys == l.segments.keys
      invariant forall q :: InBounds(l.w, l.h, q) ==>
        At(l'.buffer, l.w, l.h, q) == (if Mentions(es[..i], q) then next else At(l.buffer, l.w, l.h, q))
      invariant forall q ::
        GetPoint(painted', q) == if !HasPoint(painted, q) && Mentions(es[..i], q) then Some(Change(segment, next)) else GetPoint(painted, q)
      invariant SizeOk(painted) ==> SizeOk(painted')
    {
      assert next in l'.segments.table by {
        assert l'.segments.table.Keys == Elements(l'.segments.keys);
      }
      var l2, p2 := Relabel(l', es[i].0, next, segment, painted');
      forall q ensures Mentions(es[..i + 1], q) <==> Mentions(es[..i], q) || q == es[i].0 {
        MentionsStep(es, i, q);
      }
      l', painted' := l2, p2;
    }
    assert es[..|es|] == es;
  }

  /**
   * The flood from `start` over the pixels of `segment`: the visited
   * container holds the flooded piece, which reaches `start` through
   * orthogonal steps, and each flooded pixel has left the boundary
   * container, which has lost at least `start`.
   */
  method Take(l: Layer, segment: int, bd: Container<()>, start: Pos)
    returns (fill: Container<()>, ghost piece: seq<Pos>, bd': Container<()>)
    requires |l.buffer| == l.w * l.h && Pending(l, segment, bd) && HasPoint(bd, start)
    ensures SizeOk(fill) && (forall q :: HasPoint(fill, q) <==> q in piece)
    ensures |piece| > 0 && Connected(piece, start, Adjacency)
    ensures forall q :: q in piece ==> InBounds(l.w, l.h, q) && At(l.buffer, l.w, l.h, q) == segment && !HasPoint(bd', q)
    ensures Pending(l, segment, bd') && Points(bd') <= Points(bd) && bd'.size < bd.size
    ensures bd'.size > 0 ==> Whole(l, segment, piece)
  {
    var test := Flooder(l, segment);
    var trace;
    fill, piece, trace, bd' := Bfs(start, test, bd, Adjacency, l.w, l.h, Anything);
    assert GetSegment(l, start) == Some(segment);
    FloodShrinks(l, segment, bd, start, trace);
    assert test(bd, start).pass;
    forall q | q in piece ensures InBounds(l.w, l.h, q) && At(l.buffer, l.w, l.h, q) == segment && !HasPoint(bd', q) {
      var k :| 0 <= k < |piece| && piece[k] == q;
      assert PassedIn(trace, piece[k]);
      FloodPassed(l, segment, bd, trace, q);
      FloodTakes(l, segment, bd, trace, q);
    }
    if bd'.size > 0 {
      FloodSweeps(l, segment, bd, start, piece, trace, bd');
    }
  }

  /** What the flood's relabelling amounts to: a recomputation of `segment` whose changed pixels are the listed ones. */
  lemma FloodRecomputed(l: Layer, painted: Painted, segment: int, es: seq<(Pos, ())>, l': Layer, painted': Painted)
    requires |l.buffer| == l.w * l.h && |l'.buffer| == |l.buffer|
    requires l'.w == l.w && l'.h == l.h && l'.active == l.active
    requires Size(l'.segments) == Size(l.segments) + 1 && segment <= Size(l.segments)
    requires forall q :: Mentions(es, q) ==> InBounds(l.w, l.h, q) && At(l.buffer, l.w, l.h, q) == segment
    requires forall q :: InBounds(l.w, l.h, q) ==>
      At(l'.buffer, l.w, l.h, q) == (if Mentions(es, q) then Size(l'.segments) else At(l.buffer, l.w, l.h, q))
    requires forall q ::
      GetPoint(painted', q) == if !HasPoint(painted, q) && Mentions(es, q) then Some(Change(segment, Size(l'.segments))) else GetPoint(painted, q)
    requires SizeOk(painted) ==> SizeOk(painted')
    ensures Recomputed(l, painted, {segment}, l', painted')
    ensures forall q :: InBounds(l.w, l.h, q) ==> (At(l'.buffer, l.w, l.h, q) != At(l.buffer, l.w, l.h, q) <==> Mentions(es, q))
  {
    forall q ensures GetPoint(painted', q) == Noted(l, painted, l', q) {
      if Mentions(es, q) {
        assert InBounds(l.w, l.h, q);
      }
    }
  }

  /**
   * The split branch of a round: a new id is allocated, and the flood
   * from `start` takes the pixels of `segment` it reaches out of the
   * boundary container. Unless the container has emptied, the flooded
   * piece, which reaches `start` through orthogonal steps, moves to the new
   * id; otherwise nothing moves.
   */
  method Split(l: Layer, segment: int, bd: Container<()>, painted: Painted, start: Pos)
    returns (l': Layer, bd': Container<()>, painted': Painted, ghost piece: seq<Pos>)
    requires Valid(l) && Pending(l, segment, bd) && HasPoint(bd, start)
    ensures Valid(l') && Pending(l', segment, bd') && Points(bd') <= Points(bd) && bd'.size < bd.size
    ensures Size(l'.segments) == Size(l.segments) + 1
    ensures Recomputed(l, painted, {segment}, l', painted')
    ensures forall q :: InBounds(l.w, l.h, q) ==>
      (At(l'.buffer, l.w, l.h, q) != At(l.buffer, l.w, l.h, q) <==> q in piece)
    ensures forall q :: q in piece ==> !HasPoint(bd', q)
    ensures bd'.size > 0 ==> |piece| > 0 && Connected(piece, start, Adjacency)
    ensures bd'.size > 0 ==> Whole(l, segment, piece)
    ensures bd'.size == 0 ==> piece == []
  {
    assert bd.size > 0 by {
      assert start in Points(bd);
    }
    KeyHeld(l, segment, bd);
    var l1 := IncrementSegments(l);
    IncrementValid(l);
    var next := Size(l1.segments);
    var fill; ghost var order;
    fill, order, bd' := Take(l1, segment, bd, start);
    if bd'.size > 0 {
      var es := Entries(fill);
      EntriesSpec(fill);
      assert forall q :: Mentions(es, q) <==> q in order;
      ContiguousKeys(l1.segments, next);
      l', painted' := Flood(l1, next, segment, es, painted);
      FloodRecomputed(l, painted, segment, es, l', painted');
      piece := order;
    } else {
      l', painted', piece := l1, painted, [];
    }
  }

  // ---- Rounds -------------------------------------------------------------------------

  /** The condition `firstPointWhere` is given: any point will do. */
  predicate AnyPoint(p: Pos, u: ())
  {
    true
  }

  /** A non-empty container's first point in iteration order is its first entry. */
  lemma FirstRecorded(bd: Container<()>)
    requires SizeOk(bd) && bd.size > 0
    ensures |Entries(bd)| > 0 && FirstWhere(bd, AnyPoint) == Some(Entries(bd)[0])
    ensures HasPoint(bd, Entries(bd)[0].0)
  {
    EntriesSpec(bd);
    EntriesCount(bd);
  }

  /** Deleting the points of a run that holds every recorded boundary point empties the container. */
  lemma RunLeaves(bd: Container<()>, visited: Container<()>, run: seq<Pos>)
    requires SizeOk(bd) && (forall q :: HasPoint(visited, q) <==> q in run) && (forall q :: HasPoint(bd, q) ==> q in run)
    ensures SizeOk(DeleteAll(bd, Entries(visited))) && Points(DeleteAll(bd, Entries(visited))) == {}
  {
    EntriesSpec(visited);
    var r := DeleteAll(bd, Entries(visited));
    forall q ensures q !in Points(r) {
      if HasPoint(bd, q) {
        assert Mentions(Entries(visited), q);
      }
    }
  }

  /**
   * One turn of the `while (boundary.size > 0)` loop for `segment`, from
   * the first recorded boundary point in iteration order. The round splits
   * exactly when the run of boundary points through that point misses one;
   * otherwise the run is all of them and leaves the container, and nothing
   * else changes. The pixels that change are the flooded piece, which no
   * longer has recorded boundary points. Each round shrinks the container.
   */
  method Round(l: Layer, segment: int, bd: Container<()>, painted: Painted)
    returns (l': Layer, bd': Container<()>, painted': Painted, split: bool, ghost run: seq<Pos>, ghost piece: seq<Pos>)
    requires Valid(l) && Pending(l, segment, bd) && bd.size > 0
    ensures Valid(l') && Pending(l', segment, bd') && bd'.size < bd.size
    ensures Recomputed(l, painted, {segment}, l', painted')
    ensures Size(l'.segments) == if split then Size(l.segments) + 1 else Size(l.segments)
    ensures |Entries(bd)| > 0 && |run| > 0 && run[0] == Entries(bd)[0].0 && Connected(run, run[0], Around8)
    ensures (forall q :: q in run ==> HasPoint(bd, q)) && Closed(OnBoundary(bd, l.w, l.h), (), run, Around8)
    ensures !split <==> forall q :: HasPoint(bd, q) ==> q in run
    ensures !split ==> l' == l && painted' == painted && bd'.size == 0
    ensures forall q :: InBounds(l.w, l.h, q) ==>
      (At(l'.buffer, l.w, l.h, q) != At(l.buffer, l.w, l.h, q) <==> q in piece)
    ensures forall q :: q in piece ==> !HasPoint(bd', q)
    ensures split && bd'.size > 0 ==> |piece| > 0 && Connected(piece, run[0], Adjacency)
    ensures split && bd'.size > 0 ==> Whole(l, segment, piece)
  {
    FirstRecorded(bd);
    var first := FirstWhere(bd, AnyPoint);
    var start := first.value.0;
    var visited;
    visited, run := Group(l, segment, bd, start);
    split := visited.size < bd.size;
    if split {
      l', bd', painted', piece := Split(l, segment, bd, painted, start);
    } else {
      EntriesSpec(visited);
      bd' := DeleteAll(bd, Entries(visited));
      RunLeaves(bd, visited, run);
      l', painted', piece := l, painted, [];
    }
  }

  /** The rounds for one effected segment, until its boundary container is empty. */
  method Settle(l: Layer, segment: int, bd: Container<()>, painted: Painted) returns (l': Layer, bd': Container<()>, painted': Painted)
    requires Valid(l) && Pending(l, segment, bd)
    ensures Valid(l') && SizeOk(bd') && bd'.size == 0
    ensures Recomputed(l, painted, {segment}, l', painted')
    ensures bd.size == 0 ==> l' == l && painted' == painted
  {
    l', bd', painted' := l, bd, painted;
    if bd.size > 0 {
      KeyHeld(l, segment, bd);
    }
    while bd'.size > 0
      invariant Valid(l') && Pending(l', segment, bd')
      invariant Recomputed(l, painted, {segment}, l', painted')
      invariant bd.size == 0 ==> l' == l && painted' == painted && bd' == bd
      invariant bd.size > 0 ==> segment <= Size(l.segments)
      decreases bd'.size
    {
      var l2, bd2, p2, split, run, piece := Round(l', segment, bd', painted');
      RecomputedThen(l, painted, {segment}, l', painted', segment, l2, p2);
      l', bd', painted' := l2, bd2, p2;
    }
  }

  /** Settling one more effected segment `k`, whose container was recorded against the layer before any of this. */
  method Visit(ghost l0: Layer, ghost p0: Painted, ghost done: set<int>, l: Layer, painted: Painted, k: int, bd: Container<()>)
    returns (l': Layer, bd': Container<()>, painted': Painted)
    requires Valid(l0) && Valid(l) && Recomputed(l0, p0, done, l, painted) && k !in done && Pending(l0, k, bd)
    ensures Valid(l') && Recomputed(l0, p0, done + {k}, l', painted')
    ensures SizeOk(bd') && bd'.size == 0
    ensures bd.size == 0 ==> l' == l && painted' == painted
  {
    StillPending(l0, p0, done, l, painted, k, bd);
    l', bd', painted' := Settle(l, k, bd, painted);
    if bd.size > 0 {
      KeyHeld(l0, k, bd);
      RecomputedThen(l0, p0, done, l, painted, k, l', painted');
    }
  }

  /** The first `i` effected segments, in insertion order, have empty containers in `cur`; the others are as recorded. */
  ghost predicate Swept(eff: Effected, cur: Effected, i: nat)
  {
    && i <= |eff.keys| && cur.keys == eff.keys
    && (forall j :: 0 <= j < i ==> eff.keys[j] in cur.table && SizeOk(cur.table[eff.keys[j]]) && cur.table[eff.keys[j]].size == 0)
    && (forall j :: i <= j < |eff.keys| ==> eff.keys[j] in cur.table && eff.keys[j] in eff.table && cur.table[eff.keys[j]] == eff.table[eff.keys[j]])
  }

  lemma SweptStep(eff: Effected, cur: Effected, i: nat, bd: Container<()>)
    requires Swept(eff, cur, i) && i < |eff.keys| && SizeOk(bd) && bd.size == 0
    ensures Swept(eff, Put(cur, eff.keys[i], bd), i + 1)
  {
    assert Distinct(eff.keys);
    assert eff.keys[i] in cur.keys;
  }

  lemma SweptAll(eff: Effected, cur: Effected)
    requires Swept(eff, cur, |eff.keys|)
    ensures forall k :: k in cur.table ==> SizeOk(cur.table[k]) && cur.table[k].size == 0
  {
    forall k | k in cur.table ensures SizeOk(cur.table[k]) && cur.table[k].size == 0 {
      assert k in Elements(cur.keys);
      var j :| 0 <= j < |cur.keys| && cur.keys[j] == k;
    }
  }

  /** One turn of the loop over the effected segments: the `i`-th one is settled and its container emptied. */
  method SweepNext(ghost l0: Layer, eff: Effected, ghost p0: Painted, i: nat, l: Layer, cur: Effected, painted: Painted)
    returns (l': Layer, cur': Effected, painted': Painted)
    requires Valid(l0) && Ready(l0, eff) && i < |eff.keys|
    requires Valid(l) && Recomputed(l0, p0, Elements(eff.keys[..i]), l, painted) && Swept(eff, cur, i)
    requires (forall j :: 0 <= j < i ==> eff.table[eff.keys[j]].size == 0) ==> l == l0 && painted == p0
    ensures Valid(l') && Recomputed(l0, p0, Elements(eff.keys[..i + 1]), l', painted') && Swept(eff, cur', i + 1)
    ensures (forall j :: 0 <= j < i + 1 ==> eff.table[eff.keys[j]].size == 0) ==> l' == l0 && painted' == p0
  {
    var k := eff.keys[i];
    var bd := cur.table[k];
    assert bd == eff.table[k];
    assert k !in Elements(eff.keys[..i]) by {
      assert Distinct(eff.keys);
    }
    var bd';
    l', bd', painted' := Visit(l0, p0, Elements(eff.keys[..i]), l, painted, k, bd);
    assert Elements(eff.keys[..i + 1]) == Elements(eff.keys[..i]) + {k};
    SweptStep(eff, cur, i, bd');
    cur' := Put(cur, k, bd');
  }

  /**
   * `recomputeSegments`: every effected segment, in insertion order, is
   * settled. Afterwards every boundary container is empty, the layer's
   * invariant holds, pixels have moved only from effected segments to new
   * ids, and each moved pixel is in the painted points. With nothing
   * recorded nothing changes.
   */
  method RecomputeSegments(l: Layer, eff: Effected, painted: Painted) returns (l': Layer, eff': Effected, painted': Painted)
    requires Valid(l) && Ready(l, eff)
    ensures Valid(l') && Recomputed(l, painted, eff.table.Keys, l', painted')
    ensures eff'.keys == eff.keys
    ensures forall k :: k in eff'.table ==> SizeOk(eff'.table[k]) && eff'.table[k].size == 0
    ensures (forall k :: k in eff.table ==> eff.table[k].size == 0) ==> l' == l && painted' == painted
  {
    l', eff', painted' := l, eff, painted;
    for i := 0 to |eff.keys|
      invariant Valid(l') && Recomputed(l, painted, Elements(eff.keys[..i]), l', painted')
      invariant Swept(eff, eff', i)
      invariant (forall j :: 0 <= j < i ==> eff.table[eff.keys[j]].size == 0) ==> l' == l && painted' == painted
    {
      l', eff', painted' := SweepNext(l, eff, painted, i, l', eff', painted');
    }
    assert eff.keys[..|eff.keys|] == eff.keys;
    SweptAll(eff, eff');
    if forall k :: k in eff.table ==> eff.table[k].size == 0 {
      forall j | 0 <= j < |eff.keys| ensures eff.table[eff.keys[j]].size == 0 {
        assert eff.keys[j] in eff.table;
      }
    }
  }
}

=== FILE: linkedlists.dfy ===
/**
 * The singly linked FIFO list with a sentinel head. Nodes live in an arena:
 * a node reference is its index, and a push allocates the next index. The
 * list record holds the sentinel's `next`, the tail reference and the
 * cached length.
 */
module FifoList {
  import opened Wrappers
  import JsCollections

  /** Either the sentinel head or an allocated node. */
  datatype Ref = HeadRef | NodeRef(id: nat)

  datatype Node<T> = Node(value: T, next: Option<nat>)

  datatype List<T> = List(headNext: Option<nat>, tail: Ref, length: int, heap: seq<Node<T>>)

  function EmptyList<T>(): List<T>
  {
    List(None, HeadRef, 0, [])
  }

  /** `list.tail` points at the sentinel or at an allocated node. */
  predicate TailAllocated<T>(l: List<T>)
  {
    l.tail.NodeRef? ==> l.tail.id < |l.heap|
  }

  /**
   * `chain` is the sequence of nodes reachable from the sentinel: each
   * node's `next` is the following one, the last has none, `tail` is the
   * last (or the sentinel when empty) and `length` counts them.
   */
  ghost predicate Chain<T>(l: List<T>, chain: seq<nat>)
  {
    && JsCollections.Distinct(chain)
    && (forall i :: 0 <= i < |chain| ==> chain[i] < |l.heap|)
    && l.headNext == (if |chain| == 0 then None else Some(chain[0]))
    && (forall i :: 0 <= i < |chain| - 1 ==> l.heap[chain[i]].next == Some(chain[i + 1]))
    && (|chain| > 0 ==> l.heap[chain[|chain| - 1]].next == None)
    && l.tail == (if |chain| == 0 then HeadRef else NodeRef(chain[|chain| - 1]))
    && l.length == |chain|
  }

  /** The values along a chain, front first. */
  function Values<T>(l: List<T>, chain: seq<nat>): seq<T>
    requires forall i :: 0 <= i < |chain| ==> chain[i] < |l.heap|
  {
    seq(|chain|, i requires 0 <= i < |chain| => l.heap[chain[i]].value)
  }

  /** Point the sentinel's or a node's `next` at `target`. */
  function SetNext<T>(l: List<T>, r: Ref, target: Option<nat>): (res: List<T>)
    requires r.NodeRef? ==> r.id < |l.heap|
    ensures |res.heap| == |l.heap|
  {
    match r
    case HeadRef => l.(headNext := target)
    case NodeRef(id) => l.(heap := l.heap[id := l.heap[id].(next := target)])
  }

  /** `push`: a fresh node after the tail, which becomes the tail; length grows by one. */
  function Push<T>(l: List<T>, value: T): (r: List<T>)
    requires TailAllocated(l)
    ensures r.length == l.length + 1
    ensures r.tail == NodeRef(|l.heap|) && TailAllocated(r)
    ensures |r.heap| == |l.heap| + 1 && r.heap[|l.heap|] == Node(value, None)
  {
    var id := |l.heap|;
    var l1 := l.(heap := l.heap + [Node(value, None)]);
    var l2 := SetNext(l1, l.tail, Some(id));
    l2.(length := l.length + 1, tail := NodeRef(id))
  }

  /** What `pop` demands: a non-zero length means the sentinel has a successor. */
  predicate PopReady<T>(l: List<T>)
  {
    l.length != 0 ==> l.headNext.Some? && l.headNext.value < |l.heap|
  }

  /**
   * `pop`: `null` and no change on an empty list; otherwise the first
   * node is unlinked and its value returned, and the tail falls back to the
   * sentinel when that node was the tail.
   */
  function Pop<T>(l: List<T>): (r: (List<T>, Option<T>))
    requires PopReady(l)
    ensures l.length == 0 ==> r == (l, None)
    ensures l.length != 0 ==> r.1 == Some(l.heap[l.headNext.value].value) && r.0.length == l.length - 1
    ensures r.0.heap == l.heap
  {
    if l.length == 0 then (l, None)
    else
      var id := l.headNext.value;
      var node := l.heap[id];
      var l1 := l.(length := l.length - 1, headNext := node.next);
      var l2 := if l.tail == NodeRef(id) then l1.(tail := HeadRef) else l1;
      (l2, Some(node.value))
  }

  /** The fresh list is the empty chain. */
  lemma EmptyListChain<T>()
    ensures Chain(EmptyList<T>(), [])
  {
  }

  /** Following the links determines the chain: a list has at most one. */
  lemma {:induction false} ChainUnique<T>(l: List<T>, c1: seq<nat>, c2: seq<nat>)
    requires Chain(l, c1) && Chain(l, c2)
    ensures c1 == c2
  {
    assert |c1| == |c2|;
    var k := 0;
    while k < |c1|
      invariant 0 <= k <= |c1|
      invariant c1[..k] == c2[..k]
    {
      if k > 0 {
        assert l.heap[c1[k - 1]].next == Some(c1[k]);
        assert l.heap[c2[k - 1]].next == Some(c2[k]);
        assert c1[k - 1] == c2[k - 1];
      }
      assert c1[..k + 1] == c1[..k] + [c1[k]];
      assert c2[..k + 1] == c2[..k] + [c2[k]];
      k := k + 1;
    }
    assert c1 == c1[..k] && c2 == c2[..k];
  }

  /** A push extends the chain by the fresh node and appends its value. */
  lemma PushAppends<T>(l: List<T>, chain: seq<nat>, value: T)
    requires Chain(l, chain)
    ensures TailAllocated(l)
    ensures Chain(Push(l, value), chain + [|l.heap|])
    ensures Values(Push(l, value), chain + [|l.heap|]) == Values(l, chain) + [value]
  {
    var r := Push(l, value);
    var c := chain + [|l.heap|];
    forall i | 0 <= i < |chain|
      ensures r.heap[chain[i]].value == l.heap[chain[i]].value
    {
    }
    forall i | 0 <= i < |chain| - 1
      ensures r.heap[chain[i]].next == Some(chain[i + 1])
    {
      assert chain[i] != chain[|chain| - 1];
    }
    assert forall i :: 0 <= i < |chain| ==> chain[i] != |l.heap|;
  }

  /** A pop on a non-empty list removes the front node and yields the front value. */
  lemma PopRemovesFront<T>(l: List<T>, chain: seq<nat>)
    requires Chain(l, chain) && |chain| > 0
    ensures PopReady(l)
    ensures Pop(l).1 == Some(Values(l, chain)[0])
    ensures Chain(Pop(l).0, chain[1..])
    ensures Values(Pop(l).0, chain[1..]) == Values(l, chain)[1..]
  {
    if |chain| > 1 {
      assert chain[0] != chain[|chain| - 1];
    }
  }

  /** A pop on an empty list returns `null` and changes nothing. */
  lemma PopEmpty<T>(l: List<T>, chain: seq<nat>)
    requires Chain(l, chain) && |chain| == 0
    ensures PopReady(l) && Pop(l) == (l, None)
  {
  }
}

/**
 * The doubly linked short log with a sentinel head. The nodes are made by
 * the caller and handed to `push`, so they live in a shared arena `heap`;
 * a node's `prev` is whatever the caller set, since `push` leaves it alone.
 */
module DoublyLinkedList {
  import opened Wrappers
  import JsCollections

  datatype Ref = HeadRef | NodeRef(id: nat)

  datatype Node<T> = Node(value: T, next: Option<nat>, prev: Ref)

  datatype List = List(headNext: Option<nat>, tail: Ref, length: int)

  /** The list together with the arena of nodes it links. */
  datatype State<T> = State(list: List, heap: seq<Node<T>>)

  predicate RefOk<T>(heap: seq<Node<T>>, r: Ref)
  {
    r.NodeRef? ==> r.id < |heap|
  }

  ghost predicate Chain<T>(s: State<T>, chain: seq<nat>)
  {
    && JsCollections.Distinct(chain)
    && (forall i :: 0 <= i < |chain| ==> chain[i] < |s.heap|)
    && s.list.headNext == (if |chain| == 0 then None else Some(chain[0]))
    && (forall i :: 0 <= i < |chain| - 1 ==> s.heap[chain[i]].next == Some(chain[i + 1]))
    && (|chain| > 0 ==> s.heap[chain[|chain| - 1]].next == None)
    && (|chain| > 0 ==> s.heap[chain[0]].prev == HeadRef)
    && (forall i :: 0 < i < |chain| ==> s.heap[chain[i]].prev == NodeRef(chain[i - 1]))
    && s.list.tail == (if |chain| == 0 then HeadRef else NodeRef(chain[|chain| - 1]))
    && s.list.length == |chain|
  }

  function Values<T>(s: State<T>, chain: seq<nat>): seq<T>
    requires forall i :: 0 <= i < |chain| ==> chain[i] < |s.heap|
  {
    seq(|chain|, i requires 0 <= i < |chain| => s.heap[chain[i]].value)
  }

  function SetNext<T>(s: State<T>, r: Ref, target: Option<nat>): (res: State<T>)
    requires RefOk(s.heap, r)
    ensures |res.heap| == |s.heap| && res.list.length == s.list.length && res.list.tail == s.list.tail
    ensures forall i :: 0 <= i < |s.heap| ==> res.heap[i].prev == s.heap[i].prev && res.heap[i].value == s.heap[i].value
  {
    match r
    case HeadRef => s.(list := s.list.(headNext := target))
    case NodeRef(id) => s.(heap := s.heap[id := s.heap[id].(next := target)])
  }

  /**
   * `push`: the old tail's `next` becomes `node` and `node` becomes the
   * tail; the length grows by one and `node.prev` is not touched.
   */
  function Push<T>(s: State<T>, node: nat): (r: State<T>)
    requires node < |s.heap| && RefOk(s.heap, s.list.tail)
    ensures r.list.length == s.list.length + 1 && r.list.tail == NodeRef(node)
    ensures |r.heap| == |s.heap| && r.heap[node].prev == s.heap[node].prev
  {
    var s1 := SetNext(s, s.list.tail, Some(node));
    s1.(list := s1.list.(length := s.list.length + 1, tail := NodeRef(node)))
  }

  /**
   * `remove`: the node's predecessor skips it; its successor, if any,
   * points back to that predecessor, otherwise the tail moves back to it.
   * The length drops by one and the node's value is returned.
   */
  function Remove<T>(s: State<T>, node: nat): (r: (State<T>, T))
    requires node < |s.heap| && RefOk(s.heap, s.heap[node].prev)
    requires s.heap[node].next.Some? ==> s.heap[node].next.value < |s.heap|
    ensures r.1 == s.heap[node].value && r.0.list.length == s.list.length - 1
    ensures s.heap[node].next.None? ==> r.0.list.tail == s.heap[node].prev
  {
    var n := s.heap[node];
    var s1 := SetNext(s, n.prev, n.next);
    var s2 := s1.(list := s1.list.(length := s.list.length - 1));
    var s3 := match n.next
      case Some(succ) => s2.(heap := s2.heap[succ := s2.heap[succ].(prev := n.prev)])
      case None => s2.(list := s2.list.(tail := n.prev));
    (s3, n.value)
  }

  /**
   * Pushing a node that the caller has prepared as the new last element
   * (`prev` at the old tail, no `next`, not yet in the list) extends the
   * chain by it.
   */
  lemma PushLinked<T>(s: State<T>, chain: seq<nat>, node: nat)
    requires Chain(s, chain) && node < |s.heap| && node !in chain
    requires s.heap[node].next == None && s.heap[node].prev == s.list.tail
    ensures RefOk(s.heap, s.list.tail)
    ensures Chain(Push(s, node), chain + [node])
    ensures Values(Push(s, node), chain + [node]) == Values(s, chain) + [s.heap[node].value]
  {
    var r := Push(s, node);
    forall i | 0 <= i < |chain| - 1
      ensures r.heap[chain[i]].next == Some(chain[i + 1])
    {
      assert chain[i] != chain[|chain| - 1];
    }
  }

  /**
   * `push` alone does not make a valid list when the node's `prev` was not
   * set by the caller: pushing a node whose `prev` is the sentinel onto a
   * one-element list breaks the back links.
   */
  lemma PushWithoutPrevBreaksChain<T>(a: T, b: T)
    ensures var s := State(List(Some(0), NodeRef(0), 1), [Node(a, None, HeadRef), Node(b, None, HeadRef)]);
      Chain(s, [0]) && !Chain(Push(s, 1), [0, 1])
  {
  }

  /** Pointwise effect of `remove` on the arena and the list record. */
  lemma RemoveEffect<T>(s: State<T>, node: nat)
    requires node < |s.heap| && RefOk(s.heap, s.heap[node].prev)
    requires s.heap[node].next.Some? ==> s.heap[node].next.value < |s.heap|
    ensures var r := Remove(s, node).0; var n := s.heap[node];
      && |r.heap| == |s.heap|
      && r.list.headNext == (if n.prev == HeadRef then n.next else s.list.headNext)
      && r.list.tail == (if n.next.None? then n.prev else s.list.tail)
      && r.list.length == s.list.length - 1
      && (forall i :: 0 <= i < |s.heap| ==> r.heap[i].value == s.heap[i].value)
      && (forall i :: 0 <= i < |s.heap| ==> r.heap[i].next == if n.prev == NodeRef(i) then n.next else s.heap[i].next)
      && (forall i :: 0 <= i < |s.heap| ==> r.heap[i].prev == if n.next == Some(i) then n.prev else s.heap[i].prev)
  {
  }

  /** Removing a linked node leaves the other nodes linked in their original order. */
  lemma RemoveUnlinks<T>(s: State<T>, chain: seq<nat>, k: nat)
    requires Chain(s, chain) && k < |chain|
    ensures RefOk(s.heap, s.heap[chain[k]].prev)
    ensures s.heap[chain[k]].next.Some? ==> s.heap[chain[k]].next.value < |s.heap|
    ensures Chain(Remove(s, chain[k]).0, chain[..k] + chain[k + 1..])
    ensures Values(Remove(s, chain[k]).0, chain[..k] + chain[k + 1..]) == Values(s, chain)[..k] + Values(s, chain)[k + 1..]
    ensures Remove(s, chain[k]).1 == Values(s, chain)[k]
  {
    var node := chain[k];
    var n := s.heap[node];
    assert n.prev == if k == 0 then HeadRef else NodeRef(chain[k - 1]);
    assert n.next == if k == |chain| - 1 then None else Some(chain[k + 1]);
    RemoveEffect(s, node);
    var r := Remove(s, node).0;
    var c := chain[..k] + chain[k + 1..];
    assert Skips(c, chain, k);
    RemoveChain(s, chain, k, r, c);
  }

  lemma RemoveChain<T>(s: State<T>, chain: seq<nat>, k: nat, r: State<T>, c: seq<nat>)
    requires Chain(s, chain) && Skips(c, chain, k)
    requires var n := s.heap[chain[k]];
      && n.prev == (if k == 0 then HeadRef else NodeRef(chain[k - 1]))
      && n.next == (if k == |chain| - 1 then None else Some(chain[k + 1]))
      && |r.heap| == |s.heap|
      && r.list.headNext == (if n.prev == HeadRef then n.next else s.list.headNext)
      && r.list.tail == (if n.next.None? then n.prev else s.list.tail)
      && r.list.length == s.list.length - 1
      && (forall i :: 0 <= i < |s.heap| ==> r.heap[i].value == s.heap[i].value)
      && (forall i :: 0 <= i < |s.heap| ==> r.heap[i].next == if n.prev == NodeRef(i) then n.next else s.heap[i].next)
      && (forall i :: 0 <= i < |s.heap| ==> r.heap[i].prev == if n.next == Some(i) then n.prev else s.heap[i].prev)
    ensures Chain(r, c)
    ensures Values(r, c) == Values(s, chain)[..k] + Values(s, chain)[k + 1..]
  {
    RemoveKeepsLinks(s, chain, k, r, c);
    assert JsCollections.Distinct(c) by {
      forall i, j | 0 <= i < j < |c|
        ensures c[i] != c[j]
      {
        assert c[i] == chain[Skip(i, k)] && c[j] == chain[Skip(j, k)];
      }
    }
    if |c| > 0 {
      assert c[0] == chain[Skip(0, k)];
      assert c[|c| - 1] == chain[Skip(|c| - 1, k)];
    }
    assert r.list.headNext == (if |c| == 0 then None else Some(c[0]));
    assert r.list.tail == (if |c| == 0 then HeadRef else NodeRef(c[|c| - 1]));
    var vs := Values(s, chain);
    assert |Values(r, c)| == |vs[..k] + vs[k + 1..]|;
    forall i | 0 <= i < |c|
      ensures Values(r, c)[i] == (vs[..k] + vs[k + 1..])[i]
    {
      assert c[i] == chain[Skip(i, k)];
    }
  }

  function Skip(i: nat, k: nat): nat
  {
    if i < k then i else i + 1
  }

  /** `c` is `chain` with position `k` left out. */
  predicate Skips(c: seq<nat>, chain: seq<nat>, k: nat)
  {
    && k < |chain| && |c| == |chain| - 1
    && forall i :: 0 <= i < |c| ==> Skip(i, k) < |chain| && c[i] == chain[Skip(i, k)]
  }

  lemma RemoveKeepsLinks<T>(s: State<T>, chain: seq<nat>, k: nat, r: State<T>, c: seq<nat>)
    requires Chain(s, chain) && k < |chain|
    requires var n := s.heap[chain[k]];
      && n.prev == (if k == 0 then HeadRef else NodeRef(chain[k - 1]))
      && n.next == (if k == |chain| - 1 then None else Some(chain[k + 1]))
      && |r.heap| == |s.heap|
      && (forall i :: 0 <= i < |s.heap| ==> r.heap[i].next == if n.prev == NodeRef(i) then n.next else s.heap[i].next)
      && (forall i :: 0 <= i < |s.heap| ==> r.heap[i].prev == if n.next == Some(i) then n.prev else s.heap[i].prev)
    requires Skips(c, chain, k)
    ensures forall i :: 0 <= i < |c| - 1 ==> r.heap[c[i]].next == Some(c[i + 1])
    ensures |c| > 0 ==> r.heap[c[|c| - 1]].next == None
    ensures |c| > 0 ==> r.heap[c[0]].prev == HeadRef
    ensures forall i :: 0 < i < |c| ==> r.heap[c[i]].prev == NodeRef(c[i - 1])
  {
    forall i | 0 <= i < |c| - 1
      ensures r.heap[c[i]].next == Some(c[i + 1])
    {
      var i' := Skip(i, k);
      assert c[i] == chain[i'];
      if i + 1 == k {
        assert c[i + 1] == chain[k + 1];
      } else if k > 0 {
        assert i' != k - 1;
      }
    }
    forall i | 0 < i < |c|
      ensures r.heap[c[i]].prev == NodeRef(c[i - 1])
    {
      var i' := Skip(i, k);
      assert c[i] == chain[i'];
      if i == k {
        assert c[i - 1] == chain[k - 1];
      } else if k + 1 < |chain| {
        assert i' != k + 1;
      }
    }
    if |c| > 0 {
      var l' := Skip(|c| - 1, k);
      assert c[|c| - 1] == chain[l'];
      assert c[0] == chain[Skip(0, k)];
      if k + 1 < |chain| && k > 0 {
        assert 0 != k + 1;
      }
      if k > 0 && k < |chain| - 1 {
        assert l' != k - 1;
      }
    }
  }
}

=== FILE: pointcontainer.dfy ===
/**
 * The 2-D point container: a JavaScript map from x to a map from y to the
 * point's data, and a separately maintained size counter. The class in
 * painter/point-container.ts and the record-plus-functions version in
 * old_painter/point-container.ts have the same layout and bodies, so one
 * model serves both.
 */
module PointContainer {
  import opened Wrappers
  import opened Grid
  import opened JsCollections

  datatype Container<D> = Container(points: JsMap<int, JsMap<int, D>>, size: int)

  function Empty<D>(): Container<D>
  {
    Container(EmptyMap(), 0)
  }

  /** `getPoint`: the stored data, `undefined` when absent. */
  function GetPoint<D>(c: Container<D>, p: Pos): Option<D>
  {
    if p.x !in c.points.table then None else Get(c.points.table[p.x], p.y)
  }

  /** `hasPoint`. */
  function HasPoint<D>(c: Container<D>, p: Pos): (r: bool)
    ensures r <==> GetPoint(c, p).Some?
  {
    p.x in c.points.table && p.y in c.points.table[p.x].table
  }

  /** The positions stored in the nested maps. */
  ghost function Points<D>(c: Container<D>): (r: set<Pos>)
    ensures forall p :: p in r <==> GetPoint(c, p).Some?
  {
    set x, y | x in c.points.table && y in c.points.table[x].table :: Pos(x, y)
  }

  /** The counter agrees with the number of stored positions. */
  ghost predicate SizeOk<D>(c: Container<D>)
  {
    c.size == |Points(c)|
  }

  lemma EmptySizeOk<D>()
    ensures SizeOk(Empty<D>()) && Points(Empty<D>()) == {}
  {
    assert forall p :: GetPoint(Empty<D>(), p).None?;
  }

  /**
   * `setPoint`: creates the row if needed, counts the point when it is new
   * and stores the data; every other position keeps its data.
   */
  function SetPoint<D>(c: Container<D>, p: Pos, d: D): (r: Container<D>)
    ensures forall q :: GetPoint(r, q) == if q == p then Some(d) else GetPoint(c, q)
    ensures r.size == if HasPoint(c, p) then c.size else c.size + 1
  {
    var row := if p.x in c.points.table then c.points.table[p.x] else EmptyMap();
    Container(Put(c.points, p.x, Put(row, p.y, d)), if p.y in row.table then c.size else c.size + 1)
  }

  /** `deletePoint`: drops a stored point and uncounts it; a no-op otherwise. */
  function DeletePoint<D>(c: Container<D>, p: Pos): (r: Container<D>)
    ensures forall q :: GetPoint(r, q) == if q == p then None else GetPoint(c, q)
    ensures r.size == if HasPoint(c, p) then c.size - 1 else c.size
    ensures !HasPoint(c, p) ==> r == c
  {
    if p.x !in c.points.table then c
    else
      var row := c.points.table[p.x];
      if p.y !in row.table then c
      else Container(Put(c.points, p.x, Delete(row, p.y)), c.size - 1)
  }

  /** Setting a point adds exactly that position, and the counter stays exact. */
  lemma SetPointSize<D>(c: Container<D>, p: Pos, d: D)
    ensures Points(SetPoint(c, p, d)) == Points(c) + {p}
    ensures SizeOk(c) ==> SizeOk(SetPoint(c, p, d))
  {
    var r := SetPoint(c, p, d);
    forall q ensures q in Points(r) <==> q in Points(c) + {p} {
      assert GetPoint(r, q) == if q == p then Some(d) else GetPoint(c, q);
    }
    assert Points(r) == Points(c) + {p};
  }

  /** Deleting a point removes exactly that position, and the counter stays exact. */
  lemma DeletePointSize<D>(c: Container<D>, p: Pos)
    ensures Points(DeletePoint(c, p)) == Points(c) - {p}
    ensures SizeOk(c) ==> SizeOk(DeletePoint(c, p))
  {
    var r := DeletePoint(c, p);
    forall q ensures q in Points(r) <==> q in Points(c) - {p} {
      assert GetPoint(r, q) == if q == p then None else GetPoint(c, q);
    }
    assert Points(r) == Points(c) - {p};
  }

  // ---- Iteration order ------------------------------------------------

  /** One row's entries in the row's key order. */
  function RowEntries<D>(x: int, row: JsMap<int, D>, ys: seq<int>): (r: seq<(Pos, D)>)
    requires forall i :: 0 <= i < |ys| ==> ys[i] in row.table
    ensures |r| == |ys|
    ensures forall i :: 0 <= i < |ys| ==> r[i] == (Pos(x, ys[i]), row.table[ys[i]])
  {
    if |ys| == 0 then [] else [(Pos(x, ys[0]), row.table[ys[0]])] + RowEntries(x, row, ys[1..])
  }

  function EntriesFrom<D>(points: JsMap<int, JsMap<int, D>>, xs: seq<int>): seq<(Pos, D)>
    requires forall i :: 0 <= i < |xs| ==> xs[i] in points.table
  {
    if |xs| == 0 then []
    else
      var row := points.table[xs[0]];
      RowEntries(xs[0], row, row.keys) + EntriesFrom(points, xs[1..])
  }

  /** Every `(x, y, data)` in `forEach` order: rows by x insertion order, then y. */
  function Entries<D>(c: Container<D>): seq<(Pos, D)>
  {
    EntriesFrom(c.points, c.points.keys)
  }

  predicate DistinctPositions<D>(es: seq<(Pos, D)>)
  {
    forall i, j :: 0 <= i < j < |es| ==> es[i].0 != es[j].0
  }

  predicate Mentions<D>(es: seq<(Pos, D)>, q: Pos)
  {
    exists i :: 0 <= i < |es| && es[i].0 == q
  }

  /** `e` is a point of one of the rows `xs`, with its stored data. */
  ghost predicate StoredIn<D>(points: JsMap<int, JsMap<int, D>>, xs: seq<int>, e: (Pos, D))
  {
    && e.0.x in xs && e.0.x in points.table
    && e.0.y in points.table[e.0.x].table && e.1 == points.table[e.0.x].table[e.0.y]
  }

  /** The entries of the rows in `xs`: distinct, each a stored point with its data, and all of them. */
  ghost predicate EntriesOfRows<D>(points: JsMap<int, JsMap<int, D>>, xs: seq<int>, es: seq<(Pos, D)>)
  {
    && DistinctPositions(es)
    && (forall i :: 0 <= i < |es| ==> StoredIn(points, xs, es[i]))
    && (forall x, y :: x in xs && x in points.table && y in points.table[x].table ==> Mentions(es, Pos(x, y)))
  }

  lemma RowEntriesSpec<D>(points: JsMap<int, JsMap<int, D>>, x: int)
    requires x in points.table
    ensures EntriesOfRows(points, [x], RowEntries(x, points.table[x], points.table[x].keys))
  {
    var row := points.table[x];
    var es := RowEntries(x, row, row.keys);
    forall y | y in row.table ensures Mentions(es, Pos(x, y)) {
      var k :| 0 <= k < |row.keys| && row.keys[k] == y;
      assert es[k].0 == Pos(x, y);
    }
  }

  lemma ConcatRows<D>(points: JsMap<int, JsMap<int, D>>, x: int, xs: seq<int>, head: seq<(Pos, D)>, tail: seq<(Pos, D)>)
    requires x !in xs
    requires EntriesOfRows(points, [x], head) && EntriesOfRows(points, xs, tail)
    ensures EntriesOfRows(points, [x] + xs, head + tail)
  {
    var es := head + tail;
    assert forall i :: |head| <= i < |es| ==> es[i] == tail[i - |head|];
    assert forall i :: 0 <= i < |head| ==> es[i] == head[i];
    forall i | 0 <= i < |es| ensures StoredIn(points, [x] + xs, es[i]) {
      if i < |head| { assert StoredIn(points, [x], head[i]); } else { assert StoredIn(points, xs, tail[i - |head|]); }
    }
    forall i, j | 0 <= i < j < |es| ensures es[i].0 != es[j].0 {
      if j < |head| {
      } else if i < |head| {
        assert StoredIn(points, [x], head[i]) && StoredIn(points, xs, tail[j - |head|]);
      }
    }
    forall x', y | x' in [x] + xs && x' in points.table && y in points.table[x'].table
      ensures Mentions(es, Pos(x', y))
    {
      if x' == x {
        assert Mentions(head, Pos(x', y));
        var i :| 0 <= i < |head| && head[i].0 == Pos(x', y);
        assert es[i] == head[i];
      } else {
        assert x' in xs;
        assert Mentions(tail, Pos(x', y));
        var i :| 0 <= i < |tail| && tail[i].0 == Pos(x', y);
        assert es[i + |head|] == tail[i];
      }
    }
  }

  lemma {:induction false} EntriesFromSpec<D>(points: JsMap<int, JsMap<int, D>>, xs: seq<int>)
    requires forall i :: 0 <= i < |xs| ==> xs[i] in points.table
    requires Distinct(xs)
    ensures EntriesOfRows(points, xs, EntriesFrom(points, xs))
    decreases |xs|
  {
    if |xs| == 0 {
    } else {
      EntriesFromSpec(points, xs[1..]);
      RowEntriesSpec(points, xs[0]);
      assert xs[0] !in xs[1..];
      ConcatRows(points, xs[0], xs[1..], RowEntries(xs[0], points.table[xs[0]], points.table[xs[0]].keys), EntriesFrom(points, xs[1..]));
      assert [xs[0]] + xs[1..] == xs;
    }
  }

  /** `forEach` visits each stored point exactly once, with its data. */
  lemma EntriesSpec<D>(c: Container<D>)
    ensures DistinctPositions(Entries(c))
    ensures forall i :: 0 <= i < |Entries(c)| ==> GetPoint(c, Entries(c)[i].0) == Some(Entries(c)[i].1)
    ensures forall p :: GetPoint(c, p).Some? ==> Mentions(Entries(c), p)
  {
    EntriesFromSpec(c.points, c.points.keys);
    forall i | 0 <= i < |Entries(c)| ensures GetPoint(c, Entries(c)[i].0) == Some(Entries(c)[i].1) {
      assert StoredIn(c.points, c.points.keys, Entries(c)[i]);
    }
    forall p | GetPoint(c, p).Some? ensures Mentions(Entries(c), p) {
      assert p.x in c.points.keys;
    }
  }

  /** There are as many entries as stored positions. */
  lemma EntriesCount<D>(c: Container<D>)
    ensures |Entries(c)| == |Points(c)|
  {
    EntriesSpec(c);
    var es := Entries(c);
    var positions := seq(|es|, i requires 0 <= i < |es| => es[i].0);
    assert Distinct(positions);
    DistinctCardinality(positions);
    assert Elements(positions) == Points(c) by {
      forall p | p in Points(c) ensures p in Elements(positions) {
        var i :| 0 <= i < |es| && es[i].0 == p;
        assert positions[i] == p;
      }
    }
  }

  // ---- map / filter / firstWhere -------------------------------------

  /** Store each entry in turn, as the `forEach` bodies of `map` and `filter` do. */
  function SetAll<D>(acc: Container<D>, es: seq<(Pos, D)>): Container<D>
    decreases |es|
  {
    if |es| == 0 then acc else SetAll(SetPoint(acc, es[0].0, es[0].1), es[1..])
  }

  lemma {:induction false} SetAllSpec<D>(acc: Container<D>, es: seq<(Pos, D)>)
    requires DistinctPositions(es)
    ensures forall i :: 0 <= i < |es| ==> GetPoint(SetAll(acc, es), es[i].0) == Some(es[i].1)
    ensures forall q :: !Mentions(es, q) ==> GetPoint(SetAll(acc, es), q) == GetPoint(acc, q)
    decreases |es|
  {
    if |es| > 0 {
      var acc' := SetPoint(acc, es[0].0, es[0].1);
      var rest := es[1..];
      var r := SetAll(acc', rest);
      assert r == SetAll(acc, es);
      SetAllSpec(acc', rest);
      assert forall i :: 0 < i < |es| ==> es[i] == rest[i - 1];
      forall i | 0 <= i < |rest| ensures rest[i].0 != es[0].0 {
        assert rest[i] == es[i + 1];
      }
      forall i | 0 <= i < |es| ensures GetPoint(r, es[i].0) == Some(es[i].1) {
        if i == 0 {
          assert GetPoint(acc', es[0].0) == Some(es[0].1);
        } else {
          assert es[i] == rest[i - 1];
        }
      }
      forall q | !Mentions(es, q) ensures GetPoint(r, q) == GetPoint(acc, q) {
        assert q != es[0].0;
        forall i | 0 <= i < |rest| ensures rest[i].0 != q {
          assert rest[i] == es[i + 1];
        }
        assert GetPoint(r, q) == GetPoint(acc', q);
      }
    }
  }

  lemma {:induction false} SetAllSizeOk<D>(acc: Container<D>, es: seq<(Pos, D)>)
    requires SizeOk(acc)
    ensures SizeOk(SetAll(acc, es))
    decreases |es|
  {
    if |es| > 0 {
      SetPointSize(acc, es[0].0, es[0].1);
      SetAllSizeOk(SetPoint(acc, es[0].0, es[0].1), es[1..]);
    }
  }

  function Apply<D, T>(f: (Pos, D) -> T, es: seq<(Pos, D)>): (r: seq<(Pos, T)>)
    ensures |r| == |es|
    ensures forall i :: 0 <= i < |es| ==> r[i] == (es[i].0, f(es[i].0, es[i].1))
  {
    seq(|es|, i requires 0 <= i < |es| => (es[i].0, f(es[i].0, es[i].1)))
  }

  function Keep<D>(f: (Pos, D) -> bool, es: seq<(Pos, D)>): (r: seq<(Pos, D)>)
    ensures forall i :: 0 <= i < |r| ==> f(r[i].0, r[i].1) && r[i] in es
    ensures forall j :: 0 <= j < |es| && f(es[j].0, es[j].1) ==> es[j] in r
    ensures DistinctPositions(es) ==> DistinctPositions(r)
    decreases |es|
  {
    if |es| == 0 then []
    else
      var rest := Keep(f, es[1..]);
      KeepSound(f, es, rest);
      KeepComplete(f, es, rest);
      KeepDistinct(f, es, rest);
      KeepHead(f, es[0], rest)
  }

  /** Keep's step: `es[0]` in front of the kept rest when `f` holds for it. */
  function KeepHead<D>(f: (Pos, D) -> bool, e: (Pos, D), rest: seq<(Pos, D)>): seq<(Pos, D)>
  {
    if f(e.0, e.1) then [e] + rest else rest
  }

  lemma KeepSound<D>(f: (Pos, D) -> bool, es: seq<(Pos, D)>, rest: seq<(Pos, D)>)
    requires |es| > 0
    requires forall i :: 0 <= i < |rest| ==> f(rest[i].0, rest[i].1) && rest[i] in es[1..]
    ensures forall i :: 0 <= i < |KeepHead(f, es[0], rest)| ==>
      f(KeepHead(f, es[0], rest)[i].0, KeepHead(f, es[0], rest)[i].1) && KeepHead(f, es[0], rest)[i] in es
  {
    var r := KeepHead(f, es[0], rest);
    assert forall x :: x in es[1..] ==> x in es;
    if f(es[0].0, es[0].1) {
      assert forall i :: 0 < i < |r| ==> r[i] == rest[i - 1];
    }
  }

  lemma KeepComplete<D>(f: (Pos, D) -> bool, es: seq<(Pos, D)>, rest: seq<(Pos, D)>)
    requires |es| > 0
    requires forall j :: 0 <= j < |es[1..]| && f(es[1..][j].0, es[1..][j].1) ==> es[1..][j] in rest
    ensures forall j :: 0 <= j < |es| && f(es[j].0, es[j].1) ==> es[j] in KeepHead(f, es[0], rest)
  {
    assert forall i :: 0 < i < |es| ==> es[i] == es[1..][i - 1];
  }

  lemma KeepDistinct<D>(f: (Pos, D) -> bool, es: seq<(Pos, D)>, rest: seq<(Pos, D)>)
    requires |es| > 0
    requires forall i :: 0 <= i < |rest| ==> rest[i] in es[1..]
    requires DistinctPositions(es[1..]) ==> DistinctPositions(rest)
    ensures DistinctPositions(es) ==> DistinctPositions(KeepHead(f, es[0], rest))
  {
    var r := KeepHead(f, es[0], rest);
    if DistinctPositions(es) {
      assert forall i :: 0 < i < |es| ==> es[i] == es[1..][i - 1];
      assert DistinctPositions(es[1..]);
      if f(es[0].0, es[0].1) {
        assert forall i :: 0 < i < |r| ==> r[i] == rest[i - 1];
        forall i | 0 <= i < |rest| ensures rest[i].0 != es[0].0 {
          var j :| 0 <= j < |es[1..]| && es[1..][j] == rest[i];
          assert es[j + 1] == rest[i];
        }
      }
    }
  }

  /** `map`: the same points, each with `f` of its position and data; the size counts the entries. */
  function Map<D, T>(c: Container<D>, f: (Pos, D) -> T): (r: Container<T>)
    ensures forall p :: GetPoint(r, p).Some? <==> GetPoint(c, p).Some?
    ensures forall p :: GetPoint(c, p).Some? ==> GetPoint(r, p) == Some(f(p, GetPoint(c, p).value))
    ensures r.size == |Entries(c)| == |Points(c)|
  {
    var es := Entries(c);
    var mapped := Apply(f, es);
    EntriesSpec(c);
    EntriesCount(c);
    SetAllSpec(Empty(), mapped);
    EmptySizeOk<T>();
    SetAllSizeOk(Empty(), mapped);
    MapResult(c, f, es, mapped, SetAll(Empty(), mapped));
    SetAll(Empty(), mapped)
  }

  lemma MapResult<D, T>(c: Container<D>, f: (Pos, D) -> T, es: seq<(Pos, D)>, mapped: seq<(Pos, T)>, r: Container<T>)
    requires forall i :: 0 <= i < |es| ==> GetPoint(c, es[i].0) == Some(es[i].1)
    requires forall p :: GetPoint(c, p).Some? ==> Mentions(es, p)
    requires |mapped| == |es| && forall i :: 0 <= i < |es| ==> mapped[i] == (es[i].0, f(es[i].0, es[i].1))
    requires forall i :: 0 <= i < |mapped| ==> GetPoint(r, mapped[i].0) == Some(mapped[i].1)
    requires forall q :: !Mentions(mapped, q) ==> GetPoint(r, q) == GetPoint(Empty(), q)
    requires SizeOk(r)
    ensures forall p :: GetPoint(r, p).Some? <==> GetPoint(c, p).Some?
    ensures forall p :: GetPoint(c, p).Some? ==> GetPoint(r, p) == Some(f(p, GetPoint(c, p).value))
    ensures r.size == |Points(c)|
  {
    forall p ensures GetPoint(r, p).Some? ==> GetPoint(c, p).Some? {
      if GetPoint(r, p).Some? {
        assert Mentions(mapped, p);
        var i :| 0 <= i < |mapped| && mapped[i].0 == p;
        assert GetPoint(c, es[i].0).Some?;
      }
    }
    forall p | GetPoint(c, p).Some? ensures GetPoint(r, p) == Some(f(p, GetPoint(c, p).value)) {
      var i :| 0 <= i < |es| && es[i].0 == p;
      assert mapped[i].0 == p;
    }
    assert Points(r) == Points(c);
  }

  /** `filter`: exactly the points for which `f` holds, with their data. */
  function Filter<D>(c: Container<D>, f: (Pos, D) -> bool): (r: Container<D>)
    ensures forall p :: GetPoint(r, p).Some? <==> GetPoint(c, p).Some? && f(p, GetPoint(c, p).value)
    ensures forall p :: GetPoint(r, p).Some? ==> GetPoint(r, p) == GetPoint(c, p)
    ensures SizeOk(r)
  {
    var es := Entries(c);
    var kept := Keep(f, es);
    EntriesSpec(c);
    SetAllSpec(Empty(), kept);
    EmptySizeOk<D>();
    SetAllSizeOk(Empty(), kept);
    FilterResult(c, f, es, kept, SetAll(Empty(), kept));
    SetAll(Empty(), kept)
  }

  lemma FilterResult<D>(c: Container<D>, f: (Pos, D) -> bool, es: seq<(Pos, D)>, kept: seq<(Pos, D)>, r: Container<D>)
    requires forall i :: 0 <= i < |es| ==> GetPoint(c, es[i].0) == Some(es[i].1)
    requires forall p :: GetPoint(c, p).Some? ==> Mentions(es, p)
    requires forall i :: 0 <= i < |kept| ==> f(kept[i].0, kept[i].1) && kept[i] in es
    requires forall j :: 0 <= j < |es| && f(es[j].0, es[j].1) ==> es[j] in kept
    requires forall i :: 0 <= i < |kept| ==> GetPoint(r, kept[i].0) == Some(kept[i].1)
    requires forall q :: !Mentions(kept, q) ==> GetPoint(r, q) == GetPoint(Empty(), q)
    ensures forall p :: GetPoint(r, p).Some? <==> GetPoint(c, p).Some? && f(p, GetPoint(c, p).value)
    ensures forall p :: GetPoint(r, p).Some? ==> GetPoint(r, p) == GetPoint(c, p)
  {
    forall p ensures GetPoint(r, p).Some? ==> GetPoint(r, p) == GetPoint(c, p) && f(p, GetPoint(c, p).value) {
      if GetPoint(r, p).Some? {
        assert Mentions(kept, p);
        var i :| 0 <= i < |kept| && kept[i].0 == p;
        assert kept[i] in es;
      }
    }
    forall p | GetPoint(c, p).Some? && f(p, GetPoint(c, p).value) ensures GetPoint(r, p).Some? {
      var j :| 0 <= j < |es| && es[j].0 == p;
      assert es[j] in kept;
      var i :| 0 <= i < |kept| && kept[i] == es[j];
    }
  }

  /** The first element of `es` that satisfies `f`. */
  function FirstOf<D>(f: (Pos, D) -> bool, es: seq<(Pos, D)>): (r: Option<nat>)
    ensures r.Some? ==> r.value < |es| && f(es[r.value].0, es[r.value].1)
    ensures r.Some? ==> forall j :: 0 <= j < r.value ==> !f(es[j].0, es[j].1)
    ensures r.None? <==> forall i :: 0 <= i < |es| ==> !f(es[i].0, es[i].1)
    decreases |es|
  {
    if |es| == 0 then None
    else if f(es[0].0, es[0].1) then Some(0)
    else
      var r := FirstOf(f, es[1..]);
      assert forall i :: 0 < i < |es| ==> es[i] == es[1..][i - 1];
      if r.Some? then Some(r.value + 1) else None
  }

  /** Entry `i` is accepted by `f` and no earlier entry is. */
  predicate FirstAccepted<D>(f: (Pos, D) -> bool, es: seq<(Pos, D)>, i: int)
  {
    0 <= i < |es| && f(es[i].0, es[i].1) && forall j :: 0 <= j < i ==> !f(es[j].0, es[j].1)
  }

  /**
   * `firstWhere`: the first entry in iteration order that satisfies `f`,
   * or `undefined` exactly when no stored point does.
   */
  function FirstWhere<D>(c: Container<D>, f: (Pos, D) -> bool): (r: Option<(Pos, D)>)
    ensures r.Some? ==> GetPoint(c, r.value.0) == Some(r.value.1) && f(r.value.0, r.value.1)
    ensures r.Some? ==> exists i :: FirstAccepted(f, Entries(c), i) && Entries(c)[i] == r.value
    ensures r.None? <==> forall p :: GetPoint(c, p).Some? ==> !f(p, GetPoint(c, p).value)
  {
    var es := Entries(c);
    EntriesSpec(c);
    var k := FirstOf(f, es);
    if k.Some? then Some(es[k.value])
    else
      assert forall p :: GetPoint(c, p).Some? ==> !f(p, GetPoint(c, p).value) by {
        forall p | GetPoint(c, p).Some? ensures !f(p, GetPoint(c, p).value) {
          var i :| 0 <= i < |es| && es[i].0 == p;
        }
      }
      None
  }
}

=== FILE: recompute.dfy ===
/**
 * `recomputeSegments` of common/drawing.ts: after a stroke, every segment
 * the stroke cut into is checked, round by round from its oldest pending
 * boundary point, for pieces that are no longer connected; a piece that
 * split off is flooded with a fresh segment id.
 *
 * The rounds decide a split as written, by counting (`CountSplit`); a
 * pending point the count meets twice is counted twice, so a round can
 * decide against a split that the piece of its start point shows, as the
 * module DoubleCount shows. A later round then splits that piece off, so
 * the pieces still separate, under other ids. The rounds as evidently
 * intended (`MeetSplit`) are modelled alongside.
 */
module Recompute {
  import opened Wrappers
  import opened Grid
  import opened JsCollections
  import opened SegmentBuffers
  import opened Traversal
  import opened Bft
  import opened SharedDrawing

  // ---- The relabelling traversal -------------------------------------------------------

  /** The state the relabelling callback changes: the buffer, the callbacks made, and whether any pixel was set (`set` in the source). */
  datatype Relabel = Relabel(buffer: seq<int>, log: seq<Effect>, changed: bool)

  /**
   * The third traversal's test: a pixel on the canvas still holding
   * `segment` passes; it gets the new id, a `retain` fill, and `changed` is
   * raised.
   */
  function RelabelTest(w: nat, h: nat, segment: int, next: int, r: Relabel, q: Pos): Verdict<Relabel>
  {
    if InBounds(w, h, q) && View(r.buffer, w, q) == segment then
      Verdict(true, false, Relabel(SetSegment(r.buffer, w, q, next), r.log + [Set(q, next), Fill(q, Retain)], true))
    else Verdict(false, false, r)
  }

  function Relabeller(w: nat, h: nat, segment: int, next: int): (Relabel, Pos) -> Verdict<Relabel>
  {
    (r: Relabel, q: Pos) => RelabelTest(w, h, segment, next, r, q)
  }

  /** A callback the relabelling makes for a pixel of `passed`: its new id, or a `retain` fill. */
  predicate Relabels(next: int, passed: set<Pos>, e: Effect)
  {
    e.pos in passed && match e
      case Set(_, s) => s == next
      case Fill(_, k) => k == Retain
  }

  /**
   * What the relabelling has done once the pixels of `passed` have passed:
   * exactly they were of `segment` and now hold `next`, the log holds a
   * store and a fill for each of them and nothing else and rebuilds the
   * buffer, and `changed` is raised exactly when one passed.
   */
  ghost predicate Relabelled(b0: seq<int>, w: nat, h: nat, segment: int, next: int, r: Relabel, passed: set<Pos>)
  {
    && |r.buffer| == |b0| && r.buffer == Replay(b0, w, r.log)
    && (forall q :: q in passed ==> InBounds(w, h, q) && View(b0, w, q) == segment)
    && (forall q :: InBounds(w, h, q) ==> View(r.buffer, w, q) == if q in passed then next else View(b0, w, q))
    && (forall e :: e in r.log ==> Relabels(next, passed, e))
    && (forall q :: q in passed ==> Set(q, next) in r.log && Fill(q, Retain) in r.log)
    && (r.changed <==> passed != {})
    && (r.changed || r.buffer == b0)
  }

  lemma {:induction false} RelabelAlong(b0: seq<int>, w: nat, h: nat, segment: int, next: int,
                                        trace: seq<Call<Relabel>>, i: nat)
    requires |b0| == w * h
    requires Threads(Relabeller(w, h, segment, next), Relabel(b0, [], false), trace) && i <= |trace|
    ensures Relabelled(b0, w, h, segment, next, Before(Relabel(b0, [], false), trace, i), PassedBefore(trace, i))
    decreases i
  {
    if i > 0 {
      var s0 := Relabel(b0, [], false);
      RelabelAlong(b0, w, h, segment, next, trace, i - 1);
      var c := trace[i - 1];
      var r := Before(s0, trace, i - 1);
      assert c.verdict == RelabelTest(w, h, segment, next, r, c.pos);
      assert Before(s0, trace, i) == c.verdict.state;
      PassedStep(trace, i);
      if c.verdict.pass {
        RelabelPass(b0, w, h, segment, next, r, PassedBefore(trace, i - 1), c.pos);
      } else {
        assert c.verdict.state == r;
        assert PassedBefore(trace, i) == PassedBefore(trace, i - 1);
      }
    }
  }

  /** One passing pixel extends the relabelled set by itself. */
  lemma RelabelPass(b0: seq<int>, w: nat, h: nat, segment: int, next: int, r: Relabel, passed: set<Pos>, q: Pos)
    requires |b0| == w * h
    requires Relabelled(b0, w, h, segment, next, r, passed)
    requires InBounds(w, h, q) && View(r.buffer, w, q) == segment
    ensures Relabelled(b0, w, h, segment, next, RelabelTest(w, h, segment, next, r, q).state, passed + {q})
  {
    var r' := RelabelTest(w, h, segment, next, r, q).state;
    var p' := passed + {q};
    var step := [Set(q, next), Fill(q, Retain)];
    assert step[..1] == [Set(q, next)] && step[..1][..0] == [];
    ReplayAppend(b0, w, r.log, step);
    assert Replay(r.buffer, w, step[..1]) == SetSegment(r.buffer, w, q, next);
    assert Replay(r.buffer, w, step) == SetSegment(r.buffer, w, q, next);
    assert r'.log == r.log + step;
    assert q in passed ==> next == segment;
    assert View(b0, w, q) == segment;
    forall q' | InBounds(w, h, q') ensures View(r'.buffer, w, q') == if q' in p' then next else View(b0, w, q') {
      ReadAfterWrite(r.buffer, w, h, q, q', next);
    }
    forall e | e in r'.log ensures Relabels(next, p', e) {
      if e in r.log {
        assert Relabels(next, passed, e);
      }
    }
  }

  /**
   * The relabelling swept the piece of `start`: the pixels it recorded
   * reach `start` through 8-neighbours, every recorded pixel after `start`
   * was relabelled and no unrecorded one was, and every pixel that held
   * `segment` in `b` next to a recorded pixel was relabelled.
   */
  ghost predicate Swept(b: seq<int>, w: nat, h: nat, segment: int, start: Pos, passed: set<Pos>, reached: seq<Pos>)
  {
    && |reached| > 0 && Connected(reached, start, Around())
    && (forall i :: 0 < i < |reached| ==> reached[i] in passed)
    && (forall q :: q in passed ==> q in reached)
    && (forall p, q :: p in reached && Adjacent(p, q, Around()) && InBounds(w, h, q) && View(b, w, q) == segment ==> q in passed)
  }

  /** The relabelling test never calls `exitLoop`. */
  lemma RelabelCalm(w: nat, h: nat, segment: int, next: int, s0: Relabel, trace: seq<Call<Relabel>>)
    requires Threads(Relabeller(w, h, segment, next), s0, trace)
    ensures Calm(trace)
  {
    forall c | 0 <= c < |trace| ensures !trace[c].verdict.exit {
      assert trace[c].verdict == RelabelTest(w, h, segment, next, Before(s0, trace, c), trace[c].pos);
    }
  }

  /**
   * A pixel of `segment` that the relabelling asked about was relabelled:
   * it passed then, or it had passed before.
   */
  lemma RelabelAsked(b: seq<int>, w: nat, h: nat, segment: int, next: int, trace: seq<Call<Relabel>>, q: Pos)
    requires |b| == w * h
    requires Threads(Relabeller(w, h, segment, next), Relabel(b, [], false), trace)
    requires Asked(trace, q) && InBounds(w, h, q) && View(b, w, q) == segment
    ensures q in PassedBefore(trace, |trace|)
  {
    var s0 := Relabel(b, [], false);
    var c :| 0 <= c < |trace| && trace[c].pos == q;
    RelabelAlong(b, w, h, segment, next, trace, c);
    assert trace[c].verdict == RelabelTest(w, h, segment, next, Before(s0, trace, c), q);
    assert PassedBefore(trace, c) <= PassedBefore(trace, |trace|);
    if trace[c].verdict.pass {
      assert q in PassedBefore(trace, |trace|);
    }
  }

  /** The outcome of the relabelling traversal sweeps the piece of `start`. */
  lemma RelabelSweeps(b: seq<int>, w: nat, h: nat, segment: int, next: int, start: Pos,
                      visited: seq<Pos>, trace: seq<Call<Relabel>>, r: Relabel)
    requires |b| == w * h
    requires Threads(Relabeller(w, h, segment, next), Relabel(b, [], false), trace)
    requires |visited| > 0 && Connected(visited, start, Around())
    requires forall i :: 0 < i < |visited| ==> PassedIn(trace, visited[i])
    requires Outcome(Setup(start, Relabeller(w, h, segment, next), Relabel(b, [], false), Around(), StartUntested), visited, trace, r)
    ensures Swept(b, w, h, segment, start, PassedBefore(trace, |trace|), visited)
  {
    var passed := PassedBefore(trace, |trace|);
    RelabelCalm(w, h, segment, next, Relabel(b, [], false), trace);
    CalmOutcome(Setup(start, Relabeller(w, h, segment, next), Relabel(b, [], false), Around(), StartUntested), visited, trace, r);
    forall i | 0 < i < |visited| ensures visited[i] in passed {
      var c :| 0 <= c < |trace| && trace[c].pos == visited[i] && trace[c].verdict.pass;
    }
    forall q | q in passed ensures q in visited {
      var c :| 0 <= c < |trace| && trace[c].verdict.pass && trace[c].pos == q;
    }
    forall p, q | p in visited && Adjacent(p, q, Around()) && InBounds(w, h, q) && View(b, w, q) == segment
      ensures q in passed
    {
      var j :| 0 <= j < |visited| && visited[j] == p;
      var d :| 0 <= d < |Around()| && q == Add(p, Around()[d]);
      assert Asked(trace, Add(visited[j], Around()[d]));
      RelabelAsked(b, w, h, segment, next, trace, q);
    }
  }

  /**
   * The relabelling traversal from `start`: every pixel it passes held
   * `segment` and now holds `next`, each with a store and a `retain` fill,
   * and what it passes is the piece of `start`: the pixels it records
   * after `start`, which reach `start` through 8-neighbours and leave no
   * pixel of `segment` next to them behind.
   */
  method RelabelPiece(b: seq<int>, w: nat, h: nat, segment: int, next: int, start: Pos)
    returns (b': seq<int>, effects: seq<Effect>, changed: bool, ghost passed: set<Pos>, ghost reached: seq<Pos>)
    requires |b| == w * h
    ensures Relabelled(b, w, h, segment, next, Relabel(b', effects, changed), passed)
    ensures b' == Replay(b, w, effects) && (changed || b' == b)
    ensures forall q :: InBounds(w, h, q) && View(b, w, q) != segment ==> View(b', w, q) == View(b, w, q)
    ensures Connected(reached, start, Around()) && |reached| > 0
    ensures forall i :: 0 < i < |reached| ==> reached[i] in passed
    ensures Swept(b, w, h, segment, start, passed, reached)
  {
    var test := Relabeller(w, h, segment, next);
    var s0 := Relabel(b, [], false);
    var visited, trace, r := CommonBft(start, test, s0, true, w, h, (x: Relabel) => true);
    RelabelAlong(b, w, h, segment, next, trace, |trace|);
    b', effects, changed := r.buffer, r.log, r.changed;
    passed := PassedBefore(trace, |trace|);
    reached := visited;
    RelabelSweeps(b, w, h, segment, next, start, visited, trace, r);
  }

  // ---- One round and the whole recomputation ---------------------------------------------

  /**
   * The end of a round once the split is decided: with a split, the piece
   * of the oldest pending point is relabelled with `next`, which moves to
   * the next id when some pixel was set; without one nothing happens.
   * `after` holds the buffer, the callbacks of the round and whether it set
   * a pixel; `passed` are the relabelled pixels, swept from `start` along
   * `reached`.
   */
  method Finish(b: seq<int>, w: nat, h: nat, segment: int, next: int, start: Pos, split: bool)
    returns (after: Relabel, next': int, ghost passed: set<Pos>, ghost reached: seq<Pos>)
    requires |b| == w * h
    ensures !split ==> after == Relabel(b, [], false)
    ensures exists passed :: Relabelled(b, w, h, segment, next, after, passed)
    ensures Relabelled(b, w, h, segment, next, after, passed)
    ensures split ==> Swept(b, w, h, segment, start, passed, reached)
    ensures !split ==> passed == {}
    ensures after.changed ==> next' == next + 1
    ensures !after.changed ==> next' == next && after.log == []
  {
    if split {
      var b', effects, changed;
      b', effects, changed, passed, reached := RelabelPiece(b, w, h, segment, next, start);
      after := Relabel(b', effects, changed);
      next' := if changed then next + 1 else next;
      if effects != [] {
        assert Relabels(next, passed, effects[0]);
      }
    } else {
      after, next', passed, reached := Relabel(b, [], false), next, {}, [];
      assert Relabelled(b, w, h, segment, next, after, {});
    }
  }

  /**
   * One round of the inner loop for `segment`, as written: the split is
   * decided by counting (`CountSplit`), so it happens exactly when the
   * first traversal leaves a pending point unclaimed and the count of
   * unclaimed points has not reached zero when the boundary walk from the
   * oldest pending point ends. With a split, the relabelled pixels
   * `passed` are the piece of that point.
   */
  method Round(b: seq<int>, w: nat, h: nat, isBoundary: Pos -> bool, segment: int, next: int, pending: JsSet<Pos>)
    returns (split: bool, after: Relabel, next': int, left: JsSet<Pos>, ghost passed: set<Pos>, ghost reached: seq<Pos>)
    requires |b| == w * h && |pending| > 0
    ensures Elements(left) <= Elements(pending) - {pending[0]} && |left| < |pending|
    ensures split <==> CountSplits(b, w, h, isBoundary, segment, pending)
    ensures !split ==> after == Relabel(b, [], false)
    ensures exists passed :: Relabelled(b, w, h, segment, next, after, passed)
    ensures Relabelled(b, w, h, segment, next, after, passed)
    ensures split ==> Swept(b, w, h, segment, pending[0], passed, reached)
    ensures !split ==> passed == {}
    ensures after.changed ==> next' == next + 1
    ensures !after.changed ==> next' == next && after.log == []
  {
    split, left := CountSplit(b, w, h, isBoundary, segment, pending);
    after, next', passed, reached := Finish(b, w, h, segment, next, pending[0], split);
  }

  /**
   * One round as evidently intended: the split is decided by meeting
   * (`MeetSplit`), so it happens exactly when some unclaimed pending point
   * lies outside the piece of the oldest one. With a split, the relabelled
   * pixels `passed` are the piece of that point.
   */
  method IntendedRound(b: seq<int>, w: nat, h: nat, isBoundary: Pos -> bool, segment: int, next: int, pending: JsSet<Pos>)
    returns (split: bool, after: Relabel, next': int, left: JsSet<Pos>, ghost passed: set<Pos>, ghost reached: seq<Pos>)
    requires |b| == w * h && |pending| > 0
    ensures Elements(left) <= Elements(pending) - {pending[0]} && |left| < |pending|
    ensures forall piece :: Piece(b, w, h, isBoundary, segment, pending[0], piece) ==>
      (split <==> exists q :: q in left && q !in piece)
    ensures !split ==> after == Relabel(b, [], false)
    ensures exists passed :: Relabelled(b, w, h, segment, next, after, passed)
    ensures Relabelled(b, w, h, segment, next, after, passed)
    ensures split ==> Swept(b, w, h, segment, pending[0], passed, reached)
    ensures !split ==> passed == {}
    ensures after.changed ==> next' == next + 1
    ensures !after.changed ==> next' == next && after.log == []
  {
    split, left := MeetSplit(b, w, h, isBoundary, segment, pending);
    after, next', passed, reached := Finish(b, w, h, segment, next, pending[0], split);
  }

  /**
   * What the recomputation keeps from buffer `b0` and id `next0` on: a
   * pixel differs from `b0` only if it held one of the segments in `keys`
   * and now holds a fresh id below `next`; the callbacks are stores of such
   * ids and `retain` fills on the canvas, and they rebuild the buffer; and
   * every fresh id was stored.
   */
  ghost predicate Recomputed(b0: seq<int>, w: nat, h: nat, keys: set<int>, next0: int,
                             b: seq<int>, log: seq<Effect>, next: int)
  {
    && |b| == |b0| && next0 <= next && b == Replay(b0, w, log)
    && (forall q :: InBounds(w, h, q) && View(b, w, q) != View(b0, w, q) ==>
          View(b0, w, q) in keys && next0 <= View(b, w, q) < next)
    && (forall e :: e in log ==> InBounds(w, h, e.pos) && match e
          case Set(_, s) => next0 <= s < next
          case Fill(_, k) => k == Retain)
    && (forall n :: next0 <= n < next ==> Stored(log, n))
  }

  /** Some callback of `log` stores id `n`. */
  ghost predicate Stored(log: seq<Effect>, n: int)
  {
    exists q :: Set(q, n) in log
  }

  /** A round on a segment of `keys` keeps `Recomputed`. */
  lemma RoundKeeps(b0: seq<int>, w: nat, h: nat, keys: set<int>, next0: int, b: seq<int>, log: seq<Effect>, next: int,
                   segment: int, after: Relabel, next': int, passed: set<Pos>)
    requires Recomputed(b0, w, h, keys, next0, b, log, next) && segment in keys
    requires Relabelled(b, w, h, segment, next, after, passed)
    requires after.changed ==> next' == next + 1
    requires !after.changed ==> next' == next
    ensures Recomputed(b0, w, h, keys, next0, after.buffer, log + after.log, next')
  {
    var b', effects := after.buffer, after.log;
    ReplayAppend(b0, w, log, effects);
    forall q | InBounds(w, h, q) && View(b', w, q) != View(b0, w, q)
      ensures View(b0, w, q) in keys && next0 <= View(b', w, q) < next'
    {
      if q in passed {
        assert View(b, w, q) == segment;
      }
    }
    forall e | e in log + effects
      ensures InBounds(w, h, e.pos) && match e
        case Set(_, s) => next0 <= s < next'
        case Fill(_, k) => k == Retain
    {
      if e in effects {
        assert Relabels(next, passed, e);
      }
    }
    forall n | next0 <= n < next' ensures Stored(log + effects, n) {
      if n < next {
        assert Stored(log, n);
        var q :| Set(q, n) in log;
        assert Set(q, n) in log + effects;
      } else {
        var q :| q in passed;
        assert Set(q, n) in log + effects;
      }
    }
  }

  /**
   * The loops of `recomputeSegments`: for each effected segment in
   * insertion order, rounds run while it has pending boundary points; the
   * rounds are as written, or as evidently intended when `intended` holds.
   * Returns the buffer, the callbacks made and the next free id.
   */
  method Recompute(b: seq<int>, w: nat, h: nat, isBoundary: Pos -> bool, next: int,
                   effected: JsMap<int, JsSet<Pos>>, intended: bool)
    returns (b': seq<int>, log: seq<Effect>, next': int)
    requires |b| == w * h
    ensures Recomputed(b, w, h, Elements(effected.keys), next, b', log, next')
    ensures next' == next ==> b' == b && log == []
  {
    b', log, next' := b, [], next;
    for j := 0 to |effected.keys|
      invariant Recomputed(b, w, h, Elements(effected.keys), next, b', log, next')
      invariant next' == next ==> b' == b && log == []
    {
      var segment := effected.keys[j];
      var pending := effected.table[segment];
      while |pending| > 0
        invariant Recomputed(b, w, h, Elements(effected.keys), next, b', log, next')
        invariant next' == next ==> b' == b && log == []
        decreases |pending|
      {
        var split, after, n2, left;
        ghost var passed, reached;
        if intended {
          split, after, n2, left, passed, reached := IntendedRound(b', w, h, isBoundary, segment, next', pending);
        } else {
          split, after, n2, left, passed, reached := Round(b', w, h, isBoundary, segment, next', pending);
        }
        RoundKeeps(b, w, h, Elements(effected.keys), next, b', log, next', segment, after, n2, passed);
        b', log, next', pending := after.buffer, log + after.log, n2, left;
      }
    }
  }

  /** `recomputeSegments` as written, with counting rounds. */
  method RecomputeSegments(b: seq<int>, w: nat, h: nat, isBoundary: Pos -> bool, next: int,
                           effected: JsMap<int, JsSet<Pos>>)
    returns (b': seq<int>, log: seq<Effect>, next': int)
    requires |b| == w * h
    ensures Recomputed(b, w, h, Elements(effected.keys), next, b', log, next')
    ensures next' == next ==> b' == b && log == []
  {
    b', log, next' := Recompute(b, w, h, isBoundary, next, effected, false);
  }

  /** `recomputeSegments` with the rounds as evidently intended. */
  method IntendedRecomputeSegments(b: seq<int>, w: nat, h: nat, isBoundary: Pos -> bool, next: int,
                                   effected: JsMap<int, JsSet<Pos>>)
    returns (b': seq<int>, log: seq<Effect>, next': int)
    requires |b| == w * h
    ensures Recomputed(b, w, h, Elements(effected.keys), next, b', log, next')
    ensures next' == next ==> b' == b && log == []
  {
    b', log, next' := Recompute(b, w, h, isBoundary, next, effected, true);
  }
}

=== FILE: reducers.dfy ===
/**
 * Two-component real vectors and RGB colours: the `THREE.Vector2` and
 * `THREE.Color` values the reducers store, with float rounding left out.
 */
module Vectors {
  datatype Vec = Vec(x: real, y: real)

  datatype Color = Color(r: real, g: real, b: real)

  function Plus(a: Vec, b: Vec): Vec { Vec(a.x + b.x, a.y + b.y) }

  function Minus(a: Vec, b: Vec): Vec { Vec(a.x - b.x, a.y - b.y) }

  function Scale(a: Vec, k: real): Vec { Vec(a.x * k, a.y * k) }

  function MaxR(a: real, b: real): real { if a >= b then a else b }

  function MinR(a: real, b: real): real { if a <= b then a else b }

  /** `Vector2.clamp(min, max)` per component: `max(min, min(max, v))`, so the lower bound wins when they cross. */
  function ClampR(v: real, lo: real, hi: real): (r: real)
    ensures lo <= hi ==> lo <= r <= hi
    ensures lo <= v <= hi ==> r == v
    ensures hi < lo ==> r == lo
  {
    MaxR(lo, MinR(hi, v))
  }

  /** Clamping into `[-b, b]²`, as the pan bounds are applied. */
  function ClampPan(v: Vec, b: real): (r: Vec)
    ensures b >= 0.0 ==> -b <= r.x <= b && -b <= r.y <= b
    ensures b < 0.0 ==> r == Vec(-b, -b)
  {
    Vec(ClampR(v.x, -b, b), ClampR(v.y, -b, b))
  }
}

/**
 * `statisticsReducer`: per-segment point counts and running centroids. The
 * map is updated in place, so a throw leaves the updates made before it.
 * A centroid that a division by zero makes non-finite is `None`.
 */
module Statistics {
  import opened Wrappers
  import opened Vectors

  datatype Entry = Entry(numPoints: int, centroid: Option<Vec>, medianEstimate: Vec)

  datatype Stats = Stats(segments: map<int, Entry>)

  datatype Event = Update(sum: Vec, numPoints: int, oldSegment: int, newSegment: int, src: string) | Clear

  /** The statistics after the event, and the message thrown, if any. */
  datatype Outcome = Outcome(stats: Stats, thrown: Option<string>)

  /** `multiplyScalar(n)` of a possibly non-finite centroid. */
  function ScaleC(c: Option<Vec>, k: real): Option<Vec>
  {
    if c.None? then None else Some(Scale(c.value, k))
  }

  /** `divideScalar(d)`: dividing by zero gives a non-finite vector. */
  function DivideC(c: Option<Vec>, d: real): Option<Vec>
  {
    if c.None? || d == 0.0 then None else Some(Vec(c.value.x / d, c.value.y / d))
  }

  function PlusC(c: Option<Vec>, v: Vec): Option<Vec>
  {
    if c.None? then None else Some(Plus(c.value, v))
  }

  function MinusC(c: Option<Vec>, v: Vec): Option<Vec>
  {
    if c.None? then None else Some(Minus(c.value, v))
  }

  /** The entry a segment gets the first time points are added to it. */
  function NewEntry(): Entry
  {
    Entry(0, Some(Vec(0.0, 0.0)), Vec(-1.0, -1.0))
  }

  /** Adding `k` points whose coordinates sum to `sum`. */
  function AddPoints(e: Entry, sum: Vec, k: int): Entry
  {
    var c := if e.numPoints > 0 then DivideC(PlusC(ScaleC(e.centroid, e.numPoints as real), sum), (e.numPoints + k) as real)
             else DivideC(Some(sum), k as real);
    e.(centroid := c, numPoints := e.numPoints + k)
  }

  /** Removing `k` points whose coordinates sum to `sum`. */
  function RemovePoints(e: Entry, sum: Vec, k: int): Entry
  {
    e.(centroid := DivideC(MinusC(ScaleC(e.centroid, e.numPoints as real), sum), (e.numPoints - k) as real),
       numPoints := e.numPoints - k)
  }

  function Reduce(st: Stats, e: Event): Outcome
  {
    match e
    case Clear => Outcome(Stats(map[]), None)
    case Update(sum, k, oldSeg, newSeg, src) =>
      var segs := st.segments;
      var segs := if newSeg != -1 then segs[newSeg := AddPoints(if newSeg in segs then segs[newSeg] else NewEntry(), sum, k)] else segs;
      if newSeg != -1 && segs[newSeg].numPoints < 0 then Outcome(Stats(segs), Some(src))
      else if oldSeg == -1 then Outcome(Stats(segs), None)
      else if oldSeg !in segs then Outcome(Stats(segs), Some("Cannot read properties of undefined (reading 'centroid')"))
      else
        var segs := segs[oldSeg := RemovePoints(segs[oldSeg], sum, k)];
        Outcome(Stats(segs), if segs[oldSeg].numPoints < 0 then Some(src) else None)
  }

  /** A segment's point count, zero when it has no entry. */
  function CountOf(st: Stats, s: int): int
  {
    if s in st.segments then st.segments[s].numPoints else 0
  }

  /** Clear empties the map; segment -1 is never stored; segments the event does not name keep their entries. */
  lemma ReduceFrame(st: Stats, e: Event)
    ensures e.Clear? ==> Reduce(st, e) == Outcome(Stats(map[]), None)
    ensures -1 !in st.segments ==> -1 !in Reduce(st, e).stats.segments
    ensures e.Update? ==> forall s :: s != e.oldSegment && s != e.newSegment ==>
      (s in Reduce(st, e).stats.segments <==> s in st.segments) &&
      (s in st.segments ==> Reduce(st, e).stats.segments[s] == st.segments[s])
  {
    if e.Update? {
      var segs := st.segments;
      if e.newSegment != -1 {
        var added := AddPoints(if e.newSegment in segs then segs[e.newSegment] else NewEntry(), e.sum, e.numPoints);
        OthersKept(segs, e.newSegment, added);
        segs := segs[e.newSegment := added];
      }
      if e.oldSegment != -1 && e.oldSegment in segs {
        OthersKept(segs, e.oldSegment, RemovePoints(segs[e.oldSegment], e.sum, e.numPoints));
      }
    }
  }

  /** Storing one key keeps every other key's presence and entry. */
  lemma OthersKept(a: map<int, Entry>, key: int, v: Entry)
    ensures forall s :: s != key ==> (s in a[key := v] <==> s in a) && (s in a ==> a[key := v][s] == a[s])
  {
  }

  /**
   * For two different real segments: the update throws exactly when the
   * new count would be negative, the old segment has no entry, or the old
   * count would be negative; otherwise `k` points move from one to the other.
   */
  lemma MovePoints(st: Stats, sum: Vec, k: int, oldSeg: int, newSeg: int, src: string)
    requires oldSeg != -1 && newSeg != -1 && oldSeg != newSeg
    ensures var r := Reduce(st, Update(sum, k, oldSeg, newSeg, src));
      && (r.thrown.Some? <==> CountOf(st, newSeg) + k < 0 || oldSeg !in st.segments || CountOf(st, oldSeg) - k < 0)
      && (r.thrown.None? ==> CountOf(r.stats, newSeg) == CountOf(st, newSeg) + k && CountOf(r.stats, oldSeg) == CountOf(st, oldSeg) - k)
  {
  }

  /** The centroid is the mean of the segment's points, given their coordinate total. */
  ghost predicate MeanOf(e: Entry, total: Vec)
  {
    e.numPoints > 0 ==> e.centroid == Some(Vec(total.x / e.numPoints as real, total.y / e.numPoints as real))
  }

  /** One coordinate of the running mean: scaling the mean back up recovers the total. */
  lemma MeanStep(cx: real, t: real, n: real, s: real, m: real)
    requires n != 0.0 && m != 0.0 && cx == t / n
    ensures (cx * n + s) / m == (t + s) / m
    ensures (cx * n - s) / m == (t - s) / m
  {
    assert cx * n == t;
  }

  /** Adding points keeps the centroid the running mean. */
  lemma AddKeepsMean(e: Entry, total: Vec, sum: Vec, k: int)
    requires e.numPoints >= 0 && MeanOf(e, total) && (e.numPoints == 0 ==> total == Vec(0.0, 0.0))
    ensures MeanOf(AddPoints(e, sum, k), Plus(total, sum))
  {
    if e.numPoints > 0 && e.numPoints + k > 0 {
      var n := e.numPoints as real;
      var m := (e.numPoints + k) as real;
      var t := Plus(total, sum);
      var c := e.centroid.value;
      MeanCoords(c, total, sum, n, m);
      AddCentroid(e, c, sum, k, n, m, t.x / m, t.y / m);
    } else if e.numPoints == 0 && k > 0 {
      FirstCentroid(e, total, sum, k);
    }
  }

  /** Both coordinates of the running mean after adding points. */
  lemma MeanCoords(c: Vec, total: Vec, sum: Vec, n: real, m: real)
    requires n != 0.0 && m != 0.0 && c == Vec(total.x / n, total.y / n)
    ensures (c.x * n + sum.x) / m == Plus(total, sum).x / m && (c.y * n + sum.y) / m == Plus(total, sum).y / m
  {
    MeanStep(c.x, total.x, n, sum.x, m);
    MeanStep(c.y, total.y, n, sum.y, m);
  }

  /** The centroid after adding points to a non-empty segment, given its coordinates. */
  lemma AddCentroid(e: Entry, c: Vec, sum: Vec, k: int, n: real, m: real, ax: real, ay: real)
    requires e.numPoints > 0 && e.centroid == Some(c)
    requires n == e.numPoints as real && m == (e.numPoints + k) as real && m != 0.0
    requires ax == (c.x * n + sum.x) / m && ay == (c.y * n + sum.y) / m
    ensures AddPoints(e, sum, k).centroid == Some(Vec(ax, ay))
  {
    var v := Vec(c.x * n + sum.x, c.y * n + sum.y);
    assert v == Plus(Scale(c, n), sum);
    assert ScaleC(e.centroid, n) == Some(Scale(c, n));
    assert PlusC(Some(Scale(c, n)), sum) == Some(v);
    assert DivideC(Some(v), m) == Some(Vec(v.x / m, v.y / m));
    assert AddPoints(e, sum, k).centroid == DivideC(Some(v), m);
  }

  /** The first points added to an empty segment: their mean. */
  lemma FirstCentroid(e: Entry, total: Vec, sum: Vec, k: int)
    requires e.numPoints == 0 && total == Vec(0.0, 0.0) && k > 0
    ensures AddPoints(e, sum, k).centroid == Some(Vec(Plus(total, sum).x / k as real, Plus(total, sum).y / k as real))
  {
    assert Plus(total, sum) == sum;
  }

  /** Removing points keeps it the mean of those left; removing all of them leaves it non-finite. */
  lemma RemoveKeepsMean(e: Entry, total: Vec, sum: Vec, k: int)
    requires e.numPoints > 0 && MeanOf(e, total)
    ensures MeanOf(RemovePoints(e, sum, k), Minus(total, sum))
    ensures k == e.numPoints ==> RemovePoints(e, sum, k).centroid.None?
  {
    var n := e.numPoints as real;
    var m := (e.numPoints - k) as real;
    if e.numPoints - k > 0 {
      var c := e.centroid.value;
      var t := Minus(total, sum);
      LeftCoords(c, total, sum, n, m);
      RemoveCentroid(e, c, sum, k, n, m, t.x / m, t.y / m);
    }
  }

  /** Both coordinates of the running mean after removing points. */
  lemma LeftCoords(c: Vec, total: Vec, sum: Vec, n: real, m: real)
    requires n != 0.0 && m != 0.0 && c == Vec(total.x / n, total.y / n)
    ensures (c.x * n - sum.x) / m == Minus(total, sum).x / m && (c.y * n - sum.y) / m == Minus(total, sum).y / m
  {
    MeanStep(c.x, total.x, n, sum.x, m);
    MeanStep(c.y, total.y, n, sum.y, m);
  }

  /** The centroid after removing some of a segment's points, given its coordinates. */
  lemma RemoveCentroid(e: Entry, c: Vec, sum: Vec, k: int, n: real, m: real, ax: real, ay: real)
    requires e.centroid == Some(c)
    requires n == e.numPoints as real && m == (e.numPoints - k) as real && m != 0.0
    requires ax == (c.x * n - sum.x) / m && ay == (c.y * n - sum.y) / m
    ensures RemovePoints(e, sum, k).centroid == Some(Vec(ax, ay))
  {
    var v := Vec(c.x * n - sum.x, c.y * n - sum.y);
    assert v == Minus(Scale(c, n), sum);
    assert ScaleC(e.centroid, n) == Some(Scale(c, n));
    assert MinusC(Some(Scale(c, n)), sum) == Some(v);
    assert DivideC(Some(v), m) == Some(Vec(v.x / m, v.y / m));
    assert RemovePoints(e, sum, k).centroid == DivideC(Some(v), m);
  }
}

/**
 * `controlsReducer`: cursor, pan and zoom input. The pan bound
 * `1 - 1/sqrt(zoom)` and the zoom ratio's square root are float
 * computations passed in as functions.
 */
module ControlsReducer {
  import opened Vectors

  datatype Controls = Controls(zoom: real, pan: Vec, cursorDown: bool, zooming: bool, shiftDown: bool)

  datatype Event = Zoom(newZoom: real, zooming: bool, origin: Vec) | Pan(newPan: Vec) | Cursor(cursorDown: bool, shiftDown: bool)

  /**
   * `panBound(z)` stands for `panBounds(z)`, `ratioRoot(z', z)` for
   * `Math.sqrt(z' / z)`.
   */
  function Reduce(st: Controls, e: Event, panBound: real -> real, ratioRoot: (real, real) -> real): Controls
  {
    match e
    case Cursor(down, shift) => st.(cursorDown := down, shiftDown := shift)
    case Pan(p) => st.(pan := p)
    case Zoom(z, zooming, origin) =>
      var b := panBound(z);
      if zooming then
        var offset := Minus(origin, st.pan);
        var scaled := Scale(offset, ratioRoot(z, st.zoom));
        st.(pan := ClampPan(Plus(st.pan, Minus(scaled, offset)), b), zoom := z, zooming := true)
      else
        st.(pan := ClampPan(st.pan, b), zoom := z, zooming := false)
  }

  /** Cursor events touch only the two flags, pan events only the pan, which they do not clamp. */
  lemma CursorAndPan(st: Controls, down: bool, shift: bool, p: Vec, panBound: real -> real, ratioRoot: (real, real) -> real)
    ensures var r := Reduce(st, Cursor(down, shift), panBound, ratioRoot);
      r.cursorDown == down && r.shiftDown == shift && r.zoom == st.zoom && r.pan == st.pan && r.zooming == st.zooming
    ensures var r := Reduce(st, Pan(p), panBound, ratioRoot);
      r.pan == p && r.zoom == st.zoom && r.cursorDown == st.cursorDown && r.shiftDown == st.shiftDown && r.zooming == st.zooming
  {
  }

  /**
   * A zoom event sets zoom and the zooming flag, keeps the cursor flags,
   * and leaves the pan inside the new bound (a non-negative one); zooming
   * about `origin` moves the pan by `(origin - pan)(s - 1)` before clamping.
   */
  lemma ZoomBounds(st: Controls, z: real, zooming: bool, origin: Vec, panBound: real -> real, ratioRoot: (real, real) -> real)
    requires panBound(z) >= 0.0
    ensures var r := Reduce(st, Zoom(z, zooming, origin), panBound, ratioRoot); var b := panBound(z);
      && r.zoom == z && r.zooming == zooming
      && r.cursorDown == st.cursorDown && r.shiftDown == st.shiftDown
      && -b <= r.pan.x <= b && -b <= r.pan.y <= b
    ensures var r := Reduce(st, Zoom(z, zooming, origin), panBound, ratioRoot); var b := panBound(z);
      var s := ratioRoot(z, st.zoom); var moved := Plus(st.pan, Scale(Minus(origin, st.pan), s - 1.0));
      zooming && -b <= moved.x <= b && -b <= moved.y <= b ==> r.pan == moved
  {
  }
}

/**
 * `texturePainterReducer` of the texture painter's `state.ts`: the tool is
 * rebuilt through the tool factory whenever its size or colour changes.
 * The factory is not part of this model; a tool is recorded as the call
 * that built it.
 */
module TexturePainterTools {
  import opened Wrappers
  import opened Vectors

  datatype ToolName = CircleEraser | SquareEraser | CircleBrush | SquareBrush | PanTool

  /** `new kToolFactory[name](size, color)`, or with only a size, as the erasers of the app variant are built. */
  datatype Tool = Tool(name: ToolName, size: int, color: Option<Color>)

  datatype State = State(toolSize: int, toolColor: Color, tool: Tool, hideCursor: bool, drawingPoints: seq<int>)

  datatype Action = HideCursor(hide: bool) | SetTool(toolName: ToolName) | SetToolSize(size: int) | SetToolColor(color: Color) | Unknown

  function Reduce(st: State, a: Action): Result<State>
  {
    match a
    case HideCursor(h) => Ok(st.(hideCursor := h))
    case SetTool(name) => Ok(st.(tool := Tool(name, st.toolSize, Some(st.toolColor))))
    case SetToolSize(n) => Ok(st.(toolSize := n, tool := Tool(st.tool.name, n, Some(st.toolColor))))
    case SetToolColor(c) => Ok(st.(toolColor := c, tool := Tool(st.tool.name, st.toolSize, Some(c))))
    case Unknown => Err("Unknown action")
  }

  /** The tool was built from the state's current size and colour. */
  predicate Consistent(st: State)
  {
    st.tool.size == st.toolSize && st.tool.color == Some(st.toolColor)
  }

  /**
   * Every known action keeps the tool consistent with size and colour and
   * never replaces the drawing; only `SetTool` changes the tool's kind;
   * only `HideCursor` changes the cursor flag; an unknown action throws.
   */
  lemma ReduceKeeps(st: State, a: Action)
    requires Consistent(st)
    ensures a.Unknown? <==> Reduce(st, a).Err?
    ensures Reduce(st, a).Ok? ==> var r := Reduce(st, a).value;
      && Consistent(r)
      && r.drawingPoints == st.drawingPoints
      && (r.tool.name != st.tool.name ==> a == SetTool(r.tool.name))
      && (r.hideCursor != st.hideCursor ==> a == HideCursor(r.hideCursor))
      && (a.SetToolSize? ==> r.toolSize == a.size && r.toolColor == st.toolColor)
      && (a.SetToolColor? ==> r.toolColor == a.color && r.toolSize == st.toolSize)
      && (a.SetTool? || a.HideCursor? ==> r.toolSize == st.toolSize && r.toolColor == st.toolColor)
  {
  }
}

/**
 * The app variant of `texturePainterReducer`: brushes are built from size
 * and colour, erasers from size alone; setting an alpha rebuilds the tool
 * and records `toolAlpha`.
 */
module AppTexturePainter {
  import opened Wrappers
  import opened Vectors

  datatype ToolName = CircleEraser | SquareEraser | CircleBrush | SquareBrush

  datatype Tool = Tool(name: ToolName, size: int, color: Option<Color>)

  datatype State = State(toolSize: int, toolColor: Color, tool: Tool, drawingPoints: seq<int>, toolAlpha: Option<real>)

  datatype Action = SetTool(toolName: ToolName) | SetToolAlpha(alpha: real) | Unknown

  predicate IsBrush(n: ToolName)
  {
    n == CircleBrush || n == SquareBrush
  }

  /** What `kToolFactory[name]` is called with for each kind of tool. */
  function Build(name: ToolName, size: int, color: Color): Tool
  {
    if IsBrush(name) then Tool(name, size, Some(color)) else Tool(name, size, None)
  }

  function Reduce(st: State, a: Action): Result<State>
  {
    match a
    case SetToolAlpha(alpha) => Ok(st.(toolAlpha := Some(alpha), tool := Build(st.tool.name, st.toolSize, st.toolColor)))
    case SetTool(name) => Ok(st.(tool := Build(name, st.toolSize, st.toolColor)))
    case Unknown => Err("Unknown action")
  }

  predicate Consistent(st: State)
  {
    st.tool.size == st.toolSize && (st.tool.color.Some? <==> IsBrush(st.tool.name)) &&
    (st.tool.color.Some? ==> st.tool.color.value == st.toolColor)
  }

  /**
   * No action changes size, colour or drawing; the tool stays built from
   * them, with a colour exactly when it is a brush; `SetTool` installs the
   * named tool; an unknown action throws.
   */
  lemma ReduceKeeps(st: State, a: Action)
    ensures a.Unknown? <==> Reduce(st, a).Err?
    ensures Reduce(st, a).Ok? ==> var r := Reduce(st, a).value;
      && Consistent(r)
      && r.toolSize == st.toolSize && r.toolColor == st.toolColor && r.drawingPoints == st.drawingPoints
      && (a.SetTool? ==> r.tool.name == a.toolName && r.toolAlpha == st.toolAlpha)
      && (a.SetToolAlpha? ==> r.tool.name == st.tool.name && r.toolAlpha == Some(a.alpha))
  {
  }
}

/**
 * The texture painter's `state.tsx` reducer over an initial state and a
 * loaded one (background, drawings, zoom, pan, cursor flags). The float
 * pipelines of zoom and pan are written over reals with the pan bound and
 * the square root passed in.
 */
module TexturePainterStates {
  import opened Wrappers
  import opened Vectors

  /** `kSubdivisions`. */
  const Subdivisions: int := 1

  /** `kPanSpeed`. */
  const PanSpeed: real := 3.25

  datatype Tool = Tool(name: string, size: int, color: Color)

  /** The background texture, as far as the reducer reads it: its image's size. */
  datatype Background = Background(width: nat, height: nat)

  datatype State =
    | Initial(toolSize: int, toolColor: Color, tool: Tool)
    | Loaded(toolSize: int, toolColor: Color, tool: Tool, hideCursor: bool, cursorDown: bool,
             drawings: seq<seq<int>>, background: Background, zoom: real, pan: Vec)

  datatype Action =
    | SetTool(toolName: string)
    | HideCursor(hide: bool)
    | SetToolSize(size: int)
    | SetToolColor(color: Color)
    | SetCursorDown(down: bool)
    | SetZoom(newZoom: real, mousePosition: Vec)
    | ApplyPan(delta: Vec)
    | LoadedBackground(bg: Background)
    | Unknown

  /** The number of drawing buffers, `(kSubdivisions + 1)²`. */
  function Sections(): int { (Subdivisions + 1) * (Subdivisions + 1) }

  /** Each buffer's length: `floor(width * height / sections) * 4`. */
  function BufferLength(bg: Background): nat
  {
    (bg.width * bg.height / Sections()) * 4
  }

  function Zeros(n: nat): (r: seq<int>)
    ensures |r| == n && forall k :: 0 <= k < n ==> r[k] == 0
  {
    seq(n, _ => 0)
  }

  /**
   * The nested loops of `LoadedBackground`: every slot `i * (kSubdivisions
   * + 1) + j` gets a zeroed buffer, each slot exactly once.
   */
  method AllocateDrawings(bg: Background) returns (d: seq<seq<int>>)
    ensures |d| == Sections()
    ensures forall s :: 0 <= s < |d| ==> d[s] == Zeros(BufferLength(bg))
  {
    var side := Subdivisions + 1;
    var slots: seq<Option<seq<int>>> := seq(Sections(), _ => None);
    var i := 0;
    while i <= Subdivisions
      invariant 0 <= i <= side && |slots| == Sections()
      invariant forall s :: 0 <= s < |slots| ==> (slots[s].Some? <==> s < i * side)
      invariant forall s :: 0 <= s < |slots| && slots[s].Some? ==> slots[s].value == Zeros(BufferLength(bg))
    {
      var j := 0;
      while j <= Subdivisions
        invariant 0 <= j <= side && |slots| == Sections()
        invariant forall s :: 0 <= s < |slots| ==> (slots[s].Some? <==> s < i * side + j)
        invariant forall s :: 0 <= s < |slots| && slots[s].Some? ==> slots[s].value == Zeros(BufferLength(bg))
      {
        slots := slots[i * side + j := Some(Zeros(BufferLength(bg)))];
        j := j + 1;
      }
      i := i + 1;
    }
    d := seq(|slots|, s requires 0 <= s < |slots| && slots[s].Some? => slots[s].value);
  }

  /** The drawings the reducer installs. */
  function Drawings(bg: Background): seq<seq<int>>
  {
    seq(Sections(), _ => Zeros(BufferLength(bg)))
  }

  /** The new tool for a name, built from the state's size and colour. */
  function Rebuild(name: string, size: int, color: Color): Tool
  {
    Tool(name, size, color)
  }

  /** Where JavaScript would divide by zero the reducer's floats are not finite; those inputs are excluded. */
  predicate Finite(st: State, a: Action, root: real -> real)
  {
    && (a.SetZoom? ==> a.newZoom != 0.0)
    && (a.ApplyPan? && st.Loaded? ==> st.background.width > 0 && st.background.height > 0 && root(st.zoom) != 0.0)
  }

  /**
   * `bound(z)` stands for `1 - 1/sqrt(z)` and `root(z)` for `Math.sqrt(z)`.
   */
  function Reduce(st: State, a: Action, bound: real -> real, root: real -> real): Result<State>
    requires Finite(st, a, root)
  {
    match a
    case HideCursor(h) =>
      if st.Loaded? then Ok(st.(hideCursor := h, cursorDown := if h then false else st.cursorDown)) else Ok(st)
    case SetTool(name) => Ok(st.(tool := Rebuild(name, st.toolSize, st.toolColor)))
    case SetToolSize(n) => Ok(st.(toolSize := n, tool := Rebuild(st.tool.name, n, st.toolColor)))
    case SetToolColor(c) => Ok(st.(toolColor := c, tool := Rebuild(st.tool.name, st.toolSize, c)))
    case LoadedBackground(bg) =>
      Ok(Loaded(st.toolSize, st.toolColor, st.tool, true, false, Drawings(bg), bg, 1.0, Vec(0.0, 0.0)))
    case SetCursorDown(down) =>
      if st.Loaded? then Ok(st.(cursorDown := down)) else Ok(st)
    case SetZoom(z, mouse) =>
      if st.Loaded? then
        var grow := MaxR((z - st.zoom) * 0.5, 0.0);
        var target := Plus(Scale(Vec(mouse.x / z, mouse.y / z), grow), st.pan);
        Ok(st.(zoom := z, pan := ClampPan(target, bound(z))))
      else Ok(st)
    case ApplyPan(delta) =>
      if st.Loaded? then
        var f := root(st.zoom);
        var step := Vec(delta.x / (st.background.width as real / f), delta.y / (st.background.height as real / f));
        Ok(st.(pan := ClampPan(Plus(st.pan, Scale(step, PanSpeed)), bound(st.zoom))))
      else Ok(st)
    case Unknown => Err("Unknown action: [object Object]")
  }

  /** The state's tool was built from its size and colour. */
  predicate Consistent(st: State)
  {
    st.tool.size == st.toolSize && st.tool.color == st.toolColor
  }

  /**
   * Every known action keeps the variant (except `LoadedBackground`, which
   * always loads) and the tool's consistency; an unknown action throws.
   * Cursor, zoom and pan actions leave an initial state as it is; hiding the
   * cursor releases it.
   */
  lemma ReduceShape(st: State, a: Action, bound: real -> real, root: real -> real)
    requires Finite(st, a, root) && Consistent(st)
    ensures a.Unknown? <==> Reduce(st, a, bound, root).Err?
    ensures Reduce(st, a, bound, root).Ok? ==> var r := Reduce(st, a, bound, root).value;
      && Consistent(r)
      && (!a.LoadedBackground? ==> r.Loaded? == st.Loaded?)
      && (st.Initial? && (a.HideCursor? || a.SetCursorDown? || a.SetZoom? || a.ApplyPan?) ==> r == st)
      && (st.Loaded? && a.HideCursor? ==> r.hideCursor == a.hide && r.cursorDown == (!a.hide && st.cursorDown))
      && (st.Loaded? && a.SetCursorDown? ==> r == st.(cursorDown := a.down))
      && (st.Loaded? && !a.LoadedBackground? ==> r.drawings == st.drawings && r.background == st.background)
  {
  }

  /** Loading a background always yields the reset loaded state with `(k+1)²` zeroed buffers. */
  lemma LoadedResets(st: State, bg: Background, bound: real -> real, root: real -> real)
    ensures var r := Reduce(st, LoadedBackground(bg), bound, root);
      && r.Ok? && r.value.Loaded?
      && r.value.zoom == 1.0 && r.value.pan == Vec(0.0, 0.0) && r.value.hideCursor && !r.value.cursorDown
      && |r.value.drawings| == 4
      && forall s :: 0 <= s < 4 ==> |r.value.drawings[s]| == (bg.width * bg.height / 4) * 4
  {
  }

  /** Zoom and pan leave the pan inside the (non-negative) bound of the resulting zoom. */
  lemma PanStaysBounded(st: State, a: Action, bound: real -> real, root: real -> real)
    requires Finite(st, a, root) && st.Loaded? && (a.SetZoom? || a.ApplyPan?)
    requires a.SetZoom? ==> bound(a.newZoom) >= 0.0
    requires a.ApplyPan? ==> bound(st.zoom) >= 0.0
    ensures var r := Reduce(st, a, bound, root).value; var b := bound(r.zoom);
      -b <= r.pan.x <= b && -b <= r.pan.y <= b
  {
  }
}

=== FILE: rle.dfy ===
/**
 * The run-length encoder script: one pass over the `segments` label list,
 * closing a run whenever the label changes, and the `[l,c]` text it prints.
 * A label is a JSON value; `None` stands for JSON `null`, which the script
 * cannot tell apart from its own "no run yet" sentinel.
 */
module RunLength {
  import opened Wrappers

  datatype Run<T> = Run(segment: Option<T>, count: nat)

  /** `count` copies of `label`. */
  function Repeat<T>(l: Option<T>, count: nat): (r: seq<Option<T>>)
    ensures |r| == count
    ensures forall i :: 0 <= i < count ==> r[i] == l
  {
    seq(count, _ => l)
  }

  /** The label list a run list stands for. */
  function Expand<T>(runs: seq<Run<T>>): seq<Option<T>>
  {
    if |runs| == 0 then [] else Expand(runs[..|runs| - 1]) + Repeat(runs[|runs| - 1].segment, runs[|runs| - 1].count)
  }

  function TotalCount<T>(runs: seq<Run<T>>): nat
  {
    if |runs| == 0 then 0 else TotalCount(runs[..|runs| - 1]) + runs[|runs| - 1].count
  }

  predicate NoNulls<T>(labels: seq<Option<T>>)
  {
    forall i :: 0 <= i < |labels| ==> labels[i].Some?
  }

  /** No two neighbouring labels are equal. */
  predicate AdjacentDistinct<T(==)>(labels: seq<T>)
  {
    forall i :: 0 < i < |labels| ==> labels[i - 1] != labels[i]
  }

  function Labels<T>(runs: seq<Run<T>>): (r: seq<Option<T>>)
    ensures |r| == |runs|
    ensures forall i :: 0 <= i < |runs| ==> r[i] == runs[i].segment
  {
    seq(|runs|, i requires 0 <= i < |runs| => runs[i].segment)
  }

  /**
   * The loop of the script with its state: the open run (`last`, `length`)
   * and the runs already printed. A run is closed only when the next label
   * differs from `last`, and it is printed only when `last` is not `None`;
   * after the loop the open run is printed unconditionally.
   */
  function EncodeFrom<T(==)>(labels: seq<Option<T>>, last: Option<T>, length: nat, closed: seq<Run<T>>): seq<Run<T>>
    decreases |labels|
  {
    if |labels| == 0 then closed + [Run(last, length)]
    else if labels[0] != last then
      EncodeFrom(labels[1..], labels[0], 1, if last.Some? then closed + [Run(last, length)] else closed)
    else
      EncodeFrom(labels[1..], last, length + 1, closed)
  }

  /**
   * The runs the script prints for `labels`. The result always ends with the
   * open run, so the empty list yields the single run `[None,0]`, and every
   * run but the last carries a non-null label: nulls in the middle are
   * swallowed by the sentinel.
   */
  function Encode<T(==)>(labels: seq<Option<T>>): (r: seq<Run<T>>)
    ensures |r| >= 1
    ensures labels == [] ==> r == [Run(None, 0)]
    ensures forall i :: 0 <= i < |r| - 1 ==> r[i].segment.Some?
    ensures |labels| > 0 ==> r[|r| - 1].segment == labels[|labels| - 1]
  {
    EncodeShape(labels, None, 0, []);
    EncodeFrom(labels, None, 0, [])
  }

  lemma {:induction false} EncodeShape<T>(labels: seq<Option<T>>, last: Option<T>, length: nat, closed: seq<Run<T>>)
    requires forall i :: 0 <= i < |closed| ==> closed[i].segment.Some?
    ensures var r := EncodeFrom(labels, last, length, closed);
      && |r| >= |closed| + 1
      && r[..|closed|] == closed
      && (forall i :: 0 <= i < |r| - 1 ==> r[i].segment.Some?)
      && r[|r| - 1].segment == (if |labels| == 0 then last else labels[|labels| - 1])
      && (|labels| == 0 ==> r[|r| - 1].count == length)
    decreases |labels|
  {
    if |labels| == 0 {
    } else if labels[0] != last {
      var closed' := if last.Some? then closed + [Run(last, length)] else closed;
      EncodeShape(labels[1..], labels[0], 1, closed');
      var r := EncodeFrom(labels[1..], labels[0], 1, closed');
      assert r[..|closed|] == r[..|closed'|][..|closed|];
    } else {
      EncodeShape(labels[1..], last, length + 1, closed);
    }
  }

  lemma {:induction false} ExpandAppend<T>(runs: seq<Run<T>>, run: Run<T>)
    ensures Expand(runs + [run]) == Expand(runs) + Repeat(run.segment, run.count)
  {
    assert (runs + [run])[..|runs|] == runs;
  }

  lemma {:induction false} ExpandLength<T>(runs: seq<Run<T>>)
    ensures |Expand(runs)| == TotalCount(runs)
    decreases |runs|
  {
    if |runs| > 0 {
      ExpandLength(runs[..|runs| - 1]);
    }
  }

  /** Closing the open run and opening one for `x` keeps the expansion of the runs so far followed by the rest. */
  lemma NewRunJoins<T>(closed: seq<Run<T>>, last: Option<T>, length: nat, x: Option<T>, rest: seq<Option<T>>)
    requires last.None? ==> length == 0
    ensures Expand(if last.Some? then closed + [Run(last, length)] else closed) + Repeat(x, 1) + rest
         == Expand(closed) + Repeat(last, length) + ([x] + rest)
  {
    if last.Some? {
      ExpandAppend(closed, Run(last, length));
    }
    assert Repeat(x, 1) == [x];
  }

  /** Lengthening the open run by one label keeps the expansion of the runs so far followed by the rest. */
  lemma SameRunJoins<T>(prefix: seq<Option<T>>, last: Option<T>, length: nat, rest: seq<Option<T>>)
    ensures prefix + Repeat(last, length + 1) + rest == prefix + Repeat(last, length) + ([last] + rest)
  {
    assert Repeat(last, length + 1) == Repeat(last, length) + [last];
  }

  lemma {:induction false} RoundTripFrom<T>(labels: seq<Option<T>>, last: Option<T>, length: nat, closed: seq<Run<T>>)
    requires NoNulls(labels)
    requires last.None? ==> length == 0
    ensures Expand(EncodeFrom(labels, last, length, closed)) == Expand(closed) + Repeat(last, length) + labels
    decreases |labels|
  {
    if |labels| == 0 {
      ExpandAppend(closed, Run(last, length));
    } else if labels[0] != last {
      var closed' := if last.Some? then closed + [Run(last, length)] else closed;
      RoundTripFrom(labels[1..], labels[0], 1, closed');
      NewRunJoins(closed, last, length, labels[0], labels[1..]);
      assert [labels[0]] + labels[1..] == labels;
    } else {
      RoundTripFrom(labels[1..], last, length + 1, closed);
      SameRunJoins(Expand(closed), last, length, labels[1..]);
      assert [labels[0]] + labels[1..] == labels;
    }
  }

  /**
   * Expanding the printed runs in order gives back the label list, provided
   * no label is null (the empty list encodes to `[None,0]`, which expands to
   * nothing).
   */
  lemma RoundTrip<T>(labels: seq<Option<T>>)
    requires NoNulls(labels)
    ensures Expand(Encode(labels)) == labels
  {
    RoundTripFrom(labels, None, 0, []);
  }

  /** For a non-empty null-free list every count is positive and they sum to its length. */
  lemma CountsPositiveAndSum<T>(labels: seq<Option<T>>)
    requires NoNulls(labels) && |labels| > 0
    ensures forall i :: 0 <= i < |Encode(labels)| ==> Encode(labels)[i].count >= 1
    ensures TotalCount(Encode(labels)) == |labels|
  {
    RoundTrip(labels);
    ExpandLength(Encode(labels));
    CountsPositiveFrom(labels, None, 0, []);
  }

  lemma {:induction false} CountsPositiveFrom<T>(labels: seq<Option<T>>, last: Option<T>, length: nat, closed: seq<Run<T>>)
    requires NoNulls(labels)
    requires forall i :: 0 <= i < |closed| ==> closed[i].count >= 1
    requires last.Some? ==> length >= 1
    requires last.None? ==> |labels| > 0
    ensures forall i :: 0 <= i < |EncodeFrom(labels, last, length, closed)| ==> EncodeFrom(labels, last, length, closed)[i].count >= 1
    decreases |labels|
  {
    if |labels| == 0 {
    } else if labels[0] != last {
      var closed' := if last.Some? then closed + [Run(last, length)] else closed;
      CountsPositiveFrom(labels[1..], labels[0], 1, closed');
    } else {
      CountsPositiveFrom(labels[1..], last, length + 1, closed);
    }
  }

  lemma {:induction false} AdjacentDistinctFrom<T>(labels: seq<Option<T>>, last: Option<T>, length: nat, closed: seq<Run<T>>)
    requires NoNulls(labels)
    requires AdjacentDistinct(Labels(closed))
    requires last.None? ==> closed == []
    requires |closed| > 0 ==> closed[|closed| - 1].segment != last
    ensures AdjacentDistinct(Labels(EncodeFrom(labels, last, length, closed)))
    decreases |labels|
  {
    if |labels| == 0 {
      assert Labels(closed + [Run(last, length)]) == Labels(closed) + [last];
    } else if labels[0] != last {
      var closed' := if last.Some? then closed + [Run(last, length)] else closed;
      if last.Some? {
        assert Labels(closed') == Labels(closed) + [last];
      }
      AdjacentDistinctFrom(labels[1..], labels[0], 1, closed');
    } else {
      AdjacentDistinctFrom(labels[1..], last, length + 1, closed);
    }
  }

  /**
   * Neighbouring printed runs never share a label when no label is null: a
   * run is closed only because the next label differs.
   */
  lemma RunsAdjacentDistinct<T>(labels: seq<Option<T>>)
    requires NoNulls(labels)
    ensures AdjacentDistinct(Labels(Encode(labels)))
  {
    AdjacentDistinctFrom(labels, None, 0, []);
  }

  /**
   * With a null between two equal labels the null is swallowed and two
   * neighbouring runs share a label, so neither the round trip nor the
   * distinctness of neighbouring runs survives nulls.
   */
  lemma NullIsSwallowed<T>(a: T)
    ensures Encode([Some(a), None, Some(a)]) == [Run(Some(a), 1), Run(Some(a), 1)]
    ensures Expand(Encode([Some(a), None, Some(a)])) != [Some(a), None, Some(a)]
  {
    var l := [Some(a), None, Some(a)];
    assert l[1..] == [None, Some(a)] && l[1..][1..] == [Some(a)] && l[1..][1..][1..] == [];
    var r := Encode(l);
    assert r == EncodeFrom(l[1..], Some(a), 1, []);
    assert l[1..][0] == None;
    assert [] + [Run(Some(a), 1)] == [Run(Some(a), 1)];
    assert r == EncodeFrom(l[1..][1..], None, 1, [] + [Run(Some(a), 1)]);
    assert r == EncodeFrom([], Some(a), 1, [Run(Some(a), 1)]);
    assert Expand(r) == [Some(a), Some(a)] by {
      ExpandAppend([Run(Some(a), 1)], Run(Some(a), 1));
      assert [Run(Some(a), 1)] == [] + [Run(Some(a), 1)];
      ExpandAppend([], Run(Some(a), 1));
    }
    assert |Expand(r)| != |l|;
  }

  /** The number of positions at which a label differs from the one before it (`prev` before the first). */
  function ChangeCount<T(==)>(prev: T, labels: seq<T>): (r: nat)
    ensures r <= |labels|
    ensures r == |labels| <==> AdjacentDistinct([prev] + labels)
    decreases |labels|
  {
    if |labels| == 0 then 0
    else
      var rest := ChangeCount(labels[0], labels[1..]);
      assert ([prev] + labels)[1..] == [labels[0]] + labels[1..];
      (if labels[0] != prev then 1 else 0) + rest
  }

  lemma {:induction false} RunCountFrom<T>(labels: seq<Option<T>>, last: Option<T>, length: nat, closed: seq<Run<T>>)
    requires NoNulls(labels) && last.Some?
    ensures |EncodeFrom(labels, last, length, closed)| == |closed| + 1 + ChangeCount(last, labels)
    decreases |labels|
  {
    if |labels| == 0 {
    } else if labels[0] != last {
      RunCountFrom(labels[1..], labels[0], 1, closed + [Run(last, length)]);
    } else {
      RunCountFrom(labels[1..], last, length + 1, closed);
    }
  }

  /**
   * A non-empty null-free list gives at most one run per label, and exactly
   * one per label iff no two neighbouring labels are equal.
   */
  lemma RunCount<T>(labels: seq<Option<T>>)
    requires NoNulls(labels) && |labels| > 0
    ensures |Encode(labels)| <= |labels|
    ensures |Encode(labels)| == |labels| <==> AdjacentDistinct(labels)
  {
    RunCountFrom(labels[1..], labels[0], 1, []);
    assert [labels[0]] + labels[1..] == labels;
  }

  /**
   * A guarded variant of the script's loop that prints nothing for an empty
   * list instead of the sentinel run. Unlike the script, it round-trips
   * every null-free list, the empty one included, and every run it prints
   * has a positive count.
   */
  function EncodeGuarded<T(==)>(labels: seq<Option<T>>): (r: seq<Run<T>>)
    ensures labels == [] <==> r == []
    ensures NoNulls(labels) ==> Expand(r) == labels
    ensures NoNulls(labels) ==> forall i :: 0 <= i < |r| ==> r[i].count >= 1
  {
    if labels == [] then []
    else if NoNulls(labels) then
      RoundTrip(labels);
      CountsPositiveAndSum(labels);
      Encode(labels)
    else Encode(labels)
  }

  // ---- Text -----------------------------------------------------------

  function DigitChar(d: nat): char
    requires d < 10
  {
    "0123456789"[d]
  }

  /** Python's `str` of a non-negative integer. */
  function ShowNat(n: nat): (r: string)
    ensures |r| >= 1
    ensures forall i :: 0 <= i < |r| ==> '0' <= r[i] <= '9'
  {
    if n < 10 then [DigitChar(n)] else ShowNat(n / 10) + [DigitChar(n % 10)]
  }

  /** `str(label)`; `show` renders a non-null JSON value, null prints as `None`. */
  function ShowLabel<T>(show: T -> string, l: Option<T>): string
  {
    match l
    case None => "None"
    case Some(v) => show(v)
  }

  function ShowRun<T>(show: T -> string, run: Run<T>): string
  {
    "[" + ShowLabel(show, run.segment) + "," + ShowNat(run.count) + "]"
  }

  /** Runs separated by commas, with no trailing comma. */
  function Join<T>(show: T -> string, runs: seq<Run<T>>): string
  {
    if |runs| == 0 then ""
    else if |runs| == 1 then ShowRun(show, runs[0])
    else ShowRun(show, runs[0]) + "," + Join(show, runs[1..])
  }

  /** What the loop prints for the closed runs: each followed by a comma. */
  function Terminated<T>(show: T -> string, runs: seq<Run<T>>): string
  {
    if |runs| == 0 then "" else ShowRun(show, runs[0]) + "," + Terminated(show, runs[1..])
  }

  /** The loop's prints as they happen, from the open run (`last`, `length`). */
  function PrintLoop<T(==)>(show: T -> string, labels: seq<Option<T>>, last: Option<T>, length: nat): string
    decreases |labels|
  {
    if |labels| == 0 then ShowRun(show, Run(last, length))
    else if labels[0] != last then
      (if last.Some? then ShowRun(show, Run(last, length)) + "," else "") + PrintLoop(show, labels[1..], labels[0], 1)
    else PrintLoop(show, labels[1..], last, length + 1)
  }

  const Usage := "Incorrect usage - input the file name to run-length encode"

  /**
   * Everything the script writes to standard output, given its argument
   * count and the `segments` list of the file it reads.
   */
  function ScriptOutput<T(==)>(argc: nat, show: T -> string, labels: seq<Option<T>>): string
  {
    if argc != 2 then Usage + "\n" else "[" + PrintLoop(show, labels, None, 0) + "]\n"
  }

  lemma {:induction false} TerminatedThenLast<T>(show: T -> string, runs: seq<Run<T>>, run: Run<T>)
    ensures Terminated(show, runs) + ShowRun(show, run) == Join(show, runs + [run])
    decreases |runs|
  {
    if |runs| > 0 {
      TerminatedThenLast(show, runs[1..], run);
      assert (runs + [run])[1..] == runs[1..] + [run];
    }
  }

  lemma {:induction false} TerminatedAppend<T>(show: T -> string, runs: seq<Run<T>>, run: Run<T>)
    ensures Terminated(show, runs + [run]) == Terminated(show, runs) + ShowRun(show, run) + ","
    decreases |runs|
  {
    if |runs| > 0 {
      TerminatedAppend(show, runs[1..], run);
      assert (runs + [run])[1..] == runs[1..] + [run];
    }
  }

  lemma {:induction false} PrintLoopJoins<T>(show: T -> string, labels: seq<Option<T>>, last: Option<T>, length: nat, closed: seq<Run<T>>)
    ensures Terminated(show, closed) + PrintLoop(show, labels, last, length) == Join(show, EncodeFrom(labels, last, length, closed))
    decreases |labels|
  {
    if |labels| == 0 {
      TerminatedThenLast(show, closed, Run(last, length));
    } else if labels[0] != last {
      var closed' := if last.Some? then closed + [Run(last, length)] else closed;
      PrintLoopJoins(show, labels[1..], labels[0], 1, closed');
      PrintLoopCloses(show, labels, last, length, closed);
    } else {
      PrintLoopJoins(show, labels[1..], last, length + 1, closed);
    }
  }

  /** One closing step of the loop: the printed run and its comma join the closed runs. */
  lemma PrintLoopCloses<T>(show: T -> string, labels: seq<Option<T>>, last: Option<T>, length: nat, closed: seq<Run<T>>)
    requires |labels| > 0 && labels[0] != last
    ensures var closed' := if last.Some? then closed + [Run(last, length)] else closed;
      Terminated(show, closed) + PrintLoop(show, labels, last, length)
      == Terminated(show, closed') + PrintLoop(show, labels[1..], labels[0], 1)
  {
    var t := Terminated(show, closed);
    var pre := if last.Some? then ShowRun(show, Run(last, length)) + "," else "";
    var rest := PrintLoop(show, labels[1..], labels[0], 1);
    assert PrintLoop(show, labels, last, length) == pre + rest;
    assert t + (pre + rest) == (t + pre) + rest;
    if last.Some? {
      TerminatedAppend(show, closed, Run(last, length));
      assert t + (ShowRun(show, Run(last, length)) + ",") == (t + ShowRun(show, Run(last, length))) + ",";
    } else {
      assert t + pre == t;
    }
  }

  /**
   * With one file argument the script prints `[`, the encoded runs rendered
   * `[l,c]` and joined by commas with no trailing comma, then `]`; with any
   * other argument count it prints only the usage message.
   */
  lemma OutputIsBracketedJoin<T>(argc: nat, show: T -> string, labels: seq<Option<T>>)
    ensures argc == 2 ==> ScriptOutput(argc, show, labels) == "[" + Join(show, Encode(labels)) + "]\n"
    ensures argc != 2 ==> ScriptOutput(argc, show, labels) == Usage + "\n"
  {
    PrintLoopJoins(show, labels, None, 0, []);
  }

  /** An empty `segments` list still prints its sentinel run. */
  lemma EmptyInputOutput<T>(show: T -> string)
    ensures ScriptOutput(2, show, []) == "[[None,0]]\n"
  {
  }
}

=== FILE: scoring.dfy ===
/**
 * The segmentation score of the server: the input labelling is compared
 * with a reference labelling of the same w×h image. Cells with a defined
 * input label are tallied into `counts[input][reference]`, each input
 * label is greedily matched to an unused reference label, and the score is
 * the matched tally over the cells that count. Ratios are exact reals; a
 * 0/0 ratio (JavaScript's NaN) is `None`.
 */
module Scoring {
  import opened Wrappers
  import opened JsCollections
  import opened Grid

  /** A cell of a label array: a number, `null`, or a hole (`undefined`). */
  datatype Cell = Null | Undefined | Label(n: int)

  type Tallies = JsMap<Cell, nat>

  type Counts = JsMap<Cell, Tallies>

  const Mismatch: string := "Dimension of correct and image must match the total size of the image"

  // ---- Sums over JavaScript maps -----------------------------------------

  /** A missing key reads as 0. */
  function Value<K>(t: map<K, nat>, k: K): nat
  {
    if k in t then t[k] else 0
  }

  /** The values at `keys`, added up in order. */
  function Sum<K>(keys: seq<K>, t: map<K, nat>): nat
    decreases |keys|
  {
    if |keys| == 0 then 0 else Value(t, keys[0]) + Sum(keys[1..], t)
  }

  lemma {:induction false} SumAppend<K>(keys: seq<K>, k: K, t: map<K, nat>)
    ensures Sum(keys + [k], t) == Sum(keys, t) + Value(t, k)
    decreases |keys|
  {
    if |keys| > 0 {
      assert (keys + [k])[1..] == keys[1..] + [k];
      SumAppend(keys[1..], k, t);
    }
  }

  /** Changing one value of a key listed once changes the sum by the difference; an unlisted key does not count. */
  lemma {:induction false} SumUpdate<K>(keys: seq<K>, t: map<K, nat>, k: K, v: nat)
    requires Distinct(keys)
    ensures k in keys ==> Sum(keys, t[k := v]) + Value(t, k) == Sum(keys, t) + v
    ensures k !in keys ==> Sum(keys, t[k := v]) == Sum(keys, t)
    decreases |keys|
  {
    if |keys| > 0 {
      assert Distinct(keys[1..]);
      SumUpdate(keys[1..], t, k, v);
      if keys[0] == k {
        assert k !in keys[1..];
      }
    }
  }

  /** Setting key `k` of a table listed by distinct `keys`, appending `k` when it is new, changes the sum by the new value minus the old one. */
  lemma SumPut<K>(keys: seq<K>, t: map<K, nat>, k: K, v: nat)
    requires Distinct(keys) && (k !in keys ==> k !in t)
    ensures Sum(if k in keys then keys else keys + [k], t[k := v]) + Value(t, k) == Sum(keys, t) + v
  {
    SumUpdate(keys, t, k, v);
    if k !in keys {
      SumAppend(keys, k, t[k := v]);
    }
  }

  lemma {:induction false} SumAtLeast<K>(keys: seq<K>, t: map<K, nat>, k: K)
    requires k in keys
    ensures Value(t, k) <= Sum(keys, t)
    decreases |keys|
  {
    if keys[0] != k {
      SumAtLeast(keys[1..], t, k);
    }
  }

  lemma {:induction false} SumMonotone<K>(keys: seq<K>, t: map<K, nat>, u: map<K, nat>)
    requires forall k :: k in keys ==> Value(t, k) <= Value(u, k)
    ensures Sum(keys, t) <= Sum(keys, u)
    decreases |keys|
  {
    if |keys| > 0 {
      SumMonotone(keys[1..], t, u);
    }
  }

  function InnerTotal(m: Tallies): nat
  {
    Sum(m.keys, m.table)
  }

  function Totals(c: Counts): map<Cell, nat>
  {
    map k | k in c.table :: InnerTotal(c.table[k])
  }

  /** Every tally in the counts. */
  function Total(c: Counts): nat
  {
    Sum(c.keys, Totals(c))
  }

  /** `counts[seg][ref]`, 0 when either map lacks the key. */
  function TableCount(c: Counts, seg: Cell, ref: Cell): nat
  {
    if seg in c.table then Value(c.table[seg].table, ref) else 0
  }

  // ---- Tallying -------------------------------------------------------

  /** Lines 59-72: one popped cell adds one to `counts[seg][ref]` unless `ref` is null. */
  function Tally(c: Counts, seg: Cell, ref: Cell): Counts
  {
    if ref == Null then c
    else
      var inner := Get(c, seg).GetOr(EmptyMap());
      Put(c, seg, Put(inner, ref, Get(inner, ref).GetOr(0) + 1))
  }

  /** A tally adds one to its own table entry and changes no other. */
  lemma TallyEntry(c: Counts, seg: Cell, ref: Cell, s: Cell, r: Cell)
    ensures TableCount(Tally(c, seg, ref), s, r) == TableCount(c, s, r) + (if s == seg && r == ref && ref != Null then 1 else 0)
  {
    if ref != Null {
      if s == seg {
        TallyOwnRow(c, seg, ref, r);
      } else {
        TallyOtherRow(c, seg, ref, s, r);
      }
    }
  }

  lemma TallyOwnRow(c: Counts, seg: Cell, ref: Cell, r: Cell)
    requires ref != Null
    ensures TableCount(Tally(c, seg, ref), seg, r) == TableCount(c, seg, r) + (if r == ref then 1 else 0)
  {
    var inner := Get(c, seg).GetOr(EmptyMap());
    RowOf(c, seg);
    var row := TallyRow(c, seg, ref);
    OwnRowValue(inner, ref, r, row);
  }

  /** The row a tally stores: `seg`'s row with `ref`'s tally one higher. */
  lemma TallyRow(c: Counts, seg: Cell, ref: Cell) returns (row: Tallies)
    requires ref != Null
    ensures seg in Tally(c, seg, ref).table && Tally(c, seg, ref).table[seg] == row
    ensures row == Put(Get(c, seg).GetOr(EmptyMap()), ref, Value(Get(c, seg).GetOr(EmptyMap()).table, ref) + 1)
  {
    var inner := Get(c, seg).GetOr(EmptyMap());
    CountOf(inner, ref);
    row := Put(inner, ref, Value(inner.table, ref) + 1);
  }

  /** Adding one to `ref`'s tally in a row changes no other entry of it. */
  lemma OwnRowValue(inner: Tallies, ref: Cell, r: Cell, row: Tallies)
    requires row == Put(inner, ref, Value(inner.table, ref) + 1)
    ensures Value(row.table, r) == Value(inner.table, r) + (if r == ref then 1 else 0)
  {
  }

  /** The row `counts.get(seg) || new Map()` holds `seg`'s tallies. */
  lemma RowOf(c: Counts, seg: Cell)
    ensures forall r :: TableCount(c, seg, r) == Value(Get(c, seg).GetOr(EmptyMap()).table, r)
  {
    if seg in c.table {
      assert Get(c, seg) == Some(c.table[seg]);
    } else {
      assert Get(c, seg) == None;
    }
  }

  /** `inner.get(ref) || 0` is the tally read as 0 when missing. */
  lemma CountOf(inner: Tallies, ref: Cell)
    ensures Get(inner, ref).GetOr(0) == Value(inner.table, ref)
  {
    if ref in inner.table {
      assert Get(inner, ref) == Some(inner.table[ref]);
    } else {
      assert Get(inner, ref) == None;
    }
  }

  lemma TallyOtherRow(c: Counts, seg: Cell, ref: Cell, s: Cell, r: Cell)
    requires ref != Null && s != seg
    ensures TableCount(Tally(c, seg, ref), s, r) == TableCount(c, s, r)
  {
    assert s in Tally(c, seg, ref).table <==> s in c.table;
  }

  lemma InnerStep(inner: Tallies, ref: Cell)
    ensures InnerTotal(Put(inner, ref, Value(inner.table, ref) + 1)) == InnerTotal(inner) + 1
  {
    SumPut(inner.keys, inner.table, ref, Value(inner.table, ref) + 1);
  }

  lemma OuterStep(c: Counts, seg: Cell, inner: Tallies)
    ensures Total(Put(c, seg, inner)) + Value(Totals(c), seg) == Total(c) + InnerTotal(inner)
  {
    var after := Totals(Put(c, seg, inner));
    var expected := Totals(c)[seg := InnerTotal(inner)];
    forall k ensures Value(after, k) == Value(expected, k) {
      TotalsAt(c, seg, inner, k);
    }
    SumMonotone(Put(c, seg, inner).keys, after, expected);
    SumMonotone(Put(c, seg, inner).keys, expected, after);
    SumPut(c.keys, Totals(c), seg, InnerTotal(inner));
  }

  /** Storing `inner` under `seg` changes only `seg`'s total. */
  lemma TotalsAt(c: Counts, seg: Cell, inner: Tallies, k: Cell)
    ensures Value(Totals(Put(c, seg, inner)), k) == Value(Totals(c)[seg := InnerTotal(inner)], k)
  {
  }

  /** A tally adds one to the total unless its reference label is null. */
  lemma TallyTotal(c: Counts, seg: Cell, ref: Cell)
    ensures Total(Tally(c, seg, ref)) == Total(c) + (if ref != Null then 1 else 0)
  {
    if ref != Null {
      var inner := Get(c, seg).GetOr(EmptyMap());
      InnerStep(inner, ref);
      OuterStep(c, seg, Put(inner, ref, Value(inner.table, ref) + 1));
      assert Value(Totals(c), seg) == InnerTotal(inner);
    }
  }

  /** The cells of `S` whose input label is `seg` and whose reference label is `ref`. */
  ghost function Pair(reference: seq<Cell>, input: seq<Cell>, S: set<int>, seg: Cell, ref: Cell): set<int>
  {
    set j | j in S && 0 <= j < |input| && j < |reference| && input[j] == seg && reference[j] == ref
  }

  /** The cells of `S` with a reference label that is not null. */
  ghost function NonNull(reference: seq<Cell>, S: set<int>): set<int>
  {
    set j | j in S && 0 <= j < |reference| && reference[j] != Null
  }

  /** The cells whose input label is defined. */
  ghost function Defined(input: seq<Cell>): set<int>
  {
    set j | 0 <= j < |input| && input[j] != Undefined
  }

  /** The counts hold exactly the tallies of the cells in `S`. */
  ghost predicate CountsMatch(c: Counts, reference: seq<Cell>, input: seq<Cell>, S: set<int>)
  {
    && (forall seg, ref :: ref != Null ==> TableCount(c, seg, ref) == |Pair(reference, input, S, seg, ref)|)
    && (forall seg :: TableCount(c, seg, Null) == 0)
    && Total(c) == |NonNull(reference, S)|
  }

  lemma PairStep(reference: seq<Cell>, input: seq<Cell>, S: set<int>, n: int, seg: Cell, ref: Cell)
    requires n !in S && 0 <= n < |input| && n < |reference|
    ensures |Pair(reference, input, S + {n}, seg, ref)| == |Pair(reference, input, S, seg, ref)| + (if input[n] == seg && reference[n] == ref then 1 else 0)
  {
    if input[n] == seg && reference[n] == ref {
      PairGrows(reference, input, S, n, seg, ref);
    } else {
      PairSame(reference, input, S, n, seg, ref);
    }
  }

  lemma PairGrows(reference: seq<Cell>, input: seq<Cell>, S: set<int>, n: int, seg: Cell, ref: Cell)
    requires n !in S && 0 <= n < |input| && n < |reference| && input[n] == seg && reference[n] == ref
    ensures Pair(reference, input, S + {n}, seg, ref) == Pair(reference, input, S, seg, ref) + {n}
    ensures n !in Pair(reference, input, S, seg, ref)
  {
  }

  lemma PairSame(reference: seq<Cell>, input: seq<Cell>, S: set<int>, n: int, seg: Cell, ref: Cell)
    requires n !in S && 0 <= n < |input| && n < |reference| && !(input[n] == seg && reference[n] == ref)
    ensures Pair(reference, input, S + {n}, seg, ref) == Pair(reference, input, S, seg, ref)
  {
  }

  lemma NonNullStep(reference: seq<Cell>, S: set<int>, n: int)
    requires n !in S && 0 <= n < |reference|
    ensures |NonNull(reference, S + {n})| == |NonNull(reference, S)| + (if reference[n] != Null then 1 else 0)
  {
    if reference[n] != Null {
      assert NonNull(reference, S + {n}) == NonNull(reference, S) + {n};
    } else {
      assert NonNull(reference, S + {n}) == NonNull(reference, S);
    }
  }

  lemma TallyStep(c: Counts, reference: seq<Cell>, input: seq<Cell>, S: set<int>, n: int)
    requires CountsMatch(c, reference, input, S)
    requires n !in S && 0 <= n < |input| && n < |reference|
    ensures CountsMatch(Tally(c, input[n], reference[n]), reference, input, S + {n})
  {
    var c' := Tally(c, input[n], reference[n]);
    forall seg, ref | ref != Null
      ensures TableCount(c', seg, ref) == |Pair(reference, input, S + {n}, seg, ref)|
    {
      TallyEntry(c, input[n], reference[n], seg, ref);
      PairStep(reference, input, S, n, seg, ref);
    }
    forall seg
      ensures TableCount(c', seg, Null) == 0
    {
      TallyEntry(c, input[n], reference[n], seg, Null);
    }
    TallyTotal(c, input[n], reference[n]);
    NonNullStep(reference, S, n);
  }

  // ---- The scan ---------------------------------------------------------

  /** The number of cells not yet found. */
  function Falses(found: seq<bool>): nat
    decreases |found|
  {
    if |found| == 0 then 0 else (if found[0] then 0 else 1) + Falses(found[1..])
  }

  lemma {:induction false} FalsesMark(found: seq<bool>, j: int)
    requires 0 <= j < |found| && !found[j]
    ensures Falses(found[j := true]) + 1 == Falses(found)
    decreases |found|
  {
    if j > 0 {
      assert found[j := true][1..] == found[1..][j - 1 := true];
      FalsesMark(found[1..], j - 1);
    }
  }

  /** The `d`-th orthogonal neighbour of `(x, y)`. */
  function Neighbour(x: int, y: int, d: int): Pos
    requires 0 <= d < 4
  {
    Add(Pos(x, y), Orthogonal()[d])
  }

  /** The indices of the in-bounds orthogonal neighbours of `(x, y)`. */
  ghost function Around(w: int, h: int, x: int, y: int): set<int>
  {
    set d | 0 <= d < 4 && InBounds(w, h, Neighbour(x, y, d)) :: CellIndex(w, h, Neighbour(x, y, d))
  }

  /** Lines 75-82 for one direction: push `p` if it is in bounds, not yet found and labelled `seg`. */
  method TryPush(w: nat, h: nat, p: Pos, seg: Cell, input: seq<Cell>, found: seq<bool>, stack: seq<int>)
    returns (found': seq<bool>, stack': seq<int>)
    requires |input| == w * h && |found| == w * h
    ensures if InBounds(w, h, p) && !found[CellIndex(w, h, p)] && input[CellIndex(w, h, p)] == seg
            then 0 <= CellIndex(w, h, p) < |found| && found' == found[CellIndex(w, h, p) := true] && stack' == stack + [CellIndex(w, h, p)]
            else found' == found && stack' == stack
  {
    found', stack' := found, stack;
    if 0 <= p.x < w && 0 <= p.y < h {
      var index := CellIndex(w, h, p);
      if !found[index] && input[index] == seg {
        stack' := stack + [index];
        found' := found[index := true];
      }
    }
  }

  /**
   * Lines 73-84: the four orthogonal neighbours of `(x, y)` that are in
   * bounds, not yet found and labelled `seg` are marked found and pushed.
   * `(x, y)` is the cell the search started from, not the popped one.
   */
  method PushNeighbours(w: nat, h: nat, x: int, y: int, seg: Cell, input: seq<Cell>, found: seq<bool>, stack: seq<int>)
    returns (found': seq<bool>, stack': seq<int>)
    requires |input| == w * h && |found| == w * h
    ensures |found'| == |found| && |stack| <= |stack'| && stack'[..|stack|] == stack
    ensures forall k :: |stack| <= k < |stack'| ==> 0 <= stack'[k] < |found| && !found[stack'[k]] && input[stack'[k]] == seg
    ensures forall k, l :: |stack| <= k < l < |stack'| ==> stack'[k] != stack'[l]
    ensures forall j :: 0 <= j < |found| ==> (found'[j] <==> found[j] || j in stack'[|stack|..])
    ensures Falses(found') + (|stack'| - |stack|) == Falses(found)
    ensures forall k :: |stack| <= k < |stack'| ==> stack'[k] in Around(w, h, x, y)
    ensures forall d :: (0 <= d < 4 && InBounds(w, h, Neighbour(x, y, d)) && input[CellIndex(w, h, Neighbour(x, y, d))] == seg
      ==> found'[CellIndex(w, h, Neighbour(x, y, d))])
  {
    found' := found;
    stack' := stack;
    ghost var news: seq<int> := [];
    var d := 0;
    while d < 4
      invariant Pushed(w, h, x, y, seg, input, found, stack, d, found', stack', news)
    {
      found', stack', news := PushOne(w, h, x, y, seg, input, found, stack, d, found', stack', news);
      d := d + 1;
    }
    assert stack'[|stack|..] == news;
  }

  /** The loop state of lines 73-84 after the first `d` directions, `news` being the cells pushed so far. */
  ghost predicate Pushed(w: nat, h: nat, x: int, y: int, seg: Cell, input: seq<Cell>, found: seq<bool>, stack: seq<int>,
                         d: int, found': seq<bool>, stack': seq<int>, news: seq<int>)
  {
    && 0 <= d <= 4 && |input| == w * h && |found| == w * h
    && |found'| == |found| && stack' == stack + news
    && (forall k :: 0 <= k < |news| ==> 0 <= news[k] < |found| && !found[news[k]] && input[news[k]] == seg)
    && (forall k, l :: 0 <= k < l < |news| ==> news[k] != news[l])
    && (forall j :: 0 <= j < |found| ==> (found'[j] <==> found[j] || j in news))
    && Falses(found') + |news| == Falses(found)
    && (forall k :: 0 <= k < |news| ==> news[k] in Around(w, h, x, y))
    && (forall e :: (0 <= e < d && InBounds(w, h, Neighbour(x, y, e)) && input[CellIndex(w, h, Neighbour(x, y, e))] == seg
        ==> found'[CellIndex(w, h, Neighbour(x, y, e))]))
  }

  /** One direction of lines 73-84. */
  method PushOne(w: nat, h: nat, x: int, y: int, seg: Cell, input: seq<Cell>, found: seq<bool>, stack: seq<int>,
                 d: int, found': seq<bool>, stack': seq<int>, ghost news: seq<int>)
    returns (found'': seq<bool>, stack'': seq<int>, ghost news': seq<int>)
    requires d < 4 && Pushed(w, h, x, y, seg, input, found, stack, d, found', stack', news)
    ensures Pushed(w, h, x, y, seg, input, found, stack, d + 1, found'', stack'', news')
  {
    var p := Neighbour(x, y, d);
    found'', stack'' := TryPush(w, h, p, seg, input, found', stack');
    news' := news;
    if stack'' != stack' {
      var i := CellIndex(w, h, p);
      FalsesMark(found', i);
      assert i in Around(w, h, x, y);
      news' := news + [i];
    }
  }

  /** The cells the score is out of: a non-null reference label, or a defined input over a null one. */
  ghost function Scored(reference: seq<Cell>, input: seq<Cell>, n: int): set<int>
  {
    set j | 0 <= j < n && j < |reference| && j < |input| && (reference[j] != Null || input[j] != Undefined)
  }

  /** The cells found so far are exactly the tallied ones, all with a defined input label. */
  ghost predicate FoundTallied(found: seq<bool>, input: seq<Cell>, tallied: set<int>)
  {
    && (forall j :: 0 <= j < |found| ==> (found[j] <==> j in tallied))
    && (forall j :: j in tallied ==> 0 <= j < |found| && j < |input| && input[j] != Undefined)
  }

  /** The search's stack: distinct unfound-before cells labelled `seg`; found means tallied or on the stack. */
  ghost predicate Frontier(size: int, input: seq<Cell>, seg: Cell, found: seq<bool>, stack: seq<int>, tallied: set<int>)
  {
    && |found| == size && |input| == size
    && (forall k :: 0 <= k < |stack| ==> 0 <= stack[k] < size && input[stack[k]] == seg && stack[k] !in tallied)
    && (forall k, l :: 0 <= k < l < |stack| ==> stack[k] != stack[l])
    && (forall j :: 0 <= j < size ==> (found[j] <==> j in tallied || j in stack))
    && (forall j :: j in tallied ==> 0 <= j < size && input[j] != Undefined)
  }

  /** One iteration of the search loop, apart from the tally: pop, then push the start's neighbours. */
  method SearchStep(w: nat, h: nat, x: int, y: int, seg: Cell, input: seq<Cell>, found: seq<bool>, stack: seq<int>, ghost tallied: set<int>)
    returns (found': seq<bool>, stack': seq<int>)
    requires |stack| > 0 && seg != Undefined && Frontier(w * h, input, seg, found, stack, tallied)
    ensures Frontier(w * h, input, seg, found', stack', tallied + {stack[|stack| - 1]})
    ensures forall j :: j in stack && j != stack[|stack| - 1] ==> j in stack'
    ensures Falses(found') < Falses(found) || (Falses(found') == Falses(found) && |stack'| < |stack|)
  {
    var rest := stack[..|stack| - 1];
    found', stack' := PushNeighbours(w, h, x, y, seg, input, found, rest);
    ghost var news := stack'[|rest|..];
    assert stack' == rest + news;
    assert forall k :: 0 <= k < |news| ==> news[k] == stack'[|rest| + k];
    FrontierPop(w * h, input, seg, found, stack, tallied, rest, news, found');
    PopProgress(found, stack, rest, news, found');
  }

  /** Popping the top of `stack` and pushing fresh cells labelled `seg` keeps the frontier, with the popped cell tallied. */
  lemma FrontierPop(size: int, input: seq<Cell>, seg: Cell, found: seq<bool>, stack: seq<int>, tallied: set<int>,
                    rest: seq<int>, news: seq<int>, found': seq<bool>)
    requires |stack| > 0 && seg != Undefined && Frontier(size, input, seg, found, stack, tallied)
    requires rest == stack[..|stack| - 1]
    requires forall k :: 0 <= k < |news| ==> 0 <= news[k] < size && !found[news[k]] && input[news[k]] == seg
    requires forall k, l :: 0 <= k < l < |news| ==> news[k] != news[l]
    requires |found'| == size && forall j :: 0 <= j < size ==> (found'[j] <==> found[j] || j in news)
    ensures Frontier(size, input, seg, found', rest + news, tallied + {stack[|stack| - 1]})
  {
    var n := stack[|stack| - 1];
    var stack' := rest + news;
    assert forall k :: 0 <= k < |rest| ==> rest[k] == stack[k] && rest[k] != n;
    assert forall j :: j in stack <==> j in rest || j == n;
    assert forall j :: j in stack' <==> j in rest || j in news;
    forall k, l | 0 <= k < l < |stack'|
      ensures stack'[k] != stack'[l]
    {
      if l >= |rest| && k < |rest| {
        assert found[rest[k]];
        assert stack'[l] == news[l - |rest|];
      }
    }
  }

  /** The search loop's measure falls: fewer unfound cells, or as many and a shorter stack. */
  lemma PopProgress(found: seq<bool>, stack: seq<int>, rest: seq<int>, news: seq<int>, found': seq<bool>)
    requires |stack| > 0 && rest == stack[..|stack| - 1]
    requires Falses(found') + |news| == Falses(found)
    ensures forall j :: j in stack && j != stack[|stack| - 1] ==> j in rest + news
    ensures Falses(found') < Falses(found) || (Falses(found') == Falses(found) && |rest + news| < |stack|)
  {
    assert forall k :: 0 <= k < |rest| ==> rest[k] == stack[k];
    assert forall j :: j in stack <==> j in rest || j == stack[|stack| - 1];
  }

  /**
   * Lines 49-85: the search from cell `i`, which tallies `i` and every
   * cell it pushes, each once.
   */
  method Search(w: nat, h: nat, i: int, reference: seq<Cell>, input: seq<Cell>, found: seq<bool>, counts: Counts, ghost tallied: set<int>)
    returns (found': seq<bool>, counts': Counts, ghost tallied': set<int>)
    requires |reference| == w * h && |input| == w * h && |found| == w * h
    requires 0 <= i < w * h && input[i] != Undefined && !found[i]
    requires FoundTallied(found, input, tallied) && CountsMatch(counts, reference, input, tallied)
    ensures |found'| == w * h && FoundTallied(found', input, tallied') && CountsMatch(counts', reference, input, tallied')
    ensures tallied <= tallied' && i in tallied'
  {
    assert w > 0;
    var x, y := i % w, i / w;
    var seg := input[i];
    var stack := [i];
    found' := found[i := true];
    counts' := counts;
    tallied' := tallied;
    while |stack| > 0
      invariant Frontier(w * h, input, seg, found', stack, tallied')
      invariant tallied <= tallied' && (i in tallied' || i in stack)
      invariant CountsMatch(counts', reference, input, tallied')
      decreases Falses(found'), |stack|
    {
      var n := stack[|stack| - 1];
      TallyStep(counts', reference, input, tallied', n);
      counts' := Tally(counts', input[n], reference[n]);
      found', stack := SearchStep(w, h, x, y, seg, input, found', stack, tallied');
      tallied' := tallied' + {n};
    }
  }

  /**
   * Lines 24-86: the denominator, and the counts, in which every cell with
   * a defined input label is tallied exactly once, under its own input and
   * reference labels. The search quirk changes only the order of the keys,
   * never the table.
   */
  method Scan(w: nat, h: nat, reference: seq<Cell>, input: seq<Cell>) returns (counts: Counts, numRef: nat)
    requires |reference| == w * h && |input| == w * h
    ensures numRef == |Scored(reference, input, w * h)|
    ensures CountsMatch(counts, reference, input, Defined(input))
  {
    var size := w * h;
    var found := seq(size, _ => false);
    counts := EmptyMap();
    numRef := 0;
    ghost var tallied: set<int> := {};
    ScanStart(size, reference, input);
    var i := 0;
    while i < size
      invariant ScanState(w * h, reference, input, i, found, counts, numRef, tallied)
    {
      found, counts, numRef, tallied := ScanCell(w, h, reference, input, i, found, counts, numRef, tallied);
      i := i + 1;
    }
    AllTallied(found, input, tallied);
  }

  /** Before the first cell nothing is counted, found or tallied. */
  lemma ScanStart(size: nat, reference: seq<Cell>, input: seq<Cell>)
    requires |input| == size
    ensures ScanState(size, reference, input, 0, seq(size, _ => false), EmptyMap(), 0, {})
  {
    assert Scored(reference, input, 0) == {};
    forall seg, ref ensures Pair(reference, input, {}, seg, ref) == {} { }
    assert NonNull(reference, {}) == {};
  }

  /** The state of the scan before cell `i`: the cells before it are counted, searched and tallied. */
  ghost predicate ScanState(size: int, reference: seq<Cell>, input: seq<Cell>, i: int,
                            found: seq<bool>, counts: Counts, numRef: nat, tallied: set<int>)
  {
    && 0 <= i <= size && |found| == size && |input| == size
    && numRef == |Scored(reference, input, i)|
    && FoundTallied(found, input, tallied)
    && (forall j :: 0 <= j < i && input[j] != Undefined ==> j in tallied)
    && CountsMatch(counts, reference, input, tallied)
  }

  /** Lines 38-86 for one cell: count it, then search from it unless it is a hole or already found. */
  method ScanCell(w: nat, h: nat, reference: seq<Cell>, input: seq<Cell>, i: int,
                  found: seq<bool>, counts: Counts, numRef: nat, ghost tallied: set<int>)
    returns (found': seq<bool>, counts': Counts, numRef': nat, ghost tallied': set<int>)
    requires |reference| == w * h && i < w * h && ScanState(w * h, reference, input, i, found, counts, numRef, tallied)
    ensures ScanState(w * h, reference, input, i + 1, found', counts', numRef', tallied')
  {
    ScoredStep(reference, input, i);
    numRef' := numRef;
    if reference[i] != Null || input[i] != Undefined {
      numRef' := numRef + 1;
    }
    found', counts', tallied' := found, counts, tallied;
    if input[i] != Undefined && !found[i] {
      found', counts', tallied' := Search(w, h, i, reference, input, found, counts, tallied);
    }
  }

  /** One more cell adds one scored cell exactly when it has a non-null reference or a defined input. */
  lemma ScoredStep(reference: seq<Cell>, input: seq<Cell>, i: int)
    requires 0 <= i < |reference| && i < |input|
    ensures |Scored(reference, input, i + 1)| ==
      |Scored(reference, input, i)| + (if reference[i] != Null || input[i] != Undefined then 1 else 0)
  {
    if reference[i] != Null || input[i] != Undefined {
      ScoredGrows(reference, input, i);
    } else {
      ScoredSame(reference, input, i);
    }
  }

  lemma ScoredGrows(reference: seq<Cell>, input: seq<Cell>, i: int)
    requires 0 <= i < |reference| && i < |input| && (reference[i] != Null || input[i] != Undefined)
    ensures Scored(reference, input, i + 1) == Scored(reference, input, i) + {i}
    ensures i !in Scored(reference, input, i)
  {
  }

  lemma ScoredSame(reference: seq<Cell>, input: seq<Cell>, i: int)
    requires 0 <= i < |reference| && i < |input| && reference[i] == Null && input[i] == Undefined
    ensures Scored(reference, input, i + 1) == Scored(reference, input, i)
  {
  }

  /** After the whole scan, the tallied cells are exactly those with a defined input label. */
  lemma AllTallied(found: seq<bool>, input: seq<Cell>, tallied: set<int>)
    requires |found| == |input| && FoundTallied(found, input, tallied)
    requires forall j :: 0 <= j < |input| && input[j] != Undefined ==> j in tallied
    ensures tallied == Defined(input)
  {
    assert forall j :: j in Defined(input) <==> j in tallied;
  }

  // ---- The greedy matching ---------------------------------------------

  /**
   * Lines 106-113: the inner `forEach`, keeping the unused key with the
   * strictly largest count seen so far.
   */
  function Best(keys: seq<Cell>, t: map<Cell, nat>, used: set<Cell>, max: nat, maxInd: Option<Cell>): (nat, Option<Cell>)
    decreases |keys|
  {
    if |keys| == 0 then (max, maxInd)
    else
      var k := keys[0];
      if k in used || k !in t || t[k] <= max then Best(keys[1..], t, used, max, maxInd)
      else Best(keys[1..], t, used, t[k], Some(k))
  }

  lemma {:induction false} BestSpec(keys: seq<Cell>, t: map<Cell, nat>, used: set<Cell>, max: nat, maxInd: Option<Cell>)
    requires Distinct(keys) && (maxInd.Some? ==> maxInd.value !in keys)
    ensures var r := Best(keys, t, used, max, maxInd);
      && r.0 >= max
      && (forall k :: k in keys && k !in used && k in t ==> t[k] <= r.0)
      && (r.1 == maxInd ==> r.0 == max)
      && (r.1 != maxInd ==> r.1.Some? && r.1.value in keys && r.1.value !in used && r.1.value in t && t[r.1.value] == r.0 && r.0 > max)
    decreases |keys|
  {
    if |keys| > 0 {
      var k := keys[0];
      assert Distinct(keys[1..]);
      if k in used || k !in t || t[k] <= max {
        BestSpec(keys[1..], t, used, max, maxInd);
      } else {
        BestSpec(keys[1..], t, used, t[k], Some(k));
      }
    }
  }

  /** Ties go to the key met first. */
  lemma {:induction false} BestFirst(keys: seq<Cell>, t: map<Cell, nat>, used: set<Cell>, max: nat, maxInd: Option<Cell>)
    requires Distinct(keys) && (maxInd.Some? ==> maxInd.value !in keys)
    ensures var r := Best(keys, t, used, max, maxInd);
      r.1 != maxInd ==> r.1.Some? && forall i :: 0 <= i < |keys| && keys[i] !in used && keys[i] in t && t[keys[i]] == r.0 ==> r.1.value in keys[..i + 1]
    decreases |keys|
  {
    BestSpec(keys, t, used, max, maxInd);
    if |keys| > 0 {
      var k := keys[0];
      assert Distinct(keys[1..]);
      var skip := k in used || k !in t || t[k] <= max;
      var m := if skip then max else t[k];
      var mi := if skip then maxInd else Some(k);
      BestFirst(keys[1..], t, used, m, mi);
      BestSpec(keys[1..], t, used, m, mi);
      var r := Best(keys[1..], t, used, m, mi);
      if r.1 != maxInd {
        forall i | 0 <= i < |keys| && keys[i] !in used && keys[i] in t && t[keys[i]] == r.0
          ensures r.1.value in keys[..i + 1]
        {
          FirstWithin(keys, i, r.1.value, r.1 == mi);
        }
      }
    }
  }

  /** The winner is among the first `i + 1` keys: it is the head, or it is among the tail's first `i`. */
  lemma FirstWithin(keys: seq<Cell>, i: int, v: Cell, head: bool)
    requires 0 <= i < |keys|
    requires head ==> v == keys[0]
    requires !head ==> 0 < i && v in keys[1..][..i]
    ensures v in keys[..i + 1]
  {
    if head {
      assert keys[..i + 1][0] == keys[0];
    } else {
      assert keys[1..][..i] == keys[1..i + 1];
    }
  }

  /**
   * The choice for one input label: the first unused reference label with
   * the largest positive tally, and none exactly when every unused tally is 0.
   */
  lemma BestChoice(m: Tallies, used: set<Cell>)
    ensures var r := Best(m.keys, m.table, used, 0, None).1;
      && (r.None? <==> forall k :: k in m.table && k !in used ==> m.table[k] == 0)
      && (r.Some? ==> r.value in m.table && r.value !in used && m.table[r.value] > 0)
      && (r.Some? ==> forall k :: k in m.table && k !in used ==> m.table[k] <= m.table[r.value])
      && (r.Some? ==> forall i :: (0 <= i < |m.keys| && m.keys[i] !in used && m.keys[i] in m.table && m.table[m.keys[i]] == m.table[r.value]
           ==> r.value in m.keys[..i + 1]))
  {
    BestSpec(m.keys, m.table, used, 0, None);
    BestFirst(m.keys, m.table, used, 0, None);
  }

  /** Lines 103-119: the outer `forEach` over input labels in first-tallied order. */
  function Assign(keys: seq<Cell>, c: map<Cell, Tallies>, used: set<Cell>, acc: map<Cell, Cell>): (map<Cell, Cell>, set<Cell>)
    decreases |keys|
  {
    if |keys| == 0 then (acc, used)
    else
      var k := keys[0];
      var best := if k in c then Best(c[k].keys, c[k].table, used, 0, None).1 else None;
      if best.Some? then Assign(keys[1..], c, used + {best.value}, acc[k := best.value])
      else Assign(keys[1..], c, used, acc)
  }

  /** Each reference label is assigned to at most one input label. */
  ghost predicate Injective(a: map<Cell, Cell>)
  {
    forall s, s' :: s in a && s' in a && s != s' ==> a[s] != a[s']
  }

  /** Every assignment is used up, and points at a positive tally of its own input label. */
  ghost predicate Matching(a: map<Cell, Cell>, c: map<Cell, Tallies>, used: set<Cell>)
  {
    && Injective(a)
    && (forall s :: s in a ==> a[s] in used && s in c && a[s] in c[s].table && c[s].table[a[s]] > 0)
  }

  /** Assigning an unused reference label with a positive tally keeps the assignment a matching. */
  lemma MatchExtend(acc: map<Cell, Cell>, c: map<Cell, Tallies>, used: set<Cell>, k: Cell, v: Cell)
    requires Matching(acc, c, used)
    requires k in c && v !in used && v in c[k].table && c[k].table[v] > 0
    ensures Matching(acc[k := v], c, used + {v})
  {
    var acc' := acc[k := v];
    forall s, s' | s in acc' && s' in acc' && s != s'
      ensures acc'[s] != acc'[s']
    {
      if s != k && s' != k {
        assert acc'[s] == acc[s] && acc'[s'] == acc[s'];
      }
    }
  }

  lemma {:induction false} AssignSpec(keys: seq<Cell>, c: map<Cell, Tallies>, used: set<Cell>, acc: map<Cell, Cell>)
    requires Matching(acc, c, used)
    ensures Matching(Assign(keys, c, used, acc).0, c, Assign(keys, c, used, acc).1)
    ensures acc.Keys <= Assign(keys, c, used, acc).0.Keys
    decreases |keys|
  {
    if |keys| > 0 {
      var k := keys[0];
      if k in c {
        var best := Best(c[k].keys, c[k].table, used, 0, None).1;
        BestChoice(c[k], used);
        if best.Some? {
          var acc' := acc[k := best.value];
          MatchExtend(acc, c, used, k, best.value);
          AssignSpec(keys[1..], c, used + {best.value}, acc');
          return;
        }
      }
      AssignSpec(keys[1..], c, used, acc);
    }
  }

  /** The greedy matching of the score. */
  function Greedy(c: Counts): (r: map<Cell, Cell>)
    ensures Injective(r)
    ensures forall s :: s in r ==> TableCount(c, s, r[s]) > 0
  {
    AssignSpec(c.keys, c.table, {}, map[]);
    Assign(c.keys, c.table, {}, map[]).0
  }

  // ---- The score --------------------------------------------------------

  /** Lines 126-131: an input label's tally under its matched reference label, if it has one that is neither null nor undefined. */
  function Pick(c: Counts, a: map<Cell, Cell>, s: Cell): nat
  {
    if s in a && a[s] != Null && a[s] != Undefined then TableCount(c, s, a[s]) else 0
  }

  function Picks(c: Counts, a: map<Cell, Cell>): map<Cell, nat>
  {
    map k | k in c.table :: Pick(c, a, k)
  }

  function CorrectCount(c: Counts, a: map<Cell, Cell>): nat
  {
    Sum(c.keys, Picks(c, a))
  }

  /** The matched tallies never exceed all tallies. */
  lemma CorrectBound(c: Counts, a: map<Cell, Cell>)
    ensures CorrectCount(c, a) <= Total(c)
  {
    forall k | k in c.keys
      ensures Value(Picks(c, a), k) <= Value(Totals(c), k)
    {
      if k in a && a[k] in c.table[k].table {
        SumAtLeast(c.table[k].keys, c.table[k].table, a[k]);
      }
    }
    SumMonotone(c.keys, Picks(c, a), Totals(c));
  }

  /** Every cell whose input is defined over a non-null reference counts towards the denominator. */
  lemma TalliedAreScored(reference: seq<Cell>, input: seq<Cell>)
    requires |reference| == |input|
    ensures NonNull(reference, Defined(input)) <= Scored(reference, input, |input|)
    ensures |NonNull(reference, Defined(input))| <= |Scored(reference, input, |input|)|
  {
    var A := NonNull(reference, Defined(input));
    var B := Scored(reference, input, |input|);
    assert B == A + (B - A);
    assert |B| == |A| + |B - A|;
  }

  /** A part over a positive whole is a ratio in [0, 1]. */
  lemma Ratio(a: nat, b: nat)
    requires a <= b && b > 0
    ensures 0.0 <= a as real / b as real <= 1.0
  {
  }

  /**
   * `scoringFunction`: a length mismatch throws; otherwise the score is
   * the greedily matched tally over the denominator, between 0 and 1, and
   * NaN (`None`) exactly when no cell counts.
   */
  method ScoringFunction(w: nat, h: nat, reference: seq<Cell>, input: seq<Cell>)
    returns (r: Result<Option<real>>, counts: Counts, assignment: map<Cell, Cell>, correct: nat, numRef: nat)
    ensures r.Err? <==> |reference| != w * h || |input| != w * h
    ensures r.Err? ==> r.message == Mismatch
    ensures r.Ok? ==> numRef == |Scored(reference, input, w * h)|
    ensures r.Ok? ==> CountsMatch(counts, reference, input, Defined(input))
    ensures r.Ok? ==> assignment == Greedy(counts) && correct == CorrectCount(counts, assignment)
    ensures r.Ok? ==> correct <= |NonNull(reference, Defined(input))| <= numRef
    ensures r.Ok? ==> (r.value.None? <==> numRef == 0)
    ensures r.Ok? && r.value.Some? ==> r.value.value == correct as real / numRef as real && 0.0 <= r.value.value <= 1.0
  {
    counts, assignment, correct, numRef := EmptyMap(), map[], 0, 0;
    if |reference| != w * h || |input| != w * h {
      r := Err(Mismatch);
      return;
    }
    counts, numRef := Scan(w, h, reference, input);
    assignment := Greedy(counts);
    correct := CorrectCount(counts, assignment);
    CorrectBound(counts, assignment);
    TalliedAreScored(reference, input);
    if numRef == 0 {
      r := Ok(None);
    } else {
      Ratio(correct, numRef);
      r := Ok(Some(correct as real / numRef as real));
    }
  }

  // ---- Percentage filled ------------------------------------------------

  /** The cells holding a number. */
  function Filled(input: seq<Cell>): nat
    decreases |input|
  {
    if |input| == 0 then 0 else (if input[0].Label? then 1 else 0) + Filled(input[1..])
  }

  lemma {:induction false} FilledBound(input: seq<Cell>)
    ensures Filled(input) <= |input|
    ensures Filled(input) == |input| <==> forall j :: 0 <= j < |input| ==> input[j].Label?
    ensures Filled(input) == 0 <==> forall j :: 0 <= j < |input| ==> !input[j].Label?
    decreases |input|
  {
    if |input| > 0 {
      FilledBound(input[1..]);
      assert forall j :: 1 <= j < |input| ==> input[j] == input[1..][j - 1];
    }
  }

  /**
   * `percentScoringFunction`: the filled fraction, NaN for an empty
   * array, 1 exactly when every cell holds a number and 0 exactly when none does.
   */
  function PercentScore(input: seq<Cell>): (r: Option<real>)
    ensures r.None? <==> |input| == 0
    ensures r.Some? ==> 0.0 <= r.value <= 1.0
    ensures r.Some? ==> (r.value == 1.0 <==> forall j :: 0 <= j < |input| ==> input[j].Label?)
    ensures r.Some? ==> (r.value == 0.0 <==> forall j :: 0 <= j < |input| ==> !input[j].Label?)
  {
    FilledBound(input);
    if |input| == 0 then None
    else
      Fraction(Filled(input), |input|);
      Some(Filled(input) as real / |input| as real)
  }

  /** `part / whole` for `0 <= part <= whole`: within [0, 1], 1 exactly when equal, 0 exactly when the part is 0. */
  lemma Fraction(part: nat, whole: nat)
    requires 0 < whole && part <= whole
    ensures 0.0 <= part as real / whole as real <= 1.0
    ensures part as real / whole as real == 1.0 <==> part == whole
    ensures part as real / whole as real == 0.0 <==> part == 0
  {
    var q := part as real / whole as real;
    assert q * whole as real == part as real;
  }
}

=== FILE: segments.dfy ===
/**
 * The segment buffers of the next-app painters: an `Int32Array` with one
 * segment id per pixel in row-major order (`y*w + x`), -1 where no stroke
 * has been. The module holds the buffer accessors, the brush stamp that
 * util/drawing.ts, controller.tsx and common/drawing.ts share (it writes the
 * stroke's segment under the brush and classifies each written pixel as a
 * boundary or an interior pixel), and the segment choice of the two
 * single-user painters.
 */
module SegmentBuffers {
  import opened Wrappers
  import opened Grid
  import opened Brushes

  /** `getSegment`: the entry at the raw index `y*w + x`; `undefined` (None) off the buffer. */
  function GetSegment(b: seq<int>, w: nat, p: Pos): Option<int>
  {
    if 0 <= Index(w, p) < |b| then Some(b[Index(w, p)]) else None
  }

  /** The client's `setSegment`: a typed-array store at the raw index, ignored off the buffer. */
  function SetSegment(b: seq<int>, w: nat, p: Pos, s: int): (r: seq<int>)
    ensures |r| == |b|
  {
    if 0 <= Index(w, p) < |b| then b[Index(w, p) := s] else b
  }

  /**
   * On a w×h buffer every pixel reads back a value, a store is read back
   * at its own pixel, and every other pixel reads as before.
   */
  lemma ReadAfterWrite(b: seq<int>, w: nat, h: nat, p: Pos, q: Pos, s: int)
    requires |b| == w * h && InBounds(w, h, p) && InBounds(w, h, q)
    ensures GetSegment(b, w, q).Some?
    ensures GetSegment(SetSegment(b, w, p, s), w, q) == if p == q then Some(s) else GetSegment(b, w, q)
  {
    IndexInRange(w, h, p);
    IndexInRange(w, h, q);
    if p != q && Index(w, p) == Index(w, q) {
      IndexInjective(w, h, p, q);
    }
  }

  /** Off the grid the raw index aliases: left of a row's first pixel is the previous row's last pixel. */
  lemma RowWrap(b: seq<int>, w: nat, y: int)
    ensures GetSegment(b, w, Pos(-1, y + 1)) == GetSegment(b, w, Pos(w - 1, y))
  {
    assert (y + 1) * w == y * w + w;
  }

  /** Every pixel is unpainted (-1) or names one of the first `n` segments of the segment data. */
  predicate Labelled(b: seq<int>, n: int)
  {
    forall i :: 0 <= i < |b| ==> b[i] == -1 || 0 <= b[i] < n
  }

  /** The buffer a painter starts with: `new Int32Array(w * h).fill(-1)`. */
  function Blank(w: nat, h: nat): (b: seq<int>)
    ensures |b| == w * h && Labelled(b, 0)
    ensures forall p :: InBounds(w, h, p) ==> GetSegment(b, w, p) == Some(-1)
  {
    var b := seq(w * h, _ => -1);
    forall p | InBounds(w, h, p) ensures GetSegment(b, w, p) == Some(-1) {
      IndexInRange(w, h, p);
    }
    b
  }

  // ---- The brush stamp ----------------------------------------------------

  /** `FillBoundaryType`. */
  datatype FillKind = Boundary | NotBoundary | Retain

  /** One callback a stroke makes: a segment store, or a fill of a pixel's colour and boundary status. */
  datatype Effect = Set(pos: Pos, segment: int) | Fill(pos: Pos, kind: FillKind)

  /** The threaded state of a stroke: the buffer and the callbacks made so far. */
  datatype Paint = Paint(buffer: seq<int>, log: seq<Effect>)

  /** The buffer after one callback: a store writes its segment, a fill leaves the buffer alone. */
  function Apply(b: seq<int>, w: nat, e: Effect): seq<int>
  {
    match e
    case Set(p, s) => SetSegment(b, w, p, s)
    case Fill(_, _) => b
  }

  /** The buffer after the callbacks of `log`, in order. */
  function Replay(b: seq<int>, w: nat, log: seq<Effect>): (r: seq<int>)
    ensures |r| == |b|
    decreases |log|
  {
    if log == [] then b else Apply(Replay(b, w, log[..|log| - 1]), w, log[|log| - 1])
  }

  lemma {:induction false} ReplayAppend(b: seq<int>, w: nat, a: seq<Effect>, c: seq<Effect>)
    ensures Replay(b, w, a + c) == Replay(Replay(b, w, a), w, c)
    decreases |c|
  {
    if c != [] {
      var c' := c[..|c| - 1];
      assert (a + c)[..|a + c| - 1] == a + c';
      ReplayAppend(b, w, a, c');
    } else {
      assert a + c == a;
    }
  }

  /** A log of fills only leaves the buffer as it was. */
  lemma {:induction false} ReplayFills(b: seq<int>, w: nat, fills: seq<Effect>)
    requires forall f :: f in fills ==> f.Fill?
    ensures Replay(b, w, fills) == b
    decreases |fills|
  {
    if fills != [] {
      assert fills[|fills| - 1] in fills;
      ReplayFills(b, w, fills[..|fills| - 1]);
    }
  }

  /** A brush edge that leaves the canvas or meets another segment makes the written pixel a boundary pixel. */
  predicate Cuts(b: seq<int>, w: nat, h: nat, active: int, q: Pos)
    requires |b| == w * h
  {
    !InBounds(w, h, q) || b[CellIndex(w, h, q)] != active
  }

  /** The pixel a brush edge meets becomes a boundary pixel of its own segment when it is painted with another one. */
  predicate Marks(b: seq<int>, w: nat, h: nat, active: int, q: Pos)
    requires |b| == w * h
  {
    InBounds(w, h, q) && b[CellIndex(w, h, q)] != active && b[CellIndex(w, h, q)] != -1
  }

  /**
   * The edge filter of `draw` at the written pixel `p`: every edge is
   * tested (the filter does not stop early), and each edge that meets
   * another painted segment fills that pixel as a boundary pixel. Answers
   * whether some edge counted, and the fills.
   */
  function EdgeTests(b: seq<int>, w: nat, h: nat, active: int, p: Pos, edges: seq<Pos>): (r: (bool, seq<Effect>))
    requires |b| == w * h
    ensures r.0 <==> exists e :: e in edges && Cuts(b, w, h, active, Add(p, e))
    ensures forall f :: f in r.1 <==> exists e :: e in edges && Marks(b, w, h, active, Add(p, e)) && f == Fill(Add(p, e), Boundary)
    decreases |edges|
  {
    if edges == [] then (false, [])
    else
      var q := Add(p, edges[0]);
      var rest := EdgeTests(b, w, h, active, p, edges[1..]);
      assert forall e :: e in edges <==> e == edges[0] || e in edges[1..];
      var t := !InBounds(w, h, q) || b[CellIndex(w, h, q)] != active;
      var fill := if InBounds(w, h, q) && b[CellIndex(w, h, q)] != active && b[CellIndex(w, h, q)] != -1
                  then [Fill(q, Boundary)] else [];
      (t || rest.0, fill + rest.1)
  }

  /** The outermost ring of the canvas. */
  predicate OnCanvasEdge(w: nat, h: nat, p: Pos)
  {
    p.x == 0 || p.y == 0 || p.x == w - 1 || p.y == h - 1
  }

  /**
   * One brush point of `draw` centred at `c`: an in-bounds pixel gets the
   * active segment; when there is a texture to paint, the pixel's edges are
   * tested against the buffer as just written, and the pixel is filled as a
   * boundary pixel when some edge counts or it lies on the canvas edge.
   */
  function StampPoint(w: nat, h: nat, active: int, c: Pos, pt: EdgedPoint, withTexture: bool, s: Paint): (r: Paint)
    requires |s.buffer| == w * h
    ensures |r.buffer| == w * h
  {
    var p := Add(c, pt.pos);
    if !InBounds(w, h, p) then s
    else
      var b := s.buffer[CellIndex(w, h, p) := active];
      if withTexture then
        var t := EdgeTests(b, w, h, active, p, pt.edges);
        var kind := if t.0 || OnCanvasEdge(w, h, p) then Boundary else NotBoundary;
        Paint(b, s.log + [Set(p, active)] + t.1 + [Fill(p, kind)])
      else Paint(b, s.log + [Set(p, active)])
  }

  /**
   * What one brush point does at a written pixel `p`: a store of the active
   * segment, the fills of the pixels its edges mark (as `EdgeTests` states
   * them), and then the pixel's own fill, as a boundary pixel exactly when
   * an edge leaves the canvas or meets another segment, or the pixel is on
   * the canvas edge.
   */
  lemma StampPointSpec(w: nat, h: nat, active: int, c: Pos, pt: EdgedPoint, s: Paint)
    requires |s.buffer| == w * h && InBounds(w, h, Add(c, pt.pos))
    ensures var p := Add(c, pt.pos);
      var r := StampPoint(w, h, active, c, pt, true, s);
      && r.buffer == s.buffer[CellIndex(w, h, p) := active]
      && |r.log| >= |s.log| + 2 && r.log[..|s.log| + 1] == s.log + [Set(p, active)]
      && r.log[|s.log| + 1..|r.log| - 1] == EdgeTests(r.buffer, w, h, active, p, pt.edges).1
      && r.log[|r.log| - 1].pos == p
      && (r.log[|r.log| - 1] == Fill(p, Boundary) <==>
            OnCanvasEdge(w, h, p) || exists e :: e in pt.edges && Cuts(r.buffer, w, h, active, Add(p, e)))
      && (r.log[|r.log| - 1] == Fill(p, Boundary) || r.log[|r.log| - 1] == Fill(p, NotBoundary))
  {
    var p := Add(c, pt.pos);
    var r := StampPoint(w, h, active, c, pt, true, s);
    var t := EdgeTests(r.buffer, w, h, active, p, pt.edges);
    assert r.log == s.log + [Set(p, active)] + t.1 + [Fill(p, if t.0 || OnCanvasEdge(w, h, p) then Boundary else NotBoundary)];
    assert r.log[|s.log| + 1..|r.log| - 1] == t.1;
  }

  /** The stamps of `draw`: every point of the brush, in order. */
  function Stamp(w: nat, h: nat, active: int, c: Pos, brush: seq<EdgedPoint>, withTexture: bool, s: Paint): (r: Paint)
    requires |s.buffer| == w * h
    ensures |r.buffer| == w * h
    decreases |brush|
  {
    if brush == [] then s
    else Stamp(w, h, active, c, brush[1..], withTexture, StampPoint(w, h, active, c, brush[0], withTexture, s))
  }

  /** A stroke: the brush stamped at each centre in turn. */
  function Stroke(w: nat, h: nat, active: int, centres: seq<Pos>, brush: seq<EdgedPoint>, withTexture: bool, s: Paint): (r: Paint)
    requires |s.buffer| == w * h
    ensures |r.buffer| == w * h
    decreases |centres|
  {
    if centres == [] then s
    else Stroke(w, h, active, centres[1..], brush, withTexture, Stamp(w, h, active, centres[0], brush, withTexture, s))
  }

  /** The brush centred at one of `centres` covers `q`. */
  ghost predicate Covered(centres: seq<Pos>, brush: seq<EdgedPoint>, q: Pos)
  {
    exists i, k :: 0 <= i < |centres| && 0 <= k < |brush| && Add(centres[i], brush[k].pos) == q
  }

  /** Every callback is at an in-bounds pixel, and every store writes `active`. */
  ghost predicate OnCanvas(w: nat, h: nat, active: int, log: seq<Effect>)
  {
    forall i :: 0 <= i < |log| ==> InBounds(w, h, log[i].pos) && (log[i].Set? ==> log[i].segment == active)
  }

  /** Covering by a brush splits into its first point and the rest. */
  lemma CoveredFirstPoint(c: Pos, brush: seq<EdgedPoint>, q: Pos)
    requires brush != []
    ensures Covered([c], brush, q) <==> Add(c, brush[0].pos) == q || Covered([c], brush[1..], q)
  {
    if Covered([c], brush, q) && Add(c, brush[0].pos) != q {
      var i, k :| 0 <= i < 1 && 0 <= k < |brush| && Add([c][i], brush[k].pos) == q;
      assert Add([c][0], brush[1..][k - 1].pos) == q;
    }
    if Covered([c], brush[1..], q) {
      var i, k :| 0 <= i < 1 && 0 <= k < |brush| - 1 && Add([c][i], brush[1..][k].pos) == q;
      assert Add([c][0], brush[k + 1].pos) == q;
    }
    if Add(c, brush[0].pos) == q {
      assert Add([c][0], brush[0].pos) == q;
    }
  }

  /** Covering by a stroke splits into its first centre and the rest. */
  lemma CoveredFirstCentre(centres: seq<Pos>, brush: seq<EdgedPoint>, q: Pos)
    requires centres != []
    ensures Covered(centres, brush, q) <==> Covered([centres[0]], brush, q) || Covered(centres[1..], brush, q)
  {
    if Covered(centres, brush, q) {
      var i, k :| 0 <= i < |centres| && 0 <= k < |brush| && Add(centres[i], brush[k].pos) == q;
      if i == 0 {
        assert Add([centres[0]][0], brush[k].pos) == q;
      } else {
        assert Add(centres[1..][i - 1], brush[k].pos) == q;
      }
    }
    if Covered([centres[0]], brush, q) {
      var i, k :| 0 <= i < 1 && 0 <= k < |brush| && Add([centres[0]][i], brush[k].pos) == q;
      assert Add(centres[0], brush[k].pos) == q;
    }
    if Covered(centres[1..], brush, q) {
      var i, k :| 0 <= i < |centres| - 1 && 0 <= k < |brush| && Add(centres[1..][i], brush[k].pos) == q;
      assert Add(centres[i + 1], brush[k].pos) == q;
    }
  }

  /** One brush point writes the active segment at its own in-bounds pixel and nowhere else. */
  lemma StampPointWrites(w: nat, h: nat, active: int, c: Pos, pt: EdgedPoint, withTexture: bool, s: Paint, q: Pos)
    requires |s.buffer| == w * h && InBounds(w, h, q)
    ensures var r := StampPoint(w, h, active, c, pt, withTexture, s);
      r.buffer[CellIndex(w, h, q)] == if Add(c, pt.pos) == q then active else s.buffer[CellIndex(w, h, q)]
  {
    var p := Add(c, pt.pos);
    if InBounds(w, h, p) && p != q && CellIndex(w, h, p) == CellIndex(w, h, q) {
      IndexInjective(w, h, p, q);
    }
  }

  /** One brush point only appends callbacks, each on the canvas, each store of the active segment. */
  lemma StampPointLog(w: nat, h: nat, active: int, c: Pos, pt: EdgedPoint, withTexture: bool, s: Paint)
    requires |s.buffer| == w * h
    ensures var r := StampPoint(w, h, active, c, pt, withTexture, s);
      |r.log| >= |s.log| && r.log[..|s.log|] == s.log && OnCanvas(w, h, active, r.log[|s.log|..])
  {
    var p := Add(c, pt.pos);
    var r := StampPoint(w, h, active, c, pt, withTexture, s);
    if InBounds(w, h, p) && withTexture {
      var t := EdgeTests(r.buffer, w, h, active, p, pt.edges);
      assert r.log[|s.log|..] == [Set(p, active)] + t.1 + [r.log[|r.log| - 1]];
      forall f | f in t.1 ensures InBounds(w, h, f.pos) && f.Fill? {}
    } else if InBounds(w, h, p) {
      assert r.log[|s.log|..] == [Set(p, active)];
    }
  }

  /** Every entry of a buffer after one brush point is the active segment or what it was. */
  lemma StampPointKeeps(w: nat, h: nat, active: int, c: Pos, pt: EdgedPoint, withTexture: bool, s: Paint)
    requires |s.buffer| == w * h
    ensures var r := StampPoint(w, h, active, c, pt, withTexture, s);
      forall i :: 0 <= i < w * h ==> r.buffer[i] == active || r.buffer[i] == s.buffer[i]
  {
  }

  /** One stamp writes the active segment to the in-bounds pixels under the brush and to nothing else. */
  lemma {:induction false} StampWrites(w: nat, h: nat, active: int, c: Pos, brush: seq<EdgedPoint>, withTexture: bool,
                                       s: Paint, q: Pos)
    requires |s.buffer| == w * h && InBounds(w, h, q)
    ensures var r := Stamp(w, h, active, c, brush, withTexture, s);
      r.buffer[CellIndex(w, h, q)] == if Covered([c], brush, q) then active else s.buffer[CellIndex(w, h, q)]
    decreases |brush|
  {
    if brush != [] {
      var s1 := StampPoint(w, h, active, c, brush[0], withTexture, s);
      StampPointWrites(w, h, active, c, brush[0], withTexture, s, q);
      StampWrites(w, h, active, c, brush[1..], withTexture, s1, q);
      CoveredFirstPoint(c, brush, q);
    }
  }

  /** One stamp only appends callbacks, each on the canvas, each store of the active segment. */
  lemma {:induction false} StampLog(w: nat, h: nat, active: int, c: Pos, brush: seq<EdgedPoint>, withTexture: bool, s: Paint)
    requires |s.buffer| == w * h
    ensures var r := Stamp(w, h, active, c, brush, withTexture, s);
      |r.log| >= |s.log| && r.log[..|s.log|] == s.log && OnCanvas(w, h, active, r.log[|s.log|..])
    decreases |brush|
  {
    if brush != [] {
      var s1 := StampPoint(w, h, active, c, brush[0], withTexture, s);
      StampPointLog(w, h, active, c, brush[0], withTexture, s);
      StampLog(w, h, active, c, brush[1..], withTexture, s1);
      var r := Stamp(w, h, active, c, brush, withTexture, s);
      assert r.log[|s.log|..] == s1.log[|s.log|..] + r.log[|s1.log|..];
    }
  }

  /** Every entry of a buffer after a stamp is the active segment or what it was. */
  lemma {:induction false} StampKeeps(w: nat, h: nat, active: int, c: Pos, brush: seq<EdgedPoint>, withTexture: bool, s: Paint)
    requires |s.buffer| == w * h
    ensures var r := Stamp(w, h, active, c, brush, withTexture, s);
      forall i :: 0 <= i < w * h ==> r.buffer[i] == active || r.buffer[i] == s.buffer[i]
    decreases |brush|
  {
    if brush != [] {
      var s1 := StampPoint(w, h, active, c, brush[0], withTexture, s);
      StampPointKeeps(w, h, active, c, brush[0], withTexture, s);
      StampKeeps(w, h, active, c, brush[1..], withTexture, s1);
    }
  }

  /** A stroke writes the active segment to the in-bounds pixels under the brush at any centre, and to nothing else. */
  lemma {:induction false} StrokeWrites(w: nat, h: nat, active: int, centres: seq<Pos>, brush: seq<EdgedPoint>,
                                        withTexture: bool, s: Paint, q: Pos)
    requires |s.buffer| == w * h && InBounds(w, h, q)
    ensures var r := Stroke(w, h, active, centres, brush, withTexture, s);
      r.buffer[CellIndex(w, h, q)] == if Covered(centres, brush, q) then active else s.buffer[CellIndex(w, h, q)]
    decreases |centres|
  {
    if centres != [] {
      var s1 := Stamp(w, h, active, centres[0], brush, withTexture, s);
      StampWrites(w, h, active, centres[0], brush, withTexture, s, q);
      StrokeWrites(w, h, active, centres[1..], brush, withTexture, s1, q);
      CoveredFirstCentre(centres, brush, q);
    }
  }

  /** A stroke only appends callbacks, each on the canvas, each store of the active segment. */
  lemma {:induction false} StrokeLog(w: nat, h: nat, active: int, centres: seq<Pos>, brush: seq<EdgedPoint>,
                                     withTexture: bool, s: Paint)
    requires |s.buffer| == w * h
    ensures var r := Stroke(w, h, active, centres, brush, withTexture, s);
      |r.log| >= |s.log| && r.log[..|s.log|] == s.log && OnCanvas(w, h, active, r.log[|s.log|..])
    decreases |centres|
  {
    if centres != [] {
      var s1 := Stamp(w, h, active, centres[0], brush, withTexture, s);
      StampLog(w, h, active, centres[0], brush, withTexture, s);
      StrokeLog(w, h, active, centres[1..], brush, withTexture, s1);
      var r := Stroke(w, h, active, centres, brush, withTexture, s);
      assert r.log[|s.log|..] == s1.log[|s.log|..] + r.log[|s1.log|..];
    }
  }

  /** Every entry of a buffer after a stroke is the active segment or what it was. */
  lemma {:induction false} StrokeKeeps(w: nat, h: nat, active: int, centres: seq<Pos>, brush: seq<EdgedPoint>,
                                       withTexture: bool, s: Paint)
    requires |s.buffer| == w * h
    ensures var r := Stroke(w, h, active, centres, brush, withTexture, s);
      forall i :: 0 <= i < w * h ==> r.buffer[i] == active || r.buffer[i] == s.buffer[i]
    decreases |centres|
  {
    if centres != [] {
      var s1 := Stamp(w, h, active, centres[0], brush, withTexture, s);
      StampKeeps(w, h, active, centres[0], brush, withTexture, s);
      StrokeKeeps(w, h, active, centres[1..], brush, withTexture, s1);
    }
  }

  /** More segments with data keep every pixel unpainted or known. */
  lemma LabelledGrows(b: seq<int>, n: int, m: int)
    requires Labelled(b, n) && n <= m
    ensures Labelled(b, m)
  {
  }

  /** Writing an unpainted or known segment keeps every pixel unpainted or known. */
  lemma StrokeKeepsLabelled(w: nat, h: nat, active: int, centres: seq<Pos>, brush: seq<EdgedPoint>, withTexture: bool,
                            s: Paint, n: int)
    requires |s.buffer| == w * h && Labelled(s.buffer, n) && (active == -1 || 0 <= active < n)
    ensures Labelled(Stroke(w, h, active, centres, brush, withTexture, s).buffer, n)
  {
    StrokeKeeps(w, h, active, centres, brush, withTexture, s);
  }

  // ---- util/drawing.ts: the single-user stroke --------------------------

  const NoColour := "Brush stroke starts in empty area but no color provided"

  /** The util stroke event: its start, end, and the colour sent with it (`undefined` as None). */
  datatype UtilEvent = UtilEvent(from: Pos, to: Pos, color: Option<string>)

  /** A colour string is truthy unless absent or empty. */
  predicate Truthy(color: Option<string>)
  {
    color.Some? && color.value != ""
  }

  /** A finished util stroke: the buffer, the segment data (one colour string each), the writes and fills, the segment painted. */
  datatype UtilPainted = UtilPainted(buffer: seq<int>, data: seq<string>, log: seq<Effect>, active: int)

  /** What JavaScript reports when `draw` looks up the colour of `segmentData[undefined]`. */
  const NoSegmentData := "Cannot read properties of undefined (reading 'color')"

  /** Some brush point centred at one of `centres` lands on the canvas. */
  predicate Touches(w: nat, h: nat, centres: seq<Pos>, brush: seq<EdgedPoint>)
  {
    exists i, k :: 0 <= i < |centres| && 0 <= k < |brush| && InBounds(w, h, Add(centres[i], brush[k].pos))
  }

  /** `segmentData[v].color` finds an entry: the pixel holds a segment `v` that has data. */
  predicate Known(b: seq<int>, w: nat, n: int, p: Pos)
  {
    GetSegment(b, w, p).Some? && 0 <= GetSegment(b, w, p).value < n
  }

  /**
   * A textured `draw` looks up `segmentData[v].color` at every fill, where
   * `v` is the segment the filled pixel holds when the fill is made: some
   * fill of `log`, replayed on `b`, finds no data.
   */
  predicate MissingColour(b: seq<int>, w: nat, n: int, log: seq<Effect>)
  {
    exists i :: 0 <= i < |log| && log[i].Fill? && !Known(Replay(b, w, log[..i]), w, n, log[i].pos)
  }

  /** A colour lookup that fails in a log still fails once the log is extended. */
  lemma MissingStays(b: seq<int>, w: nat, n: int, log: seq<Effect>, log': seq<Effect>)
    requires |log| <= |log'| && log'[..|log|] == log && MissingColour(b, w, n, log)
    ensures MissingColour(b, w, n, log')
  {
    var i :| 0 <= i < |log| && log[i].Fill? && !Known(Replay(b, w, log[..i]), w, n, log[i].pos);
    assert log'[..i] == log[..i] && log'[i] == log[i];
  }

  /** A store then fills only, replayed after `pre`: each fill sees the buffer the store wrote. */
  lemma StoreThenFills(b0: seq<int>, w: nat, pre: seq<Effect>, p: Pos, active: int, fills: seq<Effect>, j: nat)
    requires (forall f :: f in fills ==> f.Fill?) && j <= |fills|
    ensures Replay(b0, w, pre + [Set(p, active)] + fills[..j]) == SetSegment(Replay(b0, w, pre), w, p, active)
  {
    var store := [Set(p, active)];
    assert pre + store + fills[..j] == pre + (store + fills[..j]);
    ReplayAppend(b0, w, pre, store + fills[..j]);
    ReplayAppend(Replay(b0, w, pre), w, store, fills[..j]);
    assert Replay(Replay(b0, w, pre), w, store) == SetSegment(Replay(b0, w, pre), w, p, active) by { assert store[..0] == []; }
    forall f | f in fills[..j] ensures f.Fill? { assert f in fills; }
    ReplayFills(SetSegment(Replay(b0, w, pre), w, p, active), w, fills[..j]);
  }

  /**
   * The callbacks of one textured brush point at the in-bounds pixel `p`:
   * the store, the fills of the edge pixels it marks, then its own fill.
   * With a segment that has data on a labelled buffer every lookup finds
   * data; with a segment without data the own fill finds none.
   */
  lemma TexturedPointReads(b0: seq<int>, w: nat, h: nat, n: int, active: int, pre: seq<Effect>, p: Pos,
                           marked: seq<Effect>, kind: FillKind)
    requires |b0| == w * h && InBounds(w, h, p)
    requires forall f :: f in marked ==> f.Fill? && Marks(SetSegment(Replay(b0, w, pre), w, p, active), w, h, active, f.pos)
    ensures var log := pre + [Set(p, active)] + (marked + [Fill(p, kind)]);
      && (0 <= active < n && Labelled(Replay(b0, w, pre), n) && !MissingColour(b0, w, n, pre) ==> !MissingColour(b0, w, n, log))
      && (!(0 <= active < n) ==> MissingColour(b0, w, n, log))
  {
    if 0 <= active < n && Labelled(Replay(b0, w, pre), n) && !MissingColour(b0, w, n, pre) {
      TexturedKnown(b0, w, h, n, active, pre, p, marked, kind);
    }
    if !(0 <= active < n) {
      TexturedMissing(b0, w, h, n, active, pre, p, marked, kind);
    }
  }

  /** With a segment that has data on a labelled buffer, every lookup of a textured brush point finds data. */
  lemma TexturedKnown(b0: seq<int>, w: nat, h: nat, n: int, active: int, pre: seq<Effect>, p: Pos,
                      marked: seq<Effect>, kind: FillKind)
    requires |b0| == w * h && InBounds(w, h, p)
    requires forall f :: f in marked ==> f.Fill? && Marks(SetSegment(Replay(b0, w, pre), w, p, active), w, h, active, f.pos)
    requires 0 <= active < n && Labelled(Replay(b0, w, pre), n) && !MissingColour(b0, w, n, pre)
    ensures !MissingColour(b0, w, n, pre + [Set(p, active)] + (marked + [Fill(p, kind)]))
  {
    var log := pre + [Set(p, active)] + (marked + [Fill(p, kind)]);
    forall i | 0 <= i < |log| && log[i].Fill?
      ensures Known(Replay(b0, w, log[..i]), w, n, log[i].pos)
    {
      TexturedAt(b0, w, h, n, active, pre, p, marked, kind, i);
    }
  }

  lemma TexturedAt(b0: seq<int>, w: nat, h: nat, n: int, active: int, pre: seq<Effect>, p: Pos,
                   marked: seq<Effect>, kind: FillKind, i: nat)
    requires |b0| == w * h && InBounds(w, h, p)
    requires forall f :: f in marked ==> f.Fill? && Marks(SetSegment(Replay(b0, w, pre), w, p, active), w, h, active, f.pos)
    requires 0 <= active < n && Labelled(Replay(b0, w, pre), n) && !MissingColour(b0, w, n, pre)
    requires i < |pre| + 2 + |marked|
    ensures var log := pre + [Set(p, active)] + (marked + [Fill(p, kind)]);
      log[i].Fill? ==> Known(Replay(b0, w, log[..i]), w, n, log[i].pos)
  {
    if i < |pre| {
      PrefixLookup(b0, w, n, pre, [Set(p, active)] + (marked + [Fill(p, kind)]), i);
      assert pre + [Set(p, active)] + (marked + [Fill(p, kind)]) == pre + ([Set(p, active)] + (marked + [Fill(p, kind)]));
    } else {
      TexturedLookup(b0, w, h, n, active, pre, p, marked, kind, i);
    }
  }

  /** A lookup of `pre` that finds data still does once `pre` is extended. */
  lemma PrefixLookup(b0: seq<int>, w: nat, n: int, pre: seq<Effect>, more: seq<Effect>, i: nat)
    requires i < |pre| && !MissingColour(b0, w, n, pre)
    ensures var log := pre + more;
      log[i].Fill? ==> Known(Replay(b0, w, log[..i]), w, n, log[i].pos)
  {
    var log := pre + more;
    assert log[..i] == pre[..i] && log[i] == pre[i];
  }

  /** The lookup at call `i` of a textured brush point, on a segment that has data over a labelled buffer. */
  lemma TexturedLookup(b0: seq<int>, w: nat, h: nat, n: int, active: int, pre: seq<Effect>, p: Pos,
                       marked: seq<Effect>, kind: FillKind, i: nat)
    requires |b0| == w * h && InBounds(w, h, p)
    requires forall f :: f in marked ==> f.Fill? && Marks(SetSegment(Replay(b0, w, pre), w, p, active), w, h, active, f.pos)
    requires 0 <= active < n && Labelled(Replay(b0, w, pre), n)
    requires |pre| <= i <= |pre| + 1 + |marked|
    ensures var log := pre + [Set(p, active)] + (marked + [Fill(p, kind)]);
      log[i].Fill? ==> Known(Replay(b0, w, log[..i]), w, n, log[i].pos)
  {
    var fills := marked + [Fill(p, kind)];
    var log := pre + [Set(p, active)] + fills;
    if i > |pre| {
      var j := i - |pre| - 1;
      forall f | f in fills ensures f.Fill? { if f in marked {} }
      assert log[..i] == pre + [Set(p, active)] + fills[..j];
      StoreThenFills(b0, w, pre, p, active, fills, j);
      IndexInRange(w, h, p);
      if j < |marked| {
        assert log[i] == marked[j] && marked[j] in marked;
        IndexInRange(w, h, marked[j].pos);
      }
    }
  }

  /** With a segment without data, the own fill of a textured brush point finds none. */
  lemma TexturedMissing(b0: seq<int>, w: nat, h: nat, n: int, active: int, pre: seq<Effect>, p: Pos,
                        marked: seq<Effect>, kind: FillKind)
    requires |b0| == w * h && InBounds(w, h, p)
    requires forall f :: f in marked ==> f.Fill?
    requires !(0 <= active < n)
    ensures MissingColour(b0, w, n, pre + [Set(p, active)] + (marked + [Fill(p, kind)]))
  {
    var fills := marked + [Fill(p, kind)];
    var log := pre + [Set(p, active)] + fills;
    forall f | f in fills ensures f.Fill? { if f in marked {} }
    IndexInRange(w, h, p);
    var last := |log| - 1;
    assert log[last] == Fill(p, kind) && log[..last] == pre + [Set(p, active)] + fills[..|marked|];
    StoreThenFills(b0, w, pre, p, active, fills, |marked|);
    assert !Known(Replay(b0, w, log[..last]), w, n, log[last].pos);
  }

  /** The edge filter's fills are fills of pixels it marks. */
  lemma MarkedFills(b: seq<int>, w: nat, h: nat, active: int, p: Pos, edges: seq<Pos>)
    requires |b| == w * h
    ensures forall f :: f in EdgeTests(b, w, h, active, p, edges).1 ==> f.Fill? && Marks(b, w, h, active, f.pos)
  {
    forall f | f in EdgeTests(b, w, h, active, p, edges).1 ensures f.Fill? && Marks(b, w, h, active, f.pos) {
      var e :| e in edges && Marks(b, w, h, active, Add(p, e)) && f == Fill(Add(p, e), Boundary);
    }
  }

  /** Appending a store adds no lookup. */
  lemma StoreReads(b0: seq<int>, w: nat, n: int, pre: seq<Effect>, p: Pos, active: int)
    requires !MissingColour(b0, w, n, pre)
    ensures !MissingColour(b0, w, n, pre + [Set(p, active)])
  {
    var log := pre + [Set(p, active)];
    forall i | 0 <= i < |log| && log[i].Fill?
      ensures Known(Replay(b0, w, log[..i]), w, n, log[i].pos)
    {
      assert log[..i] == pre[..i] && log[i] == pre[i];
    }
  }

  /**
   * One brush point on a log that replays to its buffer: the extended log
   * still replays to the new buffer; with a segment that has data on a
   * labelled buffer, every lookup it adds finds data; and with a segment without data, its own textured fill of an
   * in-bounds pixel finds none.
   */
  lemma StampPointReads(w: nat, h: nat, active: int, c: Pos, pt: EdgedPoint, withTexture: bool, s: Paint, b0: seq<int>, n: int)
    requires |s.buffer| == w * h && |b0| == w * h && Replay(b0, w, s.log) == s.buffer
    ensures var r := StampPoint(w, h, active, c, pt, withTexture, s);
      && |s.log| <= |r.log| && r.log[..|s.log|] == s.log
      && Replay(b0, w, r.log) == r.buffer
      && (0 <= active < n && Labelled(s.buffer, n) && !MissingColour(b0, w, n, s.log) ==> !MissingColour(b0, w, n, r.log))
      && (!(0 <= active < n) && withTexture && InBounds(w, h, Add(c, pt.pos)) ==> MissingColour(b0, w, n, r.log))
  {
    if !InBounds(w, h, Add(c, pt.pos)) {
      assert s.log[..|s.log|] == s.log;
    } else if withTexture {
      TexturedPoint(w, h, active, c, pt, withTexture, s, b0, n);
    } else {
      PlainPoint(w, h, active, c, pt, withTexture, s, b0, n);
    }
  }

  /**
   * Painting from `s` to `r` extends the log, which rebuilds the buffer;
   * it adds no failed lookup when the segment and every pixel have data,
   * and adds one when the segment has none and `touched` holds.
   */
  ghost predicate Reads(b0: seq<int>, w: nat, n: int, active: int, s: Paint, r: Paint, touched: bool)
  {
    && |s.log| <= |r.log| && r.log[..|s.log|] == s.log
    && Replay(b0, w, r.log) == r.buffer
    && (0 <= active < n && Labelled(s.buffer, n) && !MissingColour(b0, w, n, s.log) ==> !MissingColour(b0, w, n, r.log))
    && (!(0 <= active < n) && touched ==> MissingColour(b0, w, n, r.log))
  }

  lemma TexturedPoint(w: nat, h: nat, active: int, c: Pos, pt: EdgedPoint, withTexture: bool, s: Paint, b0: seq<int>, n: int)
    requires |s.buffer| == w * h && |b0| == w * h && Replay(b0, w, s.log) == s.buffer
    requires InBounds(w, h, Add(c, pt.pos)) && withTexture
    ensures Reads(b0, w, n, active, s, StampPoint(w, h, active, c, pt, withTexture, s), true)
  {
    var p := Add(c, pt.pos);
    var b := SetSegment(s.buffer, w, p, active);
    var t := EdgeTests(b, w, h, active, p, pt.edges);
    TexturedShape(w, h, active, c, pt, s);
    MarkedFills(b, w, h, active, p, pt.edges);
    TexturedReads(b0, w, h, n, active, s, p, t.1, if t.0 || OnCanvasEdge(w, h, p) then Boundary else NotBoundary);
  }

  /** `Reads` for the store and fills of one textured brush point at `p`. */
  lemma TexturedReads(b0: seq<int>, w: nat, h: nat, n: int, active: int, s: Paint, p: Pos, marked: seq<Effect>, kind: FillKind)
    requires |s.buffer| == w * h && |b0| == w * h && Replay(b0, w, s.log) == s.buffer && InBounds(w, h, p)
    requires forall f :: f in marked ==> f.Fill? && Marks(SetSegment(s.buffer, w, p, active), w, h, active, f.pos)
    ensures Reads(b0, w, n, active, s, Paint(SetSegment(s.buffer, w, p, active), s.log + [Set(p, active)] + (marked + [Fill(p, kind)])), true)
  {
    var fills := marked + [Fill(p, kind)];
    var log := s.log + [Set(p, active)] + fills;
    forall f | f in fills ensures f.Fill? { if f in marked {} }
    StoreThenFills(b0, w, s.log, p, active, fills, |fills|);
    assert fills[..|fills|] == fills;
    assert log[..|s.log|] == s.log;
    TexturedPointReads(b0, w, h, n, active, s.log, p, marked, kind);
  }

  /** The callbacks of one textured brush point at an in-bounds pixel. */
  lemma TexturedShape(w: nat, h: nat, active: int, c: Pos, pt: EdgedPoint, s: Paint)
    requires |s.buffer| == w * h && InBounds(w, h, Add(c, pt.pos))
    ensures var p := Add(c, pt.pos);
      var b := SetSegment(s.buffer, w, p, active);
      var t := EdgeTests(b, w, h, active, p, pt.edges);
      StampPoint(w, h, active, c, pt, true, s)
        == Paint(b, s.log + [Set(p, active)] + (t.1 + [Fill(p, if t.0 || OnCanvasEdge(w, h, p) then Boundary else NotBoundary)]))
  {
    IndexInRange(w, h, Add(c, pt.pos));
  }

  lemma PlainPoint(w: nat, h: nat, active: int, c: Pos, pt: EdgedPoint, withTexture: bool, s: Paint, b0: seq<int>, n: int)
    requires |s.buffer| == w * h && |b0| == w * h && Replay(b0, w, s.log) == s.buffer
    requires InBounds(w, h, Add(c, pt.pos)) && !withTexture
    ensures var r := StampPoint(w, h, active, c, pt, withTexture, s);
      && |s.log| <= |r.log| && r.log[..|s.log|] == s.log
      && Replay(b0, w, r.log) == r.buffer
      && (0 <= active < n && Labelled(s.buffer, n) && !MissingColour(b0, w, n, s.log) ==> !MissingColour(b0, w, n, r.log))
      && (!(0 <= active < n) && withTexture && InBounds(w, h, Add(c, pt.pos)) ==> MissingColour(b0, w, n, r.log))
  {
    var p := Add(c, pt.pos);
    IndexInRange(w, h, p);
    var r := StampPoint(w, h, active, c, pt, withTexture, s);
    assert r == Paint(SetSegment(s.buffer, w, p, active), s.log + [Set(p, active)]);
    StoreThenFills(b0, w, s.log, p, active, [], 0);
    if !MissingColour(b0, w, n, s.log) {
      StoreReads(b0, w, n, s.log, p, active);
    }
  }

  /** The same for a whole stamp: a segment without data fails as soon as the brush touches the canvas. */
  lemma {:induction false} StampReads(w: nat, h: nat, active: int, c: Pos, brush: seq<EdgedPoint>, withTexture: bool,
                                      s: Paint, b0: seq<int>, n: int)
    requires |s.buffer| == w * h && |b0| == w * h && Replay(b0, w, s.log) == s.buffer
    ensures var r := Stamp(w, h, active, c, brush, withTexture, s);
      && |s.log| <= |r.log| && r.log[..|s.log|] == s.log
      && Replay(b0, w, r.log) == r.buffer
      && (0 <= active < n && Labelled(s.buffer, n) && !MissingColour(b0, w, n, s.log) ==> !MissingColour(b0, w, n, r.log))
      && (!(0 <= active < n) && withTexture && Touches(w, h, [c], brush) ==> MissingColour(b0, w, n, r.log))
    decreases |brush|
  {
    if brush == [] {
      assert s.log[..|s.log|] == s.log;
    } else {
      var m := StampPoint(w, h, active, c, brush[0], withTexture, s);
      StampPointReads(w, h, active, c, brush[0], withTexture, s, b0, n);
      StampPointKeeps(w, h, active, c, brush[0], withTexture, s);
      StampReads(w, h, active, c, brush[1..], withTexture, m, b0, n);
      var r := Stamp(w, h, active, c, brush[1..], withTexture, m);
      assert r.log[..|s.log|] == m.log[..|s.log|];
      if !(0 <= active < n) && withTexture && Touches(w, h, [c], brush) {
        var i, k :| 0 <= i < 1 && 0 <= k < |brush| && InBounds(w, h, Add([c][i], brush[k].pos));
        if k == 0 {
          MissingStays(b0, w, n, m.log, r.log);
        } else {
          assert InBounds(w, h, Add([c][0], brush[1..][k - 1].pos));
        }
      }
    }
  }

  /** The same for a whole stroke. */
  lemma {:induction false} StrokeReads(w: nat, h: nat, active: int, centres: seq<Pos>, brush: seq<EdgedPoint>, withTexture: bool,
                                       s: Paint, b0: seq<int>, n: int)
    requires |s.buffer| == w * h && |b0| == w * h && Replay(b0, w, s.log) == s.buffer
    ensures var r := Stroke(w, h, active, centres, brush, withTexture, s);
      && |s.log| <= |r.log| && r.log[..|s.log|] == s.log
      && Replay(b0, w, r.log) == r.buffer
      && (0 <= active < n && Labelled(s.buffer, n) && !MissingColour(b0, w, n, s.log) ==> !MissingColour(b0, w, n, r.log))
      && (!(0 <= active < n) && withTexture && Touches(w, h, centres, brush) ==> MissingColour(b0, w, n, r.log))
    decreases |centres|
  {
    if centres == [] {
      assert s.log[..|s.log|] == s.log;
    } else {
      var m := Stamp(w, h, active, centres[0], brush, withTexture, s);
      StampReads(w, h, active, centres[0], brush, withTexture, s, b0, n);
      StampKeeps(w, h, active, centres[0], brush, withTexture, s);
      StrokeReads(w, h, active, centres[1..], brush, withTexture, m, b0, n);
      var r := Stroke(w, h, active, centres[1..], brush, withTexture, m);
      assert r.log[..|s.log|] == m.log[..|s.log|];
      if !(0 <= active < n) && withTexture && Touches(w, h, centres, brush) {
        var i, k :| 0 <= i < |centres| && 0 <= k < |brush| && InBounds(w, h, Add(centres[i], brush[k].pos));
        if i == 0 {
          assert InBounds(w, h, Add([centres[0]][0], brush[k].pos));
          MissingStays(b0, w, n, m.log, r.log);
        } else {
          assert InBounds(w, h, Add(centres[1..][i - 1], brush[k].pos));
        }
      }
    }
  }

  /**
   * `smoothPaint` of util/drawing.ts: the stroke keeps the segment under its
   * start, or, from an empty pixel, appends the event's colour to the segment
   * data and paints the new last segment; an empty start without a colour
   * throws. The brush, `kBrushPoints` (the edged disc of diameter
   * `PainterBrushDiameter`), is stamped at the start and then at each point
   * of the interpolated `path`; fills happen only when there is a texture.
   *
   * With a texture, every fill looks up the colour of the segment its
   * pixel holds (`MissingColour`), and a segment without data throws.
   *
   * A start off the buffer reads `undefined`, which is not -1, so no colour
   * is needed and the stroke paints with `undefined`: the `Int32Array`
   * stores it as 0. With a texture, the colour lookup of the first brush
   * pixel on the canvas throws.
   */
  function UtilSmoothPaint(b: seq<int>, w: nat, h: nat, data: seq<string>, e: UtilEvent, drawing: bool,
                           brush: seq<EdgedPoint>, path: seq<Pos>): (r: Result<UtilPainted>)
    requires |b| == w * h
    ensures r.Err? && r.message == NoColour <==> GetSegment(b, w, e.from) == Some(-1) && !Truthy(e.color)
    ensures GetSegment(b, w, e.from).None? ==> (r.Err? <==> drawing && Touches(w, h, [e.from] + path, brush))
    ensures r.Err? ==> r.message == if GetSegment(b, w, e.from) == Some(-1) && !Truthy(e.color) then NoColour else NoSegmentData
    ensures r.Err? && r.message == NoSegmentData ==> drawing
    ensures r.Ok? ==> |r.value.buffer| == w * h
    ensures r.Ok? && GetSegment(b, w, e.from).Some? && GetSegment(b, w, e.from).value != -1 ==>
      r.value.active == GetSegment(b, w, e.from).value && r.value.data == data
    ensures r.Ok? && GetSegment(b, w, e.from) == Some(-1) ==>
      r.value.active == |data| && r.value.data == data + [e.color.value]
    ensures r.Ok? && GetSegment(b, w, e.from).None? ==> r.value.active == 0 && r.value.data == data
  {
    match GetSegment(b, w, e.from)
    case None =>
      if drawing && Touches(w, h, [e.from] + path, brush) then Err(NoSegmentData)
      else
        var s := Stroke(w, h, 0, [e.from] + path, brush, drawing, Paint(b, []));
        Ok(UtilPainted(s.buffer, data, s.log, 0))
    case Some(start) =>
      if start == -1 && !Truthy(e.color) then Err(NoColour)
      else
        var active := if start == -1 then |data| else start;
        var data' := if start == -1 then data + [e.color.value] else data;
        var s := Stroke(w, h, active, [e.from] + path, brush, drawing, Paint(b, []));
        if drawing && MissingColour(b, w, |data'|, s.log) then Err(NoSegmentData)
        else Ok(UtilPainted(s.buffer, data', s.log, active))
  }

  /**
   * A util stroke writes its segment to exactly the in-bounds pixels under
   * the brush at the start or a path point, and every callback it makes is
   * on the canvas.
   */
  lemma UtilSmoothPaintWrites(b: seq<int>, w: nat, h: nat, data: seq<string>, e: UtilEvent, drawing: bool,
                              brush: seq<EdgedPoint>, path: seq<Pos>, q: Pos)
    requires |b| == w * h && InBounds(w, h, q)
    requires UtilSmoothPaint(b, w, h, data, e, drawing, brush, path).Ok?
    ensures var r := UtilSmoothPaint(b, w, h, data, e, drawing, brush, path).value;
      && r.buffer[CellIndex(w, h, q)] == (if Covered([e.from] + path, brush, q) then r.active else b[CellIndex(w, h, q)])
      && OnCanvas(w, h, r.active, r.log)
  {
    var active := match GetSegment(b, w, e.from) case None => 0 case Some(start) => if start == -1 then |data| else start;
    StrokeWrites(w, h, active, [e.from] + path, brush, drawing, Paint(b, []), q);
    StrokeLog(w, h, active, [e.from] + path, brush, drawing, Paint(b, []));
  }

  /**
   * If every pixel names a segment that has data, it still does after a
   * stroke, and the stroke's segment has data too: the colour lookup
   * `segmentData[segment]` of `draw` always finds an entry. From a start
   * on the buffer the stroke then fails only for want of a colour; from a
   * start off the buffer this needs segment 0 to have data.
   */
  lemma UtilSmoothPaintLabelled(b: seq<int>, w: nat, h: nat, data: seq<string>, e: UtilEvent, drawing: bool,
                                brush: seq<EdgedPoint>, path: seq<Pos>)
    requires |b| == w * h && Labelled(b, |data|) && (GetSegment(b, w, e.from).Some? || |data| > 0)
    ensures var r := UtilSmoothPaint(b, w, h, data, e, drawing, brush, path);
      r.Ok? ==> 0 <= r.value.active < |r.value.data| && Labelled(r.value.buffer, |r.value.data|)
    ensures var r := UtilSmoothPaint(b, w, h, data, e, drawing, brush, path);
      GetSegment(b, w, e.from).Some? ==> (r.Err? <==> GetSegment(b, w, e.from) == Some(-1) && !Truthy(e.color))
  {
    var r := UtilSmoothPaint(b, w, h, data, e, drawing, brush, path);
    if r.Ok? {
      var active := r.value.active;
      var size := |r.value.data|;
      LabelledGrows(b, |data|, size);
      StrokeKeepsLabelled(w, h, active, [e.from] + path, brush, drawing, Paint(b, []), size);
    }
    match GetSegment(b, w, e.from)
    case None =>
    case Some(start) =>
      if start != -1 || Truthy(e.color) {
        var active := if start == -1 then |data| else start;
        var n := if start == -1 then |data| + 1 else |data|;
        LabelledGrows(b, |data|, n);
        StrokeReads(w, h, active, [e.from] + path, brush, drawing, Paint(b, []), b, n);
      }
  }

  /**
   * A stroke that starts on a segment without data throws once a textured
   * brush touches the canvas: the first pixel it paints looks that
   * segment's colour up.
   */
  lemma UtilUnknownSegment(b: seq<int>, w: nat, h: nat, data: seq<string>, e: UtilEvent,
                           brush: seq<EdgedPoint>, path: seq<Pos>)
    requires |b| == w * h && GetSegment(b, w, e.from).Some?
    requires GetSegment(b, w, e.from).value != -1 && !(0 <= GetSegment(b, w, e.from).value < |data|)
    requires Touches(w, h, [e.from] + path, brush)
    ensures UtilSmoothPaint(b, w, h, data, e, true, brush, path) == Err(NoSegmentData)
  {
    StrokeReads(w, h, GetSegment(b, w, e.from).value, [e.from] + path, brush, true, Paint(b, []), b, |data|);
  }

  /** A stroke whose brush never lands on the canvas changes nothing. */
  lemma UtilOffCanvas(b: seq<int>, w: nat, h: nat, data: seq<string>, e: UtilEvent, drawing: bool,
                      brush: seq<EdgedPoint>, path: seq<Pos>, q: Pos)
    requires |b| == w * h && InBounds(w, h, q) && GetSegment(b, w, e.from).None? && !Touches(w, h, [e.from] + path, brush)
    ensures UtilSmoothPaint(b, w, h, data, e, drawing, brush, path).Ok?
    ensures UtilSmoothPaint(b, w, h, data, e, drawing, brush, path).value.buffer[CellIndex(w, h, q)] == b[CellIndex(w, h, q)]
  {
    UtilSmoothPaintWrites(b, w, h, data, e, drawing, brush, path, q);
    assert !Covered([e.from] + path, brush, q);
  }

  // ---- controller.tsx: the per-frame painter ----------------------------

  /** The current action of a press: the last cursor pixel and the segment being painted. */
  datatype Press = Press(last: Pos, active: int)

  /** The controller's state: the buffer, the segment data, the writes and fills so far, and the current press. */
  datatype Controller<C> = Controller(buffer: seq<int>, data: seq<C>, log: seq<Effect>, press: Option<Press>)

  /** `Math.floor(clamp(v, 0, res - 1))`: the cursor coordinate as a pixel coordinate. */
  function PixelCoord(v: real, res: nat): (r: int)
    requires res > 0
    ensures 0 <= r < res
    ensures 0.0 <= v <= (res - 1) as real ==> r == v.Floor
  {
    if v < 0.0 then 0 else if v > (res - 1) as real then res - 1 else v.Floor
  }

  /**
   * One frame of the controller. With the cursor up the press ends. With
   * it down, the cursor becomes a pixel; a new press keeps the segment under
   * it, or appends `colour` (the random colour) and paints the new last
   * segment; the brush is stamped at the pixel and, while a press goes on,
   * along the interpolated `path` back to the last pixel.
   */
  function Frame<C>(st: Controller<C>, w: nat, h: nat, cursorDown: bool, cx: real, cy: real, colour: C,
                    brush: seq<EdgedPoint>, path: seq<Pos>): (r: Controller<C>)
    requires w > 0 && h > 0 && |st.buffer| == w * h
    ensures |r.buffer| == w * h
    ensures !cursorDown ==> r == st.(press := None)
    ensures cursorDown ==> r.press.Some? && r.press.value.last == Pos(PixelCoord(cx, w), PixelCoord(cy, h))
    ensures cursorDown && st.press.Some? ==> r.press.value.active == st.press.value.active && r.data == st.data
  {
    if !cursorDown then st.(press := None)
    else
      var p := Pos(PixelCoord(cx, w), PixelCoord(cy, h));
      var under := st.buffer[CellIndex(w, h, p)];
      var active := if st.press.Some? then st.press.value.active else if under != -1 then under else |st.data|;
      var data := if st.press.None? && under == -1 then st.data + [colour] else st.data;
      var centres := [p] + (if st.press.Some? then path else []);
      var s := Stroke(w, h, active, centres, brush, true, Paint(st.buffer, st.log));
      Controller(s.buffer, data, s.log, Some(Press(p, active)))
  }

  /** The controller's invariant: every pixel names a segment with data, and so does the press. */
  predicate ControllerOk<C>(st: Controller<C>, w: nat, h: nat)
  {
    && |st.buffer| == w * h && Labelled(st.buffer, |st.data|)
    && (st.press.Some? ==> 0 <= st.press.value.active < |st.data|)
  }

  /**
   * A press starts on the segment under the cursor, or on a new segment
   * (the old number of entries) when the pixel is empty; every frame keeps
   * the controller's invariant.
   */
  lemma FrameSpec<C>(st: Controller<C>, w: nat, h: nat, cursorDown: bool, cx: real, cy: real, colour: C,
                     brush: seq<EdgedPoint>, path: seq<Pos>)
    requires w > 0 && h > 0 && ControllerOk(st, w, h)
    ensures var r := Frame(st, w, h, cursorDown, cx, cy, colour, brush, path);
      && ControllerOk(r, w, h)
      && (cursorDown && st.press.None? ==>
            var p := Pos(PixelCoord(cx, w), PixelCoord(cy, h));
            && InBounds(w, h, p)
            && (GetSegment(st.buffer, w, p) == Some(-1) ==> r.press.value.active == |st.data| && r.data == st.data + [colour])
            && (GetSegment(st.buffer, w, p) != Some(-1) ==>
                  Some(r.press.value.active) == GetSegment(st.buffer, w, p) && r.data == st.data))
  {
    var r := Frame(st, w, h, cursorDown, cx, cy, colour, brush, path);
    if cursorDown {
      var p := Pos(PixelCoord(cx, w), PixelCoord(cy, h));
      IndexInRange(w, h, p);
      var active := r.press.value.active;
      assert Labelled(st.buffer, |r.data|);
      var centres := [p] + (if st.press.Some? then path else []);
      StrokeKeepsLabelled(w, h, active, centres, brush, true, Paint(st.buffer, st.log), |r.data|);
    }
  }
}

=== FILE: server.dfy ===
/**
 * The server's drawing of apps/next-app. Each cell of the segment buffer
 * is empty or an entry naming the log node that painted it last and a
 * boundary flag; a cell's segment is its node's segment. The stroke and
 * the recomputation are the shared ones, run through the server's
 * callbacks, which append a `DrawNode` per stroke and a `FillNode` per new
 * segment id to the short log.
 *
 * Nodes are identified by their position in `nodes`, the short log after
 * its head, in append order; the `prev`/`next` links and `numPixels`
 * (always 0 here) are not modelled.
 */
module ServerDrawing {
  import opened Wrappers
  import opened Grid
  import opened JsCollections
  import opened Brushes
  import opened SegmentBuffers
  import opened SharedDrawing
  import Recompute

  // ---- A callback log replayed on a plain buffer -------------------------------------

  /** Every fill that is not a `retain` lands on a pixel that holds a segment when it is made. */
  ghost predicate Lands(b: seq<int>, w: nat, log: seq<Effect>)
  {
    forall i :: 0 <= i < |log| && log[i].Fill? && log[i].kind != Retain ==> View(Replay(b, w, log[..i]), w, log[i].pos) != -1
  }

  lemma LandsAppend(b: seq<int>, w: nat, a: seq<Effect>, c: seq<Effect>)
    requires Lands(b, w, a) && Lands(Replay(b, w, a), w, c)
    ensures Lands(b, w, a + c)
  {
    var l := a + c;
    forall i | 0 <= i < |l| && l[i].Fill? && l[i].kind != Retain
      ensures View(Replay(b, w, l[..i]), w, l[i].pos) != -1
    {
      if i < |a| {
        assert l[..i] == a[..i];
      } else {
        var j := i - |a|;
        assert l[..i] == a + c[..j];
        ReplayAppend(b, w, a, c[..j]);
        assert l[i] == c[j];
      }
    }
  }

  /** When each fill of a log of fills lands on a painted pixel, the log lands. */
  lemma FillsLand(b: seq<int>, w: nat, fills: seq<Effect>)
    requires forall f :: f in fills ==> f.Fill? && View(b, w, f.pos) != -1
    ensures Lands(b, w, fills)
  {
    forall i | 0 <= i < |fills| && fills[i].Fill? && fills[i].kind != Retain
      ensures View(Replay(b, w, fills[..i]), w, fills[i].pos) != -1
    {
      assert fills[i] in fills;
      ReplayFills(b, w, fills[..i]);
    }
  }

  /** A store of `active` at `p`, fills of painted pixels, and a fill of `p` rebuild the written buffer and land. */
  lemma WriteThenFills(b0: seq<int>, w: nat, h: nat, active: int, p: Pos, fills: seq<Effect>, kind: FillKind)
    requires |b0| == w * h && active != -1 && InBounds(w, h, p)
    requires forall f :: f in fills ==> f.Fill? && View(SetSegment(b0, w, p, active), w, f.pos) != -1
    ensures Replay(b0, w, [Set(p, active)] + fills + [Fill(p, kind)]) == SetSegment(b0, w, p, active)
    ensures Lands(b0, w, [Set(p, active)] + fills + [Fill(p, kind)])
  {
    var b := SetSegment(b0, w, p, active);
    var first := [Set(p, active)];
    var last := [Fill(p, kind)];
    assert Replay(b0, w, first) == b by {
      assert first[..0] == [];
    }
    assert Lands(b0, w, first);
    ReplayFills(b, w, fills);
    FillsLand(b, w, fills);
    ReadAfterWrite(b0, w, h, p, p, active);
    assert last[0] in last;
    ReplayFills(b, w, last);
    FillsLand(b, w, last);
    ReplayAppend(b0, w, first, fills);
    LandsAppend(b0, w, first, fills);
    ReplayAppend(b0, w, first + fills, last);
    LandsAppend(b0, w, first + fills, last);
  }

  /**
   * One brush point appends callbacks whose stores rebuild the buffer it
   * leaves and whose fills all land, given a stroke segment other than -1.
   */
  lemma StampPointReplays(w: nat, h: nat, active: int, c: Pos, pt: EdgedPoint, s: Paint)
    requires |s.buffer| == w * h && active != -1
    ensures var r := StampPoint(w, h, active, c, pt, true, s);
      && |s.log| <= |r.log| && r.log[..|s.log|] == s.log
      && Replay(s.buffer, w, r.log[|s.log|..]) == r.buffer
      && Lands(s.buffer, w, r.log[|s.log|..])
  {
    var p := Add(c, pt.pos);
    var r := StampPoint(w, h, active, c, pt, true, s);
    if InBounds(w, h, p) {
      var b := r.buffer;
      IndexInRange(w, h, p);
      assert b == SetSegment(s.buffer, w, p, active);
      var t := EdgeTests(b, w, h, active, p, pt.edges);
      var kind := if t.0 || OnCanvasEdge(w, h, p) then Boundary else NotBoundary;
      assert r.log[|s.log|..] == [Set(p, active)] + t.1 + [Fill(p, kind)];
      forall f | f in t.1 ensures f.Fill? && View(b, w, f.pos) != -1 {
        var e :| e in pt.edges && Marks(b, w, h, active, Add(p, e)) && f == Fill(Add(p, e), Boundary);
        ViewAt(b, w, h, Add(p, e));
      }
      WriteThenFills(s.buffer, w, h, active, p, t.1, kind);
    } else {
      assert r.log[|s.log|..] == [];
    }
  }

  /** The same for a whole stamp and a whole stroke. */
  lemma {:induction false} StampReplays(w: nat, h: nat, active: int, c: Pos, brush: seq<EdgedPoint>, s: Paint)
    requires |s.buffer| == w * h && active != -1
    ensures var r := Stamp(w, h, active, c, brush, true, s);
      && |s.log| <= |r.log| && r.log[..|s.log|] == s.log
      && Replay(s.buffer, w, r.log[|s.log|..]) == r.buffer
      && Lands(s.buffer, w, r.log[|s.log|..])
    decreases |brush|
  {
    if brush == [] {
      assert s.log[|s.log|..] == [];
    } else {
      var m := StampPoint(w, h, active, c, brush[0], true, s);
      StampPointReplays(w, h, active, c, brush[0], s);
      StampReplays(w, h, active, c, brush[1..], m);
      var r := Stamp(w, h, active, c, brush[1..], true, m);
      Chain(s, m, r, w);
    }
  }

  lemma {:induction false} StrokeReplays(w: nat, h: nat, active: int, centres: seq<Pos>, brush: seq<EdgedPoint>, s: Paint)
    requires |s.buffer| == w * h && active != -1
    ensures var r := Stroke(w, h, active, centres, brush, true, s);
      && |s.log| <= |r.log| && r.log[..|s.log|] == s.log
      && Replay(s.buffer, w, r.log[|s.log|..]) == r.buffer
      && Lands(s.buffer, w, r.log[|s.log|..])
    decreases |centres|
  {
    if centres == [] {
      assert s.log[|s.log|..] == [];
    } else {
      var m := Stamp(w, h, active, centres[0], brush, true, s);
      StampReplays(w, h, active, centres[0], brush, s);
      StrokeReplays(w, h, active, centres[1..], brush, m);
      var r := Stroke(w, h, active, centres[1..], brush, true, m);
      Chain(s, m, r, w);
    }
  }

  /** Two steps that each extend the log, rebuild their buffer and land compose. */
  lemma Chain(s: Paint, m: Paint, r: Paint, w: nat)
    requires |s.log| <= |m.log| && m.log[..|s.log|] == s.log
    requires Replay(s.buffer, w, m.log[|s.log|..]) == m.buffer && Lands(s.buffer, w, m.log[|s.log|..])
    requires |m.log| <= |r.log| && r.log[..|m.log|] == m.log
    requires Replay(m.buffer, w, r.log[|m.log|..]) == r.buffer && Lands(m.buffer, w, r.log[|m.log|..])
    ensures |s.log| <= |r.log| && r.log[..|s.log|] == s.log
    ensures Replay(s.buffer, w, r.log[|s.log|..]) == r.buffer && Lands(s.buffer, w, r.log[|s.log|..])
  {
    var a := m.log[|s.log|..];
    var c := r.log[|m.log|..];
    assert r.log[|s.log|..] == a + c;
    assert r.log[..|s.log|] == m.log[..|s.log|];
    ReplayAppend(s.buffer, w, a, c);
    LandsAppend(s.buffer, w, a, c);
  }

  // ---- The server's segment buffer ----------------------------------------------------

  /** A short-log node: a stroke, or the pixels one new segment id took over with their boundary flags. */
  datatype Node =
    | DrawNode(segment: int, event: DrawEvent, historyIndex: int)
    | FillNode(segment: int, points: map<Pos, bool>, historyIndex: int)

  /** A painted cell: the node that painted it last, and whether it is drawn as a boundary pixel. */
  datatype Entry = Entry(node: nat, boundary: bool)

  /** The room state the drawing touches: the buffer, the short log's nodes, the raw log and the id counter. */
  datatype Room = Room(buffer: seq<Option<Entry>>, nodes: seq<Node>, rawLog: seq<DrawEvent>, next: int)

  /** Every entry names a node of the short log. */
  predicate Linked(r: Room)
  {
    forall i :: 0 <= i < |r.buffer| && r.buffer[i].Some? ==> r.buffer[i].value.node < |r.nodes|
  }

  /** The buffer as segment ids: an entry's node's segment, -1 for an empty cell. */
  function Views(r: Room): (v: seq<int>)
    requires Linked(r)
    ensures |v| == |r.buffer|
  {
    seq(|r.buffer|, i requires 0 <= i < |r.buffer| => if r.buffer[i].Some? then r.nodes[r.buffer[i].value.node].segment else -1)
  }

  /** The boundary flags, false for an empty cell. */
  function Flags(r: Room): (f: seq<bool>)
    ensures |f| == |r.buffer|
  {
    seq(|r.buffer|, i requires 0 <= i < |r.buffer| => r.buffer[i].Some? && r.buffer[i].value.boundary)
  }

  /** `getSegment`: the segment of the entry at the raw index, -1 for an empty cell or off the buffer. */
  function GetSegmentServer(r: Room, w: nat, p: Pos): (s: int)
    requires Linked(r)
    ensures s == View(Views(r), w, p)
    ensures s != -1 ==> 0 <= Index(w, p) < |r.buffer| && r.buffer[Index(w, p)].Some?
  {
    var i := Index(w, p);
    if 0 <= i < |r.buffer| && r.buffer[i].Some? then r.nodes[r.buffer[i].value.node].segment else -1
  }

  /**
   * `setSegment` with `node`: an empty cell first gets an entry for
   * `node` that is not a boundary; a cell of another segment is handed to
   * `node`, and when `node` is a fill node it records the boundary flag the
   * cell had. The flags and every other node stay as they were.
   */
  function SetSegmentServer(r: Room, w: nat, p: Pos, node: nat): (r': Room)
    requires Linked(r) && node < |r.nodes| && 0 <= Index(w, p) < |r.buffer|
    ensures Linked(r') && |r'.buffer| == |r.buffer| && r'.rawLog == r.rawLog && r'.next == r.next
    ensures Views(r') == Views(r)[Index(w, p) := r.nodes[node].segment]
    ensures Flags(r') == Flags(r)
    ensures |r'.nodes| == |r.nodes| && forall n :: 0 <= n < |r.nodes| && n != node ==> r'.nodes[n] == r.nodes[n]
    ensures r.nodes[node].DrawNode? ==> r'.nodes == r.nodes
    ensures r.nodes[node].FillNode? ==> r'.nodes[node] == r.nodes[node].(points :=
      if r.buffer[Index(w, p)].Some? && Views(r)[Index(w, p)] != r.nodes[node].segment
      then r.nodes[node].points[p := Flags(r)[Index(w, p)]] else r.nodes[node].points)
  {
    var i := Index(w, p);
    var entry := if r.buffer[i].Some? then r.buffer[i].value else Entry(node, false);
    if r.nodes[entry.node].segment != r.nodes[node].segment then
      var nodes := if r.nodes[node].FillNode?
                   then r.nodes[node := r.nodes[node].(points := r.nodes[node].points[p := entry.boundary])]
                   else r.nodes;
      var r' := Room(r.buffer[i := Some(Entry(node, entry.boundary))], nodes, r.rawLog, r.next);
      assert Views(r') == Views(r)[i := r.nodes[node].segment];
      r'
    else
      var r' := r.(buffer := r.buffer[i := Some(entry)]);
      assert Views(r') == Views(r)[i := r.nodes[node].segment];
      r'
  }

  /**
   * `fill`: `retain` changes nothing; otherwise the cell's flag becomes
   * whether the fill is a boundary fill, mirrored into its node when that
   * is a fill node. Filling an empty cell throws (None).
   */
  function FillServer(r: Room, w: nat, p: Pos, kind: FillKind): (r': Option<Room>)
    requires Linked(r)
    ensures kind == Retain ==> r' == Some(r)
    ensures kind != Retain ==> (r'.Some? <==> 0 <= Index(w, p) < |r.buffer| && r.buffer[Index(w, p)].Some?)
    ensures r'.Some? && kind != Retain ==>
      var i := Index(w, p);
      var n := r.buffer[i].value.node;
      && Linked(r'.value) && r'.value.rawLog == r.rawLog && r'.value.next == r.next
      && Views(r'.value) == Views(r)
      && Flags(r'.value) == Flags(r)[i := kind == Boundary]
      && |r'.value.nodes| == |r.nodes| && (forall m :: 0 <= m < |r.nodes| && m != n ==> r'.value.nodes[m] == r.nodes[m])
      && r'.value.nodes[n] == if r.nodes[n].FillNode? then r.nodes[n].(points := r.nodes[n].points[p := kind == Boundary]) else r.nodes[n]
  {
    if kind == Retain then Some(r)
    else
      var i := Index(w, p);
      if !(0 <= i < |r.buffer|) || r.buffer[i].None? then None
      else
        var e := r.buffer[i].value;
        var nodes := if r.nodes[e.node].FillNode?
                     then r.nodes[e.node := r.nodes[e.node].(points := r.nodes[e.node].points[p := kind == Boundary])]
                     else r.nodes;
        var r' := Room(r.buffer[i := Some(Entry(e.node, kind == Boundary))], nodes, r.rawLog, r.next);
        assert Views(r') == Views(r);
        assert Flags(r') == Flags(r)[i := kind == Boundary];
        Some(r')
  }

  // ---- A stroke through the server's callbacks -----------------------------------------

  /** Node `b` is node `a`, up to the point map when both are fill nodes. */
  predicate Kept(a: Node, b: Node)
  {
    a == b || (a.FillNode? && b.FillNode? && b == a.(points := b.points))
  }

  /** The same nodes, up to fill nodes' point maps, and the same raw log and counter. */
  predicate SameNodes(r: Room, r': Room)
  {
    && |r'.nodes| == |r.nodes| && r'.rawLog == r.rawLog && r'.next == r.next
    && forall n :: 0 <= n < |r.nodes| ==> Kept(r.nodes[n], r'.nodes[n]) && r'.nodes[n].segment == r.nodes[n].segment
  }

  /** One callback on the server: a store hands the cell to `node`, a fill sets its flag; None when it throws or falls off the buffer. */
  function Step(r: Room, w: nat, node: nat, e: Effect): (r': Option<Room>)
    requires Linked(r) && node < |r.nodes|
    ensures r'.Some? ==> Linked(r'.value) && |r'.value.buffer| == |r.buffer| && SameNodes(r, r'.value)
  {
    match e
    case Set(p, _) => if 0 <= Index(w, p) < |r.buffer| then Some(SetSegmentServer(r, w, p, node)) else None
    case Fill(p, kind) => FillServer(r, w, p, kind)
  }

  /** The callbacks of `log` in order on the server, stopping at the first that throws. */
  function ApplyStroke(r: Room, w: nat, node: nat, log: seq<Effect>): (r': Option<Room>)
    requires Linked(r) && node < |r.nodes|
    ensures r'.Some? ==> Linked(r'.value) && |r'.value.buffer| == |r.buffer| && SameNodes(r, r'.value)
    decreases |log|
  {
    if log == [] then Some(r)
    else
      match ApplyStroke(r, w, node, log[..|log| - 1])
      case None => None
      case Some(m) => Step(m, w, node, log[|log| - 1])
  }

  /** Dropping the last callback keeps a log on the canvas and its fills landing. */
  lemma StrokePrefix(b: seq<int>, w: nat, h: nat, active: int, log: seq<Effect>)
    requires log != [] && OnCanvas(w, h, active, log) && Lands(b, w, log)
    ensures OnCanvas(w, h, active, log[..|log| - 1]) && Lands(b, w, log[..|log| - 1])
  {
    var init := log[..|log| - 1];
    forall i | 0 <= i < |init| ensures InBounds(w, h, init[i].pos) && (init[i].Set? ==> init[i].segment == active) {
      assert init[i] == log[i];
    }
    forall i | 0 <= i < |init| && init[i].Fill? && init[i].kind != Retain
      ensures View(Replay(b, w, init[..i]), w, init[i].pos) != -1
    {
      assert init[..i] == log[..i] && init[i] == log[i];
    }
  }

  /**
   * A stroke log on the canvas whose stores carry `node`'s segment and
   * whose fills land never throws on the server, and the server's buffer
   * then reads as the plain buffer the log rebuilds.
   */
  lemma {:induction false} StrokeOnServer(r: Room, w: nat, h: nat, node: nat, log: seq<Effect>)
    requires Linked(r) && node < |r.nodes| && |r.buffer| == w * h
    requires OnCanvas(w, h, r.nodes[node].segment, log) && Lands(Views(r), w, log)
    ensures ApplyStroke(r, w, node, log).Some?
    ensures Views(ApplyStroke(r, w, node, log).value) == Replay(Views(r), w, log)
    decreases |log|
  {
    if log != [] {
      var n := |log| - 1;
      var init := log[..n];
      StrokePrefix(Views(r), w, h, r.nodes[node].segment, log);
      StrokeOnServer(r, w, h, node, init);
      var m := ApplyStroke(r, w, node, init).value;
      var b := Replay(Views(r), w, init);
      var e := log[n];
      assert InBounds(w, h, e.pos);
      IndexInRange(w, h, e.pos);
      match e
      case Set(p, s) => {
        assert s == r.nodes[node].segment == m.nodes[node].segment;
      }
      case Fill(p, kind) => {
        if kind != Retain {
          assert View(b, w, p) != -1;
          assert GetSegmentServer(m, w, p) != -1;
        }
      }
    }
  }

  /** What the server keeps of a stroke: its room and the segments it cut into with their new boundary pixels. */
  datatype Drawn = Drawn(room: Room, effected: JsMap<int, JsSet<Pos>>)

  /**
   * How `smoothPaintServer` ends: it returns what it drew, or it throws and
   * leaves the room as the statements before the throw made it.
   */
  datatype Served = Done(drawn: Drawn) | Thrown(room: Room)

  /**
   * `smoothPaintServer`: the stroke's segment is the one under `from`, or
   * the next free id on an empty pixel; a draw node for it is appended to
   * the short log and the event to the raw log; then the shared stroke runs
   * through the server's callbacks, which also moves the room's counter.
   * When the brush size has no brush, the first stamp throws before any
   * write, so the thrown room keeps the appended node and event and the
   * moved counter. A callback that throws mid-stroke keeps the same room:
   * its earlier writes are not modelled.
   */
  function SmoothPaintServer(r: Room, w: nat, h: nat, e: DrawEvent, path: seq<Pos>): (d: Served)
    requires Linked(r) && |r.buffer| == w * h
    ensures d.Done? ==> Linked(d.drawn.room) && |d.drawn.room.buffer| == w * h
    ensures d.Thrown? ==> Linked(d.room) && d.room.buffer == r.buffer
  {
    var from := GetSegmentServer(r, w, e.from);
    var segment := if from == -1 then r.next else from;
    var node := |r.nodes|;
    var r1 := Room(r.buffer, r.nodes + [DrawNode(segment, e, |r.rawLog|)], r.rawLog + [e], r.next);
    assert Linked(r1);
    var (next', painted) := SmoothPaint(Views(r), w, h, r.next, e, path);
    match painted
    case None => Thrown(r1.(next := next'))
    case Some(p) =>
      match ApplyStroke(r1, w, node, p.log)
      case None => Thrown(r1.(next := next'))
      case Some(r2) => Done(Drawn(r2.(next := next'), p.effected))
  }

  /**
   * With a segment counter that is not negative, the server's stroke throws
   * exactly when the brush size has no brush. Either way the room gains one
   * draw node for the stroke's segment and the event, and the counter moves
   * on exactly when the stroke starts on an empty pixel; a thrown stroke
   * leaves the buffer and the older nodes as they were. A drawn stroke
   * keeps the nodes before it up to fill nodes' point maps; each canvas
   * pixel reads the stroke's segment exactly when the brush covers it at
   * `from` or a path point, and as before otherwise; and every recorded
   * boundary pixel still holds the other segment it is recorded for.
   */
  lemma SmoothPaintServerSpec(r: Room, w: nat, h: nat, e: DrawEvent, path: seq<Pos>)
    requires Linked(r) && |r.buffer| == w * h && r.next >= 0
    ensures var d := SmoothPaintServer(r, w, h, e, path);
      d.Done? <==> CommonGetBrush(e.size).Some?
    ensures var d := SmoothPaintServer(r, w, h, e, path);
      var from := GetSegmentServer(r, w, e.from);
      var segment := if from == -1 then r.next else from;
      var room := if d.Done? then d.drawn.room else d.room;
      && |room.nodes| == |r.nodes| + 1
      && room.nodes[|r.nodes|] == DrawNode(segment, e, |r.rawLog|)
      && room.rawLog == r.rawLog + [e]
      && room.next == (if from == -1 then r.next + 1 else r.next)
    ensures var d := SmoothPaintServer(r, w, h, e, path);
      d.Thrown? ==> d.room.buffer == r.buffer && d.room.nodes[..|r.nodes|] == r.nodes
    ensures var d := SmoothPaintServer(r, w, h, e, path);
      var from := GetSegmentServer(r, w, e.from);
      var segment := if from == -1 then r.next else from;
      d.Done? ==>
        && (forall n :: 0 <= n < |r.nodes| ==> Kept(r.nodes[n], d.drawn.room.nodes[n]))
        && (forall q :: InBounds(w, h, q) ==>
              GetSegmentServer(d.drawn.room, w, q) ==
                if Covered([e.from] + path, CommonGetBrush(e.size).value, q) then segment else GetSegmentServer(r, w, q))
        && Tracks(w, h, segment, Tracker(Views(d.drawn.room), d.drawn.effected))
  {
    var from := GetSegmentServer(r, w, e.from);
    var segment := if from == -1 then r.next else from;
    var node := |r.nodes|;
    var r1 := Room(r.buffer, r.nodes + [DrawNode(segment, e, |r.rawLog|)], r.rawLog + [e], r.next);
    assert Views(r1) == Views(r);
    var b := Views(r);
    if CommonGetBrush(e.size).Some? {
      var brush := CommonGetBrush(e.size).value;
      var centres := [e.from] + path;
      var s := Stroke(w, h, segment, centres, brush, true, Paint(b, []));
      var p := SmoothPaint(b, w, h, r.next, e, path).1.value;
      assert p.log == s.log && p.buffer == s.buffer && p.active == segment;
      StrokeLog(w, h, segment, centres, brush, true, Paint(b, []));
      StrokeReplays(w, h, segment, centres, brush, Paint(b, []));
      assert s.log[0..] == s.log;
      StrokeOnServer(r1, w, h, node, s.log);
      var r2 := ApplyStroke(r1, w, node, s.log).value;
      assert Views(r2) == s.buffer;
      forall q | InBounds(w, h, q)
        ensures GetSegmentServer(r2, w, q) == if Covered(centres, brush, q) then segment else GetSegmentServer(r, w, q)
      {
        StrokeWrites(w, h, segment, centres, brush, true, Paint(b, []), q);
        ViewAt(s.buffer, w, h, q);
        ViewAt(b, w, h, q);
      }
      TrackStroke(w, h, segment, centres, brush, Paint(b, []), EmptyMap());
    }
  }

  // ---- The recomputation through the server's callbacks ---------------------------------

  /** The server's `isBoundary`: the flag of the entry at the raw index, false for an empty cell or off the buffer. */
  function FlagAt(r: Room, w: nat): Pos -> bool
  {
    (p: Pos) => 0 <= Index(w, p) < |r.buffer| && r.buffer[Index(w, p)].Some? && r.buffer[Index(w, p)].value.boundary
  }

  /** Some store among the first `i` callbacks carries id `n`. */
  ghost predicate StoredBefore(log: seq<Effect>, i: nat, n: int)
  {
    exists k :: 0 <= k < i && k < |log| && log[k].Set? && log[k].segment == n
  }

  /**
   * The fill nodes the recomputation made after the first `base` nodes: each
   * id of `fills` names a fill node of that id dated to the last raw event,
   * and each node after `base` is the one its id names.
   */
  ghost predicate FillNodes(r: Room, base: nat, fills: map<int, nat>)
  {
    && base <= |r.nodes|
    && (forall n :: n in fills ==>
          && base <= fills[n] < |r.nodes| && r.nodes[fills[n]].FillNode?
          && r.nodes[fills[n]].segment == n && r.nodes[fills[n]].historyIndex == |r.rawLog| - 1)
    && (forall j :: base <= j < |r.nodes| ==> r.nodes[j].segment in fills && fills[r.nodes[j].segment] == j)
  }

  /**
   * One callback of the recomputation on the server: a store of id `n`
   * first appends a fill node for `n` unless `fills` has one, then hands
   * the cell to it; a fill goes to the server's fill, whose `retain` does
   * nothing.
   */
  function RecomputeStep(room: Room, w: nat, fills: map<int, nat>, e: Effect): (Room, map<int, nat>)
    requires Linked(room) && 0 <= Index(w, e.pos) < |room.buffer|
    requires forall n :: n in fills ==> fills[n] < |room.nodes|
  {
    match e
    case Set(p, n) =>
      if n in fills then (SetSegmentServer(room, w, p, fills[n]), fills)
      else
        var grown := room.(nodes := room.nodes + [FillNode(n, map[], |room.rawLog| - 1)]);
        assert Linked(grown);
        (SetSegmentServer(grown, w, p, |room.nodes|), fills[n := |room.nodes|])
    case Fill(p, kind) =>
      match FillServer(room, w, p, kind)
      case Some(filled) => (filled, fills)
      case None => (room, fills)
  }

  /** What one store or `retain` fill of the recomputation keeps: see `RecomputeStepKeeps`. */
  ghost predicate StepKept(r: Room, room: Room, w: nat, e: Effect, room': Room, fills': map<int, nat>)
    requires Linked(room)
  {
    && Linked(room') && |room'.buffer| == |room.buffer| && room'.rawLog == r.rawLog && room'.next == r.next
    && Flags(room') == Flags(r) && Views(room') == Apply(Views(room), w, e)
    && |room'.nodes| >= |r.nodes| && (forall n :: 0 <= n < |r.nodes| ==> Kept(r.nodes[n], room'.nodes[n]))
    && FillNodes(room', |r.nodes|, fills')
  }

  /** A store of an id that already has its fill node. */
  lemma StoreKnown(r: Room, room: Room, w: nat, fills: map<int, nat>, p: Pos, n: int)
    requires Linked(room) && 0 <= Index(w, p) < |room.buffer| && n in fills
    requires room.rawLog == r.rawLog && room.next == r.next && Flags(room) == Flags(r)
    requires |room.nodes| >= |r.nodes| && forall m :: 0 <= m < |r.nodes| ==> Kept(r.nodes[m], room.nodes[m])
    requires FillNodes(room, |r.nodes|, fills)
    ensures StepKept(r, room, w, Set(p, n), SetSegmentServer(room, w, p, fills[n]), fills)
  {
    var room' := SetSegmentServer(room, w, p, fills[n]);
    forall m | 0 <= m < |r.nodes| ensures Kept(r.nodes[m], room'.nodes[m]) {
      assert m != fills[n];
    }
  }

  /** Appending the fill node of a new id keeps the views, the flags and the bookkeeping. */
  lemma GrownKeeps(r: Room, room: Room, fills: map<int, nat>, n: int, grown: Room)
    requires Linked(room) && n !in fills
    requires |room.nodes| >= |r.nodes| && forall m :: 0 <= m < |r.nodes| ==> Kept(r.nodes[m], room.nodes[m])
    requires FillNodes(room, |r.nodes|, fills)
    requires grown == room.(nodes := room.nodes + [FillNode(n, map[], |room.rawLog| - 1)])
    ensures Linked(grown) && Views(grown) == Views(room) && Flags(grown) == Flags(room)
    ensures |grown.nodes| >= |r.nodes| && forall m :: 0 <= m < |r.nodes| ==> Kept(r.nodes[m], grown.nodes[m])
    ensures FillNodes(grown, |r.nodes|, fills[n := |room.nodes|])
  {
  }

  /**
   * A store or `retain` fill of the recomputation updates the server's
   * buffer as on a plain buffer, keeps the flags, the earlier nodes and the
   * fill-node bookkeeping, and adds the stored id to `fills`.
   */
  lemma RecomputeStepKeeps(r: Room, room: Room, w: nat, fills: map<int, nat>, e: Effect)
    requires Linked(room) && 0 <= Index(w, e.pos) < |room.buffer| && (e.Fill? ==> e.kind == Retain)
    requires room.rawLog == r.rawLog && room.next == r.next && Flags(room) == Flags(r)
    requires |room.nodes| >= |r.nodes| && forall n :: 0 <= n < |r.nodes| ==> Kept(r.nodes[n], room.nodes[n])
    requires FillNodes(room, |r.nodes|, fills)
    ensures var (room', fills') := RecomputeStep(room, w, fills, e);
      && StepKept(r, room, w, e, room', fills')
      && (forall n :: n in fills' <==> n in fills || (e.Set? && e.segment == n))
  {
    match e
    case Set(p, n) => {
      if n in fills {
        StoreKnown(r, room, w, fills, p, n);
      } else {
        var grown := room.(nodes := room.nodes + [FillNode(n, map[], |room.rawLog| - 1)]);
        GrownKeeps(r, room, fills, n, grown);
        StoreKnown(r, grown, w, fills[n := |room.nodes|], p, n);
      }
    }
    case Fill(p, kind) => {}
  }

  /**
   * `recomputeSegmentsServer`: the shared recomputation runs with the
   * server's callbacks, the first store of each new id appending a fill node
   * for it. The buffer then reads as `Recomputed` describes, the boundary
   * flags are unchanged, the earlier nodes are kept up to point maps, and
   * `fills` holds exactly one new fill node for each id the counter moved
   * past. `log` is the callbacks made.
   */
  method RecomputeServer(r: Room, w: nat, h: nat, effected: JsMap<int, JsSet<Pos>>)
    returns (r': Room, fills: map<int, nat>, log: seq<Effect>)
    requires Linked(r) && |r.buffer| == w * h
    ensures Linked(r') && |r'.buffer| == |r.buffer| && r'.rawLog == r.rawLog && Flags(r') == Flags(r)
    ensures Recompute.Recomputed(Views(r), w, h, Elements(effected.keys), r.next, Views(r'), log, r'.next)
    ensures |r'.nodes| >= |r.nodes| && forall n :: 0 <= n < |r.nodes| ==> Kept(r.nodes[n], r'.nodes[n])
    ensures FillNodes(r', |r.nodes|, fills)
    ensures forall n :: n in fills <==> r.next <= n < r'.next
  {
    var b, next';
    b, log, next' := Recompute.RecomputeSegments(Views(r), w, h, FlagAt(r, w), r.next, effected);
    var room := r;
    fills := map[];
    for i := 0 to |log|
      invariant Linked(room) && |room.buffer| == w * h && room.rawLog == r.rawLog && room.next == r.next
      invariant Flags(room) == Flags(r)
      invariant Views(room) == Replay(Views(r), w, log[..i])
      invariant |room.nodes| >= |r.nodes| && forall n :: 0 <= n < |r.nodes| ==> Kept(r.nodes[n], room.nodes[n])
      invariant FillNodes(room, |r.nodes|, fills)
      invariant forall n :: n in fills <==> StoredBefore(log, i, n)
    {
      var e := log[i];
      assert e in log;
      assert log[..i + 1][..i] == log[..i];
      IndexInRange(w, h, e.pos);
      RecomputeStepKeeps(r, room, w, fills, e);
      var stepped := RecomputeStep(room, w, fills, e);
      room, fills := stepped.0, stepped.1;
      forall n ensures StoredBefore(log, i + 1, n) <==> StoredBefore(log, i, n) || (e.Set? && e.segment == n) {
        if StoredBefore(log, i + 1, n) && !StoredBefore(log, i, n) {
          var k :| 0 <= k < i + 1 && k < |log| && log[k].Set? && log[k].segment == n;
        }
      }
    }
    r' := room.(next := next');
    assert log[..|log|] == log;
    forall n ensures n in fills <==> r.next <= n < r'.next {
      if n in fills {
        var k :| 0 <= k < |log| && log[k].Set? && log[k].segment == n;
        assert log[k] in log;
      }
      if r.next <= n < r'.next {
        assert Recompute.Stored(log, n);
        var q :| Set(q, n) in log;
        var k :| 0 <= k < |log| && log[k] == Set(q, n);
        assert StoredBefore(log, |log|, n);
      }
    }
  }
}

=== FILE: shared.dfy ===
/**
 * The stroke and split logic of the next-app that the client and the server
 * share (common/drawing.ts). It works through callbacks; here they act on a
 * segment buffer as `getSegment` sees it (-1 where there is no segment), and
 * the `setSegment` and `fill` calls are returned as an effect log.
 *
 * `smoothPaint` stamps the brush along a stroke and, through its wrapped
 * callbacks, tracks for every other segment the pixels that became boundary
 * pixels of it (`effectedSegments`). `recomputeSegments` then walks those
 * pixels to find the segments the stroke cut in two and gives the cut-off
 * part a new id.
 */
module SharedDrawing {
  import opened Wrappers
  import opened Grid
  import opened JsCollections
  import opened Brushes
  import opened SegmentBuffers
  import opened Traversal
  import opened Bft
  import Canvas

  /** A stroke as clients send it: start, end and brush size. */
  datatype DrawEvent = DrawEvent(from: Pos, to: Pos, size: int)

  /** The segment `getSegment` reports at `p`: -1 where there is none. */
  function View(b: seq<int>, w: nat, p: Pos): int
  {
    GetSegment(b, w, p).GetOr(-1)
  }

  lemma ViewAt(b: seq<int>, w: nat, h: nat, p: Pos)
    requires |b| == w * h && InBounds(w, h, p)
    ensures View(b, w, p) == b[CellIndex(w, h, p)]
  {
    IndexInRange(w, h, p);
  }

  // ---- Tracking the segments a stroke cuts into -----------------------------------

  /** The buffer as the callbacks see it, and `effectedSegments`: segment to its new boundary pixels. */
  datatype Tracker = Tracker(buffer: seq<int>, effected: JsMap<int, JsSet<Pos>>)

  /**
   * The wrapped callbacks of `smoothPaint`. A store first removes the pixel
   * from the boundary set of the segment it held, if that segment has an
   * entry. A fill at a pixel of another segment than the active one makes
   * sure that segment has an entry, and records the pixel when the fill is
   * a boundary fill.
   */
  function Note(w: nat, active: int, t: Tracker, e: Effect): Tracker
  {
    match e
    case Set(p, s) =>
      var before := View(t.buffer, w, p);
      var eff := if Has(t.effected, before)
                 then Put(t.effected, before, SetDelete(t.effected.table[before], p).0)
                 else t.effected;
      Tracker(SetSegment(t.buffer, w, p, s), eff)
    case Fill(q, kind) =>
      var seg := View(t.buffer, w, q);
      if seg == active then t
      else
        var entry := if Has(t.effected, seg) then t.effected.table[seg] else EmptySet();
        Tracker(t.buffer, Put(t.effected, seg, if kind == Boundary then SetAdd(entry, q) else entry))
  }

  /** The wrapped callbacks over a whole log, in order. */
  function Track(w: nat, active: int, t: Tracker, log: seq<Effect>): Tracker
    decreases |log|
  {
    if log == [] then t else Track(w, active, Note(w, active, t, log[0]), log[1..])
  }

  lemma {:induction false} TrackAppend(w: nat, active: int, t: Tracker, a: seq<Effect>, b: seq<Effect>)
    ensures Track(w, active, t, a + b) == Track(w, active, Track(w, active, t, a), b)
    decreases |a|
  {
    if a == [] {
      assert a + b == b;
    } else {
      assert (a + b)[0] == a[0] && (a + b)[1..] == a[1..] + b;
      TrackAppend(w, active, Note(w, active, t, a[0]), a[1..], b);
    }
  }

  /**
   * What the tracker keeps: no entry for the active segment or for -1, and
   * every recorded pixel is on the canvas and still holds the segment it is
   * recorded for.
   */
  ghost predicate Tracks(w: nat, h: nat, active: int, t: Tracker)
  {
    && |t.buffer| == w * h
    && forall k :: k in t.effected.table ==>
         && k != active && k != -1
         && forall q :: q in t.effected.table[k] ==> InBounds(w, h, q) && t.buffer[CellIndex(w, h, q)] == k
  }

  /** A store of the active segment leaves the pixel in no boundary set. */
  lemma NoteSet(w: nat, h: nat, active: int, t: Tracker, p: Pos)
    requires Tracks(w, h, active, t) && InBounds(w, h, p)
    ensures var t' := Note(w, active, t, Set(p, active));
      t'.buffer == t.buffer[CellIndex(w, h, p) := active] && Tracks(w, h, active, t')
  {
    var t' := Note(w, active, t, Set(p, active));
    var before := View(t.buffer, w, p);
    ViewAt(t.buffer, w, h, p);
    IndexInRange(w, h, p);
    assert t'.buffer == t.buffer[CellIndex(w, h, p) := active];
    forall k, q | k in t'.effected.table && q in t'.effected.table[k]
      ensures InBounds(w, h, q) && t'.buffer[CellIndex(w, h, q)] == k
    {
      if k == before {
        assert q in Elements(SetDelete(t.effected.table[before], p).0);
        assert q in t.effected.table[k] && q != p;
      } else {
        assert q in t.effected.table[k];
        assert t.buffer[CellIndex(w, h, q)] != t.buffer[CellIndex(w, h, p)];
      }
      if CellIndex(w, h, q) == CellIndex(w, h, p) {
        IndexInjective(w, h, p, q);
      }
    }
  }

  /** A boundary fill of a pixel another segment holds records it under that segment. */
  lemma NoteMark(w: nat, h: nat, active: int, t: Tracker, q: Pos)
    requires Tracks(w, h, active, t) && Marks(t.buffer, w, h, active, q)
    ensures var t' := Note(w, active, t, Fill(q, Boundary));
      && t'.buffer == t.buffer && Tracks(w, h, active, t')
      && q in t'.effected.table[t.buffer[CellIndex(w, h, q)]]
  {
    ViewAt(t.buffer, w, h, q);
  }

  /** The boundary fills of a brush point's edges are all recorded, and the buffer is untouched. */
  lemma {:induction false} NoteMarks(w: nat, h: nat, active: int, t: Tracker, fills: seq<Effect>)
    requires Tracks(w, h, active, t)
    requires forall f :: f in fills ==> f.Fill? && f.kind == Boundary && Marks(t.buffer, w, h, active, f.pos)
    ensures var t' := Track(w, active, t, fills);
      t'.buffer == t.buffer && Tracks(w, h, active, t')
    decreases |fills|
  {
    if fills != [] {
      NoteMark(w, h, active, t, fills[0].pos);
      assert fills[0] == Fill(fills[0].pos, Boundary);
      var t1 := Note(w, active, t, fills[0]);
      assert forall f :: f in fills[1..] ==> f in fills;
      NoteMarks(w, h, active, t1, fills[1..]);
    }
  }

  /** The callbacks of one brush point keep the tracker in step with the buffer. */
  lemma TrackStampPoint(w: nat, h: nat, active: int, c: Pos, pt: EdgedPoint, s: Paint, eff: JsMap<int, JsSet<Pos>>)
    requires |s.buffer| == w * h && Tracks(w, h, active, Tracker(s.buffer, eff))
    ensures var r := StampPoint(w, h, active, c, pt, true, s);
      var t := Track(w, active, Tracker(s.buffer, eff), r.log[|s.log|..]);
      |r.log| >= |s.log| && r.log[..|s.log|] == s.log && t.buffer == r.buffer && Tracks(w, h, active, t)
  {
    var r := StampPoint(w, h, active, c, pt, true, s);
    var p := Add(c, pt.pos);
    var t0 := Tracker(s.buffer, eff);
    if InBounds(w, h, p) {
      StampPointSpec(w, h, active, c, pt, s);
      var fills := EdgeTests(r.buffer, w, h, active, p, pt.edges).1;
      var last := r.log[|r.log| - 1];
      assert r.log[|s.log|..] == [Set(p, active)] + fills + [last];
      NoteSet(w, h, active, t0, p);
      var t1 := Note(w, active, t0, Set(p, active));
      assert Track(w, active, t0, [Set(p, active)]) == t1;
      NoteMarks(w, h, active, t1, fills);
      var t2 := Track(w, active, t1, fills);
      ViewAt(t2.buffer, w, h, p);
      assert Note(w, active, t2, last) == t2;
      assert Track(w, active, t2, [last]) == t2;
      TrackAppend(w, active, t0, [Set(p, active)], fills);
      TrackAppend(w, active, t0, [Set(p, active)] + fills, [last]);
    }
  }

  /** Logs that extend one another: the new entries of the longest are those of the middle one, then its own. */
  lemma LogSplit(a: seq<Effect>, b: seq<Effect>, c: seq<Effect>)
    requires |a| <= |b| && b[..|a|] == a && |b| <= |c| && c[..|b|] == b
    ensures |c| >= |a| && c[..|a|] == a
    ensures c[|a|..] == b[|a|..] + c[|b|..]
  {
    assert c[..|a|] == c[..|b|][..|a|];
  }

  /** The callbacks of one stamp keep the tracker in step with the buffer. */
  lemma {:induction false} TrackStamp(w: nat, h: nat, active: int, c: Pos, brush: seq<EdgedPoint>, s: Paint,
                                      eff: JsMap<int, JsSet<Pos>>)
    requires |s.buffer| == w * h && Tracks(w, h, active, Tracker(s.buffer, eff))
    ensures var r := Stamp(w, h, active, c, brush, true, s); |r.log| >= |s.log| && r.log[..|s.log|] == s.log
    ensures var r := Stamp(w, h, active, c, brush, true, s);
      var t := Track(w, active, Tracker(s.buffer, eff), r.log[|s.log|..]);
      t.buffer == r.buffer && Tracks(w, h, active, t)
    decreases |brush|
  {
    if brush != [] {
      var s1 := StampPoint(w, h, active, c, brush[0], true, s);
      TrackStampPoint(w, h, active, c, brush[0], s, eff);
      var t1 := Track(w, active, Tracker(s.buffer, eff), s1.log[|s.log|..]);
      TrackStamp(w, h, active, c, brush[1..], s1, t1.effected);
      var r := Stamp(w, h, active, c, brush, true, s);
      LogSplit(s.log, s1.log, r.log);
      TrackAppend(w, active, Tracker(s.buffer, eff), s1.log[|s.log|..], r.log[|s1.log|..]);
    }
  }

  /** The callbacks of a whole stroke keep the tracker in step with the buffer. */
  lemma {:induction false} TrackStroke(w: nat, h: nat, active: int, centres: seq<Pos>, brush: seq<EdgedPoint>, s: Paint,
                                       eff: JsMap<int, JsSet<Pos>>)
    requires |s.buffer| == w * h && Tracks(w, h, active, Tracker(s.buffer, eff))
    ensures var r := Stroke(w, h, active, centres, brush, true, s); |r.log| >= |s.log| && r.log[..|s.log|] == s.log
    ensures var r := Stroke(w, h, active, centres, brush, true, s);
      var t := Track(w, active, Tracker(s.buffer, eff), r.log[|s.log|..]);
      t.buffer == r.buffer && Tracks(w, h, active, t)
    decreases |centres|
  {
    if centres != [] {
      var s1 := Stamp(w, h, active, centres[0], brush, true, s);
      TrackStamp(w, h, active, centres[0], brush, s, eff);
      var t1 := Track(w, active, Tracker(s.buffer, eff), s1.log[|s.log|..]);
      TrackStroke(w, h, active, centres[1..], brush, s1, t1.effected);
      var r := Stroke(w, h, active, centres, brush, true, s);
      LogSplit(s.log, s1.log, r.log);
      TrackAppend(w, active, Tracker(s.buffer, eff), s1.log[|s.log|..], r.log[|s1.log|..]);
    }
  }

  // ---- smoothPaint ------------------------------------------------------------------

  /** A painted stroke: the buffer, the `setSegment`/`fill` calls, `effectedSegments` and the segment painted. */
  datatype Painted = Painted(buffer: seq<int>, log: seq<Effect>, effected: JsMap<int, JsSet<Pos>>, active: int)

  /**
   * `smoothPaint`: the stroke keeps the segment under its start, or takes
   * `nextSegmentIndex` (which goes up by one) from an empty pixel. The brush
   * of the event's size is stamped at the start and at each point of the
   * interpolated `path`. A size outside the brush table has no brush and
   * the first stamp throws (None), after the index went up.
   */
  function SmoothPaint(b: seq<int>, w: nat, h: nat, next: int, e: DrawEvent, path: seq<Pos>): (r: (int, Option<Painted>))
    requires |b| == w * h
    ensures r.0 == if View(b, w, e.from) == -1 then next + 1 else next
    ensures r.1.Some? <==> CommonGetBrush(e.size).Some?
    ensures r.1.Some? ==> |r.1.value.buffer| == w * h
    ensures r.1.Some? ==> r.1.value.active == if View(b, w, e.from) == -1 then next else View(b, w, e.from)
  {
    var v := View(b, w, e.from);
    var active := if v == -1 then next else v;
    var next' := if v == -1 then next + 1 else next;
    match CommonGetBrush(e.size)
    case None => (next', None)
    case Some(brush) =>
      var s := Stroke(w, h, active, [e.from] + path, brush, true, Paint(b, []));
      (next', Some(Painted(s.buffer, s.log, Track(w, active, Tracker(b, EmptyMap()), s.log).effected, active)))
  }

  /**
   * A painted stroke writes its segment to exactly the in-bounds pixels
   * under the brush at the start or a path point; every callback is on the
   * canvas; and `effectedSegments` has no entry for the stroke's segment or
   * for -1, and records only pixels that still hold the segment they are
   * recorded for (so an overwritten pixel has left its old segment's set).
   */
  lemma SmoothPaintSpec(b: seq<int>, w: nat, h: nat, next: int, e: DrawEvent, path: seq<Pos>, q: Pos)
    requires |b| == w * h && InBounds(w, h, q)
    requires SmoothPaint(b, w, h, next, e, path).1.Some?
    ensures var r := SmoothPaint(b, w, h, next, e, path).1.value;
      && r.buffer[CellIndex(w, h, q)] ==
           (if SegmentBuffers.Covered([e.from] + path, CommonGetBrush(e.size).value, q) then r.active else b[CellIndex(w, h, q)])
      && OnCanvas(w, h, r.active, r.log)
      && Tracks(w, h, r.active, Tracker(r.buffer, r.effected))
  {
    var r := SmoothPaint(b, w, h, next, e, path).1.value;
    var brush := CommonGetBrush(e.size).value;
    var centres := [e.from] + path;
    StrokeWrites(w, h, r.active, centres, brush, true, Paint(b, []), q);
    StrokeLog(w, h, r.active, centres, brush, true, Paint(b, []));
    TrackStroke(w, h, r.active, centres, brush, Paint(b, []), EmptyMap());
    var s := Stroke(w, h, r.active, centres, brush, true, Paint(b, []));
    assert s.log[0..] == s.log;
  }

  // ---- recomputeSegments --------------------------------------------------------------

  /** The eight neighbours `breadthFirstTraversal` tries by default. */
  function Around(): (r: seq<Pos>)
    ensures |r| == 8
  {
    Neighbourhood(true)
  }

  /** The first traversal of a round: from the oldest pending point, which leaves the pending set first. */
  function ClaimSetup(w: nat, h: nat, pending: JsSet<Pos>): Setup<JsSet<Pos>>
    requires |pending| > 0
  {
    Setup(pending[0], Canvas.Claimer(w, h), SetDelete(pending, pending[0]).0, Around(), StartUntested)
  }

  /** A pixel the second traversal passes: on the canvas, of `segment`, and a boundary pixel. */
  predicate Edge(b: seq<int>, w: nat, h: nat, isBoundary: Pos -> bool, segment: int, q: Pos)
  {
    InBounds(w, h, q) && View(b, w, q) == segment && isBoundary(q)
  }

  /**
   * The second traversal as written: it walks the boundary pixels of the
   * segment and counts down once for every passing call at a pending
   * point, calling `exitLoop` when the count reaches zero.
   */
  function CountTest(b: seq<int>, w: nat, h: nat, isBoundary: Pos -> bool, segment: int, left: JsSet<Pos>,
                     count: int, q: Pos): (v: Verdict<int>)
    ensures v.pass <==> Edge(b, w, h, isBoundary, segment, q)
    ensures v.state == if v.pass && q in left then count - 1 else count
    ensures v.exit <==> v.pass && q in left && count == 1
  {
    if Edge(b, w, h, isBoundary, segment, q) then
      if q in left then Verdict(true, count - 1 == 0, count - 1) else Verdict(true, false, count)
    else Verdict(false, false, count)
  }

  function Counter(b: seq<int>, w: nat, h: nat, isBoundary: Pos -> bool, segment: int, left: JsSet<Pos>)
    : (int, Pos) -> Verdict<int>
  {
    (c: int, q: Pos) => CountTest(b, w, h, isBoundary, segment, left, c, q)
  }

  /**
   * As written, a round splits when the first traversal left some pending
   * point unclaimed (`visited.size < boundarySize`) and the count, started
   * at the number of unclaimed points, has not reached zero when the
   * second traversal ends.
   */
  ghost predicate CountSplits(b: seq<int>, w: nat, h: nat, isBoundary: Pos -> bool, segment: int, pending: JsSet<Pos>)
    requires |pending| > 0
  {
    forall visited, t1, left :: Outcome(ClaimSetup(w, h, pending), visited, t1, left) ==>
      && |visited| < |pending|
      && forall reached, t2, count ::
           Outcome(CountSetup(b, w, h, isBoundary, segment, pending, visited, left), reached, t2, count) ==> count != 0
  }

  /** The counting traversal: from the oldest pending point, the count starting at `boundarySize - visited.size`. */
  function CountSetup(b: seq<int>, w: nat, h: nat, isBoundary: Pos -> bool, segment: int, pending: JsSet<Pos>,
                      visited: seq<Pos>, left: JsSet<Pos>): Setup<int>
    requires |pending| > 0
  {
    Setup(pending[0], Counter(b, w, h, isBoundary, segment, left), |pending| - |visited|, Around(), StartUntested)
  }

  /**
   * A piece of a segment's boundary: the pixels reachable from `start`
   * through boundary pixels of the segment, eight-connected. It holds
   * `start`, every later pixel is an edge pixel next to an earlier one, and
   * every edge pixel next to one of its pixels belongs to it.
   */
  ghost predicate Piece(b: seq<int>, w: nat, h: nat, isBoundary: Pos -> bool, segment: int, start: Pos, piece: seq<Pos>)
  {
    && |piece| > 0
    && Connected(piece, start, Around())
    && (forall k :: 0 < k < |piece| ==> Edge(b, w, h, isBoundary, segment, piece[k]))
    && forall k, d :: 0 <= k < |piece| && 0 <= d < 8 && Edge(b, w, h, isBoundary, segment, Add(piece[k], Around()[d])) ==>
         Add(piece[k], Around()[d]) in piece
  }

  lemma {:induction false} PieceWithin(b: seq<int>, w: nat, h: nat, isBoundary: Pos -> bool, segment: int, start: Pos,
                                       p1: seq<Pos>, p2: seq<Pos>, i: nat)
    requires Piece(b, w, h, isBoundary, segment, start, p1) && Piece(b, w, h, isBoundary, segment, start, p2)
    requires i < |p1|
    ensures p1[i] in p2
    decreases i
  {
    if i > 0 {
      var j, d :| 0 <= j < i && 0 <= d < 8 && p1[i] == Add(p1[j], Around()[d]);
      PieceWithin(b, w, h, isBoundary, segment, start, p1, p2, j);
      var k :| 0 <= k < |p2| && p2[k] == p1[j];
      assert Edge(b, w, h, isBoundary, segment, Add(p2[k], Around()[d]));
    }
  }

  /** The piece of a start pixel is one set of pixels, whatever order it is listed in. */
  lemma PieceUnique(b: seq<int>, w: nat, h: nat, isBoundary: Pos -> bool, segment: int, start: Pos, p1: seq<Pos>, p2: seq<Pos>)
    requires Piece(b, w, h, isBoundary, segment, start, p1) && Piece(b, w, h, isBoundary, segment, start, p2)
    ensures Elements(p1) == Elements(p2)
  {
    forall q | q in p1 ensures q in p2 {
      var i :| 0 <= i < |p1| && p1[i] == q;
      PieceWithin(b, w, h, isBoundary, segment, start, p1, p2, i);
    }
    forall q | q in p2 ensures q in p1 {
      var i :| 0 <= i < |p2| && p2[i] == q;
      PieceWithin(b, w, h, isBoundary, segment, start, p2, p1, i);
    }
  }

  /**
   * The second traversal as evidently intended: it walks the whole piece
   * and takes each pending point it meets off the unmet set, so a point
   * met twice counts once.
   */
  function MeetTest(b: seq<int>, w: nat, h: nat, isBoundary: Pos -> bool, segment: int, unmet: JsSet<Pos>, q: Pos)
    : (v: Verdict<JsSet<Pos>>)
    ensures v.pass <==> Edge(b, w, h, isBoundary, segment, q)
    ensures !v.exit
    ensures Elements(v.state) == Elements(unmet) - (if v.pass then {q} else {})
  {
    if Edge(b, w, h, isBoundary, segment, q) then Verdict(true, false, SetDelete(unmet, q).0)
    else Verdict(false, false, unmet)
  }

  function Meeter(b: seq<int>, w: nat, h: nat, isBoundary: Pos -> bool, segment: int): (JsSet<Pos>, Pos) -> Verdict<JsSet<Pos>>
  {
    (u: JsSet<Pos>, q: Pos) => MeetTest(b, w, h, isBoundary, segment, u, q)
  }

  /** The positions of the passing calls among the first `i`. */
  ghost function PassedBefore<S>(trace: seq<Call<S>>, i: nat): set<Pos>
    requires i <= |trace|
  {
    set c | 0 <= c < i && trace[c].verdict.pass :: trace[c].pos
  }

  lemma {:induction false} MeetAlong(b: seq<int>, w: nat, h: nat, isBoundary: Pos -> bool, segment: int,
                                     s0: JsSet<Pos>, trace: seq<Call<JsSet<Pos>>>, i: nat)
    requires Threads(Meeter(b, w, h, isBoundary, segment), s0, trace) && i <= |trace|
    ensures Elements(Before(s0, trace, i)) == Elements(s0) - PassedBefore(trace, i)
    decreases i
  {
    if i > 0 {
      MeetAlong(b, w, h, isBoundary, segment, s0, trace, i - 1);
      var c := trace[i - 1];
      assert c.verdict == MeetTest(b, w, h, isBoundary, segment, Before(s0, trace, i - 1), c.pos);
      PassedStep(trace, i);
    }
  }

  lemma PassedStep<S>(trace: seq<Call<S>>, i: nat)
    requires 0 < i <= |trace|
    ensures PassedBefore(trace, i) == PassedBefore(trace, i - 1) + (if trace[i - 1].verdict.pass then {trace[i - 1].pos} else {})
  {
  }

  /**
   * A round's split decision as written: the first traversal, then, when
   * some pending point is unclaimed, the counting traversal. Returns whether
   * the round goes on to relabel, and the points still pending.
   */
  method CountSplit(b: seq<int>, w: nat, h: nat, isBoundary: Pos -> bool, segment: int, pending: JsSet<Pos>)
    returns (split: bool, left: JsSet<Pos>)
    requires |pending| > 0
    ensures split <==> CountSplits(b, w, h, isBoundary, segment, pending)
    ensures exists visited, t1 :: Outcome(ClaimSetup(w, h, pending), visited, t1, left)
    ensures Elements(left) <= Elements(pending) - {pending[0]} && |left| < |pending|
  {
    var u := ClaimSetup(w, h, pending);
    var visited, t1;
    visited, t1, left := CommonBft(u.start, u.test, u.s0, true, w, h, (p: JsSet<Pos>) => true);
    ClaimLeft(w, h, pending, t1);
    if |visited| < |pending| {
      var v := CountSetup(b, w, h, isBoundary, segment, pending, visited, left);
      var reached, t2, count := CommonBft(v.start, v.test, v.s0, true, w, h, (c: int) => true);
      split := count != 0;
      CountSplitsWhen(b, w, h, isBoundary, segment, pending, visited, t1, left, reached, t2, count);
    } else {
      split := false;
      CountSplitsNot(b, w, h, isBoundary, segment, pending, visited, t1, left);
    }
  }

  lemma CountSplitsWhen(b: seq<int>, w: nat, h: nat, isBoundary: Pos -> bool, segment: int, pending: JsSet<Pos>,
                        visited: seq<Pos>, t1: seq<Call<JsSet<Pos>>>, left: JsSet<Pos>,
                        reached: seq<Pos>, t2: seq<Call<int>>, count: int)
    requires |pending| > 0 && |visited| < |pending|
    requires Outcome(ClaimSetup(w, h, pending), visited, t1, left)
    requires Outcome(CountSetup(b, w, h, isBoundary, segment, pending, visited, left), reached, t2, count)
    ensures CountSplits(b, w, h, isBoundary, segment, pending) <==> count != 0
  {
    var u := ClaimSetup(w, h, pending);
    var v := CountSetup(b, w, h, isBoundary, segment, pending, visited, left);
    forall visited', t1', left' | Outcome(u, visited', t1', left')
      ensures visited' == visited && left' == left
    {
      OutcomeDeterministic(u, visited, t1, left, visited', t1', left');
    }
    forall reached', t2', count' | Outcome(v, reached', t2', count') ensures count' == count {
      OutcomeDeterministic(v, reached, t2, count, reached', t2', count');
    }
  }

  lemma CountSplitsNot(b: seq<int>, w: nat, h: nat, isBoundary: Pos -> bool, segment: int, pending: JsSet<Pos>,
                       visited: seq<Pos>, t1: seq<Call<JsSet<Pos>>>, left: JsSet<Pos>)
    requires |pending| > 0 && |visited| >= |pending|
    requires Outcome(ClaimSetup(w, h, pending), visited, t1, left)
    ensures !CountSplits(b, w, h, isBoundary, segment, pending)
  {
    OutcomeDeterministic(ClaimSetup(w, h, pending), visited, t1, left, visited, t1, left);
  }

  /** The first traversal only takes points off the pending set, which lost its oldest point first. */
  lemma ClaimLeft(w: nat, h: nat, pending: JsSet<Pos>, t1: seq<Call<JsSet<Pos>>>)
    requires |pending| > 0
    requires Threads(Canvas.Claimer(w, h), SetDelete(pending, pending[0]).0, t1)
    ensures var left := After(SetDelete(pending, pending[0]).0, t1);
      Elements(left) <= Elements(pending) - {pending[0]} && |left| < |pending|
  {
    var start := pending[0];
    var p1 := SetDelete(pending, start).0;
    var inv := (p: JsSet<Pos>) => Elements(p) <= Elements(pending) - {start};
    assert Keeps(Canvas.Claimer(w, h), inv);
    KeepsAlong(Canvas.Claimer(w, h), inv, p1, t1, 0, |t1|);
    var left := After(p1, t1);
    SetSize(left);
    SetSize(p1);
    Canvas.SubsetSize(Elements(left), Elements(p1));
  }

  /** The meeting traversal: from the oldest pending point, with the unclaimed points unmet. */
  function MeetSetup(b: seq<int>, w: nat, h: nat, isBoundary: Pos -> bool, segment: int, pending: JsSet<Pos>,
                     left: JsSet<Pos>): Setup<JsSet<Pos>>
    requires |pending| > 0
  {
    Setup(pending[0], Meeter(b, w, h, isBoundary, segment), left, Around(), StartUntested)
  }

  /**
   * A round's split decision as evidently intended: the first traversal,
   * then, when some pending point is unclaimed, the walk over the start's
   * piece. The round splits exactly when some unclaimed pending point lies
   * outside the piece of the oldest one.
   */
  method MeetSplit(b: seq<int>, w: nat, h: nat, isBoundary: Pos -> bool, segment: int, pending: JsSet<Pos>)
    returns (split: bool, left: JsSet<Pos>)
    requires |pending| > 0
    ensures exists visited, t1 :: Outcome(ClaimSetup(w, h, pending), visited, t1, left)
    ensures Elements(left) <= Elements(pending) - {pending[0]} && |left| < |pending|
    ensures |left| > 0 ==> exists piece :: Piece(b, w, h, isBoundary, segment, pending[0], piece)
    ensures forall piece :: Piece(b, w, h, isBoundary, segment, pending[0], piece) ==>
      (split <==> exists q :: q in left && q !in piece)
  {
    var u := ClaimSetup(w, h, pending);
    var visited, t1;
    visited, t1, left := CommonBft(u.start, u.test, u.s0, true, w, h, (p: JsSet<Pos>) => true);
    ClaimLeft(w, h, pending, t1);
    if |left| > 0 {
      var v := MeetSetup(b, w, h, isBoundary, segment, pending, left);
      var reached, t2, unmet := CommonBft(v.start, v.test, v.s0, true, w, h, (p: JsSet<Pos>) => true);
      split := |unmet| > 0;
      MeetPiece(b, w, h, isBoundary, segment, pending, left, reached, t2, unmet);
    } else {
      split := false;
    }
  }

  lemma MeetPiece(b: seq<int>, w: nat, h: nat, isBoundary: Pos -> bool, segment: int, pending: JsSet<Pos>,
                  left: JsSet<Pos>, reached: seq<Pos>, t2: seq<Call<JsSet<Pos>>>, unmet: JsSet<Pos>)
    requires |pending| > 0 && pending[0] !in left
    requires Threads(Meeter(b, w, h, isBoundary, segment), left, t2) && unmet == After(left, t2)
    requires |reached| > 0 && reached[0] == pending[0] && Connected(reached, pending[0], Around())
    requires forall i :: 0 < i < |reached| ==> PassedIn(t2, reached[i])
    requires forall c :: 0 <= c < |t2| ==> t2[c].pos == pending[0] || NearOrder(reached, t2[c].pos, Around())
    requires Steady(Meeter(b, w, h, isBoundary, segment), (p: JsSet<Pos>) => true, left) ==>
      Closed(Meeter(b, w, h, isBoundary, segment), left, reached, Around())
    ensures Piece(b, w, h, isBoundary, segment, pending[0], reached)
    ensures forall piece :: Piece(b, w, h, isBoundary, segment, pending[0], piece) ==>
      (|unmet| > 0 <==> exists q :: q in left && q !in piece)
  {
    var start := pending[0];
    var meet := Meeter(b, w, h, isBoundary, segment);
    assert Steady(meet, (p: JsSet<Pos>) => true, left);
    MeetIsPiece(b, w, h, isBoundary, segment, start, left, reached, t2);
    MeetAlong(b, w, h, isBoundary, segment, left, t2, |t2|);
    MeetPassed(b, w, h, isBoundary, segment, start, left, reached, t2);
    forall piece | Piece(b, w, h, isBoundary, segment, start, piece)
      ensures |unmet| > 0 <==> exists q :: q in left && q !in piece
    {
      PieceUnique(b, w, h, isBoundary, segment, start, reached, piece);
      UnmetOutside(unmet, left, PassedBefore(t2, |t2|), reached, piece);
    }
  }

  lemma UnmetOutside(unmet: seq<Pos>, left: seq<Pos>, passed: set<Pos>, reached: seq<Pos>, piece: seq<Pos>)
    requires Elements(unmet) == Elements(left) - passed
    requires forall q :: q in left ==> (q in passed <==> q in reached)
    requires Elements(reached) == Elements(piece)
    ensures |unmet| > 0 <==> exists q :: q in left && q !in piece
  {
    if |unmet| > 0 {
      var q := unmet[0];
      assert q in Elements(unmet);
      assert q in Elements(left) && q !in passed;
      assert q in left && q !in reached;
      assert q !in Elements(piece);
    }
    if q :| q in left && q !in piece {
      assert q !in Elements(piece);
      assert q !in reached;
      assert q in Elements(unmet);
      assert q in unmet;
    }
  }

  lemma MeetIsPiece(b: seq<int>, w: nat, h: nat, isBoundary: Pos -> bool, segment: int, start: Pos,
                    left: JsSet<Pos>, reached: seq<Pos>, t2: seq<Call<JsSet<Pos>>>)
    requires Threads(Meeter(b, w, h, isBoundary, segment), left, t2)
    requires |reached| > 0 && Connected(reached, start, Around())
    requires forall i :: 0 < i < |reached| ==> PassedIn(t2, reached[i])
    requires Closed(Meeter(b, w, h, isBoundary, segment), left, reached, Around())
    ensures Piece(b, w, h, isBoundary, segment, start, reached)
  {
    var meet := Meeter(b, w, h, isBoundary, segment);
    forall k | 0 < k < |reached| ensures Edge(b, w, h, isBoundary, segment, reached[k]) {
      var c :| 0 <= c < |t2| && t2[c].pos == reached[k] && t2[c].verdict.pass;
      assert t2[c].verdict == meet(Before(left, t2, c), t2[c].pos);
    }
    forall k, d | 0 <= k < |reached| && 0 <= d < 8 && Edge(b, w, h, isBoundary, segment, Add(reached[k], Around()[d]))
      ensures Add(reached[k], Around()[d]) in reached
    {
      assert meet(left, Add(reached[k], Around()[d])).pass;
    }
  }

  /** An unclaimed pending point is met by a passing call exactly when it is in the walked piece. */
  lemma MeetPassed(b: seq<int>, w: nat, h: nat, isBoundary: Pos -> bool, segment: int, start: Pos,
                   left: JsSet<Pos>, reached: seq<Pos>, t2: seq<Call<JsSet<Pos>>>)
    requires start !in left
    requires Threads(Meeter(b, w, h, isBoundary, segment), left, t2)
    requires |reached| > 0 && reached[0] == start
    requires forall i :: 0 < i < |reached| ==> PassedIn(t2, reached[i])
    requires forall c :: 0 <= c < |t2| ==> t2[c].pos == start || NearOrder(reached, t2[c].pos, Around())
    requires Closed(Meeter(b, w, h, isBoundary, segment), left, reached, Around())
    ensures forall q :: q in left ==> (q in PassedBefore(t2, |t2|) <==> q in reached)
  {
    var meet := Meeter(b, w, h, isBoundary, segment);
    forall q | q in left ensures q in PassedBefore(t2, |t2|) <==> q in reached {
      if q in PassedBefore(t2, |t2|) {
        var c :| 0 <= c < |t2| && t2[c].verdict.pass && t2[c].pos == q;
        assert t2[c].verdict == meet(Before(left, t2, c), q);
        assert meet(left, q).pass;
        var j :| 0 <= j < |reached| && Adjacent(reached[j], q, Around());
        var d :| 0 <= d < |Around()| && q == Add(reached[j], Around()[d]);
      }
      if q in reached {
        var k :| 0 <= k < |reached| && reached[k] == q;
        var c :| 0 <= c < |t2| && t2[c].pos == q && t2[c].verdict.pass;
        assert q in PassedBefore(t2, |t2|);
      }
    }
  }
}

=== FILE: stamping.dfy ===
/**
 * Stamping a brush into an RGBA byte buffer: the clipped loops of the
 * painter tools, the texture painter and the game, each producing the
 * sequence of pixels handed to `fill`, and `fillPixel`, which writes the
 * four channel bytes at `(y * width + x) * 4` of a `Uint8Array` (a store
 * outside the array is silently dropped).
 */
module Stamping {
  import opened Grid
  import opened JsCollections
  import opened Brushes

  function Min(a: int, b: int): int { if a <= b then a else b }
  function Max(a: int, b: int): int { if a >= b then a else b }

  // ---- Clip windows --------------------------------------------------------

  /** The offset ranges `[minX, maxX) × [minY, maxY)` a stamp loop runs over. */
  datatype Window = Window(minX: int, maxX: int, minY: int, maxY: int)
  {
    predicate Contains(o: Pos)
    {
      minX <= o.x < maxX && minY <= o.y < maxY
    }
  }

  /** `[max(lo, -pos), min(hi, res - pos))` on each axis. */
  function Clip(pos: Pos, lo: int, hi: int, w: int, h: int): (win: Window)
    ensures forall o :: win.Contains(o) <==> lo <= o.x < hi && lo <= o.y < hi && InBounds(w, h, Add(pos, o))
  {
    Window(Max(lo, -pos.x), Min(hi, w - pos.x), Max(lo, -pos.y), Min(hi, h - pos.y))
  }

  /** Each offset moved to `pos`. */
  function Shift(pos: Pos, os: seq<Pos>): seq<Pos>
  {
    seq(|os|, i requires 0 <= i < |os| => Add(pos, os[i]))
  }

  lemma ShiftSpec(pos: Pos, os: seq<Pos>)
    ensures forall q :: q in Shift(pos, os) <==> Pos(q.x - pos.x, q.y - pos.y) in os
    ensures Distinct(os) ==> Distinct(Shift(pos, os))
  {
    forall q ensures q in Shift(pos, os) <==> Pos(q.x - pos.x, q.y - pos.y) in os {
      ShiftedMember(pos, os, q);
    }
    ShiftDistinct(pos, os);
  }

  lemma ShiftedMember(pos: Pos, os: seq<Pos>, q: Pos)
    ensures q in Shift(pos, os) <==> Pos(q.x - pos.x, q.y - pos.y) in os
  {
    var s := Shift(pos, os);
    if q in s {
      var i :| 0 <= i < |s| && s[i] == q;
      assert os[i] == Pos(q.x - pos.x, q.y - pos.y);
    }
    if Pos(q.x - pos.x, q.y - pos.y) in os {
      var i :| 0 <= i < |os| && os[i] == Pos(q.x - pos.x, q.y - pos.y);
      assert s[i] == q;
    }
  }

  lemma ShiftDistinct(pos: Pos, os: seq<Pos>)
    ensures Distinct(os) ==> Distinct(Shift(pos, os))
  {
    var s := Shift(pos, os);
    if Distinct(os) {
      forall i, j | 0 <= i < j < |s| ensures s[i] != s[j] {
        assert os[i] != os[j];
      }
    }
  }

  // ---- painter/tools/utils.ts ----------------------------------------------

  /** The loop of `drawMemoizedCircle`: `pos + offset` for each offset inside the window, in list order. */
  function MemoFills(pos: Pos, win: Window, offsets: seq<Pos>): seq<Pos>
  {
    if |offsets| == 0 then []
    else (if win.Contains(offsets[0]) then [Add(pos, offsets[0])] else []) + MemoFills(pos, win, offsets[1..])
  }

  /** `drawMemoizedCircle`: the pixels passed to `fill`, in call order. */
  function DrawMemoizedCircle(pos: Pos, diameter: int, w: int, h: int, offsets: seq<Pos>): seq<Pos>
  {
    MemoFills(pos, Clip(pos, -HalfUp(diameter) + 1, HalfUp(diameter), w, h), offsets)
  }

  lemma {:induction false} MemoFillsSpec(pos: Pos, win: Window, offsets: seq<Pos>)
    ensures |MemoFills(pos, win, offsets)| <= |offsets|
    ensures forall q :: q in MemoFills(pos, win, offsets) <==>
      exists i :: 0 <= i < |offsets| && win.Contains(offsets[i]) && q == Add(pos, offsets[i])
    ensures Distinct(offsets) ==> Distinct(MemoFills(pos, win, offsets))
    decreases |offsets|
  {
    if |offsets| > 0 {
      var rest := offsets[1..];
      MemoFillsSpec(pos, win, rest);
      var m := MemoFills(pos, win, offsets);
      forall q ensures q in m <==> exists i :: 0 <= i < |offsets| && win.Contains(offsets[i]) && q == Add(pos, offsets[i]) {
        if q in MemoFills(pos, win, rest) {
          var i :| 0 <= i < |rest| && win.Contains(rest[i]) && q == Add(pos, rest[i]);
          assert offsets[i + 1] == rest[i];
        }
        if exists i :: 0 <= i < |offsets| && win.Contains(offsets[i]) && q == Add(pos, offsets[i]) {
          var i :| 0 <= i < |offsets| && win.Contains(offsets[i]) && q == Add(pos, offsets[i]);
          if i > 0 {
            assert rest[i - 1] == offsets[i];
          }
        }
      }
      if Distinct(offsets) {
        assert Distinct(rest) by {
          forall i, j | 0 <= i < j < |rest| ensures rest[i] != rest[j] {
            assert rest[i] == offsets[i + 1] && rest[j] == offsets[j + 1];
          }
        }
        forall i | 0 <= i < |rest| ensures Add(pos, rest[i]) != Add(pos, offsets[0]) {
          assert rest[i] == offsets[i + 1];
        }
        assert Add(pos, offsets[0]) !in MemoFills(pos, win, rest);
      }
    }
  }

  /**
   * `fill` is called on `pos + offset` exactly for the listed offsets with
   * both coordinates in `(-r, r)` whose pixel is on the canvas, at most once
   * per offset, and once per pixel when the offsets are distinct.
   */
  lemma DrawMemoizedCircleSpec(pos: Pos, diameter: int, w: int, h: int, offsets: seq<Pos>)
    ensures |DrawMemoizedCircle(pos, diameter, w, h, offsets)| <= |offsets|
    ensures forall q :: q in DrawMemoizedCircle(pos, diameter, w, h, offsets) <==>
      InBounds(w, h, q) &&
      exists i :: 0 <= i < |offsets| && q == Add(pos, offsets[i]) &&
        -HalfUp(diameter) < offsets[i].x < HalfUp(diameter) && -HalfUp(diameter) < offsets[i].y < HalfUp(diameter)
    ensures Distinct(offsets) ==> Distinct(DrawMemoizedCircle(pos, diameter, w, h, offsets))
  {
    MemoFillsSpec(pos, Clip(pos, -HalfUp(diameter) + 1, HalfUp(diameter), w, h), offsets);
  }

  /**
   * The tools' circle lists the offset `(-r, 0)` but `drawMemoizedCircle`
   * never fills it: its window starts at `-r + 1`.
   */
  lemma LeftmostNeverFilled(pos: Pos, diameter: int, w: int, h: int)
    requires diameter >= 1
    ensures Pos(-HalfUp(diameter), 0) in ToolCircle(diameter)
    ensures DrawMemoizedCircle(pos, diameter, w, h, [Pos(-HalfUp(diameter), 0)]) == []
  {
    ToolCircleKeepsLeftmost(diameter);
    var r := HalfUp(diameter);
    var win := Clip(pos, -r + 1, r, w, h);
    assert !win.Contains(Pos(-r, 0));
    assert MemoFills(pos, win, [Pos(-r, 0)]) == MemoFills(pos, win, []);
  }

  /** `drawSquare` of the painter tools: the window of half-length `floor(length / 2)`, in loop order. */
  function DrawSquare(pos: Pos, length: int, w: int, h: int): seq<Pos>
  {
    var win := Clip(pos, -(length / 2), length / 2, w, h);
    Shift(pos, Block(win.minX, win.maxX, win.minY, win.maxY))
  }

  /** Exactly the canvas pixels within `[-h, h)²` of `pos`, `h = floor(length / 2)`, each once. */
  lemma DrawSquareSpec(pos: Pos, length: int, w: int, h: int)
    ensures forall q :: q in DrawSquare(pos, length, w, h) <==>
      InBounds(w, h, q) && -(length / 2) <= q.x - pos.x < length / 2 && -(length / 2) <= q.y - pos.y < length / 2
    ensures Distinct(DrawSquare(pos, length, w, h))
  {
    var win := Clip(pos, -(length / 2), length / 2, w, h);
    BlockSpec(win.minX, win.maxX, win.minY, win.maxY);
    ShiftSpec(pos, Block(win.minX, win.maxX, win.minY, win.maxY));
  }

  // ---- The clipped disc (texture painter and game) --------------------------

  /**
   * `drawCircle` of the texture painter and the game: the window
   * `[max(-r + 1, -pos), min(r, res - pos))` scanned x-major, filling the
   * offsets with `x² + y² <= r²`.
   */
  function ClippedCircle(pos: Pos, r: int, w: int, h: int): seq<Pos>
  {
    var win := Clip(pos, -r + 1, r, w, h);
    Shift(pos, Keep(Block(win.minX, win.maxX, win.minY, win.maxY), r, true))
  }

  /** Exactly the canvas pixels at offsets in `(-r, r)²` with `x² + y² <= r²`, each once. */
  lemma ClippedCircleSpec(pos: Pos, r: int, w: int, h: int)
    ensures forall q :: q in ClippedCircle(pos, r, w, h) <==>
      InBounds(w, h, q) && -r < q.x - pos.x < r && -r < q.y - pos.y < r && InDisc(r, Pos(q.x - pos.x, q.y - pos.y), true)
    ensures Distinct(ClippedCircle(pos, r, w, h))
  {
    ClippedCircleMembers(pos, r, w, h);
    ClippedCircleDistinct(pos, r, w, h);
  }

  lemma ClippedCircleMembers(pos: Pos, r: int, w: int, h: int)
    ensures forall q :: q in ClippedCircle(pos, r, w, h) <==>
      InBounds(w, h, q) && -r < q.x - pos.x < r && -r < q.y - pos.y < r && InDisc(r, Pos(q.x - pos.x, q.y - pos.y), true)
  {
    forall q ensures q in ClippedCircle(pos, r, w, h) <==>
      InBounds(w, h, q) && -r < q.x - pos.x < r && -r < q.y - pos.y < r && InDisc(r, Pos(q.x - pos.x, q.y - pos.y), true)
    {
      ClippedCircleAt(pos, r, w, h, q);
    }
  }

  lemma ClippedCircleAt(pos: Pos, r: int, w: int, h: int, q: Pos)
    ensures q in ClippedCircle(pos, r, w, h) <==>
      InBounds(w, h, q) && -r < q.x - pos.x < r && -r < q.y - pos.y < r && InDisc(r, Pos(q.x - pos.x, q.y - pos.y), true)
  {
    var win := Clip(pos, -r + 1, r, w, h);
    var b := Block(win.minX, win.maxX, win.minY, win.maxY);
    var o := Pos(q.x - pos.x, q.y - pos.y);
    assert Add(pos, o) == q;
    ShiftedMember(pos, Keep(b, r, true), q);
    KeptMember(b, r, o);
    BlockMember(win, o);
  }

  lemma KeptMember(b: seq<Pos>, r: int, o: Pos)
    ensures o in Keep(b, r, true) <==> o in b && InDisc(r, o, true)
  {
    KeepSpec(b, r, true);
  }

  lemma BlockMember(win: Window, o: Pos)
    ensures o in Block(win.minX, win.maxX, win.minY, win.maxY) <==> win.Contains(o)
  {
    BlockSpec(win.minX, win.maxX, win.minY, win.maxY);
  }

  lemma ClippedCircleDistinct(pos: Pos, r: int, w: int, h: int)
    ensures Distinct(ClippedCircle(pos, r, w, h))
  {
    var win := Clip(pos, -r + 1, r, w, h);
    var b := Block(win.minX, win.maxX, win.minY, win.maxY);
    BlockSpec(win.minX, win.maxX, win.minY, win.maxY);
    KeepSpec(b, r, true);
    ShiftSpec(pos, Keep(b, r, true));
  }

  /** The texture painter's `drawCircle`: radius `floor((diameter + 1) / 2)`. */
  function TextureCircle(pos: Pos, diameter: int, w: int, h: int): seq<Pos>
  {
    ClippedCircle(pos, HalfUp(diameter), w, h)
  }

  // ---- Bytes -----------------------------------------------------------------

  type Byte = b: int | 0 <= b < 256

  /** The four channel bytes a colour and alpha convert to (the float-to-byte conversion is not modelled). */
  datatype Rgba = Rgba(r: Byte, g: Byte, b: Byte, a: Byte)
  {
    function Channel(j: int): Byte
    {
      if j == 0 then r else if j == 1 then g else if j == 2 then b else a
    }
  }

  /** `pixelToIndex`: the first byte of pixel `p` in a `width`-wide RGBA buffer. */
  function PixelIndex(w: int, p: Pos): int
  {
    Index(w, p) * 4
  }

  /** An on-canvas pixel's four bytes lie inside the `w * h * 4` buffer. */
  lemma PixelIndexInRange(w: int, h: int, p: Pos)
    requires InBounds(w, h, p)
    ensures 0 <= PixelIndex(w, p) && PixelIndex(w, p) + 3 < w * h * 4
    ensures PixelIndex(w, p) % 4 == 0
  {
    IndexInRange(w, h, p);
  }

  /** A `Uint8Array` store: indices outside the array are ignored. */
  function Store(data: seq<Byte>, k: int, v: Byte): (r: seq<Byte>)
    ensures |r| == |data|
    ensures forall m :: 0 <= m < |data| && m != k ==> r[m] == data[m]
    ensures 0 <= k < |data| ==> r[k] == v
  {
    if 0 <= k < |data| then data[k := v] else data
  }

  /** The bytes `PixelIndex(w, p) .. PixelIndex(w, p) + 3`. */
  predicate InPixel(w: int, p: Pos, k: int)
  {
    PixelIndex(w, p) <= k < PixelIndex(w, p) + 4
  }

  /** `fillPixel`: writes exactly the four channel bytes of `p`, channel `k % 4` at byte `k`. */
  function FillPixel(data: seq<Byte>, w: int, p: Pos, c: Rgba): (r: seq<Byte>)
    ensures |r| == |data|
    ensures forall k :: 0 <= k < |data| ==> r[k] == if InPixel(w, p, k) then c.Channel(k % 4) else data[k]
  {
    var i := PixelIndex(w, p);
    Store(Store(Store(Store(data, i, c.r), i + 1, c.g), i + 2, c.b), i + 3, c.a)
  }

  /** Some pixel of `ps` owns byte `k`. */
  predicate Painted(w: int, ps: seq<Pos>, k: int)
  {
    exists i :: 0 <= i < |ps| && InPixel(w, ps[i], k)
  }

  /** `fillPixel` on each pixel in turn. */
  function Paint(data: seq<Byte>, w: int, ps: seq<Pos>, c: Rgba): seq<Byte>
    decreases |ps|
  {
    if |ps| == 0 then data else Paint(FillPixel(data, w, ps[0], c), w, ps[1..], c)
  }

  /**
   * After painting, a byte holds its channel of the colour when some painted
   * pixel owns it, and is unchanged otherwise.
   */
  lemma {:induction false} PaintSpec(data: seq<Byte>, w: int, ps: seq<Pos>, c: Rgba)
    ensures |Paint(data, w, ps, c)| == |data|
    ensures forall k :: 0 <= k < |data| ==>
      Paint(data, w, ps, c)[k] == if Painted(w, ps, k) then c.Channel(k % 4) else data[k]
    decreases |ps|
  {
    if |ps| > 0 {
      var d1 := FillPixel(data, w, ps[0], c);
      PaintSpec(d1, w, ps[1..], c);
      forall k | 0 <= k < |data|
        ensures Paint(data, w, ps, c)[k] == if Painted(w, ps, k) then c.Channel(k % 4) else data[k]
      {
        if Painted(w, ps[1..], k) {
          var i :| 0 <= i < |ps[1..]| && InPixel(w, ps[1..][i], k);
          assert InPixel(w, ps[i + 1], k);
        } else if Painted(w, ps, k) {
          var i :| 0 <= i < |ps| && InPixel(w, ps[i], k);
          if i > 0 {
            assert false;
          }
        }
      }
    }
  }

  /** The texture painter's and game's `drawCircle` on the byte buffer. */
  function DrawCircleBytes(data: seq<Byte>, pos: Pos, r: int, w: int, h: int, c: Rgba): seq<Byte>
  {
    Paint(data, w, ClippedCircle(pos, r, w, h), c)
  }

  /**
   * On a `w * h * 4` buffer, `drawCircle` sets exactly the bytes of the
   * clipped disc's pixels and leaves every other byte as it was.
   */
  lemma DrawCircleBytesSpec(data: seq<Byte>, pos: Pos, r: int, w: int, h: int, c: Rgba)
    requires |data| == w * h * 4
    ensures |DrawCircleBytes(data, pos, r, w, h, c)| == |data|
    ensures forall k :: 0 <= k < |data| ==>
      DrawCircleBytes(data, pos, r, w, h, c)[k] ==
        if Painted(w, ClippedCircle(pos, r, w, h), k) then c.Channel(k % 4) else data[k]
    ensures forall q :: q in ClippedCircle(pos, r, w, h) ==>
      0 <= PixelIndex(w, q) && PixelIndex(w, q) + 3 < |data|
  {
    PaintSpec(data, w, ClippedCircle(pos, r, w, h), c);
    ClippedCircleSpec(pos, r, w, h);
    forall q | q in ClippedCircle(pos, r, w, h) ensures 0 <= PixelIndex(w, q) && PixelIndex(w, q) + 3 < |data| {
      PixelIndexInRange(w, h, q);
    }
  }

  // ---- apps/game/src/texture-painter/tools.ts cursor overlay ----------------

  /** The overlay side `radius * 2 - 1`. */
  function OverlaySide(radius: int): int
  {
    radius * 2 - 1
  }

  /** The overlay: a `side² * 4` buffer of ones with the disc drawn centred at `(r - 1, r - 1)`. */
  function CircleOverlay(radius: int, c: Rgba): seq<Byte>
  {
    DrawCircleBytes(seq(OverlaySide(radius) * OverlaySide(radius) * 4, _ => 1),
      Pos(radius - 1, radius - 1), radius, OverlaySide(radius), OverlaySide(radius), c)
  }

  /**
   * For a positive radius nothing of the disc is clipped: the overlay gets
   * every offset of `(-r, r)²` with `x² + y² <= r²` around the centre, and
   * every write lands inside the buffer.
   */
  lemma CircleOverlaySpec(radius: int, c: Rgba)
    requires radius >= 1
    ensures |CircleOverlay(radius, c)| == OverlaySide(radius) * OverlaySide(radius) * 4
    ensures forall o: Pos :: -radius < o.x < radius && -radius < o.y < radius && InDisc(radius, o, true) ==>
      Add(Pos(radius - 1, radius - 1), o) in ClippedCircle(Pos(radius - 1, radius - 1), radius, OverlaySide(radius), OverlaySide(radius))
    ensures forall q :: q in ClippedCircle(Pos(radius - 1, radius - 1), radius, OverlaySide(radius), OverlaySide(radius)) ==>
      0 <= PixelIndex(OverlaySide(radius), q) && PixelIndex(OverlaySide(radius), q) + 3 < |CircleOverlay(radius, c)|
  {
    var n := OverlaySide(radius);
    DrawCircleBytesSpec(seq(n * n * 4, _ => 1), Pos(radius - 1, radius - 1), radius, n, n, c);
    OverlayUnclipped(radius);
  }

  /** Around the overlay's centre every offset of the disc lands on the overlay. */
  lemma OverlayUnclipped(radius: int)
    requires radius >= 1
    ensures forall o: Pos :: -radius < o.x < radius && -radius < o.y < radius && InDisc(radius, o, true) ==>
      Add(Pos(radius - 1, radius - 1), o) in ClippedCircle(Pos(radius - 1, radius - 1), radius, OverlaySide(radius), OverlaySide(radius))
  {
    var n := OverlaySide(radius);
    var centre := Pos(radius - 1, radius - 1);
    ClippedCircleSpec(centre, radius, n, n);
    forall o: Pos | -radius < o.x < radius && -radius < o.y < radius && InDisc(radius, o, true)
      ensures Add(centre, o) in ClippedCircle(centre, radius, n, n)
    {
      var q := Add(centre, o);
      assert InBounds(n, n, q);
      assert Pos(q.x - centre.x, q.y - centre.y) == o;
    }
  }

  /** The texture is declared 39 × 39: that matches the buffer's side only for radius 20. */
  lemma OverlayTextureMatches(radius: int)
    requires radius >= 1
    ensures OverlaySide(radius) * OverlaySide(radius) == 39 * 39 <==> radius == 20
  {
    var n := OverlaySide(radius);
    if radius < 20 {
      MulMonotone(n, 37, n);
      MulMonotone(n, 37, 37);
    } else if radius > 20 {
      MulMonotone(41, n, n);
      MulMonotone(41, n, 41);
    }
  }

  // ---- texture-painter/tools/utils.ts drawSquare ------------------------------

  function RMin(a: real, b: real): real { if a <= b then a else b }
  function RMax(a: real, b: real): real { if a >= b then a else b }

  /** `for (let x = lo; x < hi; x++)` over JavaScript numbers. */
  function Steps(x: real, hi: real): (r: seq<real>)
    ensures forall i :: 0 <= i < |r| ==> r[i] == x + i as real && r[i] < hi
    ensures x + |r| as real >= hi
    decreases (hi - x).Floor
  {
    if x < hi then
      assert (hi - (x + 1.0)).Floor == (hi - x).Floor - 1;
      [x] + Steps(x + 1.0, hi)
    else []
  }

  /** The first byte of each `fillPixel` call in the nested loops over `xs` and `ys`. */
  function Starts(pos: Pos, w: int, xs: seq<real>, ys: seq<real>): seq<real>
    decreases |xs|
  {
    if |xs| == 0 then [] else Row(pos, w, xs[0], ys) + Starts(pos, w, xs[1..], ys)
  }

  /** The inner loop at column `x`: the first byte of each `fillPixel` call. */
  function Row(pos: Pos, w: int, x: real, ys: seq<real>): seq<real>
  {
    seq(|ys|, i requires 0 <= i < |ys| => ((pos.y as real + ys[i]) * w as real + pos.x as real + x) * 4.0)
  }

  /**
   * The texture painter's `drawSquare` as written: the loop bounds use the
   * unrounded `length / 2`, so an odd length puts the loop variables, and
   * the pixel positions, on half-integers.
   */
  function TextureSquareAsWritten(pos: Pos, length: int, w: int, h: int): seq<real>
  {
    var half := length as real / 2.0;
    Starts(pos, w,
      Steps(RMax(-half, -pos.x as real), RMin(half, (w - pos.x) as real)),
      Steps(RMax(-half, -pos.y as real), RMin(half, (h - pos.y) as real)))
  }

  /**
   * A one-pixel square at (5, 5) on a 10 × 10 texture writes its four bytes
   * from byte 198, which starts no pixel: the colour lands in the blue and
   * alpha bytes of pixel 49 and the red and green bytes of pixel 50.
   */
  lemma HalfPixelSquare()
    ensures TextureSquareAsWritten(Pos(5, 5), 1, 10, 10) == [198.0]
    ensures forall p: Pos :: PixelIndex(10, p) as real != 198.0
  {
    var xs := Steps(-0.5, 0.5);
    assert xs == [-0.5] by {
      assert Steps(0.5, 0.5) == [];
    }
    assert Starts(Pos(5, 5), 10, xs, xs) == [198.0] + Starts(Pos(5, 5), 10, [], xs);
  }

  /**
   * The texture painter's square with the half-length rounded down, as in
   * the painter tools: whole pixels, all on the canvas.
   */
  function TextureSquare(data: seq<Byte>, pos: Pos, length: int, w: int, h: int, c: Rgba): seq<Byte>
  {
    Paint(data, w, DrawSquare(pos, length, w, h), c)
  }

  /** Every write of the rounded square starts a pixel of the canvas and stays inside a `w * h * 4` buffer. */
  lemma TextureSquareAligned(pos: Pos, length: int, w: int, h: int)
    ensures forall q :: q in DrawSquare(pos, length, w, h) ==>
      PixelIndex(w, q) % 4 == 0 && 0 <= PixelIndex(w, q) && PixelIndex(w, q) + 3 < w * h * 4
  {
    DrawSquareSpec(pos, length, w, h);
    forall q | q in DrawSquare(pos, length, w, h)
      ensures PixelIndex(w, q) % 4 == 0 && 0 <= PixelIndex(w, q) && PixelIndex(w, q) + 3 < w * h * 4
    {
      PixelIndexInRange(w, h, q);
    }
  }

  /** The bytes the rounded square paints are exactly those of its pixels; the rest are unchanged. */
  lemma TextureSquareSpec(data: seq<Byte>, pos: Pos, length: int, w: int, h: int, c: Rgba)
    ensures |TextureSquare(data, pos, length, w, h, c)| == |data|
    ensures forall k :: 0 <= k < |data| ==>
      TextureSquare(data, pos, length, w, h, c)[k] ==
        if Painted(w, DrawSquare(pos, length, w, h), k) then c.Channel(k % 4) else data[k]
  {
    PaintSpec(data, w, DrawSquare(pos, length, w, h), c);
  }

  /** The first byte of each pixel, as the number `fillPixel` computes. */
  function Bytes(w: int, ps: seq<Pos>): seq<real>
  {
    seq(|ps|, i requires 0 <= i < |ps| => PixelIndex(w, ps[i]) as real)
  }

  lemma CastMul(a: int, b: int)
    ensures (a * b) as real == a as real * b as real
  {
  }

  /** Over integer bounds the number loop counts `a, a + 1, …, b - 1`. */
  lemma StepsIntegral(a: int, b: int)
    ensures |Steps(a as real, b as real)| == Max(b - a, 0)
  {
    var r := Steps(a as real, b as real);
    if |r| > 0 {
      assert r[|r| - 1] < b as real;
    }
  }

  lemma BytesAppend(w: int, pos: Pos, xs: seq<Pos>, ys: seq<Pos>)
    ensures Bytes(w, Shift(pos, xs + ys)) == Bytes(w, Shift(pos, xs)) + Bytes(w, Shift(pos, ys))
  {
    var l := Bytes(w, Shift(pos, xs + ys));
    var r := Bytes(w, Shift(pos, xs)) + Bytes(w, Shift(pos, ys));
    forall i | 0 <= i < |l| ensures l[i] == r[i] {
      if i >= |xs| {
        assert (xs + ys)[i] == ys[i - |xs|];
      }
    }
  }

  /** One column of the number loops writes the column's pixels. */
  lemma RowMatches(pos: Pos, w: int, a: int, c: int, d: int)
    ensures Row(pos, w, a as real, Steps(c as real, d as real)) == Bytes(w, Shift(pos, Column(a, c, d)))
  {
    var ys := Steps(c as real, d as real);
    var col := Column(a, c, d);
    StepsIntegral(c, d);
    ColumnSpec(a, c, d);
    ColumnLength(a, c, d);
    var l := Row(pos, w, a as real, ys);
    var r := Bytes(w, Shift(pos, col));
    forall i | 0 <= i < |ys| ensures l[i] == r[i] {
      assert ys[i] == (c + i) as real;
      assert col[i] == Pos(a, c + i);
      RowEntry(pos, w, a, c + i);
    }
  }

  /** The number loops' byte offset of the pixel at offset `(a, y)` is its integer index. */
  lemma RowEntry(pos: Pos, w: int, a: int, y: int)
    ensures ((pos.y as real + y as real) * w as real + pos.x as real + a as real) * 4.0 == PixelIndex(w, Add(pos, Pos(a, y))) as real
  {
    CastMul(pos.y + y, w);
  }

  lemma {:induction false} ColumnLength(x: int, y: int, hi: int)
    ensures |Column(x, y, hi)| == Max(hi - y, 0)
    decreases hi - y
  {
    if y < hi {
      ColumnLength(x, y + 1, hi);
    }
  }

  /** Over integer bounds the number loops write the pixels of the integer loops, in the same order. */
  lemma {:induction false} StartsMatch(pos: Pos, w: int, a: int, b: int, c: int, d: int)
    ensures Starts(pos, w, Steps(a as real, b as real), Steps(c as real, d as real))
      == Bytes(w, Shift(pos, Block(a, b, c, d)))
    decreases b - a
  {
    var xs := Steps(a as real, b as real);
    var ys := Steps(c as real, d as real);
    if a < b {
      assert xs == [a as real] + Steps((a + 1) as real, b as real);
      assert xs[1..] == Steps((a + 1) as real, b as real);
      StartsMatch(pos, w, a + 1, b, c, d);
      RowMatches(pos, w, a, c, d);
      BytesAppend(w, pos, Column(a, c, d), Block(a + 1, b, c, d));
    } else {
      assert xs == [];
    }
  }

  /**
   * For an even length the half-length is a whole number and the square as
   * written writes exactly the pixels of the rounded square, in the same order.
   */
  lemma EvenSquareAgrees(pos: Pos, length: int, w: int, h: int)
    requires length % 2 == 0
    ensures TextureSquareAsWritten(pos, length, w, h) == Bytes(w, DrawSquare(pos, length, w, h))
  {
    var win := Clip(pos, -(length / 2), length / 2, w, h);
    EvenBounds(pos, length, w, h);
    StartsMatch(pos, w, win.minX, win.maxX, win.minY, win.maxY);
  }

  /** For an even length the loops as written run over the integer window's bounds. */
  lemma EvenBounds(pos: Pos, length: int, w: int, h: int)
    requires length % 2 == 0
    ensures var win := Clip(pos, -(length / 2), length / 2, w, h);
      TextureSquareAsWritten(pos, length, w, h)
        == Starts(pos, w, Steps(win.minX as real, win.maxX as real), Steps(win.minY as real, win.maxY as real))
  {
    var half := length / 2;
    var win := Clip(pos, -half, half, w, h);
    assert length as real / 2.0 == half as real;
    assert RMax(-(half as real), -pos.x as real) == win.minX as real;
    assert RMin(half as real, (w - pos.x) as real) == win.maxX as real;
    assert RMax(-(half as real), -pos.y as real) == win.minY as real;
    assert RMin(half as real, (h - pos.y) as real) == win.maxY as real;
  }
}

=== FILE: tiling.dfy ===
/**
 * The drawing layer's texture tiling: an image of `pixelSize` is cut into
 * 256×256 sections, plus a trailing column and row holding the remainder,
 * each section backed by its own RGBA byte buffer. A pixel maps to one
 * section (its uniform), an offset inside that section and a byte index
 * inside the section's buffer. `DrawingLayerUniforms`, `DrawingLayer` and
 * the renderer-state helpers all compute the same mapping.
 */
module Tiling {
  import opened Wrappers
  import opened Grid
  import opened Stamping

  /** `kSubdivisionSize`. */
  const SectionSide: int := 256

  /** `numSections` (whole sections per axis, the trailing one not counted) and `trailing`. */
  datatype Layout = Layout(numSections: Pos, trailing: Pos)

  /** The constructor: `numSections = floor(pixelSize / 256)`, `trailing = pixelSize - 256 * numSections`. */
  function Split(pw: nat, ph: nat): (l: Layout)
    ensures l.numSections.x >= 0 && l.numSections.y >= 0
    ensures 0 <= l.trailing.x < SectionSide && 0 <= l.trailing.y < SectionSide
    ensures l.numSections.x * SectionSide + l.trailing.x == pw
    ensures l.numSections.y * SectionSide + l.trailing.y == ph
  {
    var n := Pos(pw / SectionSide, ph / SectionSide);
    Layout(n, Pos(pw - n.x * SectionSide, ph - n.y * SectionSide))
  }

  /** One side of `sectionSize`: the trailing remainder at index `num`, a whole section elsewhere. */
  function Side(num: int, trailing: int, k: int): int
  {
    if k == num then trailing else SectionSide
  }

  /** `sectionSize(j, i)` / `calculateSectionSize`. */
  function SectionSize(l: Layout, j: int, i: int): Pos
  {
    Pos(Side(l.numSections.x, l.trailing.x, j), Side(l.numSections.y, l.trailing.y, i))
  }

  /** `getSection` / `section`: `floor(pos / 256)` per axis. */
  function SectionOf(p: Pos): (s: Pos)
    ensures s.x * SectionSide <= p.x < (s.x + 1) * SectionSide
    ensures s.y * SectionSide <= p.y < (s.y + 1) * SectionSide
  {
    Pos(p.x / SectionSide, p.y / SectionSide)
  }

  /** The position of `p` inside its section. */
  function Local(p: Pos): (q: Pos)
    ensures 0 <= q.x < SectionSide && 0 <= q.y < SectionSide
    ensures Add(q, Pos(SectionOf(p).x * SectionSide, SectionOf(p).y * SectionSide)) == p
  {
    var s := SectionOf(p);
    Pos(p.x - s.x * SectionSide, p.y - s.y * SectionSide)
  }

  /** `uniform(j, i)` / `getUniform`: the row-major slot of section `(j, i)`. */
  function UniformIndex(l: Layout, j: int, i: int): int
  {
    i * (l.numSections.x + 1) + j
  }

  /** Sections of the grid: `0 <= j <= numSections.x`, `0 <= i <= numSections.y`. */
  predicate IsSection(l: Layout, j: int, i: int)
  {
    0 <= j <= l.numSections.x && 0 <= i <= l.numSections.y
  }

  /** The row-major slots of the sections are exactly `0 .. (numSections.x+1)(numSections.y+1)`, each used once. */
  lemma UniformIndexRange(l: Layout, j: int, i: int)
    requires IsSection(l, j, i)
    ensures 0 <= UniformIndex(l, j, i) < (l.numSections.x + 1) * (l.numSections.y + 1)
  {
    IndexInRange(l.numSections.x + 1, l.numSections.y + 1, Pos(j, i));
  }

  lemma UniformIndexInjective(l: Layout, j: int, i: int, j': int, i': int)
    requires IsSection(l, j, i) && IsSection(l, j', i')
    requires UniformIndex(l, j, i) == UniformIndex(l, j', i')
    ensures j == j' && i == i'
  {
    IndexInjective(l.numSections.x + 1, l.numSections.y + 1, Pos(j, i), Pos(j', i'));
  }

  // ---- Section sides add up to the image ------------------------------------

  /** The sum of the first `n` sides along an axis. */
  function Span(num: int, trailing: int, n: nat): int
  {
    if n == 0 then 0 else Span(num, trailing, n - 1) + Side(num, trailing, n - 1)
  }

  lemma {:induction false} SpanWhole(num: int, trailing: int, n: nat)
    requires n <= num
    ensures Span(num, trailing, n) == n * SectionSide
  {
    if n > 0 {
      SpanWhole(num, trailing, n - 1);
    }
  }

  /** Section widths add up to the image width and heights to its height. */
  lemma SidesCover(pw: nat, ph: nat)
    ensures var l := Split(pw, ph);
      && Span(l.numSections.x, l.trailing.x, l.numSections.x + 1) == pw
      && Span(l.numSections.y, l.trailing.y, l.numSections.y + 1) == ph
  {
    var l := Split(pw, ph);
    SpanWhole(l.numSections.x, l.trailing.x, l.numSections.x);
    SpanWhole(l.numSections.y, l.trailing.y, l.numSections.y);
  }

  /** An in-bounds pixel falls in a section of the grid, inside that section's size. */
  lemma InSection(pw: nat, ph: nat, p: Pos)
    requires InBounds(pw, ph, p)
    ensures var l := Split(pw, ph); var s := SectionOf(p);
      && IsSection(l, s.x, s.y)
      && InBounds(SectionSize(l, s.x, s.y).x, SectionSize(l, s.x, s.y).y, Local(p))
  {
    var l := Split(pw, ph);
    var s := SectionOf(p);
    if s.x == l.numSections.x {
      assert Local(p).x == p.x - l.numSections.x * SectionSide;
    }
    if s.y == l.numSections.y {
      assert Local(p).y == p.y - l.numSections.y * SectionSide;
    }
  }

  // ---- Buffers ----------------------------------------------------------------

  /** The uniforms: the layout and one byte buffer per section, in row-major order. */
  datatype Tiles = Tiles(layout: Layout, buffers: seq<seq<Byte>>)

  /** Every section has its buffer, `sectionSize.x * sectionSize.y * 4` bytes long, at its row-major slot. */
  ghost predicate Shaped(pw: nat, ph: nat, t: Tiles)
  {
    var l := Split(pw, ph);
    && t.layout == l
    && |t.buffers| == (l.numSections.x + 1) * (l.numSections.y + 1)
    && forall j, i :: IsSection(l, j, i) ==>
         |t.buffers[UniformIndex(l, j, i)]| == SectionSize(l, j, i).x * SectionSize(l, j, i).y * 4
  }

  function Zeros(n: nat): (r: seq<Byte>)
    ensures |r| == n && forall k :: 0 <= k < n ==> r[k] == 0
  {
    seq(n, _ => 0)
  }

  /** A section's new buffer. */
  function Fresh(l: Layout, j: int, i: int): (r: seq<Byte>)
    requires l.trailing.x >= 0 && l.trailing.y >= 0
  {
    Zeros(SectionSize(l, j, i).x * SectionSize(l, j, i).y * 4)
  }

  /** The section whose buffer sits at slot `u` of the row-major order. */
  function SlotSection(l: Layout, u: int): Pos
    requires l.numSections.x >= 0
  {
    Pos(u % (l.numSections.x + 1), u / (l.numSections.x + 1))
  }

  /** Slot `i * cols + j` holds section `(j, i)`. */
  lemma SlotDecode(l: Layout, j: int, i: int)
    requires l.numSections.x >= 0 && 0 <= j <= l.numSections.x
    ensures SlotSection(l, UniformIndex(l, j, i)) == Pos(j, i)
  {
    var cols := l.numSections.x + 1;
    var u := i * cols + j;
    var q, r := u / cols, u % cols;
    assert u == q * cols + r && 0 <= r < cols;
    assert (q - i) * cols == j - r;
    if q > i {
      MulMonotone(1, q - i, cols);
    } else if q < i {
      MulMonotone(1, i - q, cols);
    }
  }

  /** A layout whose counts and remainders are not negative, as `Split` makes them. */
  predicate Sane(l: Layout)
  {
    l.numSections.x >= 0 && l.numSections.y >= 0 && l.trailing.x >= 0 && l.trailing.y >= 0
  }

  /** Each buffer so far is the fresh buffer of the section its slot decodes to. */
  ghost predicate Filled(l: Layout, buffers: seq<seq<Byte>>)
    requires Sane(l)
  {
    forall u :: 0 <= u < |buffers| ==> buffers[u] == Fresh(l, SlotSection(l, u).x, SlotSection(l, u).y)
  }

  /** Pushing the fresh buffer of the section whose slot comes next keeps every slot decoded. */
  lemma PushFresh(l: Layout, buffers: seq<seq<Byte>>, j: int, i: int)
    requires Sane(l) && Filled(l, buffers) && 0 <= j <= l.numSections.x && |buffers| == UniformIndex(l, j, i)
    ensures Filled(l, buffers + [Fresh(l, j, i)])
  {
    SlotDecode(l, j, i);
  }

  /** Once every slot is filled, each section finds its fresh buffer at its slot. */
  lemma FilledShaped(pw: nat, ph: nat, buffers: seq<seq<Byte>>)
    requires Sane(Split(pw, ph)) && Filled(Split(pw, ph), buffers)
    requires |buffers| == (Split(pw, ph).numSections.x + 1) * (Split(pw, ph).numSections.y + 1)
    ensures Shaped(pw, ph, Tiles(Split(pw, ph), buffers))
    ensures forall j, i :: IsSection(Split(pw, ph), j, i) ==>
      buffers[UniformIndex(Split(pw, ph), j, i)] == Fresh(Split(pw, ph), j, i)
  {
    var l := Split(pw, ph);
    forall j, i | IsSection(l, j, i)
      ensures 0 <= UniformIndex(l, j, i) < |buffers| && buffers[UniformIndex(l, j, i)] == Fresh(l, j, i)
    {
      UniformIndexRange(l, j, i);
      SlotDecode(l, j, i);
    }
  }

  /**
   * The constructor's nested loops, rows outermost: each section's zeroed
   * buffer is pushed so that `uniform(j, i)` later finds it.
   */
  method Allocate(pw: nat, ph: nat) returns (t: Tiles)
    ensures Shaped(pw, ph, t)
    ensures forall j, i :: IsSection(t.layout, j, i) ==> t.buffers[UniformIndex(t.layout, j, i)] == Fresh(t.layout, j, i)
  {
    var l := Split(pw, ph);
    var cols := l.numSections.x + 1;
    var buffers: seq<seq<Byte>> := [];
    var i := 0;
    while i < l.numSections.y + 1
      invariant 0 <= i <= l.numSections.y + 1
      invariant |buffers| == i * cols && Filled(l, buffers)
    {
      var j := 0;
      while j < cols
        invariant 0 <= j <= cols
        invariant |buffers| == i * cols + j && Filled(l, buffers)
      {
        PushFresh(l, buffers, j, i);
        buffers := buffers + [Fresh(l, j, i)];
        j := j + 1;
      }
      assert i * cols + cols == (i + 1) * cols;
      i := i + 1;
    }
    FilledShaped(pw, ph, buffers);
    t := Tiles(l, buffers);
  }

  /**
   * `fillPixel`: the pixel's four bytes, at `(sectionPos.y * sectionSize.x
   * + sectionPos.x) * 4` of its section's buffer. A section without a
   * buffer makes the source read `.value` of `undefined` and throw.
   */
  function TileFill(t: Tiles, p: Pos, c: Rgba): Result<Tiles>
  {
    var s := SectionOf(p);
    var u := UniformIndex(t.layout, s.x, s.y);
    if 0 <= u < |t.buffers| then
      Ok(t.(buffers := t.buffers[u := FillPixel(t.buffers[u], SectionSize(t.layout, s.x, s.y).x, Local(p), c)]))
    else
      Err("Cannot read properties of undefined (reading 'value')")
  }

  /** The slot of the buffer holding pixel `p`. */
  function Slot(l: Layout, p: Pos): int
  {
    UniformIndex(l, SectionOf(p).x, SectionOf(p).y)
  }

  /** The first of pixel `p`'s four bytes inside its section's buffer. */
  function First(l: Layout, p: Pos): int
  {
    PixelIndex(SectionSize(l, SectionOf(p).x, SectionOf(p).y).x, Local(p))
  }

  /** The byte `k` of buffer `b` is one of the four bytes of pixel `p`. */
  predicate Owns(l: Layout, p: Pos, b: int, k: int)
  {
    b == Slot(l, p) && First(l, p) <= k < First(l, p) + 4
  }

  /** Replacing one buffer by another of the same length keeps the shape. */
  lemma ShapedUpdate(pw: nat, ph: nat, t: Tiles, u: int, data: seq<Byte>)
    requires Shaped(pw, ph, t) && 0 <= u < |t.buffers| && |data| == |t.buffers[u]|
    ensures Shaped(pw, ph, t.(buffers := t.buffers[u := data]))
  {
    var l := t.layout;
    var r := t.buffers[u := data];
    forall j, i | IsSection(l, j, i)
      ensures |r[UniformIndex(l, j, i)]| == |t.buffers[UniformIndex(l, j, i)]|
    {
      UniformIndexRange(l, j, i);
    }
  }

  /** An in-bounds pixel's four bytes lie inside its section's buffer. */
  lemma OwnedInRange(pw: nat, ph: nat, t: Tiles, p: Pos)
    requires Shaped(pw, ph, t) && InBounds(pw, ph, p)
    ensures 0 <= Slot(t.layout, p) < |t.buffers|
    ensures 0 <= First(t.layout, p) && First(t.layout, p) + 3 < |t.buffers[Slot(t.layout, p)]|
  {
    var l := t.layout;
    var s := SectionOf(p);
    InSection(pw, ph, p);
    UniformIndexRange(l, s.x, s.y);
    var size := SectionSize(l, s.x, s.y);
    PixelIndexInRange(size.x, size.y, Local(p));
  }

  /**
   * On an in-bounds pixel, `fillPixel` succeeds and writes exactly the four
   * bytes the pixel owns, all inside its section's buffer; every other byte
   * of every buffer is unchanged.
   */
  lemma TileFillSpec(pw: nat, ph: nat, t: Tiles, p: Pos, c: Rgba)
    requires Shaped(pw, ph, t) && InBounds(pw, ph, p)
    ensures TileFill(t, p, c).Ok?
    ensures var r := TileFill(t, p, c).value;
      && Shaped(pw, ph, r)
      && r.layout == t.layout
      && |r.buffers| == |t.buffers|
      && (forall b :: 0 <= b < |t.buffers| ==> |r.buffers[b]| == |t.buffers[b]|)
      && 0 <= Slot(t.layout, p) < |t.buffers|
      && 0 <= First(t.layout, p) && First(t.layout, p) + 3 < |t.buffers[Slot(t.layout, p)]|
      && (forall b, k :: 0 <= b < |t.buffers| && 0 <= k < |t.buffers[b]| ==>
            r.buffers[b][k] == if Owns(t.layout, p, b, k) then c.Channel(k % 4) else t.buffers[b][k])
  {
    OwnedInRange(pw, ph, t, p);
    var u := Slot(t.layout, p);
    var data := FillPixel(t.buffers[u], SectionSize(t.layout, SectionOf(p).x, SectionOf(p).y).x, Local(p), c);
    ShapedUpdate(pw, ph, t, u, data);
  }

  /** Two different in-bounds pixels never own the same byte. */
  lemma OwnsInjective(pw: nat, ph: nat, p: Pos, q: Pos, b: int, k: int)
    requires InBounds(pw, ph, p) && InBounds(pw, ph, q)
    requires Owns(Split(pw, ph), p, b, k) && Owns(Split(pw, ph), q, b, k)
    ensures p == q
  {
    var l := Split(pw, ph);
    var s, s' := SectionOf(p), SectionOf(q);
    InSection(pw, ph, p);
    InSection(pw, ph, q);
    UniformIndexInjective(l, s.x, s.y, s'.x, s'.y);
    var size := SectionSize(l, s.x, s.y);
    var a, a' := Index(size.x, Local(p)), Index(size.x, Local(q));
    assert a * 4 <= k < a * 4 + 4 && a' * 4 <= k < a' * 4 + 4;
    assert a == a';
    IndexInjective(size.x, size.y, Local(p), Local(q));
  }

  /** `drawPoints`: `fillPixel` for each point in turn, stopping at the first throw. */
  function DrawPoints(t: Tiles, points: seq<(Pos, Rgba)>): Result<Tiles>
    decreases |points|
  {
    if |points| == 0 then Ok(t)
    else match TileFill(t, points[0].0, points[0].1)
      case Ok(t') => DrawPoints(t', points[1..])
      case Err(m) => Err(m)
  }

  /** A byte some point owns. */
  predicate Drawn(l: Layout, points: seq<(Pos, Rgba)>, b: int, k: int)
  {
    exists n :: 0 <= n < |points| && Owns(l, points[n].0, b, k)
  }

  /** In-bounds points draw without a throw, keep the buffers' shapes and change no byte outside their pixels. */
  lemma {:induction false} DrawPointsSpec(pw: nat, ph: nat, t: Tiles, points: seq<(Pos, Rgba)>)
    requires Shaped(pw, ph, t)
    requires forall n :: 0 <= n < |points| ==> InBounds(pw, ph, points[n].0)
    ensures DrawPoints(t, points).Ok?
    ensures var r := DrawPoints(t, points).value;
      && Shaped(pw, ph, r)
      && |r.buffers| == |t.buffers|
      && (forall b :: 0 <= b < |t.buffers| ==> |r.buffers[b]| == |t.buffers[b]|)
      && forall b, k :: 0 <= b < |t.buffers| && 0 <= k < |t.buffers[b]| && !Drawn(t.layout, points, b, k) ==>
           r.buffers[b][k] == t.buffers[b][k]
    decreases |points|
  {
    if |points| > 0 {
      TileFillSpec(pw, ph, t, points[0].0, points[0].1);
      var t' := TileFill(t, points[0].0, points[0].1).value;
      DrawPointsSpec(pw, ph, t', points[1..]);
      var r := DrawPoints(t, points).value;
      assert r == DrawPoints(t', points[1..]).value;
      forall b, k | 0 <= b < |t.buffers| && 0 <= k < |t.buffers[b]| && !Drawn(t.layout, points, b, k)
        ensures r.buffers[b][k] == t.buffers[b][k]
      {
        DrawnTail(t.layout, points, b, k);
      }
    }
  }

  lemma DrawnTail(l: Layout, points: seq<(Pos, Rgba)>, b: int, k: int)
    requires |points| > 0 && !Drawn(l, points, b, k)
    ensures !Owns(l, points[0].0, b, k) && !Drawn(l, points[1..], b, k)
  {
  }

  /** Drawing one more point after others: the last point drawn decides its pixel's bytes. */
  lemma DrawLastWins(pw: nat, ph: nat, t: Tiles, points: seq<(Pos, Rgba)>, p: Pos, c: Rgba)
    requires Shaped(pw, ph, t)
    requires forall n :: 0 <= n < |points| ==> InBounds(pw, ph, points[n].0)
    requires InBounds(pw, ph, p)
    ensures DrawPoints(t, points + [(p, c)]).Ok?
    ensures var r := DrawPoints(t, points + [(p, c)]).value; var b, f := Slot(t.layout, p), First(t.layout, p);
      && 0 <= b < |r.buffers| && 0 <= f && f + 3 < |r.buffers[b]|
      && r.buffers[b][f..f + 4] == [c.r, c.g, c.b, c.a]
  {
    DrawPointsSpec(pw, ph, t, points);
    var m := DrawPoints(t, points).value;
    DrawAppend(t, points, p, c);
    TileFillSpec(pw, ph, m, p, c);
    var r := DrawPoints(t, points + [(p, c)]).value;
    var b, f := Slot(t.layout, p), First(t.layout, p);
    var s := SectionOf(p);
    InSection(pw, ph, p);
    PixelIndexInRange(SectionSize(t.layout, s.x, s.y).x, SectionSize(t.layout, s.x, s.y).y, Local(p));
    assert f % 4 == 0;
    assert Owns(t.layout, p, b, f) && Owns(t.layout, p, b, f + 1) && Owns(t.layout, p, b, f + 2) && Owns(t.layout, p, b, f + 3);
    assert r.buffers[b][f] == c.r && r.buffers[b][f + 1] == c.g && r.buffers[b][f + 2] == c.b && r.buffers[b][f + 3] == c.a;
  }

  lemma {:induction false} DrawAppend(t: Tiles, points: seq<(Pos, Rgba)>, p: Pos, c: Rgba)
    requires DrawPoints(t, points).Ok?
    ensures DrawPoints(t, points + [(p, c)]) == TileFill(DrawPoints(t, points).value, p, c)
    decreases |points|
  {
    if |points| == 0 {
      assert points + [(p, c)] == [(p, c)];
    } else {
      var t' := TileFill(t, points[0].0, points[0].1).value;
      assert (points + [(p, c)])[1..] == points[1..] + [(p, c)];
      DrawAppend(t', points[1..], p, c);
    }
  }
}

=== FILE: traversal.dfy ===
/**
 * The breadth-first traversal shared by the four `breadthFirstTraversal`
 * functions. The test is a callback that may read and change state (it
 * deletes from sets, relabels pixels, calls `exitLoop`), so it is modelled
 * as a function from the current state and a position to a verdict: pass or
 * fail, whether `exitLoop` was called, and the next state. The traversal
 * returns the points in the order it records them, the trace of every test
 * call with its verdict, and the final state.
 *
 * The variants differ in where `test` is applied:
 *   - TestStartFirst: `start` is tested once up front (its `exitLoop` does
 *     nothing) and the traversal is skipped when it fails; neighbours are
 *     tested when enqueued (packages/drawing/src/bft.ts).
 *   - StartUntested: `start` is recorded without a test; neighbours are
 *     tested when enqueued (common/bft.ts).
 *   - TestOnDequeue: every dequeued point is tested and recorded only if it
 *     passes; neighbours are also tested when enqueued (the painter and
 *     old_painter drawing-layer bft.ts).
 */
module Traversal {
  import opened Grid
  import opened JsCollections

  datatype Verdict<S> = Verdict(pass: bool, exit: bool, state: S)

  /** One call of the test: the position asked about and what it answered. */
  datatype Call<S> = Call(pos: Pos, verdict: Verdict<S>)

  datatype Mode = TestStartFirst | StartUntested | TestOnDequeue

  /** The state before call `i` of a trace started in `s0`. */
  function Before<S>(s0: S, trace: seq<Call<S>>, i: nat): S
    requires i <= |trace|
  {
    if i == 0 then s0 else trace[i - 1].verdict.state
  }

  /** The state after the whole trace. */
  function After<S>(s0: S, trace: seq<Call<S>>): S
  {
    Before(s0, trace, |trace|)
  }

  /** Every verdict in the trace is what `test` answers in the state left by the previous call. */
  ghost predicate Threads<S>(test: (S, Pos) -> Verdict<S>, s0: S, trace: seq<Call<S>>)
  {
    forall i :: 0 <= i < |trace| ==> trace[i].verdict == test(Before(s0, trace, i), trace[i].pos)
  }

  lemma ThreadsAppend<S>(test: (S, Pos) -> Verdict<S>, s0: S, t1: seq<Call<S>>, t2: seq<Call<S>>)
    requires Threads(test, s0, t1) && Threads(test, After(s0, t1), t2)
    ensures Threads(test, s0, t1 + t2)
    ensures After(s0, t1 + t2) == After(After(s0, t1), t2)
  {
    var t := t1 + t2;
    forall i | 0 <= i < |t| ensures t[i].verdict == test(Before(s0, t, i), t[i].pos) {
      if i < |t1| {
        assert t[i] == t1[i];
        assert i > 0 ==> t[i - 1] == t1[i - 1];
      } else {
        assert t[i] == t2[i - |t1|];
        assert Before(s0, t, i) == Before(After(s0, t1), t2, i - |t1|);
      }
    }
  }

  /** `q` was asked about, and enqueued if it passed. */
  predicate Covered<S>(calls: seq<Call<S>>, pushed: seq<Pos>, q: Pos)
  {
    exists i :: 0 <= i < |calls| && calls[i].pos == q && (calls[i].verdict.pass ==> q in pushed)
  }

  /** `q` is `p` moved by one of the offsets. */
  predicate Adjacent(p: Pos, q: Pos, offsets: seq<Pos>)
  {
    exists d :: 0 <= d < |offsets| && q == Add(p, offsets[d])
  }

  /** `q` was asked about and passed at some call of the trace. */
  predicate PassedIn<S>(trace: seq<Call<S>>, q: Pos)
  {
    exists i :: 0 <= i < |trace| && trace[i].pos == q && trace[i].verdict.pass
  }

  /** The recorded points start at `start`, and each later one is a neighbour of an earlier one. */
  predicate Connected(order: seq<Pos>, start: Pos, offsets: seq<Pos>)
  {
    && (|order| > 0 ==> order[0] == start)
    && forall k :: 0 < k < |order| ==> exists j :: 0 <= j < k && Adjacent(order[j], order[k], offsets)
  }

  /** Call `i` invoked `exitLoop` (the up-front test of `start` has a callback that does nothing). */
  predicate IsExit<S>(mode: Mode, trace: seq<Call<S>>, i: nat)
    requires i < |trace|
  {
    trace[i].verdict.exit && !(mode == TestStartFirst && i == 0)
  }

  /**
   * Once `exitLoop` has been called, the traversal stops at the next passing
   * test: any later passing call is the last call of all, and every later
   * call asks about a neighbour of the last recorded point.
   */
  predicate ExitHalts<S>(mode: Mode, order: seq<Pos>, trace: seq<Call<S>>, offsets: seq<Pos>)
  {
    && (forall c, c' :: 0 <= c < c' < |trace| && IsExit(mode, trace, c) && trace[c'].verdict.pass ==> c' == |trace| - 1)
    && (forall c, c' :: 0 <= c < c' < |trace| && IsExit(mode, trace, c) ==>
          |order| > 0 && Adjacent(order[|order| - 1], trace[c'].pos, offsets))
    && (mode != TestOnDequeue ==>
          forall c :: 0 <= c < |trace| && IsExit(mode, trace, c) && trace[c].verdict.pass ==> c == |trace| - 1)
  }

  /**
   * The test never calls `exitLoop` and, on the states `inv` allows (which
   * it keeps), passes exactly where it passes in `s0`.
   */
  ghost predicate Steady<S(!new)>(test: (S, Pos) -> Verdict<S>, inv: S -> bool, s0: S)
  {
    && inv(s0)
    && forall s, p :: inv(s) ==>
         inv(test(s, p).state) && !test(s, p).exit && test(s, p).pass == test(s0, p).pass
  }

  /** Every passing neighbour of a recorded point is recorded. */
  ghost predicate Closed<S>(test: (S, Pos) -> Verdict<S>, s0: S, order: seq<Pos>, offsets: seq<Pos>)
  {
    forall k, d :: 0 <= k < |order| && 0 <= d < |offsets| && test(s0, Add(order[k], offsets[d])).pass ==>
      Add(order[k], offsets[d]) in order
  }

  /**
   * The neighbour loop for one newly recorded point `current`, from offset
   * `k` on: each neighbour is tested; a passing one is enqueued unless
   * `exitLoop` has been called, in which case the loop breaks. Returns the
   * calls made, the points enqueued and the new value of `breakLoop`.
   */
  function Expand<S>(test: (S, Pos) -> Verdict<S>, current: Pos, offsets: seq<Pos>, k: nat, s: S, broke: bool)
    : (r: (seq<Call<S>>, seq<Pos>, bool))
    requires k <= |offsets|
    ensures Threads(test, s, r.0)
    ensures forall i :: 0 <= i < |r.0| ==> Adjacent(current, r.0[i].pos, offsets)
    ensures forall i :: 0 <= i < |r.1| ==> Adjacent(current, r.1[i], offsets) && PassedIn(r.0, r.1[i])
    ensures r.2 <==> broke || exists i :: 0 <= i < |r.0| && r.0[i].verdict.exit
    ensures broke ==> forall j :: 0 <= j < |r.0| && r.0[j].verdict.pass ==> j == |r.0| - 1
    ensures forall i, j :: 0 <= i <= j < |r.0| && r.0[i].verdict.exit && r.0[j].verdict.pass ==> j == |r.0| - 1
    ensures !r.2 ==> forall d :: k <= d < |offsets| ==>
      Covered(r.0, r.1, Add(current, offsets[d]))
    decreases |offsets| - k
  {
    if k == |offsets| then ([], [], broke)
    else
      var np := Add(current, offsets[k]);
      var v := test(s, np);
      var b := broke || v.exit;
      assert Adjacent(current, np, offsets);
      if v.pass && b then
        assert !broke ==> [Call(np, v)][0].verdict.exit;
        ([Call(np, v)], [], true)
      else
        var rest := Expand(test, current, offsets, k + 1, v.state, b);
        var calls := [Call(np, v)] + rest.0;
        var pushed := (if v.pass then [np] else []) + rest.1;
        assert Prepended(calls, Call(np, v), rest.0);
        assert Threads(test, s, [Call(np, v)]);
        ThreadsAppend(test, s, [Call(np, v)], rest.0);
        ExpandPassed(calls, pushed, np, v, rest.0, rest.1);
        ExpandExits(calls, np, v, rest.0);
        ExpandHalts(calls, np, v, rest.0, broke);
        if !rest.2 then
          ExpandCovered(calls, pushed, current, offsets, k, v, rest.0, rest.1);
          (calls, pushed, rest.2)
        else
          (calls, pushed, rest.2)
  }

  /**
   * One turn of the neighbour loop: what the whole loop from offset `k`
   * enqueues, whether it breaks and the state it leaves, in terms of the
   * call at offset `k` and the loop from `k + 1`.
   */
  lemma ExpandUnfold<S>(test: (S, Pos) -> Verdict<S>, current: Pos, offsets: seq<Pos>, k: nat, s: S, broke: bool)
    requires k < |offsets|
    ensures var np := Add(current, offsets[k]);
      var v := test(s, np);
      var r := Expand(test, current, offsets, k, s, broke);
      var rest := Expand(test, current, offsets, k + 1, v.state, broke || v.exit);
      if v.pass && (broke || v.exit) then r.1 == [] && r.2 && After(s, r.0) == v.state
      else r.1 == (if v.pass then [np] else []) + rest.1 && r.2 == rest.2 && After(s, r.0) == After(v.state, rest.0)
  {
    var np := Add(current, offsets[k]);
    var v := test(s, np);
    var rest := Expand(test, current, offsets, k + 1, v.state, broke || v.exit);
    if !(v.pass && (broke || v.exit)) {
      AfterPrepend(s, Call(np, v), rest.0);
    }
  }

  /** The state after a call followed by more calls is the state after the more, started where the call left off. */
  lemma AfterPrepend<S>(s: S, c: Call<S>, rest: seq<Call<S>>)
    ensures After(s, [c] + rest) == After(c.verdict.state, rest)
  {
    if |rest| > 0 {
      assert ([c] + rest)[|rest|] == rest[|rest| - 1];
    }
  }

  /**
   * The neighbour loop reduced to what the outer loop keeps of it: the
   * points enqueued, `breakLoop`, and the state left behind.
   */
  function Spread<S>(test: (S, Pos) -> Verdict<S>, current: Pos, offsets: seq<Pos>, k: nat, s: S, broke: bool)
    : (seq<Pos>, bool, S)
    requires k <= |offsets|
    decreases |offsets| - k
  {
    if k == |offsets| then ([], broke, s)
    else
      var np := Add(current, offsets[k]);
      var v := test(s, np);
      if v.pass && (broke || v.exit) then ([], true, v.state)
      else
        var r := Spread(test, current, offsets, k + 1, v.state, broke || v.exit);
        ((if v.pass then [np] else []) + r.0, r.1, r.2)
  }

  /** A turn of the neighbour loop whose test fails at `np`, the neighbour at offset `k`. */
  lemma SpreadFails<S>(test: (S, Pos) -> Verdict<S>, current: Pos, offsets: seq<Pos>, k: nat, s: S, broke: bool,
                       np: Pos, v: Verdict<S>, rest: (seq<Pos>, bool, S))
    requires k < |offsets| && np == Add(current, offsets[k]) && test(s, np) == v && !v.pass
    requires Spread(test, current, offsets, k + 1, v.state, broke || v.exit) == rest
    ensures Spread(test, current, offsets, k, s, broke) == rest
  {
    assert [] + rest.0 == rest.0;
  }

  /** A turn of the neighbour loop whose test passes at `np` without breaking: the neighbour is queued. */
  lemma SpreadPasses<S>(test: (S, Pos) -> Verdict<S>, current: Pos, offsets: seq<Pos>, k: nat, s: S, broke: bool,
                        np: Pos, v: Verdict<S>, rest: (seq<Pos>, bool, S), pushed: seq<Pos>)
    requires k < |offsets| && np == Add(current, offsets[k]) && test(s, np) == v && v.pass && !broke && !v.exit
    requires Spread(test, current, offsets, k + 1, v.state, false) == rest
    requires pushed == [np] + rest.0
    ensures Spread(test, current, offsets, k, s, broke) == (pushed, rest.1, rest.2)
  {
  }

  /** A turn of the neighbour loop that breaks. */
  lemma SpreadBreaks<S>(test: (S, Pos) -> Verdict<S>, current: Pos, offsets: seq<Pos>, k: nat, s: S, broke: bool,
                        np: Pos, v: Verdict<S>)
    requires k < |offsets| && np == Add(current, offsets[k]) && test(s, np) == v && v.pass && (broke || v.exit)
    ensures Spread(test, current, offsets, k, s, broke) == ([], true, v.state)
  {
  }

  lemma {:induction false} ExpandSpread<S>(test: (S, Pos) -> Verdict<S>, current: Pos, offsets: seq<Pos>, k: nat, s: S, broke: bool)
    requires k <= |offsets|
    ensures var r := Expand(test, current, offsets, k, s, broke);
      (r.1, r.2, After(s, r.0)) == Spread(test, current, offsets, k, s, broke)
    decreases |offsets| - k
  {
    if k < |offsets| {
      var v := test(s, Add(current, offsets[k]));
      ExpandUnfold(test, current, offsets, k, s, broke);
      ExpandSpread(test, current, offsets, k + 1, v.state, broke || v.exit);
    }
  }

  /** A turn of the outer loop that records a new point, in terms of `Spread`. */
  lemma StepSpread<S>(u: Setup<S>, k: Walk<S>)
    requires k.qi < |k.queue| && u.mode == StartUntested && k.queue[k.qi] !in k.order
    ensures var current := k.queue[k.qi];
      var r := Spread(u.test, current, u.offsets, 0, k.s, k.broke);
      var k' := Step(u, k);
      k'.order == k.order + [current] && k'.queue == k.queue + r.0 && k'.qi == k.qi + 1 && k'.broke == r.1 && k'.s == r.2
  {
    ExpandSpread(u.test, k.queue[k.qi], u.offsets, 0, k.s, k.broke);
  }

  /** A turn of the outer loop that dequeues an already recorded point. */
  lemma StepSkip<S>(u: Setup<S>, k: Walk<S>)
    requires k.qi < |k.queue| && u.mode == StartUntested && k.queue[k.qi] in k.order
    ensures Step(u, k) == k.(qi := k.qi + 1)
  {
  }

  /** A call prepended to the rest of the neighbour loop. */
  ghost predicate Prepended<S>(calls: seq<Call<S>>, first: Call<S>, rest: seq<Call<S>>)
  {
    |calls| == |rest| + 1 && calls[0] == first && forall i :: 0 < i < |calls| ==> calls[i] == rest[i - 1]
  }

  lemma ExpandPassed<S>(calls: seq<Call<S>>, pushed: seq<Pos>, np: Pos, v: Verdict<S>,
                      rest: seq<Call<S>>, restPushed: seq<Pos>)
    requires Prepended(calls, Call(np, v), rest)
    requires pushed == (if v.pass then [np] else []) + restPushed
    requires forall i :: 0 <= i < |restPushed| ==> PassedIn(rest, restPushed[i])
    ensures forall i :: 0 <= i < |pushed| ==> PassedIn(calls, pushed[i])
  {
    forall i | 0 <= i < |pushed| ensures PassedIn(calls, pushed[i]) {
      if v.pass && i == 0 {
        assert calls[0].pos == np;
      } else {
        var i' := if v.pass then i - 1 else i;
        assert pushed[i] == restPushed[i'];
        var c :| 0 <= c < |rest| && rest[c].pos == restPushed[i'] && rest[c].verdict.pass;
        assert calls[c + 1] == rest[c];
      }
    }
  }

  lemma ExpandExits<S>(calls: seq<Call<S>>, np: Pos, v: Verdict<S>, rest: seq<Call<S>>)
    requires Prepended(calls, Call(np, v), rest)
    ensures (exists i :: 0 <= i < |calls| && calls[i].verdict.exit) <==>
            v.exit || exists i :: 0 <= i < |rest| && rest[i].verdict.exit
  {
    if exists i :: 0 <= i < |rest| && rest[i].verdict.exit {
      var i :| 0 <= i < |rest| && rest[i].verdict.exit;
      assert calls[i + 1] == rest[i];
    }
    if exists i :: 0 <= i < |calls| && calls[i].verdict.exit {
      var i :| 0 <= i < |calls| && calls[i].verdict.exit;
      if i > 0 {
        assert rest[i - 1] == calls[i];
      }
    }
  }

  lemma ExpandHalts<S>(calls: seq<Call<S>>, np: Pos, v: Verdict<S>, rest: seq<Call<S>>, broke: bool)
    requires Prepended(calls, Call(np, v), rest)
    requires !(v.pass && (broke || v.exit))
    requires (broke || v.exit) ==> forall j :: 0 <= j < |rest| && rest[j].verdict.pass ==> j == |rest| - 1
    requires forall i, j :: 0 <= i <= j < |rest| && rest[i].verdict.exit && rest[j].verdict.pass ==> j == |rest| - 1
    ensures broke ==> forall j :: 0 <= j < |calls| && calls[j].verdict.pass ==> j == |calls| - 1
    ensures forall i, j :: 0 <= i <= j < |calls| && calls[i].verdict.exit && calls[j].verdict.pass ==> j == |calls| - 1
  {
    forall i, j | 0 <= i <= j < |calls| && calls[i].verdict.exit && calls[j].verdict.pass
      ensures j == |calls| - 1
    {
      if i == 0 {
        assert j > 0 && rest[j - 1] == calls[j];
      } else {
        assert rest[i - 1] == calls[i] && rest[j - 1] == calls[j];
      }
    }
    if broke {
      forall j | 0 <= j < |calls| && calls[j].verdict.pass ensures j == |calls| - 1 {
        assert j > 0 && rest[j - 1] == calls[j];
      }
    }
  }

  lemma ExpandCovered<S>(calls: seq<Call<S>>, pushed: seq<Pos>, current: Pos, offsets: seq<Pos>, k: nat,
                       v: Verdict<S>, rest: seq<Call<S>>, restPushed: seq<Pos>)
    requires k < |offsets|
    requires Prepended(calls, Call(Add(current, offsets[k]), v), rest)
    requires pushed == (if v.pass then [Add(current, offsets[k])] else []) + restPushed
    requires forall d :: k + 1 <= d < |offsets| ==> Covered(rest, restPushed, Add(current, offsets[d]))
    ensures forall d :: k <= d < |offsets| ==> Covered(calls, pushed, Add(current, offsets[d]))
  {
    forall d | k <= d < |offsets| ensures Covered(calls, pushed, Add(current, offsets[d])) {
      if d == k {
        assert calls[0].pos == Add(current, offsets[k]);
      } else {
        var q := Add(current, offsets[d]);
        var i :| 0 <= i < |rest| && rest[i].pos == q && (rest[i].verdict.pass ==> q in restPushed);
        assert calls[i + 1] == rest[i];
      }
    }
  }

  /** `q` is a neighbour of some recorded point. */
  predicate NearOrder(order: seq<Pos>, q: Pos, offsets: seq<Pos>)
  {
    exists j :: 0 <= j < |order| && Adjacent(order[j], q, offsets)
  }

  lemma NearOrderGrows(order: seq<Pos>, more: seq<Pos>, q: Pos, offsets: seq<Pos>)
    requires NearOrder(order, q, offsets)
    ensures NearOrder(order + more, q, offsets)
  {
    var j :| 0 <= j < |order| && Adjacent(order[j], q, offsets);
    assert (order + more)[j] == order[j];
  }

  lemma PassedGrows<S>(trace: seq<Call<S>>, more: seq<Call<S>>, q: Pos)
    requires PassedIn(trace, q)
    ensures PassedIn(trace + more, q)
  {
    var i :| 0 <= i < |trace| && trace[i].pos == q && trace[i].verdict.pass;
    assert (trace + more)[i] == trace[i];
  }

  /** Along a trace of a steady test every state keeps `inv`. */
  lemma {:induction false} SteadyBefore<S(!new)>(test: (S, Pos) -> Verdict<S>, inv: S -> bool, s0: S,
                                                  s: S, trace: seq<Call<S>>, i: nat)
    requires Steady(test, inv, s0) && inv(s) && Threads(test, s, trace) && i <= |trace|
    ensures inv(Before(s, trace, i))
    decreases i
  {
    if i > 0 {
      SteadyBefore(test, inv, s0, s, trace, i - 1);
      SteadyStep(test, inv, s0, s, trace, i - 1);
    }
  }

  /** One call of a trace keeps the steady test's invariant. */
  lemma SteadyStep<S(!new)>(test: (S, Pos) -> Verdict<S>, inv: S -> bool, s0: S, s: S, trace: seq<Call<S>>, j: nat)
    requires Steady(test, inv, s0) && Threads(test, s, trace) && j < |trace|
    requires inv(Before(s, trace, j))
    ensures inv(Before(s, trace, j + 1))
  {
    assert trace[j].verdict == test(Before(s, trace, j), trace[j].pos);
  }

  /** A steady test answers along any trace as it does in `s0`, and never exits. */
  lemma SteadyTrace<S(!new)>(test: (S, Pos) -> Verdict<S>, inv: S -> bool, s0: S, s: S, trace: seq<Call<S>>)
    requires Steady(test, inv, s0) && inv(s) && Threads(test, s, trace)
    ensures inv(After(s, trace))
    ensures forall i :: 0 <= i < |trace| ==>
      !trace[i].verdict.exit && trace[i].verdict.pass == test(s0, trace[i].pos).pass
  {
    SteadyBefore(test, inv, s0, s, trace, |trace|);
    forall i | 0 <= i < |trace|
      ensures !trace[i].verdict.exit && trace[i].verdict.pass == test(s0, trace[i].pos).pass
    {
      SteadyBefore(test, inv, s0, s, trace, i);
    }
  }

  /** Every call of the test keeps `inv`, whatever it answers. */
  ghost predicate Keeps<S(!new)>(test: (S, Pos) -> Verdict<S>, inv: S -> bool)
  {
    forall s, p :: inv(s) ==> inv(test(s, p).state)
  }

  /** A property the test keeps, once it holds at call `j`, holds at every later call and at the end. */
  lemma KeepsAlong<S(!new)>(test: (S, Pos) -> Verdict<S>, inv: S -> bool, s: S, trace: seq<Call<S>>, j: nat, i: nat)
    requires Keeps(test, inv) && Threads(test, s, trace) && j <= i <= |trace|
    requires inv(Before(s, trace, j))
    ensures inv(Before(s, trace, i))
  {
    forall k | 0 <= k < |trace| && inv(Before(s, trace, k)) ensures inv(Before(s, trace, k + 1)) {
      KeepsStep(test, inv, s, trace, k);
    }
    HoldsFrom(inv, s, trace, j, i);
  }

  /** `inv` carries over each call of the trace. */
  ghost predicate StepsKeep<S(!new)>(inv: S -> bool, s: S, trace: seq<Call<S>>)
  {
    forall k :: 0 <= k < |trace| && inv(Before(s, trace, k)) ==> inv(Before(s, trace, k + 1))
  }

  /** What each call carries over holds from call `j` on. */
  lemma {:induction false} HoldsFrom<S(!new)>(inv: S -> bool, s: S, trace: seq<Call<S>>, j: nat, i: nat)
    requires StepsKeep(inv, s, trace) && j <= i <= |trace| && inv(Before(s, trace, j))
    ensures inv(Before(s, trace, i))
    decreases i - j
  {
    if j < i {
      assert inv(Before(s, trace, j + 1));
      HoldsFrom(inv, s, trace, j + 1, i);
    }
  }

  /** One call of a trace keeps what the test keeps. */
  lemma KeepsStep<S(!new)>(test: (S, Pos) -> Verdict<S>, inv: S -> bool, s: S, trace: seq<Call<S>>, j: nat)
    requires Keeps(test, inv) && Threads(test, s, trace) && j < |trace|
    requires inv(Before(s, trace, j))
    ensures inv(Before(s, trace, j + 1))
  {
    assert trace[j].verdict == test(Before(s, trace, j), trace[j].pos);
  }

  /** The region a traversal can record: the grid plus the start point. */
  ghost function Region(w: int, h: int, start: Pos): set<Pos>
  {
    Cells(w, h) + {start}
  }

  lemma RegionShrinks(region: set<Pos>, order: seq<Pos>, current: Pos)
    requires current in region && current !in order
    ensures |region - Elements(order + [current])| < |region - Elements(order)|
  {
    assert Elements(order + [current]) == Elements(order) + {current};
    assert region - Elements(order + [current]) == (region - Elements(order)) - {current};
  }

  /** What does not change during a traversal. */
  datatype Setup<!S> = Setup(start: Pos, test: (S, Pos) -> Verdict<S>, s0: S, offsets: seq<Pos>, mode: Mode)

  /**
   * The traversal's variables: recorded points, calls so far, the state,
   * the queue (every point ever enqueued; `queue[qi..]` is still waiting)
   * and `breakLoop`.
   */
  datatype Walk<S> = Walk(order: seq<Pos>, trace: seq<Call<S>>, s: S, queue: seq<Pos>, qi: nat, broke: bool)

  /** The dequeue test of the TestOnDequeue variant: new trace, state, `breakLoop`, and whether to record. */
  function Dequeued<S>(u: Setup<S>, k: Walk<S>, current: Pos): (seq<Call<S>>, S, bool, bool)
  {
    if u.mode == TestOnDequeue then
      var v := u.test(k.s, current);
      (k.trace + [Call(current, v)], v.state, k.broke || v.exit, v.pass)
    else
      (k.trace, k.s, k.broke, true)
  }

  /** One turn of the outer loop: dequeue, maybe record and expand. */
  function Step<S>(u: Setup<S>, k: Walk<S>): Walk<S>
    requires k.qi < |k.queue|
  {
    var current := k.queue[k.qi];
    var d := Dequeued(u, k, current);
    if d.3 && current !in k.order then
      var r := Expand(u.test, current, u.offsets, 0, d.1, d.2);
      Walk(k.order + [current], d.0 + r.0, After(d.1, r.0), k.queue + r.1, k.qi + 1, r.2)
    else
      Walk(k.order, d.0, d.1, k.queue, k.qi + 1, d.2)
  }

  /** The outer loop has stopped: the queue is exhausted or `breakLoop` is set. */
  predicate Halted<S>(k: Walk<S>)
  {
    k.broke || k.qi >= |k.queue|
  }

  /**
   * The loop's variables before its first turn. In TestStartFirst mode the
   * up-front test of `start` has been made; when it fails nothing is queued.
   */
  function Initial<S>(u: Setup<S>): Walk<S>
  {
    if u.mode == TestStartFirst then
      var v := u.test(u.s0, u.start);
      Walk([], [Call(u.start, v)], v.state, if v.pass then [u.start] else [], 0, false)
    else
      Walk([], [], u.s0, [u.start], 0, false)
  }

  /** The loop's variables after `n` turns; once halted they stay put. */
  function Run<S>(u: Setup<S>, k: Walk<S>, n: nat): Walk<S>
    decreases n
  {
    if n == 0 then k
    else
      var k' := Run(u, k, n - 1);
      if Halted(k') then k' else Step(u, k')
  }

  /** The loop halts after `n` turns with these results. */
  ghost predicate Finished<S>(u: Setup<S>, n: nat, order: seq<Pos>, trace: seq<Call<S>>, s: S)
  {
    var k := Run(u, Initial(u), n);
    Halted(k) && k.order == order && k.trace == trace && k.s == s
  }

  /** The results are the ones the loop computes from the initial variables. */
  ghost predicate Outcome<S>(u: Setup<S>, order: seq<Pos>, trace: seq<Call<S>>, s: S)
  {
    exists n: nat :: Finished(u, n, order, trace, s)
  }

  lemma {:induction false} RunStays<S>(u: Setup<S>, k: Walk<S>, n: nat, m: nat)
    requires n <= m && Halted(Run(u, k, n))
    ensures Run(u, k, m) == Run(u, k, n)
    decreases m - n
  {
    if n < m {
      RunHalts(u, k, n);
      RunStays(u, k, n + 1, m);
    }
  }

  /** A halted loop takes no further turn. */
  lemma RunHalts<S>(u: Setup<S>, k: Walk<S>, n: nat)
    requires Halted(Run(u, k, n))
    ensures Run(u, k, n + 1) == Run(u, k, n)
  {
  }

  lemma RunNext<S>(u: Setup<S>, k: Walk<S>, n: nat)
    ensures Run(u, k, n + 1) == if Halted(Run(u, k, n)) then Run(u, k, n) else Step(u, Run(u, k, n))
  {
  }

  lemma RunAdvance<S>(u: Setup<S>, n: nat, k: Walk<S>)
    requires k == Run(u, Initial(u), n) && !Halted(k)
    ensures Step(u, k) == Run(u, Initial(u), n + 1)
  {
    RunNext(u, Initial(u), n);
  }

  lemma RunOutcome<S>(u: Setup<S>, n: nat, k: Walk<S>)
    requires k == Run(u, Initial(u), n) && Halted(k)
    ensures Outcome(u, k.order, k.trace, k.s)
  {
    assert Finished(u, n, k.order, k.trace, k.s);
  }

  /** A traversal has one outcome: the loop's variables at the first turn where it halts. */
  lemma OutcomeUnique<S>(u: Setup<S>, m: nat, order: seq<Pos>, trace: seq<Call<S>>, s: S)
    requires Halted(Run(u, Initial(u), m)) && Outcome(u, order, trace, s)
    ensures Finished(u, m, order, trace, s)
  {
    var n: nat :| Finished(u, n, order, trace, s);
    if n <= m {
      RunStays(u, Initial(u), n, m);
    } else {
      RunStays(u, Initial(u), m, n);
    }
  }

  /** Two outcomes of the same traversal are the same. */
  lemma OutcomeDeterministic<S>(u: Setup<S>, order: seq<Pos>, trace: seq<Call<S>>, s: S,
                                order': seq<Pos>, trace': seq<Call<S>>, s': S)
    requires Outcome(u, order, trace, s) && Outcome(u, order', trace', s')
    ensures order == order' && trace == trace' && s == s'
  {
    var n: nat :| Finished(u, n, order, trace, s);
    OutcomeUnique(u, n, order', trace', s');
  }

  /** The loop's bookkeeping: queue and order shape, connectivity. */
  ghost predicate Shape<S>(u: Setup<S>, region: set<Pos>, k: Walk<S>)
  {
    && 0 <= k.qi <= |k.queue| && |k.queue| > 0 && k.queue[0] == u.start
    && (forall i :: 0 <= i < |k.queue| ==> k.queue[i] in region)
    && Distinct(k.order)
    && (k.qi == 0 ==> k.order == [])
    && Connected(k.order, u.start, u.offsets)
    && (forall i :: 0 < i < |k.queue| ==> NearOrder(k.order, k.queue[i], u.offsets))
    && (u.mode != TestOnDequeue && k.qi > 0 ==> |k.order| > 0)
    && (|k.queue| > 1 ==> |k.order| > 0)
    && (k.broke ==> k.qi > 0)
  }

  /** The loop's relation to the trace of test calls. */
  ghost predicate Tracing<S>(u: Setup<S>, k: Walk<S>)
  {
    && Threads(u.test, u.s0, k.trace) && k.s == After(u.s0, k.trace)
    && (k.qi == 0 ==> |k.trace| == if u.mode == TestStartFirst then 1 else 0)
    && (k.order == [] ==> |k.trace| <= 1)
    && (forall i :: 0 < i < |k.queue| ==> PassedIn(k.trace, k.queue[i]))
    && (forall j :: 0 <= j < |k.order| && (u.mode != StartUntested || j > 0) ==> PassedIn(k.trace, k.order[j]))
    && (u.mode == TestStartFirst ==> |k.trace| > 0 && k.trace[0].pos == u.start && k.trace[0].verdict.pass)
    && (u.mode == TestOnDequeue && k.qi > 0 ==>
          |k.trace| > 0 && k.trace[0].pos == u.start && (|k.order| > 0 <==> k.trace[0].verdict.pass))
    && (forall c :: 0 <= c < |k.trace| ==> k.trace[c].pos == u.start || NearOrder(k.order, k.trace[c].pos, u.offsets))
  }

  /** `breakLoop` is set exactly when some call exited, and the traversal then halts. */
  ghost predicate Exits<S>(u: Setup<S>, k: Walk<S>)
  {
    && (forall c :: 0 <= c < |k.trace| && IsExit(u.mode, k.trace, c) ==> k.broke)
    && ExitHalts(u.mode, k.order, k.trace, u.offsets)
  }

  /** For a steady test: every passing neighbour of a recorded point was enqueued, every passing dequeued point recorded. */
  ghost predicate Closure<S(!new)>(u: Setup<S>, inv: S -> bool, k: Walk<S>)
  {
    Steady(u.test, inv, u.s0) ==>
      && !k.broke && inv(k.s) && k.qi <= |k.queue|
      && (forall j, d :: 0 <= j < |k.order| && 0 <= d < |u.offsets| && u.test(u.s0, Add(k.order[j], u.offsets[d])).pass
            ==> Add(k.order[j], u.offsets[d]) in k.queue)
      && (forall i :: 0 <= i < k.qi && (u.mode != TestOnDequeue || u.test(u.s0, k.queue[i]).pass)
            ==> k.queue[i] in k.order)
  }

  /**
   * The traversal loop common to all four variants (see the module comment
   * for `mode`). `w`, `h` bound the points the test can pass; `inv` only
   * serves the closure guarantee for steady tests.
   */
  method Traverse<S(!new)>(start: Pos, test: (S, Pos) -> Verdict<S>, s0: S, offsets: seq<Pos>, mode: Mode,
                           ghost w: int, ghost h: int, ghost inv: S -> bool)
    returns (order: seq<Pos>, trace: seq<Call<S>>, s: S)
    requires forall st, p :: test(st, p).pass ==> InBounds(w, h, p)
    ensures Distinct(order)
    ensures Threads(test, s0, trace) && s == After(s0, trace)
    ensures Connected(order, start, offsets)
    ensures mode != StartUntested ==>
      |trace| > 0 && trace[0].pos == start && (|order| > 0 <==> trace[0].verdict.pass)
    ensures mode == StartUntested ==> |order| > 0
    ensures order == [] ==> |trace| <= 1
    ensures forall k :: 0 <= k < |order| && (mode != StartUntested || k > 0) ==>
      PassedIn(trace, order[k]) && InBounds(w, h, order[k])
    ensures forall c :: 0 <= c < |trace| ==> trace[c].pos == start || NearOrder(order, trace[c].pos, offsets)
    ensures ExitHalts(mode, order, trace, offsets)
    ensures Steady(test, inv, s0) ==> Closed(test, s0, order, offsets)
    ensures Outcome(Setup(start, test, s0, offsets, mode), order, trace, s)
  {
    var u := Setup(start, test, s0, offsets, mode);
    if mode == TestStartFirst {
      var v := test(s0, start);
      if !v.pass {
        order, trace, s := [], [Call(start, v)], v.state;
        RunOutcome(u, 0, Initial(u));
        return;
      }
    }
    var k := Walk([], if mode == TestStartFirst then [Call(start, test(s0, start))] else [], 
                  if mode == TestStartFirst then test(s0, start).state else s0, [start], 0, false);
    ghost var region := Region(w, h, start);
    assert k == Initial(u);
    ghost var n;
    k, n := OuterLoop(u, w, h, inv, region, k);
    order, trace, s := k.order, k.trace, k.s;
    RunOutcome(u, n, k);
    TraverseEnds(u, w, h, inv, region, k);
  }

  /** The outer `while` loop, from the initial variables to the turn where it halts. */
  method OuterLoop<S(!new)>(u: Setup<S>, ghost w: int, ghost h: int, ghost inv: S -> bool, ghost region: set<Pos>, k0: Walk<S>)
    returns (k: Walk<S>, ghost n: nat)
    requires forall st, p :: u.test(st, p).pass ==> InBounds(w, h, p)
    requires region == Region(w, h, u.start) && k0 == Initial(u)
    requires Shape(u, region, k0) && Tracing(u, k0) && Exits(u, k0) && Closure(u, inv, k0)
    ensures Shape(u, region, k) && Tracing(u, k) && Exits(u, k) && Closure(u, inv, k)
    ensures !(k.qi < |k.queue| && !k.broke) && k == Run(u, Initial(u), n)
  {
    k, n := k0, 0;
    while k.qi < |k.queue| && !k.broke
      invariant Shape(u, region, k) && Tracing(u, k) && Exits(u, k) && Closure(u, inv, k)
      invariant k == Run(u, Initial(u), n)
      decreases |region - Elements(k.order)|, |k.queue| - k.qi
    {
      StepShape(u, w, h, region, k);
      StepTracing(u, region, k);
      StepExits(u, k);
      StepClosure(u, inv, k);
      RunAdvance(u, n, k);
      k, n := Step(u, k), n + 1;
    }
  }
  lemma DequeueStep<S>(test: (S, Pos) -> Verdict<S>, s0: S, trace: seq<Call<S>>, current: Pos, v: Verdict<S>)
    requires Threads(test, s0, trace) && v == test(After(s0, trace), current)
    ensures Threads(test, s0, trace + [Call(current, v)])
    ensures After(s0, trace + [Call(current, v)]) == v.state
  {
    assert Threads(test, After(s0, trace), [Call(current, v)]);
    ThreadsAppend(test, s0, trace, [Call(current, v)]);
  }

  lemma PassedShifts<S>(before: seq<Call<S>>, trace: seq<Call<S>>, q: Pos)
    requires PassedIn(trace, q)
    ensures PassedIn(before + trace, q)
  {
    var i :| 0 <= i < |trace| && trace[i].pos == q && trace[i].verdict.pass;
    assert (before + trace)[|before| + i] == trace[i];
  }

  /** The trace after the dequeue test: unchanged, or one call on `current` appended. */
  ghost predicate DequeueTrace<S>(u: Setup<S>, k: Walk<S>, current: Pos, t: seq<Call<S>>)
  {
    if u.mode == TestOnDequeue then t == k.trace + [Call(current, u.test(k.s, current))]
    else t == k.trace
  }

  lemma DequeuedFacts<S>(u: Setup<S>, k: Walk<S>, current: Pos)
    requires Threads(u.test, u.s0, k.trace) && k.s == After(u.s0, k.trace) && !k.broke
    ensures var d := Dequeued(u, k, current);
      && DequeueTrace(u, k, current, d.0)
      && Threads(u.test, u.s0, d.0) && d.1 == After(u.s0, d.0)
      && (u.mode == TestOnDequeue ==> d.3 == d.0[|k.trace|].verdict.pass && d.2 == d.0[|k.trace|].verdict.exit)
      && (u.mode != TestOnDequeue ==> d.3 && !d.2)
  {
    if u.mode == TestOnDequeue {
      DequeueStep(u.test, u.s0, k.trace, current, u.test(k.s, current));
    }
  }

  /** Every call of the trace `t` that passed is in the grid. */
  lemma PassedInBounds<S>(u: Setup<S>, w: int, h: int, s: S, t: seq<Call<S>>, q: Pos)
    requires forall st, p :: u.test(st, p).pass ==> InBounds(w, h, p)
    requires Threads(u.test, s, t) && PassedIn(t, q)
    ensures InBounds(w, h, q)
  {
    var c :| 0 <= c < |t| && t[c].pos == q && t[c].verdict.pass;
    assert t[c].verdict == u.test(Before(s, t, c), q);
  }

  lemma ConnectedAppend(order: seq<Pos>, current: Pos, start: Pos, offsets: seq<Pos>)
    requires Connected(order, start, offsets)
    requires order == [] ==> current == start
    requires order != [] ==> NearOrder(order, current, offsets)
    ensures Connected(order + [current], start, offsets)
  {
    var o := order + [current];
    forall i | 0 < i < |o| ensures exists j :: 0 <= j < i && Adjacent(o[j], o[i], offsets) {
      if i < |order| {
        var j :| 0 <= j < i && Adjacent(order[j], order[i], offsets);
        assert o[j] == order[j] && o[i] == order[i];
      } else {
        var j :| 0 <= j < |order| && Adjacent(order[j], current, offsets);
        assert o[j] == order[j];
      }
    }
  }

  lemma ShapeVisit<S>(u: Setup<S>, w: int, h: int, region: set<Pos>, k: Walk<S>, current: Pos,
                      pushed: seq<Pos>, k': Walk<S>)
    requires region == Region(w, h, u.start)
    requires Shape(u, region, k) && k.qi < |k.queue| && current == k.queue[k.qi] && current !in k.order
    requires forall i :: 0 <= i < |pushed| ==> Adjacent(current, pushed[i], u.offsets) && InBounds(w, h, pushed[i])
    requires k'.order == k.order + [current] && k'.queue == k.queue + pushed && k'.qi == k.qi + 1
    ensures Shape(u, region, k')
  {
    var order' := k'.order;
    assert current == order'[|order'| - 1];
    forall i | 0 <= i < |k'.queue| ensures k'.queue[i] in region {
      if i >= |k.queue| {
        assert k'.queue[i] == pushed[i - |k.queue|];
      }
    }
    forall i | 0 < i < |k'.queue| ensures NearOrder(order', k'.queue[i], u.offsets) {
      if i < |k.queue| {
        NearOrderGrows(k.order, [current], k.queue[i], u.offsets);
      } else {
        assert k'.queue[i] == pushed[i - |k.queue|];
        assert Adjacent(order'[|order'| - 1], k'.queue[i], u.offsets);
      }
    }
    ConnectedAppend(k.order, current, u.start, u.offsets);
  }

  lemma StepShape<S>(u: Setup<S>, w: int, h: int, region: set<Pos>, k: Walk<S>)
    requires forall st, p :: u.test(st, p).pass ==> InBounds(w, h, p)
    requires region == Region(w, h, u.start)
    requires Shape(u, region, k) && Tracing(u, k) && k.qi < |k.queue| && !k.broke
    ensures Shape(u, region, Step(u, k))
    ensures |region - Elements(Step(u, k).order)| < |region - Elements(k.order)| ||
            (Step(u, k).order == k.order && Step(u, k).queue == k.queue && Step(u, k).qi == k.qi + 1)
  {
    var current := k.queue[k.qi];
    var d := Dequeued(u, k, current);
    DequeuedFacts(u, k, current);
    if d.3 && current !in k.order {
      var r := Expand(u.test, current, u.offsets, 0, d.1, d.2);
      forall i | 0 <= i < |r.1| ensures Adjacent(current, r.1[i], u.offsets) && InBounds(w, h, r.1[i]) {
        PassedInBounds(u, w, h, d.1, r.0, r.1[i]);
      }
      RegionShrinks(region, k.order, current);
      ShapeVisit(u, w, h, region, k, current, r.1, Step(u, k));
    } else {
      assert u.mode != TestOnDequeue ==> current in k.order;
    }
  }

  lemma TracingVisit<S>(u: Setup<S>, region: set<Pos>, k: Walk<S>, current: Pos, d0: seq<Call<S>>, s1: S,
                        calls: seq<Call<S>>, pushed: seq<Pos>, k': Walk<S>)
    requires Shape(u, region, k) && Tracing(u, k) && k.qi < |k.queue| && current == k.queue[k.qi]
    requires current !in k.order
    requires DequeueTrace(u, k, current, d0) && Threads(u.test, u.s0, d0) && s1 == After(u.s0, d0)
    requires u.mode == TestOnDequeue ==> d0[|k.trace|].verdict.pass
    requires Threads(u.test, s1, calls)
    requires forall i :: 0 <= i < |calls| ==> Adjacent(current, calls[i].pos, u.offsets)
    requires forall i :: 0 <= i < |pushed| ==> PassedIn(calls, pushed[i])
    requires k'.order == k.order + [current] && k'.trace == d0 + calls && k'.s == After(s1, calls)
    requires k'.queue == k.queue + pushed && k'.qi == k.qi + 1
    ensures Tracing(u, k')
  {
    ThreadsAppend(u.test, u.s0, d0, calls);
    TracingVisitPassed(u, region, k, current, d0, calls, pushed, k');
    TracingVisitPositions(u, region, k, current, d0, calls, k');
    if u.mode == TestOnDequeue && k.qi == 0 {
      assert k'.trace[0] == d0[0];
    }
  }

  lemma TracingVisitPassed<S>(u: Setup<S>, region: set<Pos>, k: Walk<S>, current: Pos, d0: seq<Call<S>>,
                              calls: seq<Call<S>>, pushed: seq<Pos>, k': Walk<S>)
    requires Shape(u, region, k) && Tracing(u, k) && k.qi < |k.queue| && current == k.queue[k.qi]
    requires DequeueTrace(u, k, current, d0)
    requires u.mode == TestOnDequeue ==> d0[|k.trace|].verdict.pass
    requires forall i :: 0 <= i < |pushed| ==> PassedIn(calls, pushed[i])
    requires k'.order == k.order + [current] && k'.trace == d0 + calls && k'.queue == k.queue + pushed
    ensures forall i :: 0 < i < |k'.queue| ==> PassedIn(k'.trace, k'.queue[i])
    ensures forall j :: 0 <= j < |k'.order| && (u.mode != StartUntested || j > 0) ==> PassedIn(k'.trace, k'.order[j])
  {
    QueuePassed(k.queue, k.trace, d0, calls, pushed);
    assert k.qi > 0 ==> PassedIn(k.trace, current);
    OrderPassed(u.mode, u.start, k.order, k.trace, k.qi, current, d0, calls);
  }

  lemma QueuePassed<S>(queue: seq<Pos>, trace: seq<Call<S>>, d0: seq<Call<S>>, calls: seq<Call<S>>, pushed: seq<Pos>)
    requires forall i :: 0 < i < |queue| ==> PassedIn(trace, queue[i])
    requires |trace| <= |d0| && d0[..|trace|] == trace
    requires forall i :: 0 <= i < |pushed| ==> PassedIn(calls, pushed[i])
    ensures forall i :: 0 < i < |queue + pushed| ==> PassedIn(d0 + calls, (queue + pushed)[i])
  {
    var q' := queue + pushed;
    forall i | 0 < i < |q'| ensures PassedIn(d0 + calls, q'[i]) {
      if i >= |queue| {
        assert q'[i] == pushed[i - |queue|];
        PassedShifts(d0, calls, q'[i]);
      } else {
        assert q'[i] == queue[i];
        assert trace + (d0[|trace|..] + calls) == d0 + calls;
        PassedGrows(trace, d0[|trace|..] + calls, q'[i]);
      }
    }
  }

  lemma OrderPassed<S>(mode: Mode, start: Pos, order: seq<Pos>, trace: seq<Call<S>>, qi: nat, current: Pos,
                       d0: seq<Call<S>>, calls: seq<Call<S>>)
    requires forall j :: 0 <= j < |order| && (mode != StartUntested || j > 0) ==> PassedIn(trace, order[j])
    requires qi > 0 ==> PassedIn(trace, current)
    requires qi == 0 ==> order == [] && current == start
    requires mode == TestStartFirst ==> |trace| > 0 && trace[0].pos == start && trace[0].verdict.pass
    requires |trace| <= |d0| && d0[..|trace|] == trace
    requires mode == TestOnDequeue ==> |d0| == |trace| + 1 && d0[|trace|].pos == current && d0[|trace|].verdict.pass
    ensures forall j :: 0 <= j < |order + [current]| && (mode != StartUntested || j > 0) ==>
      PassedIn(d0 + calls, (order + [current])[j])
  {
    var more := d0[|trace|..] + calls;
    assert d0 + calls == trace + more;
    var o := order + [current];
    forall j | 0 <= j < |o| && (mode != StartUntested || j > 0) ensures PassedIn(d0 + calls, o[j]) {
      if j < |order| {
        assert o[j] == order[j];
        PassedGrows(trace, more, order[j]);
      } else if mode == TestOnDequeue {
        assert (d0 + calls)[|trace|] == d0[|trace|];
      } else if qi == 0 {
        assert (d0 + calls)[0] == trace[0];
      } else {
        PassedGrows(trace, more, current);
      }
    }
  }

  lemma TracingVisitPositions<S>(u: Setup<S>, region: set<Pos>, k: Walk<S>, current: Pos, d0: seq<Call<S>>,
                                 calls: seq<Call<S>>, k': Walk<S>)
    requires Shape(u, region, k) && Tracing(u, k) && k.qi < |k.queue| && current == k.queue[k.qi]
    requires DequeueTrace(u, k, current, d0)
    requires forall i :: 0 <= i < |calls| ==> Adjacent(current, calls[i].pos, u.offsets)
    requires k'.order == k.order + [current] && k'.trace == d0 + calls
    ensures forall c :: 0 <= c < |k'.trace| ==>
      k'.trace[c].pos == u.start || NearOrder(k'.order, k'.trace[c].pos, u.offsets)
  {
    DequeueShape(u, k, current, d0);
    if current != u.start {
      assert k.qi > 0;
    }
    forall c | 0 <= c < |k'.trace| ensures k'.trace[c].pos == u.start || NearOrder(k'.order, k'.trace[c].pos, u.offsets) {
      TracedNear(u.start, u.offsets, k.order, k.trace, current, d0, calls, c);
    }
  }

  /** The dequeue adds, after the trace so far, only calls at the dequeued position. */
  lemma DequeueShape<S>(u: Setup<S>, k: Walk<S>, current: Pos, d0: seq<Call<S>>)
    requires DequeueTrace(u, k, current, d0)
    ensures |k.trace| <= |d0| && d0[..|k.trace|] == k.trace
    ensures forall i :: |k.trace| <= i < |d0| ==> d0[i].pos == current
  {
  }

  /** One call of the extended trace is at the start or next to the extended visiting order. */
  lemma TracedNear<S>(start: Pos, offsets: seq<Pos>, order: seq<Pos>, trace: seq<Call<S>>, current: Pos,
                      d0: seq<Call<S>>, calls: seq<Call<S>>, c: int)
    requires forall c :: 0 <= c < |trace| ==> trace[c].pos == start || NearOrder(order, trace[c].pos, offsets)
    requires current == start || NearOrder(order, current, offsets)
    requires |trace| <= |d0| && d0[..|trace|] == trace
    requires forall i :: |trace| <= i < |d0| ==> d0[i].pos == current
    requires forall i :: 0 <= i < |calls| ==> Adjacent(current, calls[i].pos, offsets)
    requires 0 <= c < |d0 + calls|
    ensures (d0 + calls)[c].pos == start || NearOrder(order + [current], (d0 + calls)[c].pos, offsets)
  {
    var q := (d0 + calls)[c].pos;
    if c < |trace| {
      assert (d0 + calls)[c] == trace[c];
      if q != start {
        NearOrderGrows(order, [current], q, offsets);
      }
    } else if c < |d0| {
      if q != start {
        NearOrderGrows(order, [current], q, offsets);
      }
    } else {
      assert (d0 + calls)[c] == calls[c - |d0|];
      assert (order + [current])[|order|] == current;
    }
  }

  /** What passed in a trace still passed in any trace that extends it. */
  lemma PassedPrefix<S>(trace: seq<Call<S>>, longer: seq<Call<S>>)
    requires |trace| <= |longer| && longer[..|trace|] == trace
    ensures forall q :: PassedIn(trace, q) ==> PassedIn(longer, q)
  {
    forall q | PassedIn(trace, q) ensures PassedIn(longer, q) {
      PassedGrows(trace, longer[|trace|..], q);
      assert trace + longer[|trace|..] == longer;
    }
  }

  /** A call of a trace extended by calls at `current` is at the start or next to the visiting order. */
  lemma SkipNear<S>(start: Pos, offsets: seq<Pos>, order: seq<Pos>, trace: seq<Call<S>>, current: Pos,
                    d0: seq<Call<S>>, c: int)
    requires forall c :: 0 <= c < |trace| ==> trace[c].pos == start || NearOrder(order, trace[c].pos, offsets)
    requires |trace| < |d0| ==> current == start || NearOrder(order, current, offsets)
    requires |trace| <= |d0| && d0[..|trace|] == trace
    requires forall i :: |trace| <= i < |d0| ==> d0[i].pos == current
    requires 0 <= c < |d0|
    ensures d0[c].pos == start || NearOrder(order, d0[c].pos, offsets)
  {
    if c < |trace| {
      assert d0[c] == trace[c];
    }
  }

  lemma TracingSkip<S>(u: Setup<S>, region: set<Pos>, k: Walk<S>, current: Pos, d0: seq<Call<S>>, k': Walk<S>)
    requires Shape(u, region, k) && Tracing(u, k) && k.qi < |k.queue| && current == k.queue[k.qi]
    requires u.mode != TestOnDequeue ==> current in k.order
    requires DequeueTrace(u, k, current, d0) && Threads(u.test, u.s0, d0)
    requires u.mode == TestOnDequeue && current !in k.order ==> !d0[|k.trace|].verdict.pass
    requires k'.order == k.order && k'.trace == d0 && k'.s == After(u.s0, d0)
    requires k'.queue == k.queue && k'.qi == k.qi + 1
    ensures Tracing(u, k')
  {
    DequeueShape(u, k, current, d0);
    PassedPrefix(k.trace, d0);
    if |d0| > |k.trace| {
      assert d0[|k.trace|].pos == current;
      assert current == u.start || NearOrder(k.order, current, u.offsets);
    }
    forall c | 0 <= c < |d0| ensures d0[c].pos == u.start || NearOrder(k.order, d0[c].pos, u.offsets) {
      SkipNear(u.start, u.offsets, k.order, k.trace, current, d0, c);
    }
    if u.mode == TestOnDequeue && k.qi == 0 {
      assert k'.trace[0] == d0[0];
    }
  }

  lemma StepTracing<S>(u: Setup<S>, region: set<Pos>, k: Walk<S>)
    requires Shape(u, region, k) && Tracing(u, k) && k.qi < |k.queue| && !k.broke
    ensures Tracing(u, Step(u, k))
  {
    var current := k.queue[k.qi];
    var d := Dequeued(u, k, current);
    DequeuedFacts(u, k, current);
    if d.3 && current !in k.order {
      var r := Expand(u.test, current, u.offsets, 0, d.1, d.2);
      TracingVisit(u, region, k, current, d.0, d.1, r.0, r.1, Step(u, k));
    } else {
      assert u.mode != TestOnDequeue ==> current in k.order;
      TracingSkip(u, region, k, current, d.0, Step(u, k));
    }
  }

  lemma ExitsVisit<S>(u: Setup<S>, k: Walk<S>, current: Pos, d0: seq<Call<S>>, broke1: bool,
                      calls: seq<Call<S>>, broke2: bool, k': Walk<S>)
    requires Exits(u, k) && !k.broke
    requires DequeueTrace(u, k, current, d0)
    requires u.mode == TestOnDequeue ==> broke1 == d0[|k.trace|].verdict.exit
    requires u.mode != TestOnDequeue ==> !broke1
    requires forall i :: 0 <= i < |calls| ==> Adjacent(current, calls[i].pos, u.offsets)
    requires broke2 <==> broke1 || exists i :: 0 <= i < |calls| && calls[i].verdict.exit
    requires broke1 ==> forall j :: 0 <= j < |calls| && calls[j].verdict.pass ==> j == |calls| - 1
    requires forall i, j :: 0 <= i <= j < |calls| && calls[i].verdict.exit && calls[j].verdict.pass ==> j == |calls| - 1
    requires k'.order == k.order + [current] && k'.trace == d0 + calls && k'.broke == broke2
    ensures Exits(u, k')
  {
    var order' := k'.order;
    assert current == order'[|order'| - 1];
    var t := k'.trace;
    assert forall c :: 0 <= c < |k.trace| ==> !IsExit(u.mode, k.trace, c);
    forall c | 0 <= c < |t| && IsExit(u.mode, t, c) ensures c >= |k.trace| && (c < |d0| ==> broke1) &&
      (c >= |d0| ==> calls[c - |d0|].verdict.exit)
    {
      if c < |k.trace| {
        assert t[c] == k.trace[c];
        assert IsExit(u.mode, k.trace, c);
      } else if c >= |d0| {
        assert t[c] == calls[c - |d0|];
      } else {
        assert t[c] == d0[c];
      }
    }
    forall c, c' | 0 <= c < c' < |t| && IsExit(u.mode, t, c)
      ensures |order'| > 0 && Adjacent(order'[|order'| - 1], t[c'].pos, u.offsets)
      ensures t[c'].verdict.pass ==> c' == |t| - 1
    {
      assert c' >= |d0|;
      assert t[c'] == calls[c' - |d0|];
    }
    assert ExitHalts(u.mode, order', t, u.offsets) by {
      if u.mode != TestOnDequeue {
        forall c | 0 <= c < |t| && IsExit(u.mode, t, c) && t[c].verdict.pass ensures c == |t| - 1 {
          assert t[c] == calls[c - |d0|];
        }
      }
    }
  }

  lemma ExitsSkip<S>(u: Setup<S>, k: Walk<S>, current: Pos, d0: seq<Call<S>>, broke1: bool, k': Walk<S>)
    requires Exits(u, k) && !k.broke
    requires DequeueTrace(u, k, current, d0)
    requires u.mode == TestOnDequeue ==> broke1 == d0[|k.trace|].verdict.exit
    requires u.mode != TestOnDequeue ==> !broke1
    requires k'.order == k.order && k'.trace == d0 && k'.broke == broke1
    ensures Exits(u, k')
  {
    assert forall c :: 0 <= c < |k.trace| ==> !IsExit(u.mode, k.trace, c);
    forall c | 0 <= c < |d0| && IsExit(u.mode, d0, c) ensures c == |d0| - 1 && broke1 {
      if c < |k.trace| {
        assert d0[c] == k.trace[c];
        assert IsExit(u.mode, k.trace, c);
      }
    }
  }

  lemma StepExits<S>(u: Setup<S>, k: Walk<S>)
    requires Tracing(u, k) && Exits(u, k) && k.qi < |k.queue| && !k.broke
    ensures Exits(u, Step(u, k))
  {
    var current := k.queue[k.qi];
    var d := Dequeued(u, k, current);
    DequeuedFacts(u, k, current);
    if d.3 && current !in k.order {
      var r := Expand(u.test, current, u.offsets, 0, d.1, d.2);
      ExitsVisit(u, k, current, d.0, d.2, r.0, r.2, Step(u, k));
    } else {
      ExitsSkip(u, k, current, d.0, d.2, Step(u, k));
    }
  }

  lemma ClosureVisit<S(!new)>(u: Setup<S>, inv: S -> bool, k: Walk<S>, current: Pos, calls: seq<Call<S>>,
                              pushed: seq<Pos>, k': Walk<S>)
    requires Steady(u.test, inv, u.s0) && Closure(u, inv, k) && k.qi < |k.queue| && current == k.queue[k.qi]
    requires forall i :: 0 <= i < |calls| ==> calls[i].verdict.pass == u.test(u.s0, calls[i].pos).pass
    requires forall d :: 0 <= d < |u.offsets| ==> Covered(calls, pushed, Add(current, u.offsets[d]))
    requires k'.order == k.order + [current] && k'.queue == k.queue + pushed && k'.qi == k.qi + 1
    requires !k'.broke && inv(k'.s)
    ensures Closure(u, inv, k')
  {
    var order' := k'.order;
    forall j, d | 0 <= j < |order'| && 0 <= d < |u.offsets| && u.test(u.s0, Add(order'[j], u.offsets[d])).pass
      ensures Add(order'[j], u.offsets[d]) in k'.queue
    {
      if j == |k.order| {
        var q := Add(current, u.offsets[d]);
        var i :| 0 <= i < |calls| && calls[i].pos == q && (calls[i].verdict.pass ==> q in pushed);
      } else {
        assert order'[j] == k.order[j];
      }
    }
    forall i | 0 <= i < k'.qi && (u.mode != TestOnDequeue || u.test(u.s0, k'.queue[i]).pass)
      ensures k'.queue[i] in order'
    {
      assert k'.queue[i] == k.queue[i];
    }
  }

  lemma ClosureSkip<S(!new)>(u: Setup<S>, inv: S -> bool, k: Walk<S>, current: Pos, k': Walk<S>)
    requires Steady(u.test, inv, u.s0) && Closure(u, inv, k) && k.qi < |k.queue| && current == k.queue[k.qi]
    requires u.mode != TestOnDequeue || u.test(u.s0, current).pass ==> current in k.order
    requires k'.order == k.order && k'.queue == k.queue && k'.qi == k.qi + 1
    requires !k'.broke && inv(k'.s)
    ensures Closure(u, inv, k')
  {
  }

  lemma StepClosure<S(!new)>(u: Setup<S>, inv: S -> bool, k: Walk<S>)
    requires Tracing(u, k) && Closure(u, inv, k) && k.qi < |k.queue| && !k.broke
    ensures Closure(u, inv, Step(u, k))
  {
    if Steady(u.test, inv, u.s0) {
      var current := k.queue[k.qi];
      var d := Dequeued(u, k, current);
      DequeuedFacts(u, k, current);
      assert inv(d.1) && !d.2 by {
        if u.mode == TestOnDequeue {
          assert d.0[|k.trace|].verdict == u.test(k.s, current);
        }
      }
      assert u.mode == TestOnDequeue ==> d.3 == u.test(u.s0, current).pass;
      if d.3 && current !in k.order {
        var r := Expand(u.test, current, u.offsets, 0, d.1, d.2);
        SteadyTrace(u.test, inv, u.s0, d.1, r.0);
        ClosureVisit(u, inv, k, current, r.0, r.1, Step(u, k));
      } else {
        ClosureSkip(u, inv, k, current, Step(u, k));
      }
    }
  }

  lemma TraverseEnds<S(!new)>(u: Setup<S>, w: int, h: int, inv: S -> bool, region: set<Pos>, k: Walk<S>)
    requires forall st, p :: u.test(st, p).pass ==> InBounds(w, h, p)
    requires Shape(u, region, k) && Tracing(u, k) && Exits(u, k) && Closure(u, inv, k)
    requires !(k.qi < |k.queue| && !k.broke)
    ensures u.mode != StartUntested ==>
      |k.trace| > 0 && k.trace[0].pos == u.start && (|k.order| > 0 <==> k.trace[0].verdict.pass)
    ensures u.mode == StartUntested ==> |k.order| > 0
    ensures forall j :: 0 <= j < |k.order| && (u.mode != StartUntested || j > 0) ==> InBounds(w, h, k.order[j])
    ensures Steady(u.test, inv, u.s0) ==> Closed(u.test, u.s0, k.order, u.offsets)
  {
    assert k.qi > 0;
    forall j | 0 <= j < |k.order| && (u.mode != StartUntested || j > 0) ensures InBounds(w, h, k.order[j]) {
      assert PassedIn(k.trace, k.order[j]);
    }
    if Steady(u.test, inv, u.s0) {
      forall j, d | 0 <= j < |k.order| && 0 <= d < |u.offsets| && u.test(u.s0, Add(k.order[j], u.offsets[d])).pass
        ensures Add(k.order[j], u.offsets[d]) in k.order
      {
        var q := Add(k.order[j], u.offsets[d]);
        var i :| 0 <= i < |k.queue| && k.queue[i] == q;
      }
    }
  }

  /** Consecutive points of `path` are neighbours, and each after the first passes the test in `s0`. */
  ghost predicate PassingPath<S>(test: (S, Pos) -> Verdict<S>, s0: S, offsets: seq<Pos>, path: seq<Pos>)
  {
    forall i :: 0 < i < |path| ==> Adjacent(path[i - 1], path[i], offsets) && test(s0, path[i]).pass
  }

  /**
   * For a closed result, every point reachable from a recorded point by a
   * passing path is recorded: the traversal finds the whole component.
   */
  lemma {:induction false} PathRecorded<S>(test: (S, Pos) -> Verdict<S>, s0: S, order: seq<Pos>,
                                           offsets: seq<Pos>, path: seq<Pos>)
    requires Closed(test, s0, order, offsets)
    requires |path| > 0 && path[0] in order && PassingPath(test, s0, offsets, path)
    ensures path[|path| - 1] in order
    decreases |path|
  {
    if |path| > 1 {
      var prefix := path[..|path| - 1];
      assert forall i :: 0 <= i < |prefix| ==> prefix[i] == path[i];
      PathRecorded(test, s0, order, offsets, prefix);
      var last := path[|path| - 1];
      var d :| 0 <= d < |offsets| && last == Add(path[|path| - 2], offsets[d]);
      var k :| 0 <= k < |order| && order[k] == path[|path| - 2];
      assert test(s0, Add(order[k], offsets[d])).pass;
    }
  }

  /** Under a steady test, a point that passed at some call of the trace passes in `s0`. */
  lemma SteadyPassed<S(!new)>(test: (S, Pos) -> Verdict<S>, inv: S -> bool, s0: S, trace: seq<Call<S>>, q: Pos)
    requires Steady(test, inv, s0) && Threads(test, s0, trace) && PassedIn(trace, q)
    ensures test(s0, q).pass
  {
    SteadyTrace(test, inv, s0, s0, trace);
  }

  // ---- Traversals that never exit ------------------------------------------------------

  /** No call of the trace invoked `exitLoop`. */
  predicate Calm<S>(trace: seq<Call<S>>)
  {
    forall c :: 0 <= c < |trace| ==> !trace[c].verdict.exit
  }

  /** `q` was asked about at some call of the trace. */
  predicate Asked<S>(trace: seq<Call<S>>, q: Pos)
  {
    exists c :: 0 <= c < |trace| && trace[c].pos == q
  }

  /** `q` was asked about and failed at some call of the trace. */
  predicate FailedIn<S>(trace: seq<Call<S>>, q: Pos)
  {
    exists c :: 0 <= c < |trace| && trace[c].pos == q && !trace[c].verdict.pass
  }

  /**
   * What the loop keeps while no call has exited, whatever the test: every
   * neighbour of a recorded point has been asked about, the point of every
   * passing call is queued, and every dequeued point is recorded or, when
   * testing on dequeue, failed a test.
   */
  ghost predicate Sweep<S>(u: Setup<S>, k: Walk<S>)
  {
    && k.qi <= |k.queue|
    && (Calm(k.trace) ==>
          && !k.broke
          && (forall j, d :: 0 <= j < |k.order| && 0 <= d < |u.offsets| ==> Asked(k.trace, Add(k.order[j], u.offsets[d])))
          && (forall c :: 0 <= c < |k.trace| && k.trace[c].verdict.pass ==> k.trace[c].pos in k.queue)
          && (forall i :: 0 <= i < k.qi ==>
                k.queue[i] in k.order || (u.mode == TestOnDequeue && FailedIn(k.trace, k.queue[i]))))
  }

  /** Whatever the neighbour loop enqueues and does not break on, every passing call of it is enqueued. */
  lemma {:induction false} ExpandPushes<S>(test: (S, Pos) -> Verdict<S>, current: Pos, offsets: seq<Pos>, k: nat, s: S, broke: bool)
    requires k <= |offsets|
    ensures var r := Expand(test, current, offsets, k, s, broke);
      !r.2 ==> forall i :: 0 <= i < |r.0| && r.0[i].verdict.pass ==> r.0[i].pos in r.1
    decreases |offsets| - k
  {
    if k < |offsets| {
      var np := Add(current, offsets[k]);
      var v := test(s, np);
      var r := Expand(test, current, offsets, k, s, broke);
      var rest := Expand(test, current, offsets, k + 1, v.state, broke || v.exit);
      ExpandPushes(test, current, offsets, k + 1, v.state, broke || v.exit);
      if !(v.pass && (broke || v.exit)) {
        assert r == ([Call(np, v)] + rest.0, (if v.pass then [np] else []) + rest.1, rest.2);
        forall i | 0 <= i < |r.0| && r.0[i].verdict.pass && !r.2 ensures r.0[i].pos in r.1 {
          if i > 0 {
            assert r.0[i] == rest.0[i - 1];
          }
        }
      }
    }
  }

  lemma CalmSplit<S>(t: seq<Call<S>>, more: seq<Call<S>>)
    requires Calm(t + more)
    ensures Calm(t) && Calm(more)
  {
    assert forall c :: 0 <= c < |t| ==> (t + more)[c] == t[c];
    assert forall c :: 0 <= c < |more| ==> (t + more)[|t| + c] == more[c];
  }

  /** Asking and failing persist as the trace grows. */
  lemma SweepGrows<S>(t: seq<Call<S>>, more: seq<Call<S>>)
    ensures forall q :: Asked(t, q) ==> Asked(t + more, q)
    ensures forall q :: FailedIn(t, q) ==> FailedIn(t + more, q)
  {
    assert forall c :: 0 <= c < |t| ==> (t + more)[c] == t[c];
  }

  lemma SweepInitial<S>(u: Setup<S>)
    ensures Sweep(u, Initial(u))
  {
  }

  /** A turn that records `current` and expands it. */
  lemma SweepVisit<S>(u: Setup<S>, k: Walk<S>, current: Pos, dt: seq<Call<S>>, r: (seq<Call<S>>, seq<Pos>, bool), k': Walk<S>)
    requires Sweep(u, k) && k.qi < |k.queue| && current == k.queue[k.qi]
    requires dt == [] || (|dt| == 1 && dt[0].pos == current)
    requires !r.2 ==> forall i :: 0 <= i < |r.0| && r.0[i].verdict.pass ==> r.0[i].pos in r.1
    requires !r.2 ==> forall d :: 0 <= d < |u.offsets| ==> Covered(r.0, r.1, Add(current, u.offsets[d]))
    requires Calm(k.trace + dt + r.0) ==> !r.2
    requires k' == Walk(k.order + [current], k.trace + dt + r.0, k'.s, k.queue + r.1, k.qi + 1, r.2)
    ensures Sweep(u, k')
  {
    if Calm(k'.trace) {
      CalmSplit(k.trace + dt, r.0);
      CalmSplit(k.trace, dt);
      SweepGrows(k.trace, dt + r.0);
      SweepGrows(k.trace + dt, r.0);
      assert k.trace + dt + r.0 == k.trace + (dt + r.0);
      forall j, d | 0 <= j < |k'.order| && 0 <= d < |u.offsets| ensures Asked(k'.trace, Add(k'.order[j], u.offsets[d])) {
        if j == |k.order| {
          var i :| 0 <= i < |r.0| && r.0[i].pos == Add(current, u.offsets[d]) && (r.0[i].verdict.pass ==> r.0[i].pos in r.1);
          assert k'.trace[|k.trace + dt| + i] == r.0[i];
        } else {
          assert k'.order[j] == k.order[j];
        }
      }
      forall c | 0 <= c < |k'.trace| && k'.trace[c].verdict.pass ensures k'.trace[c].pos in k'.queue {
        if c < |k.trace| {
          assert k'.trace[c] == k.trace[c];
        } else if c < |k.trace + dt| {
          assert k'.trace[c] == dt[0];
        } else {
          assert k'.trace[c] == r.0[c - |k.trace + dt|];
        }
      }
      forall i | 0 <= i < k'.qi
        ensures k'.queue[i] in k'.order || (u.mode == TestOnDequeue && FailedIn(k'.trace, k'.queue[i]))
      {
        assert k'.queue[i] == k.queue[i];
      }
    }
  }

  /** A turn that dequeues `current` without recording it. */
  lemma SweepSkip<S>(u: Setup<S>, k: Walk<S>, current: Pos, dt: seq<Call<S>>, k': Walk<S>)
    requires Sweep(u, k) && k.qi < |k.queue| && current == k.queue[k.qi]
    requires dt == [] || (|dt| == 1 && dt[0].pos == current)
    requires current in k.order || (u.mode == TestOnDequeue && |dt| == 1 && !dt[0].verdict.pass)
    requires Calm(k.trace + dt) ==> !k'.broke
    requires k' == Walk(k.order, k.trace + dt, k'.s, k.queue, k.qi + 1, k'.broke)
    ensures Sweep(u, k')
  {
    if Calm(k'.trace) {
      CalmSplit(k.trace, dt);
      SweepGrows(k.trace, dt);
      forall c | 0 <= c < |k'.trace| && k'.trace[c].verdict.pass ensures k'.trace[c].pos in k'.queue {
        if c < |k.trace| {
          assert k'.trace[c] == k.trace[c];
        }
      }
      if current !in k.order {
        assert k'.trace[|k.trace|] == dt[0];
      }
    }
  }

  /** The dequeue test, if any, as the calls `dt` it appends to the trace. */
  lemma DequeueSweep<S>(u: Setup<S>, k: Walk<S>, current: Pos)
    ensures var d := Dequeued(u, k, current);
      var dt := d.0[|k.trace|..];
      && d.0 == k.trace + dt && (dt == [] || (|dt| == 1 && dt[0].pos == current))
      && (u.mode != TestOnDequeue ==> d.3 && d.2 == k.broke)
      && (u.mode == TestOnDequeue ==> |dt| == 1 && d.3 == dt[0].verdict.pass && d.2 == (k.broke || dt[0].verdict.exit))
  {
  }

  /** What a recording turn's neighbour loop gives `SweepVisit`. */
  lemma {:induction false} VisitFacts<S>(u: Setup<S>, k: Walk<S>, current: Pos, d: (seq<Call<S>>, S, bool, bool), dt: seq<Call<S>>, r: (seq<Call<S>>, seq<Pos>, bool))
    requires k.qi < |k.queue| && current == k.queue[k.qi]
    requires d == Dequeued(u, k, current) && d.3 && current !in k.order
    requires d.0 == k.trace + dt && (Calm(d.0) ==> !d.2)
    requires r == Expand(u.test, current, u.offsets, 0, d.1, d.2)
    ensures !r.2 ==> forall i :: 0 <= i < |r.0| && r.0[i].verdict.pass ==> r.0[i].pos in r.1
    ensures !r.2 ==> forall e :: 0 <= e < |u.offsets| ==> Covered(r.0, r.1, Add(current, u.offsets[e]))
    ensures Calm(k.trace + dt + r.0) ==> !r.2
    ensures Step(u, k) == Walk(k.order + [current], k.trace + dt + r.0, Step(u, k).s, k.queue + r.1, k.qi + 1, r.2)
  {
    ExpandPushes(u.test, current, u.offsets, 0, d.1, d.2);
    if Calm(d.0 + r.0) {
      CalmSplit(d.0, r.0);
    }
  }

  lemma StepSweep<S>(u: Setup<S>, k: Walk<S>)
    requires Sweep(u, k) && k.qi < |k.queue|
    ensures Sweep(u, Step(u, k))
  {
    var current := k.queue[k.qi];
    var d := Dequeued(u, k, current);
    var dt := d.0[|k.trace|..];
    DequeueSweep(u, k, current);
    assert Calm(d.0) ==> !d.2 by {
      if Calm(d.0) {
        CalmSplit(k.trace, dt);
      }
    }
    if d.3 && current !in k.order {
      var r := Expand(u.test, current, u.offsets, 0, d.1, d.2);
      VisitFacts(u, k, current, d, dt, r);
      SweepVisit(u, k, current, dt, r, Step(u, k));
    } else {
      SweepSkip(u, k, current, dt, Step(u, k));
    }
  }

  /** The loop's variables after `n` turns keep `Sweep`. */
  ghost predicate SweepAt<S>(u: Setup<S>, n: nat)
  {
    Sweep(u, Run(u, Initial(u), n))
  }

  lemma SweepNext<S>(u: Setup<S>, n: nat)
    requires SweepAt(u, n)
    ensures SweepAt(u, n + 1)
  {
    var k := Run(u, Initial(u), n);
    if Halted(k) {
      RunHalts(u, Initial(u), n);
    } else {
      RunAdvance(u, n, k);
      StepSweep(u, k);
    }
  }

  lemma {:induction false} RunSweep<S>(u: Setup<S>, n: nat)
    ensures SweepAt(u, n)
  {
    if n == 0 {
      SweepInitial(u);
    } else {
      RunSweep(u, n - 1);
      SweepNext(u, n - 1);
    }
  }

  /**
   * A traversal none of whose calls exits, whatever its test, sweeps its
   * neighbourhood: every neighbour of a recorded point was asked about,
   * and every point that passed at some call was recorded, unless (when
   * testing on dequeue) it failed at some call.
   */
  lemma CalmOutcome<S>(u: Setup<S>, order: seq<Pos>, trace: seq<Call<S>>, s: S)
    requires Outcome(u, order, trace, s) && Calm(trace)
    ensures forall j, d :: 0 <= j < |order| && 0 <= d < |u.offsets| ==> Asked(trace, Add(order[j], u.offsets[d]))
    ensures forall c :: 0 <= c < |trace| && trace[c].verdict.pass ==>
      trace[c].pos in order || (u.mode == TestOnDequeue && FailedIn(trace, trace[c].pos))
  {
    var n: nat :| Finished(u, n, order, trace, s);
    var k := Run(u, Initial(u), n);
    RunSweep(u, n);
    forall c | 0 <= c < |trace| && trace[c].verdict.pass
      ensures trace[c].pos in order || (u.mode == TestOnDequeue && FailedIn(trace, trace[c].pos))
    {
      var i :| 0 <= i < |k.queue| && k.queue[i] == trace[c].pos;
    }
  }
}

=== FILE: wrappers.dfy ===
/**
 * Option and Result, the two wrappers the rest of the model uses for
 * JavaScript's `undefined`/`null` results and for thrown errors.
 */
module Wrappers {

  datatype Option<T> = None | Some(value: T)
  {
    predicate IsSome() { Some? }

    function GetOr(default: T): (r: T)
      ensures Some? ==> r == value
      ensures None? ==> r == default
    {
      match this
      case Some(v) => v
      case None => default
    }
  }

  /** A computation that either returns a value or throws with a message. */
  datatype Result<T> = Ok(value: T) | Err(message: string)
}
